=== FILE: README.md ===
# ai-software-engineer-team, modelled in Dafny

This project models the core of ai-software-engineer-team. The system has three parts:
- a FastAPI backend that keeps projects, repositories, issues, prompts, credentials and worker nodes for each user;
- a node service that runs on each worker machine and executes the AI coding workflow for an issue;
- a React web client.

The model covers the backend's owner-scoped CRUD routes and the project and repository linking. It covers the issue lifecycle: creation, update, start, the next-pending query and commit-push. It also covers node selection, the scheduler passes, the workflow run against a node, the GitHub issue sync and the offline-node sweep. Further parts are:
- the dashboard statistics and its duration display;
- database seeding, the single-row node registration key and the issue-status migration;
- the node service's command execution and task steps;
- the web client's helpers: the credential labels and masking, the current-project context and its selector, the start button, and the issue and project dialogs.

Every operation is a pure function over immutable values.
- A database table is a sequence of rows in store order.
- An id is a natural number and a time is an integer number of seconds.
- Fresh ids, random tokens and the current time are parameters.
- A call from the backend to a node is a function parameter that maps a request to a reply.
- A failed request is an `Err` carrying the HTTP status the route raises.

The modules follow the source:
- `Models`, `Crud` and `OwnedStore`: the SQLModel tables and their shared owner checks.
- One module per route file: `Projects`, `RepositoryRoutes`, `PromptRoutes`, `CredentialRoutes`, `NodeRoutes`, `IssueRoutes`, `Dashboard`.
- One module per service: `NodeSelection`, `NodeMonitor`, `Scheduler`, `Workflow`, `GitHubSync`.
- `Seeding`, `RegistrationKey` and `StatusMigration`: database start-up.
- `NodeService`: the node's worker.
- One module per client helper: `CredentialDisplay`, `ProjectSelection`, `StartButton`, `IssueForm`, `ProjectForm`.
- Helpers: `Common`, `Text`, `Seqs` and `Shell`, a small model of POSIX word splitting.

The model follows the code wherever the code and the system's written design differ:
- Nodes are only `online` or `offline`; there are no idle or running states.
- Starting an issue does not atomically claim it. `process_issue` does not check that the issue is still pending, so there is no "already claimed" error.
- The workflow marks an issue `completed` or `failed`. The status migration renames those to `pending_merge` and `terminated`, but the workflow code still writes the old names.
- Issue dependencies are not checked anywhere: there is no dependency graph and no cycle check.
- The offline sweep marks nodes offline but leaves their issues as they are.
- Credentials, repositories, prompts and projects answer a non-owner with 400. Issues and nodes answer with 403.
- Commit-push does not require the issue to be processing.
- The credential routes store a category, a PAT, a disabled flag and node links, as the credential migration `g1234567890e` and the routes declare. The model follows that shape, and keeps the title's 1 to 255 character bound from `CredentialBase`.
- `crud.ensure_register_key` uses `RegisterKey` and `REGISTER_KEY`; `backend_pre_start` uses `NodeRegistrationKey` and `NODE_REGISTRATION_KEY`. No `RegisterKey` model class is declared, so the model reads both as the one single-row node registration key table with one configured key (`RegistrationKey`).

Some behaviours of the code look odd but are modelled as they are:
- A negative elapsed time prints modulo one hour (`Dashboard.FormatDuration`).
- Running tasks with no `started_at` sort first and take slots of the query's limit.
- Blanking every repository row in the project edit dialog keeps the old links (`ProjectForm.BlankRowsKeepLinks`).
- The issue edit dialog cannot clear a description (`IssueForm.EditCannotClearDescription`).
- An unknown issue status shows an enabled start button that does nothing (`StartButton.UnknownStatusIsInert`).

The defects listed under "## Findings" are modelled twice. The operations the routes and the scheduler call use the code as written. A separate corrected member states the intended behaviour and is not used by the rest of the model. For example, `Scheduler.AutoProcessPass` distributes with `NodeSelection.DistributeIssues` as written, and `IssueRoutes.SyncGitHubRoute` imports with `GitHubSync.SyncIssuesToDb` as written.

## Model

| member | source | states |
|---|---|---|
| Models.DefaultIssueFields | backend/app/models/issue.py:9-15 | an issue created with only a title is pending, has priority 0, no assigned node and no description, repository URL or issue number; a title of 1 to 255 characters meets every IssueBase bound |
| Models.NewIssue | backend/app/crud.py:122-134 | the new row carries the request's fields, its id and owner, created_at and updated_at both equal to the creation time, and empty started_at, completed_at, error_message and result_branch; valid fields give a valid row |
| Models.ApplyIssueUpdate | backend/app/crud.py:139-146 | an update keeps the id, the owner, created_at and the four workflow columns, sets updated_at to the update time, and keeps the row valid when the request is |
| Models.ApplyIssueUpdateFields | backend/app/crud.py:140-142 | each field the request leaves unset keeps its value and each field it sets takes the new value |
| Models.ApplyIssueUpdateIdempotent | backend/app/crud.py:139-146 | an empty request only refreshes updated_at, and applying the same request twice equals applying it once |
| Models.DefaultNodeFields | backend/app/models/node.py:13-20 | a node created with only name and ip is "offline", public and enabled, with no description or tags; name and ip within 255 and 64 characters satisfy NodeBase |
| Models.NewNode | backend/app/models/node.py:35-46 | a new node row has the request's fields, has never sent a heartbeat, is not deleted, and was created and updated at the same time |
| Models.ApplyNodeUpdate | backend/app/api/routes/nodes.py:53-55 | the node update route changes only NodeUpdate's fields: id, owner, the public and disabled flags, the heartbeat and every timestamp (updated_at included) stay, and an empty request changes nothing |
| Models.FreshIssueId | backend/app/models/issue.py:33 | a new issue id differs from the id of every existing row |
| Models.FreshNodeId | backend/app/models/node.py:36 | a new node id differs from the id of every existing row |
| Models.FindIssue | backend/app/crud.py:136-137 | a lookup by id returns a row of the table with that id, or nothing exactly when no row has it |
| Models.FindNode | backend/app/crud.py:103-104 | a lookup by id returns a row of the table with that id, or nothing exactly when no row has it |
| Models.ReplaceIssue | backend/app/crud.py:142-145 | saving a changed issue replaces the rows with its id and leaves every other row where it was |
| Models.ReplaceNode | backend/app/crud.py:109-112 | saving a changed node replaces the rows with its id and leaves every other row where it was |
| Models.RemoveIssue | backend/app/crud.py:148-152 | deleting an issue leaves exactly the rows with another id |
| Models.RemoveNode | backend/app/crud.py:115-119 | deleting a node leaves exactly the rows with another id |
| Models.FindAfterReplaceIssue | backend/app/crud.py:139-146 | reading an issue back after saving it finds the saved row |
| OwnedStore.Find | backend/app/api/routes/repositories.py:49 | a primary-key lookup returns a row with that key, and returns nothing exactly when no row has it |
| OwnedStore.FindUnique | backend/app/api/routes/repositories.py:49 | with unique keys, the lookup finds the very row that carries the key |
| OwnedStore.Visible | backend/app/api/routes/repositories.py:21-39 | a superuser sees every row; anyone else sees exactly the rows they own |
| OwnedStore.List | backend/app/api/routes/repositories.py:13-41 | a negative offset or limit is a server error; otherwise the count is the number of visible rows and the page is the visible rows from the offset on, at most limit of them, in table order |
| OwnedStore.ListWindowsJoin | backend/app/api/routes/repositories.py:24-25 | the page at skip of size a, followed by the page at skip+a of size b, is the page at skip of size a+b |
| OwnedStore.ListOwnRows | backend/app/api/routes/repositories.py:26-39 | a user who is not a superuser lists exactly the rows they own |
| OwnedStore.Guard | backend/app/api/routes/repositories.py:49-53 | a missing row gives 404 "<entity> not found"; a row owned by someone else gives 400 "Not enough permissions" to anyone but a superuser; otherwise the row itself |
| OwnedStore.ForeignRowRefused | backend/app/api/routes/repositories.py:105-106 | a user who is not a superuser can neither read nor delete another user's row |
| OwnedStore.FreshId | backend/app/api/routes/repositories.py:64 | a new row's key differs from every existing key |
| OwnedStore.Create | backend/app/api/routes/repositories.py:57-68 | the new row is owned by the caller, carries the request's fields, is appended after the existing rows, and is found under a key that was free before |
| OwnedStore.CreateThenRead | backend/app/api/routes/repositories.py:44-68 | the creator can read the row they just created |
| OwnedStore.FindAppendFresh | backend/app/api/routes/repositories.py:64-66 | appending a row under a free key makes that key find it and leaves every other lookup unchanged |
| OwnedStore.Replace | backend/app/api/routes/repositories.py:88-91 | saving a row replaces the row with its key and keeps every other row in place |
| OwnedStore.FindReplaced | backend/app/api/routes/repositories.py:88-91 | after saving, the key finds the saved row |
| OwnedStore.FindReplaceOther | backend/app/api/routes/repositories.py:88-91 | saving one row does not change the lookup of any other key |
| OwnedStore.Update | backend/app/api/routes/repositories.py:71-92 | the update fails exactly as the guard does; otherwise only the row's fields change, as the request says, the row is found under its key and every other key reads as before |
| OwnedStore.Remove | backend/app/api/routes/repositories.py:107-108 | after removal the key finds nothing and every other key reads as before |
| OwnedStore.RemoveOne | backend/app/api/routes/repositories.py:107-108 | with unique keys, deleting an existing row removes exactly one row |
| OwnedStore.RemoveNone | backend/app/api/routes/repositories.py:107-108 | removing a key no row has leaves the table as it was |
| OwnedStore.Delete | backend/app/api/routes/repositories.py:95-109 | the delete fails exactly as the guard does; otherwise the row is gone, the other rows stay and the message is "<entity> deleted successfully" |
| OwnedStore.DeleteThenRead | backend/app/api/routes/repositories.py:102-104 | after a delete, anyone reading the row gets 404, not 400 |
| Crud.UserByEmail | backend/app/crud.py:57-60 | the lookup returns a user with exactly that e-mail, or nothing exactly when no user has it |
| Crud.UserByEmailUnique | backend/app/crud.py:57-60 | with unique e-mails, each user's e-mail finds that user |
| Crud.FreshUserId | backend/app/crud.py:28-35 | a new user's key differs from every existing key |
| Crud.CreateUser | backend/app/crud.py:26-39 | creation fails with a 500 exactly when some user already has the e-mail, since the column is unique (backend/app/models/user.py:24); otherwise the new user is appended with the given e-mail and superuser flag, the password stored only as its hash, under a key no user had, and e-mails stay unique |
| Crud.CreateUserThenLogin | backend/app/crud.py:26-69 | creation succeeds exactly for an unused e-mail, and the created user is the one that e-mail finds and can log in with that e-mail and password |
| Crud.Authenticate | backend/app/crud.py:63-69 | a login succeeds only for a user with that e-mail whose stored hash verifies the password; an unknown e-mail never logs in |
| Crud.AuthenticateOwnEmail | backend/app/crud.py:63-69 | with unique e-mails, a user logs in with their own e-mail exactly when their hash verifies the password |
| Crud.UpdateNodeRow | backend/app/crud.py:106-113 | the helper applies the fields the request set, refreshes updated_at, and keeps id, owner, created_at, the flags and the heartbeat |
| Crud.UpdateNodeStatusOnly | backend/tests/crud/test_node.py:71-81 | changing only the status sets it and keeps name, ip, description and tags |
| Crud.DeleteNodeRow | backend/app/crud.py:115-119 | the node is gone afterwards, every other node stays, and an unknown id changes nothing |
| Crud.DeleteNodeThenGet | backend/app/crud.py:103-119 | get_node after delete_node finds nothing, and a second delete changes nothing |
| Crud.CreateIssueRow | backend/app/crud.py:122-134 | the new issue is appended with the request's fields, the given owner, one timestamp for creation and update, no start or completion time, under an id that was free |
| Crud.DeleteIssueRow | backend/app/crud.py:148-152 | the issue is gone afterwards, every other issue stays, and an unknown id changes nothing |
| Crud.CreateThenDeleteIssue | backend/app/crud.py:122-152 | a created issue is found by its id, and deleting it gives back the table as it was |
| Seqs.Page | backend/app/api/routes/repositories.py:24 | OFFSET and LIMIT give at most limit rows: nothing past the end, otherwise the rows from skip on, consecutively, as many as limit allows |
| Seqs.PageConsecutive | backend/app/api/routes/repositories.py:24 | two pages read one after the other are the single page spanning both: no row is skipped or repeated |
| RegistrationKey.InitialKey | backend/app/crud.py:81 | a fresh key row takes the configured key when one is set and non-empty, and the random token otherwise |
| RegistrationKey.EnsureKey | backend/app/crud.py:72-92 | a failing lookup writes nothing and yields nothing; a missing row 1 is created with the initial key; an existing row is returned unchanged whatever the configuration says; the table stays single-row |
| RegistrationKey.EnsureKeyIdempotent | backend/app/backend_pre_start.py:35-54 | once an ensure has reached the table, a second one changes nothing and returns the same row, whatever key is configured and whatever token it draws |
| RegistrationKey.Rotate | backend/app/models/registration_key.py:20-23 | rotation replaces the key and refreshes updated_at while the id and created_at stay |
| RegistrationKey.RotateThenRead | backend/app/models/registration_key.py:15-23 | after rotation the table is still single-row, the next ensure returns the rotated row, and the old key is gone whenever the token differs from it |
| StatusMigration.SetStatusWhere | backend/app/alembic/versions/002_add_task_table_and_update_issue_status.py:50 | the UPDATE ... WHERE statement renames exactly the rows with the old status and leaves every other row unchanged |
| StatusMigration.Upgrade | backend/app/alembic/versions/002_add_task_table_and_update_issue_status.py:49-53 | the upgrade keeps the number of issue rows |
| StatusMigration.UpgradeRows | backend/app/alembic/versions/002_add_task_table_and_update_issue_status.py:42-53 | the upgrade maps completed to pending_merge and failed to terminated, touches no other column, and leaves no completed or failed issue |
| StatusMigration.Downgrade | backend/app/alembic/versions/002_add_task_table_and_update_issue_status.py:56-59 | the downgrade keeps the number of issue rows |
| StatusMigration.DowngradeRows | backend/app/alembic/versions/002_add_task_table_and_update_issue_status.py:56-59 | the downgrade maps pending_merge back to completed and terminated back to failed, touches no other column, and leaves no pending_merge or terminated issue |
| StatusMigration.OtherStatusesUntouched | backend/app/alembic/versions/002_add_task_table_and_update_issue_status.py:44-45 | pending, processing and every other status outside the four renamed ones survive both directions unchanged |
| StatusMigration.DowngradeAfterUpgrade | backend/app/alembic/versions/002_add_task_table_and_update_issue_status.py:49-59 | downgrade undoes upgrade on every row not already in the new vocabulary, and a row already pending_merge comes back as completed |
| StatusMigration.UpgradeAfterDowngrade | backend/app/alembic/versions/002_add_task_table_and_update_issue_status.py:49-59 | upgrade undoes downgrade on every row not in the old vocabulary |
| Seeding.EnsureDemoRepo | backend/app/core/db.py:87-116 | one entry of the loop reuses the first repository with the URL or appends a new one owned by the seeding user, and links it to the project unless already linked; existing rows and links are kept, links stay distinct, and nothing changes exactly when the URL was already linked |
| Seeding.EnsureDemoRepos | backend/app/core/db.py:82-119 | the loop only appends repositories and links, keeps links distinct, and reports no change only when it changed nothing |
| Seeding.LinkedGrows | backend/app/core/db.py:87-116 | later repositories and links never undo an earlier link |
| Seeding.EnsureDemoReposLinksAll | backend/app/core/db.py:87-116 | after the loop every entry's URL resolves to a repository the project links |
| Seeding.EnsureDemoReposNoop | backend/app/core/db.py:118-119 | when every entry is already linked, the loop adds nothing and does not commit |
| Seeding.EnsureDemoReposIdempotent | backend/app/core/db.py:82-119 | a second pass over the result finds everything in place and does not commit |
| Seeding.EnsureDemoReposReuses | backend/app/core/db.py:88-97 | a repository already registered under an entry's URL is reused, whoever owns it, so no repository is added |
| Seeding.FindDemoProject | backend/app/core/db.py:62-67 | the lookup returns a project of this owner named "AI Software Engineer", or nothing exactly when the owner has none |
| Seeding.DemoProjectOf | backend/app/core/db.py:62-77 | the owner's existing demo project is kept as it is; otherwise one with the demo name and description and no links is appended under a fresh key |
| Seeding.EnsureDemoProject | backend/app/core/db.py:58-79 | with no owner nothing happens; otherwise the owner ends with a demo project and repositories are only appended |
| Seeding.DemoProjectLinksAll | backend/app/core/db.py:58-119 | afterwards the owner's demo project links a repository for each of the two canonical URLs |
| Seeding.EnsureDemoProjectIdempotent | backend/app/core/db.py:58-119 | running ensure_demo_project again, at any later time, changes nothing |
| Seeding.Superuser | backend/app/core/db.py:41-50 | the user with the configured e-mail is kept; otherwise a superuser with that e-mail and the hashed configured password is appended; either way the e-mail finds the returned user |
| Seeding.InitDb | backend/app/core/db.py:31-55 | init_db leaves a user with the first-superuser e-mail, keeps an existing one, and ensures the key row; it raises exactly when the key lookup fails (backend/app/crud.py:74-78), and then stores no demo project and no repository, since the failed statement aborted the session's transaction; otherwise it gives that user a demo project and only appends repositories |
| Seeding.InitDbIdempotent | backend/app/core/db.py:31-119 | a second init_db, with any token and at any time, leaves the database as the first one left it, once the first reached the key table; it raises exactly when its own key lookup fails |
| Seeding.InitDbLinksDemoRepositories | backend/app/core/db.py:12-23 | after an init_db that got past the key table, the superuser's demo project links both canonical repository URLs |
| Seeding.InitDbAbortsOnKeyLookupFailure | backend/app/core/db.py:44-67 | when the key lookup fails, init_db raises with only the superuser stored: keys, projects and repositories are as before |
| NodeRoutes.ReadNodes | backend/app/api/routes/nodes.py:12-22 | anyone but a superuser gets an empty list with count 0; a superuser gets a server error for a negative window and otherwise the nodes from the offset on, at most limit, with the total count |
| NodeRoutes.ReadNodesWindowsJoin | backend/app/api/routes/nodes.py:18-22 | for a superuser, consecutive windows of the node list join without gap or overlap |
| NodeRoutes.CreateNodeAsWritten | backend/app/api/routes/nodes.py:24-33 | as written, create_node never stores a node: a body outside NodeBase is 422, a caller who is not a superuser gets 403, and a superuser's insert fails |
| NodeRoutes.CreateNodeAsWrittenRejectsMinimalRequest | backend/tests/api/routes/test_nodes.py:144-158 | the minimal request of the node tests ("minimal-node", "10.0.0.5") fails with a server error even for a superuser |
| NodeRoutes.CreateNode | backend/app/api/routes/nodes.py:24-33 | a node is created exactly when the body is valid and the caller is a superuser; it is appended under a fresh id, owned by the caller, with the request's fields and no heartbeat |
| NodeRoutes.MinimalNodeIsOffline | backend/tests/api/routes/test_nodes.py:144-158 | a node created from name and ip alone is "offline" and reads back as created |
| NodeRoutes.ReadNode | backend/app/api/routes/nodes.py:35-43 | a missing node is 404 before anything else; a present node is 403 for anyone but a superuser; otherwise the node itself |
| NodeRoutes.UpdateNode | backend/app/api/routes/nodes.py:45-59 | a body outside NodeUpdate is 422; otherwise the update succeeds exactly when the read would, sets the supplied fields on that node alone and leaves every other node in place |
| NodeRoutes.StatusOnlyUpdate | backend/tests/api/routes/test_nodes.py:161-178 | a superuser who sets only the status gets that status with name and ip unchanged |
| NodeRoutes.DeleteNode | backend/app/api/routes/nodes.py:61-71 | the delete fails exactly as the read would; otherwise exactly the rows with that id go and the message is "Node deleted successfully" |
| NodeRoutes.DeleteTwice | backend/tests/api/routes/test_nodes.py:82-111 | deleting the same node a second time is a 404 |
| NodeMonitor.StaleCount | backend/app/services/node_monitor.py:26-30 | no more nodes are stale than there are nodes |
| NodeMonitor.MarkOfflineNodes | backend/app/services/node_monitor.py:19-39 | every node still online whose heartbeat is missing or older than the threshold becomes offline, every other node is unchanged, the count returned is the number of such nodes, and no stale node remains |
| NodeMonitor.NothingStaleCountsZero | backend/app/services/node_monitor.py:32-39 | when no node is stale the sweep counts zero, so a second sweep at the same time changes nothing |
| CredentialRoutes.MissingNodeIds | backend/app/api/routes/credentials.py:27-30 | the ids reported missing are exactly the requested ids that name no node, ascending and each once |
| CredentialRoutes.ResolveNodes | backend/app/api/routes/credentials.py:22-32 | resolution fails with 404 "Nodes not found: " and the comma-separated missing ids exactly when some requested id names no node; otherwise it returns exactly the nodes whose ids were requested; no ids resolve to no nodes |
| CredentialRoutes.ResolvedLinksAreExact | backend/app/api/routes/credentials.py:22-32 | after a successful resolution every linked id names an existing node and every requested id is linked |
| CredentialRoutes.CreateCredential | backend/app/api/routes/credentials.py:89-102 | a title outside 1 to 255 characters (backend/app/models/credential.py:9) is refused with 422; otherwise creation fails exactly as node resolution does; otherwise the caller owns a new row with the request's fields, linked to the resolved nodes, and can read it back |
| CredentialRoutes.UpdateCredential | backend/app/api/routes/credentials.py:105-132 | a supplied title outside 1 to 255 characters (backend/app/models/credential.py:21) is refused with 422; then the update fails like the ownership guard, then 404 for an unknown node; otherwise the supplied fields change, the links change only when node_ids was given, and every other row reads as before |
| CredentialRoutes.EmptyCredentialUpdate | backend/app/api/routes/credentials.py:125-128 | a request with no fields and no node_ids leaves the credential as it was |
| CredentialRoutes.UpdateWithNoNodesUnlinks | backend/app/api/routes/credentials.py:127-128 | an update with an empty node_ids list succeeds exactly when its title is valid, and then removes every link |
| CredentialRoutes.CredentialUpdateKeepsBounds | backend/app/models/credential.py:8-25 | an accepted update of a credential within its bounds leaves it within them |
| PromptRoutes.PromptUpdateFields | backend/app/models/prompt.py:10-23 | fields the request leaves out keep their values, supplied ones take the new value, and a valid update of a valid prompt stays within PromptBase's bounds |
| PromptRoutes.CreatePrompt | backend/app/api/routes/prompts.py:58-68 | a body outside PromptBase is 422; otherwise the caller owns a new prompt with the request's fields, appended after the others, which they can read back |
| PromptRoutes.UpdatePrompt | backend/app/api/routes/prompts.py:72-92 | a body outside PromptUpdate is 422; otherwise the update fails exactly as the guard does, or changes only the supplied fields of that one prompt |
| RepositoryRoutes.RepositoryUpdateFields | backend/app/api/routes/repositories.py:87-88 | fields the request leaves out keep their values, supplied ones take the new value, and an empty request changes nothing |
| RepositoryRoutes.CreateRepository | backend/app/api/routes/repositories.py:57-68 | a body outside RepositoryBase is 422; otherwise the caller owns a new repository with the request's fields, appended after the others, which they can read back |
| RepositoryRoutes.UpdateRepository | backend/app/api/routes/repositories.py:71-92 | a body outside RepositoryUpdate is 422; otherwise the update fails exactly as the guard does, or changes only the supplied fields of that one repository |
| RepositoryRoutes.UpdateRepositoryKeepsBounds | backend/app/models/repository.py:14-27 | an accepted update of a valid repository, with non-empty name and url when it sets them, leaves it within RepositoryBase's bounds |
| Projects.NormalizeUrl | backend/app/api/routes/projects.py:202-206 | a URL of nothing but whitespace normalises to "", and a normalised URL never ends in "/" |
| Projects.NormalizeUrlShape | backend/app/api/routes/projects.py:202-206 | the normalised URL is the stripped input less a run of trailing "/" characters |
| Projects.NormalizeUrlKeepsCleanUrl | backend/app/api/routes/projects.py:202-206 | a URL without surrounding whitespace is given back as it is, whatever number of trailing "/" it carried |
| Projects.NormalizeEach | backend/app/api/routes/projects.py:176-177 | each raw URL is normalised in place, none lost or added |
| Projects.NormalizeUrls | backend/app/api/routes/projects.py:173-181 | the URLs a request links are exactly the non-empty normalised inputs, each once |
| Projects.LastSegment | backend/app/api/routes/projects.py:210 | the last piece of a split on "/" contains no "/" |
| Projects.DeriveName | backend/app/api/routes/projects.py:209-214 | a derived repository name is never empty and never contains "/" |
| Projects.DeriveNameOfUrl | backend/app/api/routes/projects.py:209-214 | the name of ".../name.git/" (any number of trailing slashes) is name, and the name of ".../name/" is name when name does not end in ".git" |
| Projects.FindByUrl | backend/app/api/routes/projects.py:184-186 | the repository found for a URL has exactly that URL, whoever owns it |
| Projects.FindByUrlNone | backend/app/api/routes/projects.py:184-187 | no repository is found for a URL exactly when no repository has it |
| Projects.AddLink | backend/app/api/routes/projects.py:195-197 | adding a repository to the links keeps them distinct and in order, adds only that id, and changes nothing when it is already linked |
| Projects.LinkOne | backend/app/api/routes/projects.py:183-195 | one URL resolves to the first repository with that URL when there is one (the table unchanged), or else to a new repository named from the URL and owned by the caller, appended to the table |
| Projects.LinkUrls | backend/app/api/routes/projects.py:183-197 | the URL loop only appends repositories and links, and keeps the links distinct |
| Projects.LinkUrlsResolvesEveryUrl | backend/app/api/routes/projects.py:183-197 | after the loop every URL resolves, in the new table, to a linked repository |
| Projects.LinkUrlsAddsOnlyUrlRepos | backend/app/api/routes/projects.py:183-197 | every link the loop adds is the repository one of the URLs resolves to |
| Projects.LinkUrlsLinksExist | backend/app/api/routes/projects.py:183-197 | links to existing repositories stay links to existing repositories |
| Projects.LinkUrlsReuses | backend/app/api/routes/projects.py:184-187 | URLs that all have a repository already create none |
| Projects.MissingRepoIds | backend/app/api/routes/projects.py:162-163 | the ids reported missing are exactly the requested ids that name no repository, each once |
| Projects.IdLinks | backend/app/api/routes/projects.py:153-171 | the ids contribute exactly the requested ids of existing repositories, each once |
| Projects.LinkAll | backend/app/api/routes/projects.py:151-197 | the linking only appends repositories, never touches the table when no URLs were given, and gives distinct links |
| Projects.SyncLinks | backend/app/api/routes/projects.py:138-199 | nothing changes exactly when neither ids nor URLs were given; the request fails with 400 "Repositories not found: ..." exactly when some requested id names no repository; otherwise the links are the id links followed by each URL's repository |
| Projects.LinkAllKeepsIds | backend/app/api/routes/projects.py:170-171 | every requested id of an existing repository is linked |
| Projects.LinkAllResolvesUrls | backend/app/api/routes/projects.py:173-195 | every non-blank URL of the request resolves to a linked repository of the new table |
| Projects.LinkAllLinksExist | backend/app/api/routes/projects.py:151-197 | every link names a repository of the new table |
| Projects.LinkAllOnlyRequested | backend/app/api/routes/projects.py:151-197 | every link is a requested id or the repository one of the requested URLs resolves to |
| Projects.ExistingUrlsCreateNoRepository | backend/app/api/routes/projects.py:184-194 | URLs that all name existing repositories add no repository |
| Projects.Listable | backend/app/api/routes/projects.py:26-37 | the rows listed and counted are exactly those the user may see that match the search |
| Projects.ReadProjects | backend/app/api/routes/projects.py:15-49 | a negative window is a server error; otherwise the count is the number of listable projects and the page is the listable projects from the offset on, at most limit, in table order |
| Projects.BlankSearchListsAll | backend/app/api/routes/projects.py:30-31 | a search of whitespace only (it strips to "%%") lists the same as no search |
| Projects.CreateProject | backend/app/api/routes/projects.py:65-86 | a body outside ProjectBase is 422; otherwise creation fails exactly when a requested repository id is unknown; else the caller owns a new project with the request's fields and the synchronised links, which they can read back |
| Projects.CreateProjectLinksRequest | backend/app/api/routes/projects.py:65-86 | a created project links every requested id and the repository of every non-blank URL, and every link names an existing repository |
| Projects.UpdateProject | backend/app/api/routes/projects.py:89-119 | a body outside ProjectUpdate is 422, then the guard's 404 or 400, then a failing synchronisation; otherwise the supplied fields change, the timestamps stay, the links change only when ids or URLs were given, and every other project reads as before |
| Projects.UpdateWithUrlsReplacesLinks | backend/app/api/routes/projects.py:108-114 | an update with URLs and no ids drops every earlier link: each remaining link is the repository of one of the new URLs |
| Projects.UpdateWithoutLinksKeepsLinks | backend/app/api/routes/projects.py:146-149 | an update without ids or URLs keeps the project's links and the repository table |
| Projects.DeleteProject | backend/app/api/routes/projects.py:122-135 | the delete fails exactly as the guard does; otherwise the project reads as missing afterwards and every other project reads as before |
| Projects.IdLinksExist | backend/app/api/routes/projects.py:153-171 | every link made from a requested id names an existing repository |
| IssueRoutes.Visible | backend/app/api/routes/issues.py:23-42 | a superuser sees every issue and anyone else exactly their own |
| IssueRoutes.ListOrderIsPreorder | backend/app/api/routes/issues.py:26 | ordering by priority descending, then created_at descending, is total and transitive, so the listing order is well defined |
| IssueRoutes.ReadIssues | backend/app/api/routes/issues.py:18-44 | a negative window is a server error; otherwise the count is the number of visible issues and the page holds min(limit, count - skip) visible issues, highest priority and then newest first |
| IssueRoutes.ReadIssuesWindowsJoin | backend/app/api/routes/issues.py:26-42 | every page is a window of one fixed ordering: the page of a rows at skip followed by the page of b rows at skip + a is the page of a + b rows at skip |
| IssueRoutes.ReadIssuesFirstPageIsComplete | backend/app/api/routes/issues.py:18-44 | a first page at least as long as the count holds every visible issue exactly once |
| IssueRoutes.ReadIssuesCountsOwnIssues | backend/app/api/routes/issues.py:29-34 | for a user who is not a superuser the count is the number of issues they own |
| IssueRoutes.Guard | backend/app/api/routes/issues.py:50-54 | a missing issue is 404 "Issue not found"; an issue owned by someone else is 403 for anyone but a superuser; otherwise the issue itself |
| IssueRoutes.ReadIssue | backend/app/api/routes/issues.py:47-55 | a read returns an issue of the table with that id that the user may see; an existing issue is never reported missing |
| IssueRoutes.CreateIssue | backend/app/api/routes/issues.py:58-67 | a body outside IssueBase is 422; otherwise a valid new issue owned by the caller, with the request's fields and one timestamp, is appended under a fresh id |
| IssueRoutes.CreatedIssueReadable | backend/app/api/routes/issues.py:47-67 | the creator can read back the issue they created |
| IssueRoutes.UpdateIssue | backend/app/api/routes/issues.py:70-91 | a body outside IssueUpdate is 422; otherwise the update succeeds exactly when the guard does, and only that issue changes, taking the supplied fields and a fresh updated_at |
| IssueRoutes.UpdateThenRead | backend/app/api/routes/issues.py:70-91 | after an update, reading the issue returns the updated row |
| IssueRoutes.DeleteIssue | backend/app/api/routes/issues.py:94-106 | the delete fails exactly as the guard does; otherwise exactly the rows with that id go and the message is "Issue deleted successfully" |
| IssueRoutes.PendingFor | backend/app/api/routes/issues.py:112-125 | the candidates are exactly the pending issues the user may see |
| IssueRoutes.NextPendingIssue | backend/app/api/routes/issues.py:109-131 | the answer is 404 "No pending issues found" exactly when the user has no visible pending issue; otherwise a visible pending issue that comes first by priority descending and then created_at ascending |
| IssueRoutes.NextPendingIsFirstDispatched | backend/app/api/routes/issues.py:113-117 | for a superuser, the next pending issue ranks with the first issue the scheduler dispatches |
| IssueRoutes.StartProcessing | backend/app/api/routes/issues.py:134-158 | only a superuser may start processing (403 otherwise), the issue must exist (404 otherwise), and then the workflow is scheduled for that issue and node and "Issue processing started" is answered |
| IssueRoutes.CommitPushRoute | backend/app/api/routes/issues.py:161-176 | only a superuser may commit and push; the commands are wrapped as written; a workflow failure becomes a 500 carrying its message; success returns the three command results |
| IssueRoutes.SyncGitHubRoute | backend/app/api/routes/issues.py:192-213 | only a superuser may import (403 otherwise); an unreachable GitHub becomes a 500 with its message; a listing that meets an open row raises the content error as a 500, exactly when it is blocked; a success reports the number listed as fetched, created plus skipped equal to it and nothing updated, and the table grows by the created issues, every existing row keeping its id and owner and every added one owned by the caller |
| IssueRoutes.SyncBatchRoute | backend/app/api/routes/issues.py:216-235 | only a superuser may run a batch import (403, table unchanged); the request fails with a 500 exactly when some entry lacks "owner" or "name", the detail naming such a key; otherwise one entry per requested repository with balanced totals and nothing updated; what was committed keeps every existing row's id and owner and adds only rows owned by the caller |
| NodeSelection.Workload | backend/app/services/node_selection.py:24-32 | a node's workload, the issues assigned to it that are processing, never exceeds the number of issues |
| NodeSelection.WorkloadPointwise | backend/app/services/node_selection.py:27-30 | two tables that agree row by row on which issues load a node give it the same workload |
| NodeSelection.TagList | backend/app/services/node_selection.py:74 | a node's tags are the comma-separated pieces of its tags string, each stripped, one per piece |
| NodeSelection.Candidates | backend/app/services/node_selection.py:55-79 | the candidates are the online, healthy nodes, narrowed to those carrying a required tag when at least one does; there are none exactly when no node is online and healthy |
| NodeSelection.FilteredNodes | backend/app/services/node_selection.py:61-79 | the health filter keeps exactly the online, healthy nodes and the tag filter exactly those that also carry a required tag; each is empty exactly when no node qualifies |
| NodeSelection.LeastLoadedIndex | backend/app/services/node_selection.py:82-88 | the chosen candidate has the smallest workload, and every earlier candidate has a strictly larger one |
| NodeSelection.SelectBestNode | backend/app/services/node_selection.py:43-89 | no node is chosen exactly when none is online and healthy; otherwise the choice is online and healthy, carries a required tag when any eligible node does, and is the first candidate of least workload |
| NodeSelection.SelectBestNodeDependsOnWorkloads | backend/app/services/node_selection.py:82-89 | the choice depends on the issue table only through the nodes' workloads |
| NodeSelection.LeastLoadedIndexDependsOnWorkloads | backend/app/services/node_selection.py:82-88 | the least-loaded position is determined by the candidates' workloads alone |
| NodeSelection.DispatchOrderIsPreorder | backend/app/services/node_selection.py:109-111 | ordering by priority descending, then created_at ascending, is total and transitive |
| NodeSelection.PendingInDispatchOrder | backend/app/services/node_selection.py:108-113 | the issues visited are exactly the pending issues, each as often as in the table, highest priority first and oldest first within a priority |
| NodeSelection.DistributeIssues | backend/app/services/node_selection.py:91-135 | as written: the three counters add up to the number of pending issues, no workload changes, and every pending issue receives the decision taken for the first one: all assigned to the same best node, all skipped, or all without a node |
| NodeSelection.DistributeOverfillsFirstNode | backend/app/services/node_selection.py:115-132 | with two idle eligible nodes, two pending issues and a cap of one, the pass as written hands both issues to the first node, while the balanced pass gives no node more than one |
| NodeSelection.AsWrittenAssignsAllToBest | backend/app/services/node_selection.py:115-132 | below the cap, the pass as written gives every pending issue to the node chosen for the first one |
| NodeSelection.SelectLeastQueued | backend/app/services/node_selection.py:82-88 | the balanced choice is an eligible node whose workload plus the issues already handed to it in this pass is smallest, and there is none exactly when no node is eligible |
| NodeSelection.DistributeIssuesBalanced | backend/app/services/node_selection.py:91-135 | the corrected pass: the counters add up to the pending issues, no node is handed more than max_per_node minus its workload, every assignment names an eligible node, and every row is unchanged or a pending issue assigned to an eligible node |
| NodeSelection.BalancedRespectsIdleCap | backend/app/services/node_selection.py:124-127 | with no load anywhere and a cap of one, the balanced pass gives each node at most one issue |
| NodeSelection.FirstIdleNodeIsBest | backend/app/services/node_selection.py:88 | of two eligible nodes, the first is chosen when it has no work |
| Scheduler.Start | backend/app/services/scheduler.py:120-151 | starting marks the scheduler running, keeps the tasks it had, and adds the import loop exactly when repositories and an owner are given, the auto-process loop exactly when enabled, the cleanup loop exactly when enabled |
| Scheduler.Stop | backend/app/services/scheduler.py:153-159 | stopping leaves the scheduler not running with no task |
| Scheduler.StartThenStop | backend/app/services/scheduler.py:120-159 | stopping after a start leaves no trace of the start: the scheduler is back in its initial state |
| Scheduler.GitHubSyncPass | backend/app/services/scheduler.py:35-44 | an import pass yields no summary exactly when some repository entry lacks a key (the error is caught and logged); otherwise one detail per repository, balanced totals and nothing updated; the committed table only extends the starting one |
| Scheduler.Batch | backend/app/services/scheduler.py:66-72 | the batch holds at most max_per_batch issues of the table, each pending and assigned to a node; it is all of them when there are no more than that, and exactly max_per_batch otherwise |
| Scheduler.BatchHasUniqueIds | backend/app/services/scheduler.py:66-72 | a batch drawn from a table without repeated ids has none either |
| Scheduler.BatchStep | backend/app/services/scheduler.py:75-84 | the workflow for one batch issue leaves every other issue as it was; when the issue and its node exist the issue ends completed or failed, and a missing issue leaves the table unchanged |
| Scheduler.BatchStepProcessed | backend/app/services/scheduler.py:75-82 | a workflow that ran changes only its own issue's row, which ends completed or failed |
| Scheduler.RunBatch | backend/app/services/scheduler.py:75-84 | running the batch keeps every row in place with its id |
| Scheduler.RunBatchKeepsOthers | backend/app/services/scheduler.py:75-84 | an issue the batch does not name keeps its row |
| Scheduler.RunBatchSettles | backend/app/services/scheduler.py:75-84 | every batch issue whose row and node exist ends the batch completed or failed, none left pending or processing |
| Scheduler.AutoProcessPass | backend/app/services/scheduler.py:57-84 | one auto-process pass distributes with distribute_issues as written, runs at most max_per_batch workflows, keeps every row in place with its id, and its distribution counters add up to the pending issues |
| Scheduler.DistributionKeepsIds | backend/app/services/scheduler.py:61-63 | distribute_issues as written keeps every row in place with its id, so ids stay unique |
| Scheduler.AutoProcessPassSettlesBatch | backend/app/services/scheduler.py:57-84 | after a pass, every issue of its batch whose assigned node exists is completed or failed |
| Scheduler.BatchSettles | backend/app/services/scheduler.py:66-84 | the batch loop settles every batch issue whose node exists |
| Scheduler.CleanupCandidates | backend/app/services/scheduler.py:100-113 | the workspaces reported are exactly those of issues completed or failed more than seven days ago and assigned to a node |
| Scheduler.CleanupSurvivesAutoProcess | backend/app/services/scheduler.py:60-113 | an auto-process pass leaves every issue the cleanup loop reports with its row unchanged, so any later cleanup pass still reports it |
| Scheduler.CleanupMonotone | backend/app/services/scheduler.py:102-106 | a workspace reported now is reported again by any later pass |
| Workflow.WorkspacePath | backend/app/services/workflow.py:19-22 | every workspace lies under /workspace/issue- |
| Workflow.WorkspacePathInjective | backend/app/services/workflow.py:19-22 | distinct issues get distinct workspace directories |
| Workflow.WrapCommand | backend/app/services/workflow.py:38-49 | as written: without a working directory the command and arguments go out unchanged; with one, the node runs bash -c on a line that first changes into that directory and then names the command |
| Workflow.WrapCommandSplitsSpacedArgument | backend/app/services/workflow.py:44-47 | as written, an argument containing a space does not reach the program as one word: the shell's words differ from cd, the directory, &&, the command and the arguments |
| Workflow.WrapCommandQuoted | backend/app/services/workflow.py:44-49 | corrected: with a working directory the shell's words are exactly cd, the directory, &&, the command and then each argument unchanged |
| Workflow.OnNode | backend/app/services/workflow.py:38-49 | every request to a node is wrapped as written (what the routes and the scheduler use) or with the corrected quoting, as the wrapping parameter says |
| Workflow.IssueNumberText | backend/app/services/workflow.py:148 | a missing issue number prints as None, and only then |
| Workflow.DefaultCommitMessage | backend/app/services/workflow.py:199-200 | the default commit message starts "Fix issue #" and ends with the issue's title |
| Workflow.DefaultCommitMessageIsSplit | backend/app/services/workflow.py:199-218 | as written, the default commit message, which always contains a space, is split by the shell into several words, so git commit does not receive it as the message |
| Workflow.RunSteps | backend/app/services/workflow.py:81-102 | the requests are sent in order; the run ends without error exactly when every request is answered, and otherwise stops at the first request that raises, whose message is the error |
| Workflow.InitGuard | backend/app/services/workflow.py:70-75 | init_repository proceeds exactly when the node exists and is online |
| Workflow.InitRepository | backend/app/services/workflow.py:59-104 | a missing node fails with "Node … not found" and an offline one with "Node … is not online", before anything is sent; otherwise mkdir of the workspace is sent first, and the run succeeds exactly when mkdir, clone and checkout are all answered; this holds for both wrappings of Workflow.OnNode, and the routes and the scheduler use the as-written one |
| Workflow.BranchName | backend/app/services/workflow.py:138 | the branch is fix-issue- followed by something non-empty: the issue number, or the issue id when the number is missing or zero |
| Workflow.ProcessTrace | backend/app/services/workflow.py:136-157 | without a repository URL only the coding command runs; a run without error ends with the coding command; this holds for both wrappings of Workflow.OnNode, and the routes and the scheduler use the as-written one |
| Workflow.ProcessWithoutRepository | backend/app/services/workflow.py:141-157 | without a repository URL the coding command is the only request sent; this holds for both wrappings of Workflow.OnNode, and the routes and the scheduler use the as-written one |
| Workflow.ProcessNodeUnavailable | backend/app/services/workflow.py:141-145 | with a repository URL and a missing or offline node, nothing is sent and the error is init_repository's; this holds for both wrappings of Workflow.OnNode, and the routes and the scheduler use the as-written one |
| Workflow.ProcessSendsInitThenCoding | backend/app/services/workflow.py:141-157 | with a repository URL and an online node, the requests sent are a prefix of mkdir, clone, checkout, then the coding command; this holds for both wrappings of Workflow.OnNode, and the routes and the scheduler use the as-written one |
| Workflow.ProcessIssue | backend/app/services/workflow.py:106-173 | a missing issue fails with "Issue … not found" and a missing node with "Node … not found", changing nothing; otherwise the issue is first claimed (processing, the node, the start time) and then settled from the run; this holds for both wrappings of Workflow.OnNode, and the routes and the scheduler use the as-written one |
| Workflow.ProcessedRow | backend/app/services/workflow.py:126-171 | a processed issue is never left processing: it keeps its own fields, is assigned to the node with its start time, and is completed with the branch and finish time exactly when every command answered, failed with the error message otherwise; this holds for both wrappings of Workflow.OnNode, and the routes and the scheduler use the as-written one |
| Workflow.CommitAndPush | backend/app/services/workflow.py:175-229 | a missing issue, an issue with no assigned node and a missing node each fail with their own message before anything is sent; otherwise add, commit and push run in order; this holds for both wrappings of Workflow.OnNode, and the routes and the scheduler use the as-written one |
| Workflow.PushBranch | backend/app/services/workflow.py:224 | the branch pushed is never empty: the issue's result branch, or main when it has none |
| Workflow.CommitMessage | backend/app/services/workflow.py:199-200 | a given non-empty message is used as is, otherwise the default message |
| Workflow.CommitRequests | backend/app/services/workflow.py:202-227 | three requests, in the workspace: add, commit with the message, push of the push branch to origin; this holds for both wrappings of Workflow.OnNode, and the routes and the scheduler use the as-written one |
| Workflow.CommitRequestSplitsDefaultMessage | backend/app/services/workflow.py:199-218 | as written, the commit request the workflow sends without a message does not give git the default message as one word |
| Workflow.QuotedCommitKeepsMessage | backend/app/services/workflow.py:199-218 | corrected: the commit request runs bash on a line whose words are exactly cd, the workspace, &&, git, commit, -m and the commit message |
| Workflow.AutoProcessWorkflow | backend/app/services/workflow.py:231-252 | the workflow processes the issue and pushes exactly when processing ran and left the issue completed; this holds for both wrappings of Workflow.OnNode, and the routes and the scheduler use the as-written one |
| Workflow.AutoPushesProcessedBranch | backend/app/services/workflow.py:242-250 | after a run in which every command answered, the workflow pushes, and the push sends the branch that processing created; this holds for both wrappings of Workflow.OnNode, and the routes and the scheduler use the as-written one |
| Workflow.ReadReply | backend/app/services/workflow.py:51-57 | as written, reading the node's answer always raises: an error status with httpx's status error for the node's address, a success body with pydantic's three missing fields |
| Workflow.ReadReplyIntended | backend/app/services/workflow.py:51-57 | corrected: a success body is accepted, carrying the command and arguments sent and the node's exit code, stdout and stderr; an error status still raises as written |
| Workflow.ProcessOnNodeAlwaysFails | backend/app/services/workflow.py:51-57 | as written, processing an existing issue on an existing node always ends with the issue failed and nothing pushed, whatever the node's commands do |
| Workflow.ProcessOnNodeIntendedCompletes | backend/app/services/workflow.py:51-57 | corrected: when every command on the node exits with status 0 and the node passes init_repository's checks (or there is no repository URL), the issue ends completed and its branch is pushed |
| GitHubSync.FetchAsWritten | backend/app/services/github_sync.py:59-82 | as written: the issues already gathered stay at the front, and everything added is an issue, not a pull request |
| GitHubSync.FetchAsWrittenStopsEarly | backend/app/services/github_sync.py:73-78 | as written, a full first page holding a pull request ends the listing, so an issue held only by the second page is lost |
| GitHubSync.Fetch | backend/app/services/github_sync.py:59-82 | corrected: the stop test looks at the raw page; everything returned beyond what was already gathered is an issue and not a pull request |
| GitHubSync.FetchIssues | backend/app/services/github_sync.py:59-82 | the listing holds no pull request |
| GitHubSync.FetchReadsRest | backend/app/services/github_sync.py:63-80 | on a listing whose pages are full up to the last, reading from any page returns what was gathered followed by every issue of the remaining pages, in order |
| GitHubSync.FetchIssuesComplete | backend/app/services/github_sync.py:59-82 | on such a listing the corrected fetch returns every issue of every page in order, pull requests left out |
| GitHubSync.FetchReadsSecondPage | backend/app/services/github_sync.py:76-80 | the corrected fetch of a full first page and a short second page returns the issues of both |
| GitHubSync.LabelPriority | backend/app/services/github_sync.py:137-142 | the priority is never negative, is at least the mapped value of every label (compared lower-cased), and is 0 or one of those values |
| GitHubSync.DefaultPriorityRange | backend/app/services/github_sync.py:103-111 | with the default mapping every priority lies between 0 and 100, and a critical label gives 100 |
| GitHubSync.LabelPriorityAtMost | backend/app/services/github_sync.py:138-142 | no label lifts the priority above the largest mapped value |
| GitHubSync.LabelPriorityAtLeast | backend/app/services/github_sync.py:139-142 | a mapped label sets a floor under the priority |
| GitHubSync.FindFor | backend/app/services/github_sync.py:131-135 | the lookup finds the first row with the repository URL and issue number, and finds none exactly when no row has both |
| GitHubSync.FindForAppend | backend/app/services/github_sync.py:131-135 | a row added at the end is found only when no earlier row matches, so adding a row never changes an existing match |
| GitHubSync.SyncItem | backend/app/services/github_sync.py:127-169 | as written: no row is ever counted as updated; a new row is added, pending and owned by the importing user, exactly when no row matches; a finished match is skipped and nothing changes; an open match raises "Issue" object has no field "content" exactly when it exists, after its title alone was changed |
| GitHubSync.SyncAll | backend/app/services/github_sync.py:127-169 | as written: a run keeps every existing row's id and owner and adds only rows owned by the importing user; a completed run counts every listed issue as created or skipped, none as updated, keeps the old rows unchanged and adds only pending rows; an aborted run carries the content error |
| GitHubSync.SyncAllAbortsIff | backend/app/services/github_sync.py:127-169 | as written, the loop raises exactly when some listed issue meets an open row, or has no row but repeats an earlier listed number whose pending row the autoflush has made visible |
| GitHubSync.SyncAllCovers | backend/app/services/github_sync.py:144-169 | as written, after a completed run every listed issue has a row for the repository |
| GitHubSync.SyncIssuesToDb | backend/app/services/github_sync.py:84-172 | as written: it raises the content error exactly when the as-written listing is blocked; when it completes, fetched is the number listed, created plus skipped equals fetched, nothing is updated and the table grows by the number created; either way existing rows keep their id and owner |
| GitHubSync.SecondSyncRaises | backend/app/services/github_sync.py:144-156 | as written, once a sync has imported an issue, syncing the same repository again raises the content error, because the imported row is pending |
| GitHubSync.SyncItemIntended | backend/app/services/github_sync.py:144-169 | corrected: a new row exactly when no row matches; otherwise only the match may change; a finished match is skipped, and an open match takes the new title, priority and update time and is counted as updated |
| GitHubSync.SyncAllIntended | backend/app/services/github_sync.py:127-169 | corrected: each listed issue is counted exactly once as created, updated or skipped, and the table grows by the number created |
| GitHubSync.SyncIssuesIntended | backend/app/services/github_sync.py:84-172 | corrected, with the corrected paging: it never raises, fetched is the number listed, the three counters add up to it and the table grows by the number created |
| GitHubSync.IntendedAgreesWhenUnblocked | backend/app/services/github_sync.py:127-169 | where the as-written loop is not blocked it completes with exactly the table and counters of the corrected loop |
| GitHubSync.IntendedItemKeepsCoverage | backend/app/services/github_sync.py:144-169 | corrected: a row for a repository and number survives the sync of any item |
| GitHubSync.IntendedItemCovers | backend/app/services/github_sync.py:144-169 | corrected: after an item is synced a row for its number exists |
| GitHubSync.IntendedCovers | backend/app/services/github_sync.py:127-169 | corrected: after a sync every listed issue, and every issue that already had one, has a row for the repository |
| GitHubSync.IntendedResyncCreatesNothing | backend/app/services/github_sync.py:131-156 | corrected: once every listed number has a row, syncing the list again creates nothing |
| GitHubSync.IntendedSyncTwiceCreatesNothing | backend/app/services/github_sync.py:84-172 | corrected: syncing the same listing twice creates no issue the second time |
| GitHubSync.IntendedOwnership | backend/app/services/github_sync.py:144-169 | corrected: a sync keeps every existing row in place with its id and owner, and gives every added row to the importing user |
| GitHubSync.KeyCheck | backend/app/services/github_sync.py:196-198 | an entry passes exactly when it has both an owner and a name; otherwise the KeyError names the first missing key, owner before name |
| GitHubSync.SyncOne | backend/app/services/github_sync.py:199-217 | each repository adds one detail labelled owner/name and keeps the totals balanced; an unreachable listing records its message and changes nothing; a sync that raises records the content error, adds nothing to the totals and leaves its changes uncommitted; a completed sync adds its counts and commits the session |
| GitHubSync.SyncRepos | backend/app/services/github_sync.py:196-217 | the loop raises exactly when some entry lacks owner or name; otherwise one detail per repository and balanced totals; the session only ever extends the starting table |
| GitHubSync.SyncReposRaisesAtFirstBadEntry | backend/app/services/github_sync.py:196-198 | a raised KeyError is that of the first entry lacking a key |
| GitHubSync.SyncReposDetail | backend/app/services/github_sync.py:199-217 | in a normal end, the detail of each repository carries its label, the listing's message when it was unreachable, and the content error when a listed sync failed |
| GitHubSync.SyncMultipleRepos | backend/app/services/github_sync.py:174-219 | the call raises a KeyError exactly when some entry lacks "owner" or "name", the error naming such a key; otherwise the summary counts the repositories, has one detail each, its totals are balanced and nothing is updated; the committed table only extends the starting one |
| Dashboard.Decompose | backend/app/api/routes/dashboard.py:62-64 | the hours, minutes and seconds recombine to the elapsed seconds, with minutes and seconds below 60 and the hours negative exactly when the elapsed time is |
| Dashboard.FormatDuration | backend/app/api/routes/dashboard.py:57-71 | under a minute the duration prints as the seconds followed by s |
| Dashboard.FormatDurationRoundTrip | backend/app/api/routes/dashboard.py:57-71 | for a start time not in the future, reading the printed duration back gives exactly the elapsed seconds |
| Dashboard.FormatDurationFuture | backend/app/api/routes/dashboard.py:59-71 | a start time ahead of the clock prints the elapsed time modulo an hour, so one second ahead prints 59m 59s |
| Dashboard.FormatDurationShape | backend/app/api/routes/dashboard.py:66-71 | the printed duration has three pieces from an hour on, two from a minute on, and one below a minute |
| Dashboard.ReadDurationParts | backend/app/api/routes/dashboard.py:66-71 | the printed pieces of a decomposition read back as the seconds it stands for |
| Dashboard.SplitDurationParts | backend/app/api/routes/dashboard.py:66-71 | the printed duration splits on blanks into exactly its pieces |
| Dashboard.IdleCount | backend/app/api/routes/dashboard.py:170-171 | idle nodes never exceed the online ones and never fall below zero; idle plus running covers the online nodes, exactly unless idle is zero |
| Dashboard.ProcessingNodeIds | backend/app/api/routes/dashboard.py:157-159 | the ids seen are exactly the nodes some processing issue is assigned to |
| Dashboard.RunningNodeIds | backend/app/api/routes/dashboard.py:133-160 | the running nodes are counted once each: every node a processing issue is assigned to, restricted to the caller's nodes unless superuser |
| Dashboard.NodeStatsOf | backend/app/api/routes/dashboard.py:126-178 | idle is the online nodes in scope less the running ones, never below zero; offline counts the offline nodes in scope; running counts the distinct running nodes; the total counts the nodes in scope; idle plus offline never exceeds the total |
| Dashboard.NodeStatsEmpty | backend/app/api/routes/dashboard.py:126-171 | with no nodes the idle, offline, online and total counts are zero |
| Dashboard.NodeStatsAppend | backend/app/api/routes/dashboard.py:126-171 | one more node raises the total, and the online or offline count matching its status, by exactly one when the caller may see it and leaves them otherwise; for a superuser the running count stays |
| Dashboard.IssueStatsOf | backend/app/api/routes/dashboard.py:93-124 | pending plus processing never exceeds the total, which never exceeds the table and is the whole table for a superuser |
| Dashboard.IssueStatsEmpty | backend/app/api/routes/dashboard.py:93-124 | with no issues the pending, processing and total counts are zero |
| Dashboard.IssueStatsAppend | backend/app/api/routes/dashboard.py:93-124 | one more issue the caller may see raises the total by one and the pending or processing count by one when it has that status; anyone else's issue changes nothing; with IssueStatsEmpty this fixes every count |
| Dashboard.IssueTotalIsListCount | backend/app/api/routes/dashboard.py:102-124 | the dashboard's issue total equals the count the issue list reports to the same caller |
| Dashboard.IssueStatsIgnoreOthers | backend/app/api/routes/dashboard.py:94-106 | someone else's issue does not change an ordinary user's counts |
| Dashboard.JoinTasks | backend/app/api/routes/dashboard.py:226-229 | the joined rows are exactly the tasks paired with the issue and node they name |
| Dashboard.NewerFirstOrders | backend/app/api/routes/dashboard.py:234 | ordering by started_at descending, missing start times first, is total and transitive |
| Dashboard.Candidates | backend/app/api/routes/dashboard.py:225-245 | the rows before LIMIT are the selected running rows, each as often as in the join, newest first |
| Dashboard.RunningRows | backend/app/api/routes/dashboard.py:230-242 | the rows kept are exactly the joined running tasks the caller may see |
| Dashboard.Top | backend/app/api/routes/dashboard.py:235 | at most ten rows, newest first |
| Dashboard.Listed | backend/app/api/routes/dashboard.py:249-259 | one response entry per started row, in order, each with its task, issue, title, node name, start time and elapsed time |
| Dashboard.RunningTasks | backend/app/api/routes/dashboard.py:224-259 | at most ten tasks are listed, newest first |
| Dashboard.RunningTasksAreRunning | backend/app/api/routes/dashboard.py:224-259 | every listed task is a running task the caller may see, with an issue, a node and a start time, shown with its elapsed time |
| Dashboard.RunningTasksNewestFirst | backend/app/api/routes/dashboard.py:234-235 | a started running task the caller may see that is newer than something listed is itself listed |
| Dashboard.RunningTasksAllWhenFew | backend/app/api/routes/dashboard.py:235-259 | with at most ten running rows, every one with a start time is listed |
| Dashboard.Stats | backend/app/api/routes/dashboard.py:74-269 | the issue total is the issue list's count and the node total the nodes in scope; the project, prompt, credential and repository counts are the rows the caller may see in each table; pending plus processing stay within the issue total, idle plus offline within the node total, and at most ten running tasks are listed |
| Dashboard.ScopedCount | backend/app/api/routes/dashboard.py:180-222 | a count is the number of rows the caller may see, which is what the table's list route reports: the whole table for a superuser, otherwise the caller's own rows |
| NodeService.FullCommand | node-service/main.py:71-74 | the argument vector is the command followed by the arguments, or the command alone when none are given |
| NodeService.RunCommand | node-service/main.py:59-101 | an exited process yields its own status and output; a timeout yields -1 with the timeout message and an unstartable command -1 with its reason, never with output and never status 0 |
| NodeService.Execute | node-service/main.py:293-308 | the route succeeds exactly when the command exits with 0, returning its result; otherwise HTTP 500 naming the exit status and carrying stderr |
| NodeService.ExecuteTimeoutIsError | node-service/main.py:90-101 | a command that times out or cannot start is answered with 500 and exit status -1, followed by the reason |
| NodeService.Workspace | node-service/main.py:152 | the working copy lies under the workspace directory as issue- followed by the issue number, or the issue id when the number is missing or 0 |
| NodeService.Prefix | node-service/main.py:153 | a prefix is the first n characters, or the whole string when it is shorter |
| NodeService.BranchName | node-service/main.py:153 | a numbered issue gets ai/issue-<number>; any other gets ai/task- and the first eight characters of the task id |
| NodeService.BranchNamesDistinct | node-service/main.py:153 | two numbered issues share a branch only when their numbers agree |
| NodeService.CommitMessage | node-service/main.py:222 | the commit message names the issue number and title, or the task when there is no number |
| NodeService.AuthUrl | node-service/main.py:169-173 | a URL outside https://github.com/ is used as given; a GitHub URL gets the token written in after https://, and with a single https:// the rest of the URL is unchanged |
| NodeService.CommitTolerance | node-service/main.py:229-234 | the commit step passes with status 0, or with a non-zero status when its stdout says nothing to commit; every other step passes exactly with status 0 |
| NodeService.RunSteps | node-service/main.py:175-247 | the commands run are a prefix of the steps, in order; the run ends without error exactly when no step fails, and then every step ran |
| NodeService.RunStepsStopsAt | node-service/main.py:175-247 | the first failing step is the last command run, and its message is the error |
| NodeService.ProcessIssueTask | node-service/main.py:133-273 | the report goes to the issue's report-branch URL with the task and branch, its status is success or failed, it carries an error message exactly when failed, and at most the five git commands ran, in order |
| NodeService.ProcessIssueSucceeds | node-service/main.py:155-258 | a run reports success exactly when the workspace and the note could be written and none of the five git steps failed, and then all five ran |
| NodeService.ProcessIssueStopsAtFailure | node-service/main.py:175-273 | a failing git step ends the run there: nothing after it runs, and the failure report carries that step's message |
| NodeService.AllPassAppend | node-service/main.py:175-247 | two lists of steps run back to back pass exactly when each passes |
| NodeService.AcceptProcessIssue | node-service/main.py:277-290 | the route answers accepted at once, naming the task, whatever the outcome of the run started in the background |
| NodeService.TaskSucceedsWhenStepsDo | node-service/main.py:155-258 | a run succeeds exactly when the workspace is created, clone and checkout pass, the note is written, and add, commit and push pass; then the commands run are those of both lists |
| CredentialDisplay.LabelOf | frontend/src/constants/credentials.ts:3-7 | a category has a label exactly when it is declared, and the label found is the one declared with it |
| CredentialDisplay.CategoryLabel | frontend/src/constants/credentials.ts:16-19 | no category, or an empty one, shows Unknown; an undeclared category shows itself |
| CredentialDisplay.KnownCategoryLabels | frontend/src/constants/credentials.ts:3-7 | each of the three declared categories shows its own label |
| CredentialDisplay.CategoryOptions | frontend/src/constants/credentials.ts:9-14 | one option per declared category, in declaration order, with its value and label |
| CredentialDisplay.OptionsAgreeWithLabels | frontend/src/constants/credentials.ts:9-19 | the menu has three options, and each shows the label the credential list shows for its value |
| CredentialDisplay.MaskPat | frontend/src/constants/credentials.ts:21-28 | no token shows N/A; a token keeps its length, a short one of at most four characters becomes all stars, and a longer one shows stars followed by its own last four characters |
| CredentialDisplay.MaskHidesAllButLastFour | frontend/src/constants/credentials.ts:21-28 | two tokens of the same length that end alike mask alike, so the mask shows nothing but the last four characters |
| StartButton.Config | frontend/src/components/Issues/StartIssueButton.tsx:30-75 | pending shows the start button and terminated a restart button, both enabled; processing, pending_merge and merged are disabled; any other status falls back to the start button |
| StartButton.Disabled | frontend/src/components/Issues/StartIssueButton.tsx:111 | the button is disabled while a start is in flight, and otherwise exactly for processing, pending_merge and merged |
| StartButton.Click | frontend/src/components/Issues/StartIssueButton.tsx:96-111 | a click starts a task only when no start is in flight and the issue is pending or terminated |
| StartButton.EnabledIffClickStarts | frontend/src/components/Issues/StartIssueButton.tsx:30-111 | for the five lifecycle statuses the button is enabled exactly when a click on it starts a task |
| StartButton.UnknownStatusIsInert | frontend/src/components/Issues/StartIssueButton.tsx:67-100 | any other status shows an enabled start button whose click sends nothing |
| ProjectSelection.InitialSelection | frontend/src/contexts/ProjectContext.tsx:29-40 | the first selection is what the session stored, and nothing without a window |
| ProjectSelection.SelectedProject | frontend/src/contexts/ProjectContext.tsx:50-52 | a project is selected exactly when some listed project carries the selected id, and then it is a listed project with that id |
| ProjectSelection.Persist | frontend/src/contexts/ProjectContext.tsx:54-64 | without a window the stored entry stays; otherwise a non-empty id is stored and null or an empty id removes the entry |
| ProjectSelection.SelectProject | frontend/src/contexts/ProjectContext.tsx:66-72 | selecting sets the selection to the id and persists it |
| ProjectSelection.Reconcile | frontend/src/contexts/ProjectContext.tsx:74-89 | with no projects nothing changes; a selection naming a listed project stays; any other selection moves to the first project |
| ProjectSelection.ReconcileSelectsListed | frontend/src/contexts/ProjectContext.tsx:74-89 | after reconciling against a non-empty list the selection names a listed project, so a selected project exists |
| ProjectSelection.ReconcileIdempotent | frontend/src/contexts/ProjectContext.tsx:74-89 | running the reconciliation again changes nothing, so the effect settles after one step |
| ProjectSelection.UseProjectContext | frontend/src/contexts/ProjectContext.tsx:123-131 | inside a provider the hook returns the provider's value; outside one it throws with the fixed message |
| ProjectSelection.FilterProjects | frontend/src/components/Common/ProjectSelector.tsx:47-58 | a blank search keeps every project; otherwise the projects kept are exactly those whose lower-cased name or description contains the trimmed, lower-cased search |
| ProjectSelection.FilterProjectsAppend | frontend/src/components/Common/ProjectSelector.tsx:53-57 | the filter keeps list order: a project added at the end of the list is at the end of the result when it matches, and absent otherwise |
| ProjectSelection.MenuLabel | frontend/src/components/Common/ProjectSelector.tsx:73-75 | an error wins, then the selected project's name, then the loading notice, then the prompt to select |
| ProjectSelection.MenuShowsListedProject | frontend/src/components/Common/ProjectSelector.tsx:73-75 | once a non-empty list has loaded without error and the selection is reconciled, the menu shows the name of a listed project |
| ProjectSelection.SearchPlaceholder | frontend/src/components/Common/ProjectSelector.tsx:78-84 | the error, loading and empty-list placeholders come before the invitation to search |
| ProjectSelection.PlaceholderMatchesCanSearch | frontend/src/components/Common/ProjectSelector.tsx:77-84 | the placeholder invites a search exactly when searching is enabled |
| ProjectSelection.SearchAfterEffect | frontend/src/components/Common/ProjectSelector.tsx:86-90 | while search is disabled the search text is cleared; otherwise it is kept |
| ProjectSelection.PickProject | frontend/src/components/Common/ProjectSelector.tsx:60-64 | picking a project selects it, clears the search and closes the menu |
| ProjectSelection.OpenChange | frontend/src/components/Common/ProjectSelector.tsx:66-71 | the menu takes the requested state; closing clears the search and opening keeps it |
| ProjectSelection.ReopenedMenuShowsAll | frontend/src/components/Common/ProjectSelector.tsx:60-71 | a menu closed, or closed by a pick, shows the whole list when it opens again |
| IssueForm.UrlCheckIgnoresCase | frontend/src/components/Issues/AddIssue.tsx:268-275 | the URL check ignores letter case: a URL passes exactly when its lower-cased form does |
| IssueForm.HttpsUrlsAccepted | frontend/src/components/Issues/EditIssue.tsx:339-347 | every https URL with a host passes the check, whatever the case of its scheme |
| IssueForm.TrimmedUrl | frontend/src/components/Issues/AddIssue.tsx:179-186 | the URL sent is the trimmed field, and is left out when the field is missing or blank |
| IssueForm.CreatePayloadOf | frontend/src/components/Issues/AddIssue.tsx:177-189 | the create request keeps the title and priority, leaves out an empty description and an empty project, sends the trimmed URL, and sends the chosen dependencies or none |
| IssueForm.CreateUrlIsNormal | frontend/src/components/Issues/AddIssue.tsx:179-186 | the URL a create request carries has no blank at either end, so entering it again sends it unchanged |
| IssueForm.DefaultsNotSubmittable | frontend/src/components/Issues/AddIssue.tsx:85-95 | the empty create form cannot be submitted, starts at priority 1 with no project, and would send no dependency |
| IssueForm.Preselect | frontend/src/components/Issues/AddIssue.tsx:133-147 | on opening, the project chosen in the header fills an empty project field; in every other case the form is unchanged |
| IssueForm.PreselectKeepsChoice | frontend/src/components/Issues/AddIssue.tsx:133-147 | preselection never replaces a project the user picked, running it twice is running it once, and with a header project the field ends up set |
| IssueForm.EditDefaults | frontend/src/components/Issues/EditIssue.tsx:78-94 | the edit form starts from the issue's own title and project, its description and URL or "" when missing, its priority or 1, and its dependencies or none |
| IssueForm.EditPayloadOf | frontend/src/components/Issues/EditIssue.tsx:258-275 | the edit request keeps title and priority, leaves out an empty description, sends null for no project, leaves out a missing URL, sends null for a blank one and the trimmed URL otherwise, and sends the dependencies or none |
| IssueForm.EditDefaultsRoundTrip | frontend/src/components/Issues/EditIssue.tsx:78-275 | saving the starting values sends the issue back as it is: same title, project, priority (1 when none) and dependencies, and its URL trimmed, or null when it had none |
| IssueForm.EditCannotClearDescription | frontend/src/components/Issues/EditIssue.tsx:264 | an emptied description is left out of the request, so the stored description cannot be cleared |
| IssueForm.SaveNeedsChange | frontend/src/components/Issues/EditIssue.tsx:701 | an untouched form cannot be saved; a changed title with an accepted URL can |
| IssueForm.Ids | frontend/src/components/Issues/AddIssue.tsx:207-213 | the submitted ids are the badges' ids, in badge order |
| IssueForm.AddOnCreate | frontend/src/components/Issues/AddIssue.tsx:481-504 | picking an already chosen issue changes nothing; picking another appends its badge and its id |
| IssueForm.AddOnEdit | frontend/src/components/Issues/EditIssue.tsx:555-586 | as on create, except that a badge already shown is not added again |
| IssueForm.Remove | frontend/src/components/Issues/EditIssue.tsx:239-248 | removing keeps exactly the badges of other issues, and the id list becomes their ids |
| IssueForm.SyncedBadges | frontend/src/components/Issues/AddIssue.tsx:207-213 | on lists in step, an issue has a badge exactly when its id is in the list |
| IssueForm.AddOnCreateSynced | frontend/src/components/Issues/AddIssue.tsx:481-504 | picking on create keeps the lists in step, never adds an id twice, and leaves the pick in the list |
| IssueForm.AddOnEditBadgesDistinct | frontend/src/components/Issues/EditIssue.tsx:573-581 | the edit dialog's badges never show an issue twice |
| IssueForm.AddOnEditAgrees | frontend/src/components/Issues/EditIssue.tsx:555-586 | on lists in step, the edit dialog's pick behaves exactly as the create dialog's |
| IssueForm.RemoveSynced | frontend/src/components/Issues/AddIssue.tsx:207-213 | removing keeps the lists in step and drops exactly that issue |
| IssueForm.AddThenRemove | frontend/src/components/Issues/AddIssue.tsx:207-213 | removing an issue just picked undoes the pick |
| ProjectForm.AddRow | frontend/src/components/Projects/AddProject.tsx:65-69 | a blank row is appended only while there are fewer rows than the maximum; a list within the maximum stays within it |
| ProjectForm.AddRowsBounded | frontend/src/components/Projects/EditProject.tsx:59-63 | however often the add button is pressed, the list never exceeds the maximum and grows by one per press until it reaches it |
| ProjectForm.RemoveRow | frontend/src/components/Projects/AddProject.tsx:71-73 | exactly row i goes and the others keep their order; an index outside the list removes nothing |
| ProjectForm.UpdateRow | frontend/src/components/Projects/AddProject.tsx:75-79 | row i takes the new value and every other row stays |
| ProjectForm.RowEditsUndo | frontend/src/components/Projects/EditProject.tsx:59-73 | removing the row just added gives the list back, and editing a row then removing it is the same as removing it |
| ProjectForm.SubmittedUrls | frontend/src/components/Projects/AddProject.tsx:96-102 | no URL list is sent exactly when every row is blank; otherwise a non-empty list is sent holding exactly the non-blank rows, untrimmed |
| ProjectForm.SubmittedUrlsAppend | frontend/src/components/Projects/EditProject.tsx:93-99 | the submitted URLs keep the rows' order: a non-blank row appended to the list is submitted last |
| ProjectForm.CloseAdd | frontend/src/components/Projects/AddProject.tsx:104-108 | closing the create dialog leaves no rows, so nothing would be submitted |
| ProjectForm.InitialRows | frontend/src/components/Projects/EditProject.tsx:40-42 | the edit dialog's rows start as the project's repository URLs, or empty when the response carries none |
| ProjectForm.Cancel | frontend/src/components/Projects/EditProject.tsx:101-105 | cancelling restores the starting rows, whatever was edited in between |
| ProjectForm.BlankRowsKeepLinks | frontend/src/components/Projects/EditProject.tsx:93-99 | an edit that removed or blanked every row sends no URL list, and the update then keeps the project's repository links and creates no repository, so the dialog cannot unlink the last repositories |
| ProjectForm.SplitPoint | frontend/src/components/Projects/EditProject.tsx:157 | the first column holds half the rows, rounded up |
| ProjectForm.Column | frontend/src/components/Projects/EditProject.tsx:153-234 | with at most ten rows one column shows them all and the second shows none |
| ProjectForm.Place | frontend/src/components/Projects/EditProject.tsx:153-192 | every entry of the list is shown in some column at a position whose buttons act on that entry |
| ProjectForm.ColumnsCoverRows | frontend/src/components/Projects/EditProject.tsx:153-192 | every shown row acts on the entry it shows, the columns together show every entry once, no two shown rows act on the same entry, and the first column holds at most one more row than the second |
| ProjectForm.SecondColumnRemove | frontend/src/components/Projects/EditProject.tsx:178-192 | removing through the second column drops the entry that row shows |

## Left out

- Projects.SyncLinks: an unknown repository id is reported with the missing ids in ascending order. The source lists them in set iteration order, which is unspecified.
- The `member_ids` and `node_ids` fields of the project create and update requests are accepted by the source but never used, and are not modelled.
- Models.ApplyNodeUpdate follows the route's own field-by-field update. `crud.update_node` is modelled separately as `Crud.UpdateNodeRow`.
- GitHubSync.SyncItem: the issue body is never stored. On create the Issue model drops the undeclared `content` keyword; on update the assignment raises, which is modelled as the content error (finding 5). GitHubSync.SyncItemIntended drops the body on update as well.
- The `git_env` that the node service builds is never passed to any command, so it is not modelled.
- Workflow: the routes and the scheduler take the node as a `Reply` parameter, so their contracts hold for any node. `Workflow.ReadReply` models how that reply is read from the node service (finding 6). Exception texts are reduced to their first line, and HTTP failures other than the node's 500 are not modelled.
- Text.Trim and Text.Lower handle ASCII only: no Unicode whitespace and no case folding beyond A-Z. Python's `str.strip` also removes the separators \x1c to \x1f, and JavaScript's `trim` removes neither those nor \x85; Text.IsSpace covers space, tab, newline, carriage return, \x0b and \x0c only.
- Web client concerns are not modelled: form dirtiness tracking, debouncing, toasts, icons and styles, and query caching and invalidation.
- HTTP timeouts, printing and logging are not modelled.
- The scheduler's and node monitor's background asyncio tasks, and their sleep intervals, are not modelled. Each pass is modelled as one function call.
- The retry and back-off loop of `backend_pre_start` is not modelled. Its registration-key step is modelled in `RegistrationKey`.
- `uuid4`, `secrets.token_urlsafe` and `utcnow` are parameters, so their randomness and clock are not modelled.
- The node service's `/health` and `/` routes return constants, and the uvicorn start-up is process setup; neither is modelled.
- `NodeRegister` and `NodeHeartbeat` (backend/app/models/node.py) are request shapes that no route in this core accepts, so only their field bounds are modelled.
- Concurrency and database failures are not modelled, except the NOT NULL violation in finding 4, the unique e-mail in `Crud.CreateUser`, and the transaction a failed key lookup aborts in `Seeding.InitDb`. Transactions are modelled only in GitHubSync, where a raising sync leaves its changes uncommitted.
- IssueRoutes.UpdateIssue: an explicit JSON null for a NOT NULL column passes `exclude_unset` and fails at the database with a 500. This is not modelled; the model applies the null as a value.
- NodeRoutes.UpdateNode: an explicit null for a NOT NULL column fails at the database with a 500; not modelled.
- PromptRoutes.UpdatePrompt: an explicit null for a NOT NULL column fails at the database with a 500; not modelled.
- RepositoryRoutes.UpdateRepository: an explicit null for a NOT NULL column fails at the database with a 500; not modelled.
- CredentialRoutes.UpdateCredential: an explicit null for a NOT NULL column fails at the database with a 500; not modelled.
- CredentialRoutes.CreateCredential: only the title's bounds are checked. The request model that declares `category`, `pat` and `node_ids` is not part of this model, so whether an undeclared category or a PAT over the column's 255 characters is refused with 422 or fails at the database is not modelled; the model stores them.
- CredentialRoutes.UpdateCredential: as for creation, only a supplied title is checked; category and PAT bounds are not modelled.
- Projects.UpdateProject: an explicit null for a NOT NULL column fails at the database with a 500; not modelled.
- Projects.Listable, Projects.ReadProjects: the search text is matched literally (`Projects.MatchesSearch`). SQL ILIKE treats `%` and `_` in it as wildcards, and that is not modelled.
- CredentialDisplay.MaskPat: lengths are counted in characters, not in the UTF-16 code units that JavaScript counts, so the two differ outside the Basic Multilingual Plane.
- CredentialDisplay.CategoryLabel: the source looks the category up in a plain object, so a category such as `toString` finds an inherited property. The model answers with the category itself.

## Findings

| source | as written | input that shows it | evidently intended | confidence | as-written member | corrected member |
|---|---|---|---|---|---|---|
| backend/app/services/node_selection.py:115-132 | assigning an issue leaves it pending, so no node's workload changes during the pass; every issue goes to the same best node and `max_per_node` never binds | two idle eligible nodes, two pending issues, `max_per_node` = 1: both issues go to the first node | each assignment counts toward the chosen node's load, so no node is given more than the cap in one pass | not executed | NodeSelection.DistributeIssues, NodeSelection.DistributeOverfillsFirstNode | NodeSelection.DistributeIssuesBalanced, NodeSelection.BalancedRespectsIdleCap |
| backend/app/services/workflow.py:44-49 | the command and its arguments are joined with spaces, without quoting, into the `bash -c` string | a commit message containing a space, such as the default `Fix issue #1: x`: git receives `-m Fix` and stray pathspecs | each argument reaches the command as one word | not executed | Workflow.WrapCommand, Workflow.WrapCommandSplitsSpacedArgument, Workflow.DefaultCommitMessageIsSplit, Workflow.CommitRequestSplitsDefaultMessage | Workflow.WrapCommandQuoted, Workflow.QuotedCommitKeepsMessage |
| backend/app/services/github_sync.py:73-78 | paging stops when the page left after dropping pull requests holds fewer than 100 items | a full first page of 100 items that includes one pull request, followed by a non-empty second page: the second page is never read | stop only when the page GitHub returned holds fewer than 100 items | not executed | GitHubSync.FetchAsWritten, GitHubSync.FetchAsWrittenStopsEarly | GitHubSync.FetchIssues, GitHubSync.FetchIssuesComplete, GitHubSync.FetchReadsSecondPage |
| backend/app/api/routes/nodes.py:24-33 | the node is built from the request alone and has no `owner_id`, which `backend/app/models/node.py:37` declares NOT NULL, so the insert fails | a superuser creating a node with only a name and an IP address | the caller becomes the node's owner, as on the other owner-scoped routes | not executed | NodeRoutes.CreateNodeAsWritten, NodeRoutes.CreateNodeAsWrittenRejectsMinimalRequest | NodeRoutes.CreateNode, NodeRoutes.MinimalNodeIsOffline |
| backend/app/services/github_sync.py:151-152 | updating an existing open issue assigns the GitHub body to `content`, a field the Issue model does not declare, so pydantic raises and the sync fails; nothing is committed | an empty table and a listing of one issue, synced twice: the first sync creates a pending row, and the second raises "Issue" object has no field "content", so the route answers 500 | the open row takes the new title, priority and update time and is counted as updated | not executed | GitHubSync.SyncItem, GitHubSync.SyncAllAbortsIff, GitHubSync.SecondSyncRaises | GitHubSync.SyncItemIntended, GitHubSync.IntendedAgreesWhenUnblocked, GitHubSync.IntendedSyncTwiceCreatesNothing |
| backend/app/services/workflow.py:51-57 | the node's answer is validated as the backend's `CommandResult` (backend/app/models/command.py:11-18), which requires command, args and duration_ms, but the node service returns only exit_code, stdout and stderr (node-service/main.py:43-47, 294-309), so every command raises | any issue with no repository URL, processed on an existing node whose command succeeds: validation fails, and the issue ends failed and is never pushed | accept the node's three fields and fill in the command and arguments that were sent | not executed | Workflow.ReadReply, Workflow.ProcessOnNodeAlwaysFails | Workflow.ReadReplyIntended, Workflow.ProcessOnNodeIntendedCompletes |

=== FILE: common.dfy ===
/** Shared vocabulary of the backend model: identifiers, clock readings,
    optional values, HTTP-style errors, users and partial-update patches. */
module Common {

  /** A database primary key (a UUID in the service, a natural number here). */
  type Id = nat

  /** A clock reading in whole seconds. */
  type Time = int

  datatype Option<+T> = None | Some(value: T) {
    function GetOr(default: T): T {
      match this
      case Some(v) => v
      case None => default
    }
  }

  /** An HTTPException: status code and detail text. */
  datatype HttpError = HttpError(code: nat, detail: string)

  datatype Result<+T> = Ok(value: T) | Err(error: HttpError)

  /** The caller of an API route. */
  datatype User = User(id: Id, isSuperuser: bool)

  /** A field of an update request: left out of the request, or supplied. */
  datatype Patch<T> = Keep | Set(value: T) {
    function ApplyTo(current: T): T {
      match this
      case Keep => current
      case Set(v) => v
    }
  }

  // Issue statuses: the workflow service writes the first four, the status
  // migration and the frontend use the last three.
  const PENDING := "pending"
  const PROCESSING := "processing"
  const COMPLETED := "completed"
  const FAILED := "failed"
  const PENDING_MERGE := "pending_merge"
  const MERGED := "merged"
  const TERMINATED := "terminated"

  // Node statuses.
  const ONLINE := "online"
  const OFFLINE := "offline"

  const NOT_ENOUGH_PERMISSIONS := "Not enough permissions"

  /** A request body the schema rejects (answered before the route runs). */
  const VALIDATION_FAILED := HttpError(422, "Validation error")

  /** An exception the route does not catch, such as the database refusing a
      negative OFFSET or LIMIT. */
  const INTERNAL_ERROR := HttpError(500, "Internal Server Error")

  /** OFFSET skip LIMIT limit is accepted by the database only for
      non-negative values. */
  predicate ValidWindow(skip: int, limit: int) {
    skip >= 0 && limit >= 0
  }

  /** The ownership guard shared by every owner-scoped route. */
  predicate MayAccess(user: User, ownerId: Id) {
    user.isSuperuser || ownerId == user.id
  }

  /** Python truthiness of an optional string: present and non-empty. */
  predicate Truthy(s: Option<string>) {
    s.Some? && s.value != ""
  }

  /** Python truthiness of an optional integer: present and non-zero. */
  predicate TruthyInt(n: Option<int>) {
    n.Some? && n.value != 0
  }
}

=== FILE: credential_display.dfy ===
/** How the web client shows a credential: the category's label and the
    personal access token masked so that at most its last four characters
    show. */
module CredentialDisplay {
  import opened Common
  import opened Text

  /** The label of each category, in declaration order. */
  const CATEGORY_LABELS: seq<(string, string)> :=
    [("github-copilot", "GitHub Copilot"), ("cursor", "Cursor"), ("cluade-code", "Cluade Code")]

  /** The label declared for a category, if any. */
  function LabelOf(category: string, table: seq<(string, string)>): (r: Option<string>)
    ensures r.Some? <==> exists k :: 0 <= k < |table| && table[k].0 == category
    ensures r.Some? ==> exists k :: 0 <= k < |table| && table[k] == (category, r.value)
  {
    if table == [] then None
    else if table[0].0 == category then Some(table[0].1)
    else
      var r := LabelOf(category, table[1..]);
      assert forall k :: 1 <= k < |table| ==> table[k] == table[1..][k - 1];
      assert r.Some? ==> table[1..][0..] == table[1..];
      r
  }

  /** getCredentialCategoryLabel: "Unknown" with no category (or an empty
      one), the declared label for a known one, the category itself else. */
  function CategoryLabel(category: Option<string>): (r: string)
    ensures !Truthy(category) ==> r == "Unknown"
    ensures Truthy(category) && LabelOf(category.value, CATEGORY_LABELS).None? ==> r == category.value
  {
    if !Truthy(category) then "Unknown"
    else LabelOf(category.value, CATEGORY_LABELS).GetOr(category.value)
  }

  /** Each of the three known categories shows its own label. */
  lemma KnownCategoryLabels()
    ensures CategoryLabel(Some("github-copilot")) == "GitHub Copilot"
    ensures CategoryLabel(Some("cursor")) == "Cursor"
    ensures CategoryLabel(Some("cluade-code")) == "Cluade Code"
  {
  }

  datatype CategoryOption = CategoryOption(value: string, caption: string)

  /** CREDENTIAL_CATEGORY_OPTIONS: one {value, label} per declared category
      (the label is `caption` here, `label` being a Dafny keyword),
      in declaration order. */
  function CategoryOptions(table: seq<(string, string)>): (r: seq<CategoryOption>)
    ensures |r| == |table|
    ensures forall k :: 0 <= k < |table| ==> r[k].value == table[k].0 && r[k].caption == table[k].1
  {
    seq(|table|, k requires 0 <= k < |table| => CategoryOption(table[k].0, table[k].1))
  }

  /** Every option of the menu shows what CategoryLabel shows for its value. */
  lemma OptionsAgreeWithLabels()
    ensures var opts := CategoryOptions(CATEGORY_LABELS);
      |opts| == 3 && forall k :: 0 <= k < |opts| ==> CategoryLabel(Some(opts[k].value)) == opts[k].caption
  {
  }

  const NOT_AVAILABLE := "N/A"

  /** maskCredentialPat: "N/A" with no token; a token of at most four
      characters is all stars; a longer one keeps its last four. */
  function MaskPat(pat: Option<string>): (r: string)
    ensures !Truthy(pat) ==> r == NOT_AVAILABLE
    ensures Truthy(pat) ==> |r| == |pat.value|
    ensures Truthy(pat) ==> forall i :: 0 <= i < |r| - 4 ==> r[i] == '*'
    ensures Truthy(pat) && |pat.value| <= 4 ==> forall i :: 0 <= i < |r| ==> r[i] == '*'
    ensures Truthy(pat) && |pat.value| > 4 ==> r[|r| - 4..] == pat.value[|pat.value| - 4..]
  {
    if !Truthy(pat) then NOT_AVAILABLE
    else if |pat.value| <= 4 then Repeat('*', |pat.value|)
    else
      var p := pat.value;
      var r := Repeat('*', |p| - 4) + p[|p| - 4..];
      assert r[|r| - 4..] == p[|p| - 4..];
      r
  }

  /** The mask reveals nothing but the last four characters: two tokens of
      the same length that end alike mask alike. */
  lemma MaskHidesAllButLastFour(a: string, b: string)
    requires |a| == |b| && |a| > 0
    requires |a| <= 4 || a[|a| - 4..] == b[|b| - 4..]
    ensures MaskPat(Some(a)) == MaskPat(Some(b))
  {
    var ma := MaskPat(Some(a));
    var mb := MaskPat(Some(b));
    assert |ma| == |mb|;
    forall i | 0 <= i < |ma| ensures ma[i] == mb[i] {
      if i >= |ma| - 4 && |a| > 4 {
        assert ma[i] == ma[|ma| - 4..][i - (|ma| - 4)];
        assert mb[i] == mb[|mb| - 4..][i - (|mb| - 4)];
      }
    }
  }
}

=== FILE: credential_routes.dfy ===
/** The /credentials routes: the owner-scoped table whose rows carry an
    agent access token (PAT), its category, and links to worker nodes, which
    the routes resolve against the node table. */
module CredentialRoutes {
  import opened Common
  import opened Text
  import opened Seqs
  import opened Models
  import opened OwnedStore

  /** The stored fields of a credential (the category is one of the agent
      kinds the frontend lists). */
  datatype CredentialFields = CredentialFields(title: string, category: string, pat: string, isDisabled: bool)

  /** A credential's fields and the ids of its linked nodes. */
  datatype CredentialData = CredentialData(fields: CredentialFields, nodeIds: seq<Id>)

  type Credential = Row<CredentialData>

  const CREDENTIAL := "Credential"

  /** The request body's bounds: the title is 1..255 characters long. */
  predicate ValidCredentialFields(f: CredentialFields) {
    1 <= |f.title| <= 255
  }

  // ------------------------------------------------------------ node links

  /** The requested ids that name no node, in ascending order, each once. */
  function MissingNodeIds(nodes: seq<Node>, ids: seq<Id>): (r: seq<Id>)
    ensures SortedBy(r, (a: Id, b: Id) => a <= b)
    ensures forall x :: x in r <==> x in ids && FindNode(nodes, x).None?
  {
    var missing := Dedup(Filter(ids, (x: Id) => FindNode(nodes, x).None?));
    var r := Sort(missing, (a: Id, b: Id) => a <= b);
    assert forall x :: x in r <==> x in multiset(missing);
    r
  }

  /** _resolve_nodes: no ids resolve to no nodes; an unknown id is a 404 that
      lists every unknown id; otherwise the nodes whose id was asked for, in
      table order, each once. */
  function ResolveNodes(nodes: seq<Node>, ids: seq<Id>): (r: Result<seq<Node>>)
    ensures r.Err? <==> exists k :: 0 <= k < |ids| && FindNode(nodes, ids[k]).None?
    ensures r.Err? ==>
      (r.error.code == 404
       && r.error.detail == "Nodes not found: " + Join(NatStrings(MissingNodeIds(nodes, ids)), ", "))
    ensures r.Ok? ==> forall n :: n in r.value <==> n in nodes && n.id in ids
    ensures ids == [] ==> r == Ok([])
  {
    if ids == [] then Ok([])
    else
      var missing := MissingNodeIds(nodes, ids);
      if missing != [] then
        assert missing[0] in ids;
        Err(HttpError(404, "Nodes not found: " + Join(NatStrings(missing), ", ")))
      else
        assert forall k :: 0 <= k < |ids| ==> FindNode(nodes, ids[k]).Some? by {
          forall k | 0 <= k < |ids| ensures FindNode(nodes, ids[k]).Some? {
            assert ids[k] in ids && ids[k] !in missing;
          }
        }
        Ok(Filter(nodes, (n: Node) => n.id in ids))
  }

  function IdsOf(ns: seq<Node>): (r: seq<Id>)
    ensures |r| == |ns| && forall k :: 0 <= k < |ns| ==> r[k] == ns[k].id
  {
    if ns == [] then [] else [ns[0].id] + IdsOf(ns[1..])
  }

  /** Every linked id names an existing node, and every requested id is linked. */
  lemma ResolvedLinksAreExact(nodes: seq<Node>, ids: seq<Id>)
    requires ResolveNodes(nodes, ids).Ok?
    ensures var links := IdsOf(ResolveNodes(nodes, ids).value);
      (forall x :: x in links ==> FindNode(nodes, x).Some?)
      && (forall x :: x in ids ==> x in links)
  {
    var found := ResolveNodes(nodes, ids).value;
    var links := IdsOf(found);
    forall x | x in links ensures FindNode(nodes, x).Some? {
      var k :| 0 <= k < |links| && links[k] == x;
      assert found[k] in nodes;
      var j :| 0 <= j < |nodes| && nodes[j] == found[k];
      assert nodes[j].id == x;
    }
    forall x | x in ids ensures x in links {
      var n := FindNode(nodes, x).value;
      assert n in found;
      var k :| 0 <= k < |found| && found[k] == n;
      assert links[k] == x;
    }
  }

  // ------------------------------------------------------------ the routes

  /** create_credential: 422 for a title outside its bounds; otherwise the
      request fields without node_ids, owned by the caller, linked to the
      resolved nodes; an unknown node id refuses the whole request and
      nothing is stored. */
  function CreateCredential(t: seq<Credential>, nodes: seq<Node>, user: User, f: CredentialFields,
                            nodeIds: seq<Id>, now: Time): (r: Result<(seq<Credential>, Credential)>)
    ensures !ValidCredentialFields(f) ==> r == Err(VALIDATION_FAILED)
    ensures ValidCredentialFields(f) ==>
      (r.Err? <==> ResolveNodes(nodes, nodeIds).Err?)
      && (r.Err? ==> r.error == ResolveNodes(nodes, nodeIds).error)
    ensures r.Ok? ==>
      var c := r.value.1;
      c.ownerId == user.id && c.fields.fields == f
      && c.fields.nodeIds == IdsOf(ResolveNodes(nodes, nodeIds).value)
      && |r.value.0| == |t| + 1 && r.value.0[..|t|] == t
      && Guard(r.value.0, user, c.id, CREDENTIAL) == Ok(c)
  {
    if !ValidCredentialFields(f) then Err(VALIDATION_FAILED)
    else match ResolveNodes(nodes, nodeIds)
    case Err(e) => Err(e)
    case Ok(found) => Ok(Create(t, user, CredentialData(f, IdsOf(found)), now))
  }

  /** CredentialUpdate: each field optional; node_ids given (even empty)
      replaces the links, left out keeps them. */
  datatype CredentialUpdate = CredentialUpdate(
    title: Patch<string>, category: Patch<string>, pat: Patch<string>, isDisabled: Patch<bool>,
    nodeIds: Option<seq<Id>>)

  /** CredentialUpdate's bounds: a supplied title is 1..255 characters long. */
  predicate ValidCredentialUpdate(u: CredentialUpdate) {
    u.title.Set? ==> 1 <= |u.title.value| <= 255
  }

  function ApplyCredentialFields(f: CredentialFields, u: CredentialUpdate): CredentialFields {
    CredentialFields(u.title.ApplyTo(f.title), u.category.ApplyTo(f.category), u.pat.ApplyTo(f.pat),
      u.isDisabled.ApplyTo(f.isDisabled))
  }

  /** update_credential: 422, then 404, then 400, then the node links are
      resolved (404 for an unknown one, nothing stored); the supplied fields
      change, the links change only when node_ids was given. */
  function UpdateCredential(t: seq<Credential>, nodes: seq<Node>, user: User, id: Id, u: CredentialUpdate)
    : (r: Result<(seq<Credential>, Credential)>)
    ensures !ValidCredentialUpdate(u) ==> r == Err(VALIDATION_FAILED)
    ensures ValidCredentialUpdate(u) && Guard(t, user, id, CREDENTIAL).Err? ==>
      r == Err(Guard(t, user, id, CREDENTIAL).error)
    ensures ValidCredentialUpdate(u) && Guard(t, user, id, CREDENTIAL).Ok? ==>
      (r.Err? <==> u.nodeIds.Some? && ResolveNodes(nodes, u.nodeIds.value).Err?)
    ensures r.Ok? ==>
      var before := Find(t, id).value;
      var c := r.value.1;
      c.id == id && c.ownerId == before.ownerId
      && c.fields.fields == ApplyCredentialFields(before.fields.fields, u)
      && (u.nodeIds.None? ==> c.fields.nodeIds == before.fields.nodeIds)
      && (u.nodeIds.Some? ==> c.fields.nodeIds == IdsOf(ResolveNodes(nodes, u.nodeIds.value).value))
      && Find(r.value.0, id) == Some(c)
      && forall other :: other != id ==> Find(r.value.0, other) == Find(t, other)
  {
    if !ValidCredentialUpdate(u) then Err(VALIDATION_FAILED)
    else match Guard(t, user, id, CREDENTIAL)
    case Err(e) => Err(e)
    case Ok(x) =>
      var links :=
        if u.nodeIds.None? then Ok(x.fields.nodeIds)
        else match ResolveNodes(nodes, u.nodeIds.value)
          case Err(e) => Err(e)
          case Ok(found) => Ok(IdsOf(found));
      match links
      case Err(e) => Err(e)
      case Ok(ids) =>
        Update(t, user, id, CREDENTIAL, (u, ids),
          (d: CredentialData, p: (CredentialUpdate, seq<Id>)) => CredentialData(ApplyCredentialFields(d.fields, p.0), p.1))
  }

  /** An update that gives neither fields nor node_ids leaves the row as it was. */
  lemma EmptyCredentialUpdate(t: seq<Credential>, nodes: seq<Node>, user: User, id: Id)
    requires Guard(t, user, id, CREDENTIAL).Ok?
    ensures UpdateCredential(t, nodes, user, id, CredentialUpdate(Keep, Keep, Keep, Keep, None)).Ok?
    ensures UpdateCredential(t, nodes, user, id, CredentialUpdate(Keep, Keep, Keep, Keep, None)).value.1
      == Find(t, id).value
  {
  }

  /** Giving an empty node_ids list removes every link; such a request fails
      only on its title. */
  lemma UpdateWithNoNodesUnlinks(t: seq<Credential>, nodes: seq<Node>, user: User, id: Id, u: CredentialUpdate)
    requires Guard(t, user, id, CREDENTIAL).Ok? && u.nodeIds == Some([])
    ensures UpdateCredential(t, nodes, user, id, u).Ok? <==> ValidCredentialUpdate(u)
    ensures UpdateCredential(t, nodes, user, id, u).Ok? ==>
      UpdateCredential(t, nodes, user, id, u).value.1.fields.nodeIds == []
  {
  }

  /** An accepted update keeps a credential within its bounds. */
  lemma CredentialUpdateKeepsBounds(t: seq<Credential>, nodes: seq<Node>, user: User, id: Id, u: CredentialUpdate)
    requires Find(t, id).Some? && ValidCredentialFields(Find(t, id).value.fields.fields)
    ensures var r := UpdateCredential(t, nodes, user, id, u);
      r.Ok? ==> ValidCredentialFields(r.value.1.fields.fields)
  {
  }
}

=== FILE: crud.dfy ===
/** The session-level helpers the services share: looking a user up by
    e-mail and checking the password, and the plain node and issue helpers,
    which apply no permission check of their own. Password hashing is a
    parameter. */
module Crud {
  import opened Common
  import opened Models

  /** A stored user: the e-mail is the login name. */
  datatype UserRecord = UserRecord(id: Id, email: string, hashedPassword: string, isSuperuser: bool)

  predicate UniqueEmails(users: seq<UserRecord>) {
    forall i, j :: 0 <= i < j < |users| ==> users[i].email != users[j].email
  }

  /** get_user_by_email: the first user with exactly this e-mail. */
  function UserByEmail(users: seq<UserRecord>, email: string): (r: Option<UserRecord>)
    ensures r.Some? ==> r.value in users && r.value.email == email
    ensures r.None? <==> forall k :: 0 <= k < |users| ==> users[k].email != email
  {
    if users == [] then None
    else if users[0].email == email then Some(users[0])
    else
      var r := UserByEmail(users[1..], email);
      assert r.None? ==> forall k :: 1 <= k < |users| ==> users[k] == users[1..][k - 1];
      r
  }

  /** A key no stored user has: stands for the database's new uuid. */
  function FreshUserId(users: seq<UserRecord>): (id: Id)
    ensures forall k :: 0 <= k < |users| ==> users[k].id < id
  {
    if users == [] then 0
    else
      var rest := FreshUserId(users[1..]);
      assert forall k :: 1 <= k < |users| ==> users[k] == users[1..][k - 1];
      if users[0].id < rest then rest else users[0].id + 1
  }

  /** create_user: the password is stored only as its hash; hash stands for
      the password hasher. The e-mail column is unique, so the commit of a
      second user with a taken e-mail fails (a 500 to the route that calls
      it) and nothing is stored. */
  function CreateUser(users: seq<UserRecord>, email: string, password: string, isSuperuser: bool,
                      hash: string -> string): (r: Result<(seq<UserRecord>, UserRecord)>)
    ensures r.Err? <==> exists k :: 0 <= k < |users| && users[k].email == email
    ensures r.Err? ==> r.error == INTERNAL_ERROR
    ensures r.Ok? ==> r.value.0 == users + [r.value.1]
    ensures r.Ok? ==>
      r.value.1.email == email && r.value.1.hashedPassword == hash(password) && r.value.1.isSuperuser == isSuperuser
    ensures r.Ok? ==> forall k :: 0 <= k < |users| ==> users[k].id != r.value.1.id
    ensures r.Ok? && UniqueEmails(users) ==> UniqueEmails(r.value.0)
  {
    if UserByEmail(users, email).Some? then Err(INTERNAL_ERROR)
    else
      var u := UserRecord(FreshUserId(users), email, hash(password), isSuperuser);
      Ok((users + [u], u))
  }

  /** A user created under an unused e-mail is the one that e-mail finds,
      and logs in with the password it was created with whenever the hasher's
      check accepts its own hashes; a taken e-mail is refused. */
  lemma CreateUserThenLogin(users: seq<UserRecord>, email: string, password: string, isSuperuser: bool,
                            hash: string -> string, verify: (string, string) -> bool)
    requires verify(password, hash(password))
    ensures var c := CreateUser(users, email, password, isSuperuser, hash);
      (c.Ok? <==> UserByEmail(users, email).None?)
      && (c.Ok? ==>
            UserByEmail(c.value.0, email) == Some(c.value.1)
            && Authenticate(c.value.0, email, password, verify) == Some(c.value.1))
  {
    var c := CreateUser(users, email, password, isSuperuser, hash);
    if c.Ok? {
      UserByEmailAppended(users, c.value.1);
    }
  }

  lemma {:induction false} UserByEmailAppended(users: seq<UserRecord>, u: UserRecord)
    requires UserByEmail(users, u.email).None?
    ensures UserByEmail(users + [u], u.email) == Some(u)
  {
    if users == [] {
      assert [u][0] == u;
    } else {
      assert (users + [u])[1..] == users[1..] + [u];
      UserByEmailAppended(users[1..], u);
    }
  }

  /** A lookup that already succeeds is not disturbed by later rows. */
  lemma {:induction false} UserByEmailPrefix(users: seq<UserRecord>, more: seq<UserRecord>, email: string)
    requires UserByEmail(users, email).Some?
    ensures UserByEmail(users + more, email) == UserByEmail(users, email)
  {
    if users[0].email != email {
      assert (users + more)[1..] == users[1..] + more;
      UserByEmailPrefix(users[1..], more, email);
    }
  }

  /** authenticate: no user with the e-mail, or a password that does not
      verify against the stored hash, gives None; otherwise that user.
      verify(password, hash) stands for the password hasher's check. */
  function Authenticate(users: seq<UserRecord>, email: string, password: string,
                        verify: (string, string) -> bool): (r: Option<UserRecord>)
    ensures r.Some? ==> r.value in users && r.value.email == email && verify(password, r.value.hashedPassword)
    ensures (forall k :: 0 <= k < |users| ==> users[k].email != email) ==> r.None?
  {
    match UserByEmail(users, email)
    case None => None
    case Some(u) => if verify(password, u.hashedPassword) then Some(u) else None
  }

  /** With unique e-mails, a user logs in with their own e-mail exactly when
      the password verifies against their hash. */
  lemma {:induction false} AuthenticateOwnEmail(users: seq<UserRecord>, k: nat, password: string,
                                                verify: (string, string) -> bool)
    requires UniqueEmails(users) && k < |users|
    ensures Authenticate(users, users[k].email, password, verify)
      == (if verify(password, users[k].hashedPassword) then Some(users[k]) else None)
  {
    UserByEmailUnique(users, k);
  }

  lemma {:induction false} UserByEmailUnique(users: seq<UserRecord>, k: nat)
    requires UniqueEmails(users) && k < |users|
    ensures UserByEmail(users, users[k].email) == Some(users[k])
  {
    if k > 0 {
      assert users[0].email != users[k].email;
      assert users[1..][k - 1] == users[k];
      assert UniqueEmails(users[1..]) by {
        forall i, j | 0 <= i < j < |users[1..]| ensures users[1..][i].email != users[1..][j].email {
          assert users[1..][i] == users[i + 1] && users[1..][j] == users[j + 1];
        }
      }
      UserByEmailUnique(users[1..], k - 1);
    }
  }

  // ------------------------------------------------------------------ nodes

  /** crud.update_node: the fields set in the request, plus a fresh
      updated_at; unlike the route, this helper stamps the time. */
  function UpdateNodeRow(n: Node, u: NodeUpdate, now: Time): (r: Node)
    ensures r.id == n.id && r.ownerId == n.ownerId && r.createdAt == n.createdAt
    ensures r.isPublic == n.isPublic && r.isDisabled == n.isDisabled && r.lastHeartbeat == n.lastHeartbeat
    ensures r.updatedAt == now
    ensures r.name == u.name.ApplyTo(n.name) && r.ip == u.ip.ApplyTo(n.ip)
    ensures r.description == u.description.ApplyTo(n.description) && r.tags == u.tags.ApplyTo(n.tags)
    ensures r.status == u.status.ApplyTo(n.status)
  {
    ApplyNodeUpdate(n, u).(updatedAt := now)
  }

  /** The partial update of the node tests: changing only the status keeps
      the name and the address. */
  lemma UpdateNodeStatusOnly(n: Node, status: string, now: Time)
    ensures var r := UpdateNodeRow(n, NodeUpdate(Keep, Keep, Keep, Keep, Set(Some(status))), now);
      r.status == Some(status) && r.name == n.name && r.ip == n.ip && r.id == n.id
      && NodeFieldsOf(r) == NodeFieldsOf(n).(status := Some(status))
  {
  }

  /** crud.delete_node: the row goes if it is there; an unknown id is a
      silent no-op. */
  function DeleteNodeRow(t: seq<Node>, id: Id): (r: seq<Node>)
    ensures FindNode(r, id).None?
    ensures forall x :: x in r <==> x in t && x.id != id
    ensures FindNode(t, id).None? ==> r == t
  {
    RemoveNodeAbsent(t, id);
    RemoveNode(t, id)
  }

  lemma {:induction false} RemoveNodeAbsent(t: seq<Node>, id: Id)
    ensures FindNode(t, id).None? ==> RemoveNode(t, id) == t
  {
    if t != [] && t[0].id != id {
      RemoveNodeAbsent(t[1..], id);
      assert t == [t[0]] + t[1..];
    }
  }

  /** get_node after delete_node reads nothing, and a second delete changes nothing. */
  lemma DeleteNodeThenGet(t: seq<Node>, id: Id)
    ensures FindNode(DeleteNodeRow(t, id), id).None?
    ensures DeleteNodeRow(DeleteNodeRow(t, id), id) == DeleteNodeRow(t, id)
  {
  }

  // ----------------------------------------------------------------- issues

  /** crud.create_issue: the request fields, the given owner, and one clock
      reading for both created_at and updated_at. */
  function CreateIssueRow(t: seq<Issue>, f: IssueFields, ownerId: Id, now: Time): (r: (seq<Issue>, Issue))
    ensures r.0 == t + [r.1]
    ensures FieldsOf(r.1) == f && r.1.ownerId == ownerId
    ensures r.1.createdAt == r.1.updatedAt == now
    ensures FindIssue(t, r.1.id).None?
    ensures r.1.startedAt.None? && r.1.completedAt.None?
  {
    var i := NewIssue(FreshIssueId(t), ownerId, f, now);
    (t + [i], i)
  }

  /** crud.delete_issue: the row goes if it is there; an unknown id is a
      silent no-op. */
  function DeleteIssueRow(t: seq<Issue>, id: Id): (r: seq<Issue>)
    ensures FindIssue(r, id).None?
    ensures forall x :: x in r <==> x in t && x.id != id
    ensures FindIssue(t, id).None? ==> r == t
  {
    RemoveIssueAbsent(t, id);
    RemoveIssue(t, id)
  }

  lemma {:induction false} RemoveIssueAbsent(t: seq<Issue>, id: Id)
    ensures FindIssue(t, id).None? ==> RemoveIssue(t, id) == t
  {
    if t != [] && t[0].id != id {
      RemoveIssueAbsent(t[1..], id);
      assert t == [t[0]] + t[1..];
    }
  }

  /** A created issue is found again by its id until it is deleted. */
  lemma CreateThenDeleteIssue(t: seq<Issue>, f: IssueFields, ownerId: Id, now: Time)
    ensures var (t2, i) := CreateIssueRow(t, f, ownerId, now);
      FindIssue(t2, i.id) == Some(i) && DeleteIssueRow(t2, i.id) == t
  {
    var (t2, i) := CreateIssueRow(t, f, ownerId, now);
    FindIssueAppended(t, i);
    RemoveIssueAppended(t, i);
  }

  lemma {:induction false} FindIssueAppended(t: seq<Issue>, i: Issue)
    requires FindIssue(t, i.id).None?
    ensures FindIssue(t + [i], i.id) == Some(i)
  {
    if t != [] {
      assert (t + [i])[1..] == t[1..] + [i];
      FindIssueAppended(t[1..], i);
    }
  }

  lemma {:induction false} RemoveIssueAppended(t: seq<Issue>, i: Issue)
    requires FindIssue(t, i.id).None?
    ensures RemoveIssue(t + [i], i.id) == t
  {
    if t == [] {
      assert [i][1..] == [];
    } else {
      assert (t + [i])[1..] == t[1..] + [i];
      RemoveIssueAppended(t[1..], i);
      assert t == [t[0]] + t[1..];
    }
  }
}

=== FILE: dashboard.dfy ===
/** The dashboard statistics route: issue and node counts, entity counts and
    the list of running tasks with their elapsed time. A superuser sees every
    row; anyone else sees the rows they own (for running nodes: the nodes they
    own). The clock is a parameter. */
module Dashboard {
  import opened Common
  import opened Text
  import opened Seqs
  import opened Models
  import opened OwnedStore
  import IssueRoutes

  // ---------------------------------------------------------- format_duration

  /** Elapsed time split into hours, minutes and seconds. */
  datatype Hms = Hms(hours: int, minutes: nat, seconds: nat)

  /** The // and % arithmetic of format_duration. Python's floor division and
      remainder agree with Dafny's for a positive divisor, so for a negative
      total the hours are negative and the remainder still lies in [0, 3600). */
  function Decompose(total: int): (r: Hms)
    ensures 3600 * r.hours + 60 * r.minutes + r.seconds == total
    ensures r.minutes < 60 && r.seconds < 60
    ensures total >= 0 ==> r.hours >= 0
    ensures total < 0 ==> r.hours < 0
  {
    var h := total / 3600;
    var rem := total % 3600;
    DivMod(total, 3600);
    DivMod(rem, 60);
    RemainderOfRemainder(total, h, rem / 60, rem % 60);
    Hms(h, rem / 60, total % 60)
  }

  /** Euclidean division by a positive constant. */
  lemma DivMod(x: int, d: int)
    requires d > 0
    ensures x == d * (x / d) + x % d && 0 <= x % d < d
  {
  }

  /** The seconds left after whole hours are the seconds left after whole minutes. */
  lemma RemainderOfRemainder(total: int, h: int, m: int, sec: int)
    requires total == 3600 * h + 60 * m + sec && 0 <= sec < 60
    ensures total % 60 == sec
  {
    assert total == 60 * (60 * h + m) + sec;
  }

  /** The pieces the formatted string is made of: hours only when there are
      whole hours, minutes when there are hours or minutes, seconds always. */
  function DurationParts(d: Hms): seq<string> {
    if d.hours > 0 then [NatToString(d.hours) + "h", NatToString(d.minutes) + "m", NatToString(d.seconds) + "s"]
    else if d.minutes > 0 then [NatToString(d.minutes) + "m", NatToString(d.seconds) + "s"]
    else [NatToString(d.seconds) + "s"]
  }

  /** format_duration(started_at) read at clock reading now. */
  function FormatDuration(startedAt: Time, now: Time): (r: string)
    ensures 0 <= now - startedAt < 60 ==> r == NatToString(now - startedAt) + "s"
  {
    Join(DurationParts(Decompose(now - startedAt)), " ")
  }

  /** One piece "<digits><unit>" read back. */
  function ReadPart(part: string, unit: char): Option<nat> {
    if |part| >= 2 && part[|part| - 1] == unit && forall i :: 0 <= i < |part| - 1 ==> IsDigit(part[i])
    then Some(ParseNat(part[..|part| - 1]))
    else None
  }

  /** The pieces of a duration string read back into seconds: "Hh Mm Ss",
      "Mm Ss" or "Ss". */
  function ReadParts(parts: seq<string>): Option<int> {
    if |parts| == 3 then
      match (ReadPart(parts[0], 'h'), ReadPart(parts[1], 'm'), ReadPart(parts[2], 's'))
      case (Some(h), Some(m), Some(x)) => Some(3600 * h + 60 * m + x)
      case _ => None
    else if |parts| == 2 then
      match (ReadPart(parts[0], 'm'), ReadPart(parts[1], 's'))
      case (Some(m), Some(x)) => Some(60 * m + x)
      case _ => None
    else if |parts| == 1 then ReadPart(parts[0], 's')
    else None
  }

  /** A duration string read back into seconds. */
  function ReadDuration(s: string): Option<int> {
    ReadParts(Split(s, ' '))
  }

  lemma ReadPartOf(n: nat, unit: char)
    requires !IsDigit(unit) && unit != ' '
    ensures ReadPart(NatToString(n) + [unit], unit) == Some(n)
    ensures ' ' !in NatToString(n) + [unit]
  {
    var part := NatToString(n) + [unit];
    assert part[..|part| - 1] == NatToString(n);
    assert forall i :: 0 <= i < |part| ==> part[i] == unit || IsDigit(part[i]);
    NatToStringRoundTrip(n);
  }

  /** The pieces of a decomposition are read back as the seconds it stands
      for, less the negative hours, which are never printed. */
  lemma ReadDurationParts(d: Hms)
    requires d.minutes < 60 && d.seconds < 60
    ensures ReadDuration(Join(DurationParts(d), " "))
      == Some(if d.hours > 0 then 3600 * d.hours + 60 * d.minutes + d.seconds else 60 * d.minutes + d.seconds)
  {
    SplitDurationParts(d);
    ReadPartsOf(d);
  }

  lemma ReadPartsOf(d: Hms)
    ensures ReadParts(DurationParts(d))
      == Some(if d.hours > 0 then 3600 * d.hours + 60 * d.minutes + d.seconds else 60 * d.minutes + d.seconds)
  {
    var m := NatToString(d.minutes) + "m";
    var x := NatToString(d.seconds) + "s";
    assert "m" == ['m'] && "s" == ['s'] && "h" == ['h'];
    ReadPartOf(d.minutes, 'm');
    ReadPartOf(d.seconds, 's');
    if d.hours > 0 {
      ReadPartOf(d.hours, 'h');
      assert DurationParts(d) == [NatToString(d.hours) + "h", m, x];
    } else if d.minutes > 0 {
      assert DurationParts(d) == [m, x];
    } else {
      assert DurationParts(d) == [x];
    }
  }

  /** The printed string splits on blanks into exactly its pieces. */
  lemma SplitDurationParts(d: Hms)
    ensures Split(Join(DurationParts(d), " "), ' ') == DurationParts(d)
  {
    var m := NatToString(d.minutes) + "m";
    var x := NatToString(d.seconds) + "s";
    NoBlank(d.minutes, 'm');
    NoBlank(d.seconds, 's');
    if d.hours > 0 {
      var h := NatToString(d.hours) + "h";
      NoBlank(d.hours, 'h');
      assert DurationParts(d) == [h, m, x];
      JoinSplitBlank([h, m, x]);
    } else if d.minutes > 0 {
      assert DurationParts(d) == [m, x];
      JoinSplitBlank([m, x]);
    } else {
      assert DurationParts(d) == [x];
      JoinSplitBlank([x]);
    }
  }

  lemma NoBlank(n: nat, unit: char)
    requires unit != ' '
    ensures ' ' !in NatToString(n) + [unit]
  {
  }

  lemma JoinSplitBlank(parts: seq<string>)
    requires |parts| >= 1 && forall k :: 0 <= k < |parts| ==> ' ' !in parts[k]
    ensures Split(Join(parts, " "), ' ') == parts
  {
    assert " " == [' '];
    JoinSplit(parts, ' ');
  }

  /** The printed duration is the elapsed time exactly: reading it back gives
      the seconds between the two readings. */
  lemma FormatDurationRoundTrip(startedAt: Time, now: Time)
    requires startedAt <= now
    ensures ReadDuration(FormatDuration(startedAt, now)) == Some(now - startedAt)
  {
    var d := Decompose(now - startedAt);
    ReadDurationParts(d);
  }

  /** A start time ahead of the clock prints as the remainder modulo an hour:
      one second in the future reads "59m 59s". */
  lemma FormatDurationFuture(startedAt: Time, now: Time)
    requires now < startedAt
    ensures ReadDuration(FormatDuration(startedAt, now)) == Some((now - startedAt) % 3600)
    ensures now == startedAt - 1 ==> FormatDuration(startedAt, now) == "59m 59s"
  {
    var d := Decompose(now - startedAt);
    ReadDurationParts(d);
    assert 60 * d.minutes + d.seconds == (now - startedAt) % 3600;
    if now == startedAt - 1 {
      assert d == Hms(-1, 59, 59);
      assert NatToString(59) == "59";
    }
  }

  /** The shape of the string follows the size of the elapsed time. */
  lemma FormatDurationShape(startedAt: Time, now: Time)
    requires startedAt <= now
    ensures var n := |Split(FormatDuration(startedAt, now), ' ')|;
      (now - startedAt >= 3600 ==> n == 3)
      && (60 <= now - startedAt < 3600 ==> n == 2)
      && (now - startedAt < 60 ==> n == 1)
  {
    SplitDurationParts(Decompose(now - startedAt));
  }

  // -------------------------------------------------------------- node counts

  /** Idle nodes: the online nodes not accounted for by running ones, never
      below zero. */
  function IdleCount(online: nat, running: nat): (r: nat)
    ensures r <= online
    ensures online <= r + running
    ensures r == 0 || r + running == online
  {
    if online > running then online - running else 0
  }

  /** The ids the COUNT(DISTINCT assigned_node_id) sees: the assigned node of
      every processing issue, NULLs left out. */
  function ProcessingNodeIds(issues: seq<Issue>): (r: seq<Id>)
    ensures forall x :: x in r <==>
      exists k :: 0 <= k < |issues| && issues[k].status == PROCESSING && issues[k].assignedNodeId == Some(x)
  {
    if issues == [] then []
    else
      var rest := ProcessingNodeIds(issues[1..]);
      assert forall k :: 1 <= k < |issues| ==> issues[k] == issues[1..][k - 1];
      var i := issues[0];
      if i.status == PROCESSING && i.assignedNodeId.Some? then [i.assignedNodeId.value] + rest else rest
  }

  predicate NodeOwnedBy(nodes: seq<Node>, id: Id, ownerId: Id) {
    exists k :: 0 <= k < |nodes| && nodes[k].id == id && nodes[k].ownerId == ownerId
  }

  /** The nodes counted as running: for a superuser every node id a
      processing issue is assigned to; for anyone else only those that join
      a node of theirs. */
  function RunningNodeIds(issues: seq<Issue>, nodes: seq<Node>, user: User): (r: seq<Id>)
    ensures forall i, j :: 0 <= i < j < |r| ==> r[i] != r[j]
    ensures forall x :: x in r <==>
      (exists k :: 0 <= k < |issues| && issues[k].status == PROCESSING && issues[k].assignedNodeId == Some(x))
      && (user.isSuperuser || NodeOwnedBy(nodes, x, user.id))
  {
    Dedup(Filter(ProcessingNodeIds(issues), CountsAsRunning(nodes, user)))
  }

  /** The join's condition on a running node id: any node for a superuser. */
  function CountsAsRunning(nodes: seq<Node>, user: User): Id -> bool {
    (x: Id) => user.isSuperuser || NodeOwnedBy(nodes, x, user.id)
  }

  datatype NodeStats = NodeStats(idle: nat, running: nat, offline: nat, total: nat)

  predicate IsOnline(n: Node) {
    n.status == Some(ONLINE)
  }

  predicate IsOffline(n: Node) {
    n.status == Some(OFFLINE)
  }

  function ScopedNodes(nodes: seq<Node>, user: User): seq<Node> {
    Filter(nodes, (n: Node) => MayAccess(user, n.ownerId))
  }

  /** The online nodes the caller may see. */
  function OnlineCount(nodes: seq<Node>, user: User): nat {
    CountWhere(ScopedNodes(nodes, user), IsOnline)
  }

  function NodeStatsOf(nodes: seq<Node>, issues: seq<Issue>, user: User): (r: NodeStats)
    ensures r.idle + r.offline <= r.total
    ensures r.running == |RunningNodeIds(issues, nodes, user)|
    ensures r.total == |ScopedNodes(nodes, user)|
    ensures r.idle == IdleCount(OnlineCount(nodes, user), r.running)
    ensures r.offline == CountWhere(ScopedNodes(nodes, user), IsOffline)
  {
    var scoped := ScopedNodes(nodes, user);
    var online := OnlineCount(nodes, user);
    var offline := CountWhere(scoped, IsOffline);
    CountDisjoint(scoped, IsOnline, IsOffline);
    var running := |RunningNodeIds(issues, nodes, user)|;
    NodeStats(IdleCount(online, running), running, offline, |scoped|)
  }

  /** With no nodes every node count is zero. */
  lemma NodeStatsEmpty(issues: seq<Issue>, user: User)
    ensures var r := NodeStatsOf([], issues, user);
      r.idle == 0 && r.offline == 0 && r.total == 0 && OnlineCount([], user) == 0
  {
  }

  /** One more node moves the total, and the online or offline count its
      status puts it in, by exactly one when the caller may see it, and
      nothing otherwise; for a superuser the running count stays, so the
      idle count follows the online one. Together with NodeStatsEmpty this
      fixes the counts of every table. */
  lemma NodeStatsAppend(nodes: seq<Node>, issues: seq<Issue>, user: User, n: Node)
    ensures var before := NodeStatsOf(nodes, issues, user);
      var after := NodeStatsOf(nodes + [n], issues, user);
      var seen := MayAccess(user, n.ownerId);
      after.total == before.total + (if seen then 1 else 0)
      && after.offline == before.offline + (if seen && IsOffline(n) then 1 else 0)
      && OnlineCount(nodes + [n], user) == OnlineCount(nodes, user) + (if seen && IsOnline(n) then 1 else 0)
      && (user.isSuperuser ==> after.running == before.running)
  {
    CountFilterSnoc(nodes, n, (m: Node) => MayAccess(user, m.ownerId), IsOffline);
    CountFilterSnoc(nodes, n, (m: Node) => MayAccess(user, m.ownerId), IsOnline);
    if user.isSuperuser {
      FilterCongruent(ProcessingNodeIds(issues), CountsAsRunning(nodes, user), CountsAsRunning(nodes + [n], user));
    }
  }

  // ------------------------------------------------------------- issue counts

  datatype IssueStats = IssueStats(pending: nat, processing: nat, total: nat)

  /** The issues the caller's counts cover. */
  function InScope(user: User): Issue -> bool {
    (i: Issue) => MayAccess(user, i.ownerId)
  }

  function ScopedIssues(issues: seq<Issue>, user: User): seq<Issue> {
    Filter(issues, InScope(user))
  }

  predicate IsPending(i: Issue) {
    i.status == PENDING
  }

  predicate IsProcessing(i: Issue) {
    i.status == PROCESSING
  }

  function IssueStatsOf(issues: seq<Issue>, user: User): (r: IssueStats)
    ensures r.pending + r.processing <= r.total
    ensures r.total <= |issues|
    ensures user.isSuperuser ==> r.total == |issues|
  {
    var scoped := ScopedIssues(issues, user);
    CountDisjoint(scoped, IsPending, IsProcessing);
    ScopedIssuesAll(issues, user);
    IssueStats(CountWhere(scoped, IsPending), CountWhere(scoped, IsProcessing), |scoped|)
  }

  lemma ScopedIssuesAll(issues: seq<Issue>, user: User)
    ensures user.isSuperuser ==> ScopedIssues(issues, user) == issues
  {
    if user.isSuperuser {
      FilterAll(issues, InScope(user));
    }
  }

  /** With no issues every issue count is zero. */
  lemma IssueStatsEmpty(user: User)
    ensures IssueStatsOf([], user) == IssueStats(0, 0, 0)
  {
  }

  /** One more issue the caller may see raises the total by one, and the
      pending or processing count by one when it has that status; anyone
      else's issue changes nothing. Together with IssueStatsEmpty this fixes
      the counts of every table. */
  lemma IssueStatsAppend(issues: seq<Issue>, user: User, i: Issue)
    ensures var s := IssueStatsOf(issues, user);
      IssueStatsOf(issues + [i], user)
        == if MayAccess(user, i.ownerId)
           then IssueStats(s.pending + (if i.status == PENDING then 1 else 0),
                           s.processing + (if i.status == PROCESSING then 1 else 0),
                           s.total + 1)
           else s
  {
    CountFilterSnoc(issues, i, InScope(user), IsPending);
    CountFilterSnoc(issues, i, InScope(user), IsProcessing);
  }

  /** Someone else's issue does not move an ordinary user's counts. */
  lemma IssueStatsIgnoreOthers(issues: seq<Issue>, user: User, other: Issue)
    requires !user.isSuperuser && other.ownerId != user.id
    ensures IssueStatsOf(issues + [other], user) == IssueStatsOf(issues, user)
  {
    FilterAppend(issues, [other], InScope(user));
    assert [other][1..] == [];
    assert Filter([other], InScope(user)) == [];
    assert ScopedIssues(issues + [other], user) == ScopedIssues(issues, user);
  }

  /** The dashboard's issue total is the count the issue list reports to the
      same caller. */
  lemma IssueTotalIsListCount(issues: seq<Issue>, user: User)
    ensures IssueStatsOf(issues, user).total == |IssueRoutes.Visible(issues, user)|
  {
    FilterCongruent(issues, InScope(user), (i: Issue) => MayAccess(user, i.ownerId));
  }

  // ------------------------------------------------------------ running tasks

  /** A task row: the unit of work of one issue on one node. */
  datatype Task = Task(id: Id, issueId: Id, nodeId: Option<Id>, status: string, ownerId: Id,
                       startedAt: Option<Time>)

  const TASK_RUNNING := "running"
  const RUNNING_TASKS_LIMIT: nat := 10

  /** A row of the task-issue-node join. */
  datatype Joined = Joined(task: Task, issue: Issue, node: Node)

  /** The inner joins on the primary keys: a task whose issue or node is
      missing (or has no node) drops out. */
  function JoinTasks(tasks: seq<Task>, issues: seq<Issue>, nodes: seq<Node>): (r: seq<Joined>)
    ensures forall j :: j in r <==> j.task in tasks && Joins(j, issues, nodes)
  {
    if tasks == [] then []
    else
      var t := tasks[0];
      var rest := JoinTasks(tasks[1..], issues, nodes);
      assert forall x :: x in tasks <==> x == t || x in tasks[1..];
      var i := FindIssue(issues, t.issueId);
      var n := if t.nodeId.Some? then FindNode(nodes, t.nodeId.value) else None;
      if i.Some? && n.Some? then [Joined(t, i.value, n.value)] + rest else rest
  }

  /** The join condition: the row's issue and node are the ones its task names. */
  predicate Joins(j: Joined, issues: seq<Issue>, nodes: seq<Node>) {
    FindIssue(issues, j.task.issueId) == Some(j.issue)
    && j.task.nodeId.Some? && FindNode(nodes, j.task.nodeId.value) == Some(j.node)
  }

  /** The WHERE of the running-task query. */
  predicate Selected(j: Joined, user: User) {
    j.task.status == TASK_RUNNING && MayAccess(user, j.task.ownerId)
  }

  /** ORDER BY task.started_at DESC: newer first, and NULLs ahead of every
      value, as PostgreSQL sorts them in descending order. */
  predicate NewerFirst(a: Joined, b: Joined) {
    match (a.task.startedAt, b.task.startedAt)
    case (None, _) => true
    case (Some(_), None) => false
    case (Some(x), Some(y)) => x >= y
  }

  lemma NewerFirstOrders()
    ensures Total(NewerFirst) && Transitive(NewerFirst)
  {
  }

  datatype RunningTask = RunningTask(taskId: Id, issueId: Id, issueTitle: string, nodeName: string,
                                     runningTime: string, startedAt: Time)

  predicate HasStart(j: Joined) {
    j.task.startedAt.Some?
  }

  function ToRunning(j: Joined, now: Time): RunningTask
    requires HasStart(j)
  {
    RunningTask(j.task.id, j.issue.id, j.issue.title, j.node.name,
                FormatDuration(j.task.startedAt.value, now), j.task.startedAt.value)
  }

  /** The joined, selected rows in query order, before LIMIT. */
  function Candidates(tasks: seq<Task>, issues: seq<Issue>, nodes: seq<Node>, user: User): (r: seq<Joined>)
    ensures SortedBy(r, NewerFirst)
    ensures multiset(r) == multiset(RunningRows(tasks, issues, nodes, user))
    ensures |r| == |RunningRows(tasks, issues, nodes, user)|
  {
    NewerFirstOrders();
    Sort(RunningRows(tasks, issues, nodes, user), NewerFirst)
  }

  /** The joined rows the WHERE keeps, in table order. */
  function RunningRows(tasks: seq<Task>, issues: seq<Issue>, nodes: seq<Node>, user: User): (r: seq<Joined>)
    ensures forall j :: j in r <==> j in JoinTasks(tasks, issues, nodes) && Selected(j, user)
  {
    Filter(JoinTasks(tasks, issues, nodes), (j: Joined) => Selected(j, user))
  }

  /** LIMIT 10 over the ordered rows. */
  function Top(tasks: seq<Task>, issues: seq<Issue>, nodes: seq<Node>, user: User): (r: seq<Joined>)
    ensures |r| <= RUNNING_TASKS_LIMIT && SortedBy(r, NewerFirst)
  {
    var rows := Candidates(tasks, issues, nodes, user);
    rows[..Min(RUNNING_TASKS_LIMIT, |rows|)]
  }

  /** The response rows for query rows that have a start time. */
  function Listed(started: seq<Joined>, now: Time): (r: seq<RunningTask>)
    requires forall k :: 0 <= k < |started| ==> HasStart(started[k])
    ensures |r| == |started|
    ensures forall k :: 0 <= k < |started| ==> r[k] == ToRunning(started[k], now)
  {
    seq(|started|, k requires 0 <= k < |started| => ToRunning(started[k], now))
  }

  /** The running-task list: LIMIT 10 over the ordered rows, then the rows
      without a start time are skipped. */
  function RunningTasks(tasks: seq<Task>, issues: seq<Issue>, nodes: seq<Node>, user: User, now: Time)
    : (r: seq<RunningTask>)
    ensures |r| <= RUNNING_TASKS_LIMIT
    ensures forall i, j :: 0 <= i < j < |r| ==> r[i].startedAt >= r[j].startedAt
  {
    var top := Top(tasks, issues, nodes, user);
    FilterSorted(top, HasStart, NewerFirst);
    Listed(Filter(top, HasStart), now)
  }

  /** Each listed task is a running task the caller may see, with an issue, a
      node and a start time, and its elapsed time is printed from that start. */
  lemma RunningTasksAreRunning(tasks: seq<Task>, issues: seq<Issue>, nodes: seq<Node>, user: User, now: Time)
    ensures forall r :: r in RunningTasks(tasks, issues, nodes, user, now) ==>
      exists j :: j in JoinTasks(tasks, issues, nodes) && Selected(j, user) && HasStart(j) && r == ToRunning(j, now)
  {
    var rows := Candidates(tasks, issues, nodes, user);
    var top := Top(tasks, issues, nodes, user);
    var started := Filter(top, HasStart);
    var sel := RunningRows(tasks, issues, nodes, user);
    var res := RunningTasks(tasks, issues, nodes, user, now);
    assert res == Listed(started, now);
    forall r | r in res
      ensures exists j :: j in JoinTasks(tasks, issues, nodes) && Selected(j, user) && HasStart(j) && r == ToRunning(j, now)
    {
      var k :| 0 <= k < |started| && res[k] == r;
      var j := started[k];
      assert j in top;
      assert j in rows;
      assert j in multiset(rows);
      assert j in sel;
    }
  }

  /** In rows ordered newest first, a row with a later start comes earlier. */
  lemma SortedBefore(rows: seq<Joined>, i: nat, p: nat)
    requires SortedBy(rows, NewerFirst) && i < |rows| && p < |rows|
    requires HasStart(rows[i]) && HasStart(rows[p])
    requires rows[p].task.startedAt.value < rows[i].task.startedAt.value
    ensures i < p
  {
    assert p < i ==> NewerFirst(rows[p], rows[i]);
  }

  /** A started row of the top ten is in the response. */
  lemma ListedHas(top: seq<Joined>, j: Joined, now: Time)
    requires j in top && HasStart(j)
    ensures ToRunning(j, now) in Listed(Filter(top, HasStart), now)
  {
    var started := Filter(top, HasStart);
    assert j in started;
    var q :| 0 <= q < |started| && started[q] == j;
    assert Listed(started, now)[q] == ToRunning(j, now);
  }

  /** The list is the newest ones: a running task with a start time that is
      missing from the list is no newer than anything listed. */
  lemma RunningTasksNewestFirst(tasks: seq<Task>, issues: seq<Issue>, nodes: seq<Node>, user: User, now: Time,
                                j: Joined)
    requires j in JoinTasks(tasks, issues, nodes) && Selected(j, user) && HasStart(j)
    ensures var r := RunningTasks(tasks, issues, nodes, user, now);
      forall k :: 0 <= k < |r| && r[k].startedAt < j.task.startedAt.value ==> ToRunning(j, now) in r
  {
    var rows := Candidates(tasks, issues, nodes, user);
    var top := Top(tasks, issues, nodes, user);
    var n := |top|;
    assert top == rows[..n];
    var started := Filter(top, HasStart);
    var r := RunningTasks(tasks, issues, nodes, user, now);
    assert r == Listed(started, now);
    var i := CandidateIndex(tasks, issues, nodes, user, j);
    forall k | 0 <= k < |r| && r[k].startedAt < j.task.startedAt.value ensures ToRunning(j, now) in r {
      var y := started[k];
      assert y in top;
      var p :| 0 <= p < n && top[p] == y;
      SortedBefore(rows, i, p);
      assert top[i] == j;
      ListedHas(top, j, now);
    }
  }

  /** With at most ten running rows, every one with a start time is listed. */
  lemma RunningTasksAllWhenFew(tasks: seq<Task>, issues: seq<Issue>, nodes: seq<Node>, user: User, now: Time,
                               j: Joined)
    requires j in JoinTasks(tasks, issues, nodes) && Selected(j, user) && HasStart(j)
    requires |RunningRows(tasks, issues, nodes, user)| <= RUNNING_TASKS_LIMIT
    ensures ToRunning(j, now) in RunningTasks(tasks, issues, nodes, user, now)
  {
    var rows := Candidates(tasks, issues, nodes, user);
    var i := CandidateIndex(tasks, issues, nodes, user, j);
    assert Top(tasks, issues, nodes, user) == rows;
    ListedHas(rows, j, now);
  }

  /** A running row the caller may see has a place in the ordered rows. */
  lemma CandidateIndex(tasks: seq<Task>, issues: seq<Issue>, nodes: seq<Node>, user: User, j: Joined)
    returns (i: nat)
    requires j in JoinTasks(tasks, issues, nodes) && Selected(j, user)
    ensures i < |Candidates(tasks, issues, nodes, user)| && Candidates(tasks, issues, nodes, user)[i] == j
  {
    var rows := Candidates(tasks, issues, nodes, user);
    assert j in RunningRows(tasks, issues, nodes, user);
    assert j in multiset(rows);
    i :| 0 <= i < |rows| && rows[i] == j;
  }

  // ----------------------------------------------------------- the whole page

  datatype DashboardStats = DashboardStats(
    issues: IssueStats,
    nodes: NodeStats,
    projectsCount: nat,
    promptsCount: nat,
    credentialsCount: nat,
    repositoriesCount: nat,
    runningTasks: seq<RunningTask>)

  /** get_dashboard_stats: every count and the task list over the rows the
      caller may see. */
  function Stats<P(==,!new), Q(==,!new), C(==,!new), R(==,!new)>(
    user: User, issues: seq<Issue>, nodes: seq<Node>, tasks: seq<Task>,
    projects: seq<Row<P>>, prompts: seq<Row<Q>>, credentials: seq<Row<C>>,
    repositories: seq<Row<R>>, now: Time): (r: DashboardStats)
    ensures r.issues.pending + r.issues.processing <= r.issues.total
    ensures r.issues.total == |IssueRoutes.Visible(issues, user)|
    ensures r.nodes.idle + r.nodes.offline <= r.nodes.total
    ensures r.nodes.total == |ScopedNodes(nodes, user)|
    ensures r.projectsCount == |Visible(projects, user)| && r.promptsCount == |Visible(prompts, user)|
    ensures r.credentialsCount == |Visible(credentials, user)|
    ensures r.repositoriesCount == |Visible(repositories, user)|
    ensures |r.runningTasks| <= RUNNING_TASKS_LIMIT
  {
    IssueTotalIsListCount(issues, user);
    DashboardStats(IssueStatsOf(issues, user), NodeStatsOf(nodes, issues, user),
                   ScopedCount(projects, user), ScopedCount(prompts, user),
                   ScopedCount(credentials, user), ScopedCount(repositories, user),
                   RunningTasks(tasks, issues, nodes, user, now))
  }

  /** COUNT(*) of a table, restricted to the caller's rows unless superuser:
      the count the table's own list route reports. */
  function ScopedCount<F(==,!new)>(t: seq<Row<F>>, user: User): (n: nat)
    ensures n <= |t|
    ensures user.isSuperuser ==> n == |t|
    ensures n == |Visible(t, user)|
  {
    if user.isSuperuser then
      FilterAll(t, (x: Row<F>) => MayAccess(user, x.ownerId));
      |t|
    else
      CountOwnedVisible(t, user);
      CountOwned(t, user.id)
  }

  function CountOwned<F>(t: seq<Row<F>>, ownerId: Id): (n: nat)
    ensures n <= |t|
  {
    if t == [] then 0 else (if t[0].ownerId == ownerId then 1 else 0) + CountOwned(t[1..], ownerId)
  }

  lemma {:induction false} CountOwnedVisible<F(!new)>(t: seq<Row<F>>, user: User)
    requires !user.isSuperuser
    ensures CountOwned(t, user.id) == |Visible(t, user)|
  {
    if t != [] {
      CountOwnedVisible(t[1..], user);
    }
  }
}

=== FILE: github_sync.dfy ===
/** Importing GitHub issues: the paginated listing of a repository's issues
    (pull requests dropped), the priority derived from labels, and the upsert
    of the listed issues into the issue table. The GitHub API is a parameter:
    the pages it would return for the query. */
module GitHubSync {
  import opened Common
  import opened Text
  import opened Seqs
  import opened Models

  /** One element of a GitHub issues page. */
  datatype GhItem = GhItem(number: int, title: string, labels: seq<string>, isPullRequest: bool)

  const PER_PAGE: nat := 100

  predicate NotPullRequest(x: GhItem) {
    !x.isPullRequest
  }

  /** The raw page with 1-based number `page`; past the end GitHub answers []. */
  function PageAt(pages: seq<seq<GhItem>>, page: nat): seq<GhItem> {
    if 1 <= page <= |pages| then pages[page - 1] else []
  }

  function Concat(pages: seq<seq<GhItem>>): seq<GhItem> {
    if pages == [] then [] else pages[0] + Concat(pages[1..])
  }

  // ----------------------------------------------------------------- fetch

  /** fetch_issues_from_repo as written: the stop test compares the page AFTER
      pull requests were dropped with per_page. */
  function FetchAsWritten(pages: seq<seq<GhItem>>, page: nat, acc: seq<GhItem>): (r: seq<GhItem>)
    requires page >= 1
    ensures |acc| <= |r| && r[..|acc|] == acc
    ensures forall x :: x in r ==> x in acc || NotPullRequest(x)
    decreases |pages| + 1 - page
  {
    var raw := PageAt(pages, page);
    if raw == [] then acc
    else
      var issues := Filter(raw, NotPullRequest);
      if |issues| < PER_PAGE then acc + issues
      else FetchAsWritten(pages, page + 1, acc + issues)
  }

  /** The listing with the stop test on the raw page, as the comment in the
      source intends: a short page is the last one. */
  function Fetch(pages: seq<seq<GhItem>>, page: nat, acc: seq<GhItem>): (r: seq<GhItem>)
    requires page >= 1
    ensures forall x :: x in r ==> x in acc || NotPullRequest(x)
    decreases |pages| + 1 - page
  {
    var raw := PageAt(pages, page);
    if raw == [] then acc
    else
      var issues := Filter(raw, NotPullRequest);
      if |raw| < PER_PAGE then acc + issues
      else Fetch(pages, page + 1, acc + issues)
  }

  function FetchIssues(pages: seq<seq<GhItem>>): (r: seq<GhItem>)
    ensures forall x :: x in r ==> NotPullRequest(x)
  {
    Fetch(pages, 1, [])
  }

  /** A listing as GitHub serves it: every page but the last is full, the
      last is short (possibly there is no page at all). */
  predicate WellPaged(pages: seq<seq<GhItem>>) {
    (forall k :: 0 <= k < |pages| - 1 ==> |pages[k]| == PER_PAGE)
    && (pages != [] ==> 0 < |pages[|pages| - 1]| < PER_PAGE)
  }

  lemma {:induction false} FetchReadsRest(pages: seq<seq<GhItem>>, page: nat, acc: seq<GhItem>)
    requires 1 <= page <= |pages| + 1
    requires WellPaged(pages)
    ensures Fetch(pages, page, acc) == acc + Filter(Concat(pages[page - 1..]), NotPullRequest)
    decreases |pages| + 1 - page
  {
    if page == |pages| + 1 {
      assert pages[page - 1..] == [];
      assert acc + [] == acc;
    } else {
      var raw := pages[page - 1];
      assert Concat(pages[page - 1..]) == raw + Concat(pages[page..]) by {
        assert pages[page - 1..][1..] == pages[page..];
      }
      FilterAppend(raw, Concat(pages[page..]), NotPullRequest);
      if |raw| < PER_PAGE {
        assert page == |pages|;
        assert pages[page..] == [];
        assert Filter(raw + [], NotPullRequest) == Filter(raw, NotPullRequest) by {
          assert raw + [] == raw;
        }
      } else {
        FetchReadsRest(pages, page + 1, acc + Filter(raw, NotPullRequest));
      }
    }
  }

  /** On a well-paged listing the fetch returns every issue of every page, in
      order, and nothing else. */
  lemma FetchIssuesComplete(pages: seq<seq<GhItem>>)
    requires WellPaged(pages)
    ensures FetchIssues(pages) == Filter(Concat(pages), NotPullRequest)
  {
    FetchReadsRest(pages, 1, []);
    assert pages[0..] == pages;
  }

  lemma ConcatTwo(a: seq<GhItem>, b: seq<GhItem>)
    ensures Concat([a, b]) == a + b
  {
    assert [a, b][1..] == [b];
    assert [b][1..] == [];
    assert Concat([b]) == b + Concat([]) == b;
    assert Concat([a, b]) == a + Concat([b]);
  }

  /** As written, a full first page holding a pull request looks short once
      the pull request is dropped, so the second page of a well-paged listing
      is never requested: the listing ends with the first page's issues, and
      an issue only the second page holds is lost. */
  lemma FetchAsWrittenStopsEarly(first: seq<GhItem>, second: seq<GhItem>, k: nat)
    requires |first| == PER_PAGE && 0 < |second| < PER_PAGE
    requires k < |first| && first[k].isPullRequest
    ensures WellPaged([first, second])
    ensures FetchAsWritten([first, second], 1, []) == Filter(first, NotPullRequest)
    ensures forall x :: x in second && NotPullRequest(x) && x !in first ==>
      x !in FetchAsWritten([first, second], 1, [])
  {
    var pages := [first, second];
    assert |pages| == 2 && pages[0] == first && pages[1] == second;
    assert PageAt(pages, 1) == first;
    FilterDrops(first, NotPullRequest, k);
    assert [] + Filter(first, NotPullRequest) == Filter(first, NotPullRequest);
  }

  /** The corrected listing reads both pages of the same listing. */
  lemma FetchReadsSecondPage(first: seq<GhItem>, second: seq<GhItem>)
    requires |first| == PER_PAGE && 0 < |second| < PER_PAGE
    ensures FetchIssues([first, second]) == Filter(first, NotPullRequest) + Filter(second, NotPullRequest)
  {
    FetchIssuesComplete([first, second]);
    ConcatTwo(first, second);
    FilterAppend(first, second, NotPullRequest);
  }

  // -------------------------------------------------------------- priority

  /** The mapping used when the caller gives none. */
  const DefaultPriorities: map<string, int> :=
    map["critical" := 100, "high" := 75, "medium" := 50, "low" := 25, "enhancement" := 10, "bug" := 60]

  /** The largest mapped value among the (lower-cased) labels, and 0 when none
      is mapped or every mapped value is negative. */
  function LabelPriority(labels: seq<string>, mapping: map<string, int>): (p: int)
    ensures p >= 0
    ensures forall k :: 0 <= k < |labels| && Lower(labels[k]) in mapping ==> mapping[Lower(labels[k])] <= p
    ensures p == 0 || exists k :: 0 <= k < |labels| && Lower(labels[k]) in mapping && mapping[Lower(labels[k])] == p
  {
    if labels == [] then 0
    else
      var rest := LabelPriority(labels[1..], mapping);
      var name := Lower(labels[0]);
      assert forall k :: 1 <= k < |labels| ==> labels[k] == labels[1..][k - 1];
      if name in mapping && mapping[name] > rest then mapping[name]
      else
        assert rest != 0 ==> exists k :: 1 <= k < |labels| && Lower(labels[k]) in mapping && mapping[Lower(labels[k])] == rest by {
          if rest != 0 {
            var j :| 0 <= j < |labels[1..]| && Lower(labels[1..][j]) in mapping && mapping[Lower(labels[1..][j])] == rest;
            assert labels[j + 1] == labels[1..][j];
          }
        }
        rest
  }

  /** With the default mapping every priority lies between 0 and 100, and an
      issue labelled critical gets 100. */
  lemma DefaultPriorityRange(labels: seq<string>)
    ensures 0 <= LabelPriority(labels, DefaultPriorities) <= 100
    ensures "critical" in labels ==> LabelPriority(labels, DefaultPriorities) == 100
  {
    DefaultPrioritiesAtMost100();
    LabelPriorityAtMost(labels, DefaultPriorities, 100);
    if "critical" in labels {
      var k :| 0 <= k < |labels| && labels[k] == "critical";
      LowerCritical();
      LabelPriorityAtLeast(labels, DefaultPriorities, k);
    }
  }

  lemma DefaultPrioritiesAtMost100()
    ensures forall name :: name in DefaultPriorities ==> DefaultPriorities[name] <= 100
    ensures "critical" in DefaultPriorities && DefaultPriorities["critical"] == 100
  {
  }

  lemma LowerCritical()
    ensures Lower("critical") == "critical"
  {
    LowerNoCapitals("critical");
  }

  /** No label lifts the priority above the largest mapped value. */
  lemma LabelPriorityAtMost(labels: seq<string>, mapping: map<string, int>, bound: int)
    requires bound >= 0 && forall name :: name in mapping ==> mapping[name] <= bound
    ensures LabelPriority(labels, mapping) <= bound
  {
    var p := LabelPriority(labels, mapping);
    if p != 0 {
      var k :| 0 <= k < |labels| && Lower(labels[k]) in mapping && mapping[Lower(labels[k])] == p;
    }
  }

  /** A mapped label sets a floor under the priority. */
  lemma LabelPriorityAtLeast(labels: seq<string>, mapping: map<string, int>, k: nat)
    requires k < |labels| && Lower(labels[k]) in mapping
    ensures LabelPriority(labels, mapping) >= mapping[Lower(labels[k])]
  {
  }

  // ------------------------------------------------------------------ sync

  datatype SyncStats = SyncStats(fetched: nat, created: nat, updated: nat, skipped: nat)

  function RepoUrl(repoOwner: string, repoName: string): string {
    "https://github.com/" + repoOwner + "/" + repoName
  }

  predicate IsFor(i: Issue, url: string, number: int) {
    i.repositoryUrl == Some(url) && i.issueNumber == Some(number)
  }

  predicate HasIssueFor(t: seq<Issue>, url: string, number: int) {
    exists k :: 0 <= k < |t| && IsFor(t[k], url, number)
  }

  /** The first row for the repository and number (select ... .first()). */
  function FindFor(t: seq<Issue>, url: string, number: int): (r: Option<nat>)
    ensures r.Some? ==> r.value < |t| && IsFor(t[r.value], url, number)
    ensures r.Some? ==> forall k :: 0 <= k < r.value ==> !IsFor(t[k], url, number)
    ensures r.None? <==> !HasIssueFor(t, url, number)
  {
    if t == [] then None
    else if IsFor(t[0], url, number) then Some(0)
    else
      var rest := FindFor(t[1..], url, number);
      assert forall k :: 1 <= k < |t| ==> t[k] == t[1..][k - 1];
      if rest.Some? then Some(rest.value + 1) else None
  }

  /** Appending a row never changes which row is found first for a number
      that already had one. */
  lemma FindForAppend(t: seq<Issue>, i: Issue, url: string, number: int)
    ensures FindFor(t + [i], url, number)
      == if HasIssueFor(t, url, number) then FindFor(t, url, number)
         else if IsFor(i, url, number) then Some(|t|) else None
  {
    var u := t + [i];
    if HasIssueFor(t, url, number) {
      var g := FindFor(t, url, number).value;
      assert IsFor(u[g], url, number);
    } else if IsFor(i, url, number) {
      assert IsFor(u[|t|], url, number);
    }
  }

  /** An issue that is completed or failed is never touched by a sync. */
  predicate Finished(i: Issue) {
    i.status == COMPLETED || i.status == FAILED
  }

  /** The first row for the number exists and is not finished: the row a sync
      goes on to update. */
  predicate OpenRowFor(t: seq<Issue>, url: string, number: int) {
    var f := FindFor(t, url, number);
    f.Some? && !Finished(t[f.value])
  }

  datatype Upsert = Created | Updated | Skipped

  function ImportedIssue(id: Id, ownerId: Id, url: string, x: GhItem, priority: int, now: Time): Issue {
    Issue(id, ownerId, x.title, None, Some(url), Some(x.number), PENDING, priority, None,
      now, now, None, None, None, None)
  }

  function Tally(s: SyncStats, u: Upsert): SyncStats {
    match u
    case Created => s.(created := s.created + 1)
    case Updated => s.(updated := s.updated + 1)
    case Skipped => s.(skipped := s.skipped + 1)
  }

  /** `u` keeps every row of `t` in place with its id and owner, and every row
      after them belongs to `ownerId`. */
  predicate Extends(t: seq<Issue>, u: seq<Issue>, ownerId: Id) {
    |u| >= |t| && (forall k :: 0 <= k < |t| ==> u[k].id == t[k].id && u[k].ownerId == t[k].ownerId)
    && forall k :: |t| <= k < |u| ==> u[k].ownerId == ownerId
  }

  lemma ExtendsTransitive(a: seq<Issue>, b: seq<Issue>, c: seq<Issue>, ownerId: Id)
    requires Extends(a, b, ownerId) && Extends(b, c, ownerId)
    ensures Extends(a, c, ownerId)
  {
  }

  /** The message of the ValueError pydantic raises when the update assigns
      the issue body to `content`, a field the Issue table does not declare. */
  const NO_CONTENT_FIELD := "\"Issue\" object has no field \"content\""

  /** One listed issue as written: the rows the session sees afterwards, and
      how the issue was counted, or the rows at the moment the update raised. */
  datatype ItemStep = Stepped(t: seq<Issue>, upsert: Upsert) | Raised(t: seq<Issue>)

  /** One listed issue of sync_issues_to_db as written: a new number gets a
      pending row and a finished row is skipped. For an open row the title is
      assigned and then the assignment of the body to `content` raises, so the
      session holds the row with the new title and nothing else changed. */
  function SyncItem(t: seq<Issue>, ownerId: Id, url: string, x: GhItem, mapping: map<string, int>, now: Time)
    : (r: ItemStep)
    ensures r.Raised? <==> OpenRowFor(t, url, x.number)
    ensures r.Stepped? ==> r.upsert != Updated
    ensures r.Stepped? && r.upsert == Created <==> !HasIssueFor(t, url, x.number)
    ensures r.Stepped? && r.upsert == Created
      ==> r.t == t + [ImportedIssue(FreshIssueId(t), ownerId, url, x, LabelPriority(x.labels, mapping), now)]
    ensures r.Stepped? && r.upsert == Skipped ==> r.t == t && Finished(t[FindFor(t, url, x.number).value])
    ensures r.Raised? ==>
      var k := FindFor(t, url, x.number).value;
      r.t == t[k := t[k].(title := x.title)]
  {
    var priority := LabelPriority(x.labels, mapping);
    match FindFor(t, url, x.number)
    case None => Stepped(t + [ImportedIssue(FreshIssueId(t), ownerId, url, x, priority, now)], Created)
    case Some(k) =>
      if Finished(t[k]) then Stepped(t, Skipped)
      else Raised(t[k := t[k].(title := x.title)])
  }

  /** A run of the upsert loop: it completes with the counters, or stops at the
      first raise with the error. Either way `t` is what the session holds. */
  datatype SyncRun = Completed(t: seq<Issue>, stats: SyncStats) | Aborted(t: seq<Issue>, error: string)

  /** The upsert loop as written. A completed run only appended pending rows
      owned by the importing user; no run changes an existing row's id or owner. */
  function SyncAll(t: seq<Issue>, ownerId: Id, url: string, xs: seq<GhItem>, mapping: map<string, int>,
                   now: Time, stats: SyncStats): (r: SyncRun)
    ensures Extends(t, r.t, ownerId)
    ensures r.Completed? ==>
      r.stats.created + r.stats.skipped == stats.created + stats.skipped + |xs|
      && r.stats.updated == stats.updated && r.stats.fetched == stats.fetched
      && |r.t| == |t| + (r.stats.created - stats.created)
    ensures r.Completed? ==>
      r.t[..|t|] == t && forall k :: |t| <= k < |r.t| ==> r.t[k].status == PENDING
    ensures r.Aborted? ==> r.error == NO_CONTENT_FIELD
    decreases |xs|
  {
    if xs == [] then Completed(t, stats)
    else match SyncItem(t, ownerId, url, xs[0], mapping, now)
      case Raised(t1) => Aborted(t1, NO_CONTENT_FIELD)
      case Stepped(t1, u) =>
        var r := SyncAll(t1, ownerId, url, xs[1..], mapping, now, Tally(stats, u));
        ExtendsTransitive(t, t1, r.t, ownerId);
        StepAppendsPending(t, ownerId, url, xs[0], mapping, now, stats);
        if r.Completed? then AppendedPending(t, t1, r.t); r else r
  }

  /** An item that does not raise leaves the rows as they were, adding a
      pending row exactly when it counts one as created, and is counted once
      as created or skipped. */
  lemma StepAppendsPending(t: seq<Issue>, ownerId: Id, url: string, x: GhItem, mapping: map<string, int>, now: Time,
                           stats: SyncStats)
    requires SyncItem(t, ownerId, url, x, mapping, now).Stepped?
    ensures var step := SyncItem(t, ownerId, url, x, mapping, now);
      var s1 := Tally(stats, step.upsert);
      |t| <= |step.t| && step.t[..|t|] == t && (forall k :: |t| <= k < |step.t| ==> step.t[k].status == PENDING)
      && s1.created + s1.skipped == stats.created + stats.skipped + 1
      && s1.updated == stats.updated && s1.fetched == stats.fetched
      && |step.t| == |t| + (s1.created - stats.created)
  {
  }

  /** Two runs that each append only pending rows together append only
      pending rows. */
  lemma AppendedPending(t: seq<Issue>, t1: seq<Issue>, u: seq<Issue>)
    requires |t| <= |t1| <= |u|
    requires t1[..|t|] == t && forall k :: |t| <= k < |t1| ==> t1[k].status == PENDING
    requires u[..|t1|] == t1 && forall k :: |t1| <= k < |u| ==> u[k].status == PENDING
    ensures u[..|t|] == t && forall k :: |t| <= k < |u| ==> u[k].status == PENDING
  {
    assert u[..|t|] == u[..|t1|][..|t|];
    forall k | |t| <= k < |t1| ensures u[k].status == PENDING {
      assert u[k] == u[..|t1|][k];
    }
  }

  /** The listed issue at `k` raises: its number has an open row already, or
      it has no row and came earlier in the listing, so that earlier
      occurrence created an open row. */
  predicate BlocksAt(t: seq<Issue>, url: string, xs: seq<GhItem>, k: nat)
    requires k < |xs|
  {
    OpenRowFor(t, url, xs[k].number)
    || (!HasIssueFor(t, url, xs[k].number) && exists j :: 0 <= j < k && xs[j].number == xs[k].number)
  }

  predicate Blocked(t: seq<Issue>, url: string, xs: seq<GhItem>) {
    exists k :: 0 <= k < |xs| && BlocksAt(t, url, xs, k)
  }

  /** As written, the upsert loop raises exactly when some listed issue
      reaches an open row. */
  lemma {:induction false} SyncAllAbortsIff(t: seq<Issue>, ownerId: Id, url: string, xs: seq<GhItem>,
                                            mapping: map<string, int>, now: Time, stats: SyncStats)
    ensures SyncAll(t, ownerId, url, xs, mapping, now, stats).Aborted? <==> Blocked(t, url, xs)
    decreases |xs|
  {
    if xs != [] {
      var step := SyncItem(t, ownerId, url, xs[0], mapping, now);
      if step.Raised? {
        assert BlocksAt(t, url, xs, 0);
      } else {
        var t1 := step.t;
        var rest := xs[1..];
        SyncAllAbortsIff(t1, ownerId, url, rest, mapping, now, Tally(stats, step.upsert));
        assert !BlocksAt(t, url, xs, 0);
        forall k | 1 <= k < |xs| ensures BlocksAt(t, url, xs, k) <==> BlocksAt(t1, url, rest, k - 1) {
          BlocksShift(t, ownerId, url, xs, mapping, now, k);
        }
        if Blocked(t, url, xs) {
          var k :| 0 <= k < |xs| && BlocksAt(t, url, xs, k);
          assert BlocksAt(t1, url, rest, k - 1);
        }
        if Blocked(t1, url, rest) {
          var k :| 0 <= k < |rest| && BlocksAt(t1, url, rest, k);
          assert BlocksAt(t, url, xs, k + 1);
        }
      }
    }
  }

  /** After a first issue that does not raise, the later issues raise on the
      new rows exactly when they did on the old ones. */
  lemma BlocksShift(t: seq<Issue>, ownerId: Id, url: string, xs: seq<GhItem>,
                    mapping: map<string, int>, now: Time, k: nat)
    requires 1 <= k < |xs| && SyncItem(t, ownerId, url, xs[0], mapping, now).Stepped?
    ensures var t1 := SyncItem(t, ownerId, url, xs[0], mapping, now).t;
      BlocksAt(t, url, xs, k) <==> BlocksAt(t1, url, xs[1..], k - 1)
  {
    var step := SyncItem(t, ownerId, url, xs[0], mapping, now);
    var n := xs[k].number;
    assert xs[1..][k - 1] == xs[k];
    if n != xs[0].number {
      EarlierShift(xs, k, n);
    }
    if step.upsert == Created {
      var i := ImportedIssue(FreshIssueId(t), ownerId, url, xs[0], LabelPriority(xs[0].labels, mapping), now);
      assert step.t == t + [i];
      if n == xs[0].number {
        FindForAppend(t, i, url, n);
        assert IsFor(step.t[|t|], url, n);
      } else {
        AppendOtherRow(t, i, url, n);
      }
    }
  }

  /** A number other than the first one's occurs among the first `k` listed
      issues exactly when it occurs among the first `k - 1` after the first. */
  lemma EarlierShift(xs: seq<GhItem>, k: nat, n: int)
    requires 1 <= k <= |xs| && xs[0].number != n
    ensures (exists j :: 0 <= j < k && xs[j].number == n)
        <==> (exists j :: 0 <= j < k - 1 && xs[1..][j].number == n)
  {
    if exists j :: 0 <= j < k && xs[j].number == n {
      var j :| 0 <= j < k && xs[j].number == n;
      assert xs[1..][j - 1] == xs[j];
    }
    if exists j :: 0 <= j < k - 1 && xs[1..][j].number == n {
      var j :| 0 <= j < k - 1 && xs[1..][j].number == n;
      assert xs[j + 1] == xs[1..][j];
    }
  }

  /** Appending a row for another number changes nothing about `n`. */
  lemma AppendOtherRow(t: seq<Issue>, i: Issue, url: string, n: int)
    requires !IsFor(i, url, n)
    ensures HasIssueFor(t + [i], url, n) <==> HasIssueFor(t, url, n)
    ensures OpenRowFor(t + [i], url, n) <==> OpenRowFor(t, url, n)
  {
    var t1 := t + [i];
    FindForAppend(t, i, url, n);
    if HasIssueFor(t1, url, n) {
      var j :| 0 <= j < |t1| && IsFor(t1[j], url, n);
      assert j < |t| && t1[j] == t[j];
    }
    if HasIssueFor(t, url, n) {
      var j :| 0 <= j < |t| && IsFor(t[j], url, n);
      assert t1[j] == t[j];
      assert t1[FindFor(t, url, n).value] == t[FindFor(t, url, n).value];
    }
  }

  /** After a completed run every listed issue has a row. */
  lemma {:induction false} SyncAllCovers(t: seq<Issue>, ownerId: Id, url: string, xs: seq<GhItem>,
                                         mapping: map<string, int>, now: Time, stats: SyncStats, k: nat)
    requires k < |xs| && SyncAll(t, ownerId, url, xs, mapping, now, stats).Completed?
    ensures HasIssueFor(SyncAll(t, ownerId, url, xs, mapping, now, stats).t, url, xs[k].number)
    decreases |xs|
  {
    var step := SyncItem(t, ownerId, url, xs[0], mapping, now);
    var r := SyncAll(t, ownerId, url, xs, mapping, now, stats);
    var t1 := step.t;
    if k == 0 {
      var j := if step.upsert == Created then |t| else FindFor(t, url, xs[0].number).value;
      assert IsFor(t1[j], url, xs[0].number);
      assert r.t[..|t1|] == t1 by {
        assert r.t[..|t|] == t;
        assert r == SyncAll(t1, ownerId, url, xs[1..], mapping, now, Tally(stats, step.upsert));
      }
      assert r.t[j] == t1[j];
    } else {
      assert xs[1..][k - 1] == xs[k];
      SyncAllCovers(t1, ownerId, url, xs[1..], mapping, now, Tally(stats, step.upsert), k - 1);
    }
  }

  /** sync_issues_to_db as written, on the rows the session sees: list the
      repository's issues with the as-written paging, then upsert each. It
      raises exactly when a listed issue reaches an open row; a run that
      completes updated nothing, and the rows grow by the number created. */
  function SyncIssuesToDb(t: seq<Issue>, ownerId: Id, repoOwner: string, repoName: string,
                          pages: seq<seq<GhItem>>, mapping: map<string, int>, now: Time): (r: SyncRun)
    ensures r.Aborted? <==> Blocked(t, RepoUrl(repoOwner, repoName), FetchAsWritten(pages, 1, []))
    ensures r.Aborted? ==> r.error == NO_CONTENT_FIELD
    ensures r.Completed? ==>
      r.stats.fetched == |FetchAsWritten(pages, 1, [])|
      && r.stats.created + r.stats.skipped == r.stats.fetched && r.stats.updated == 0
      && |r.t| == |t| + r.stats.created
    ensures Extends(t, r.t, ownerId)
  {
    var xs := FetchAsWritten(pages, 1, []);
    SyncAllAbortsIff(t, ownerId, RepoUrl(repoOwner, repoName), xs, mapping, now, SyncStats(|xs|, 0, 0, 0));
    SyncAll(t, ownerId, RepoUrl(repoOwner, repoName), xs, mapping, now, SyncStats(|xs|, 0, 0, 0))
  }

  /** As written, syncing a repository again fails once the first sync
      imported an issue: the imported row is pending, so the second sync
      reaches the assignment to `content` and raises. */
  lemma SecondSyncRaises(t: seq<Issue>, ownerId: Id, repoOwner: string, repoName: string,
                         pages: seq<seq<GhItem>>, mapping: map<string, int>, now: Time, later: Time, k: nat)
    requires k < |FetchAsWritten(pages, 1, [])|
    requires !HasIssueFor(t, RepoUrl(repoOwner, repoName), FetchAsWritten(pages, 1, [])[k].number)
    requires SyncIssuesToDb(t, ownerId, repoOwner, repoName, pages, mapping, now).Completed?
    ensures var first := SyncIssuesToDb(t, ownerId, repoOwner, repoName, pages, mapping, now);
      SyncIssuesToDb(first.t, ownerId, repoOwner, repoName, pages, mapping, later)
        == Aborted(SyncIssuesToDb(first.t, ownerId, repoOwner, repoName, pages, mapping, later).t, NO_CONTENT_FIELD)
  {
    var url := RepoUrl(repoOwner, repoName);
    var xs := FetchAsWritten(pages, 1, []);
    var first := SyncIssuesToDb(t, ownerId, repoOwner, repoName, pages, mapping, now);
    var stats := SyncStats(|xs|, 0, 0, 0);
    assert first == SyncAll(t, ownerId, url, xs, mapping, now, stats);
    SyncAllCovers(t, ownerId, url, xs, mapping, now, stats, k);
    var j := FindFor(first.t, url, xs[k].number).value;
    assert first.t[j].status == PENDING;
    assert BlocksAt(first.t, url, xs, k);
  }

  // ------------------------------------------------------ intended upsert

  /** One listed issue as the update is evidently meant to work: the open row
      takes the new title, priority and update time. The body has no column,
      so it is dropped, as the create path drops it. */
  function SyncItemIntended(t: seq<Issue>, ownerId: Id, url: string, x: GhItem, mapping: map<string, int>,
                            now: Time): (r: (seq<Issue>, Upsert))
    ensures r.1 == Created <==> !HasIssueFor(t, url, x.number)
    ensures r.1 == Created ==> r.0 == t + [ImportedIssue(FreshIssueId(t), ownerId, url, x, LabelPriority(x.labels, mapping), now)]
    ensures r.1 != Created ==>
      (|r.0| == |t|
       && forall k :: 0 <= k < |t| && k != FindFor(t, url, x.number).value ==> r.0[k] == t[k])
    ensures r.1 == Skipped ==> r.0 == t && Finished(t[FindFor(t, url, x.number).value])
    ensures r.1 == Updated ==>
      var e := t[FindFor(t, url, x.number).value];
      !Finished(e) && r.0[FindFor(t, url, x.number).value]
        == e.(title := x.title, priority := LabelPriority(x.labels, mapping), updatedAt := now)
  {
    var priority := LabelPriority(x.labels, mapping);
    match FindFor(t, url, x.number)
    case None => (t + [ImportedIssue(FreshIssueId(t), ownerId, url, x, priority, now)], Created)
    case Some(k) =>
      if Finished(t[k]) then (t, Skipped)
      else (t[k := t[k].(title := x.title, priority := priority, updatedAt := now)], Updated)
  }

  function SyncAllIntended(t: seq<Issue>, ownerId: Id, url: string, xs: seq<GhItem>, mapping: map<string, int>,
                           now: Time, stats: SyncStats): (r: (seq<Issue>, SyncStats))
    ensures r.1.created + r.1.updated + r.1.skipped == stats.created + stats.updated + stats.skipped + |xs|
    ensures r.1.fetched == stats.fetched
    ensures |r.0| == |t| + (r.1.created - stats.created)
    decreases |xs|
  {
    if xs == [] then (t, stats)
    else
      var step := SyncItemIntended(t, ownerId, url, xs[0], mapping, now);
      SyncAllIntended(step.0, ownerId, url, xs[1..], mapping, now, Tally(stats, step.1))
  }

  /** The import as intended: the corrected paging and the intended update.
      It never raises; the counters add up to the number fetched, and the
      table grows by exactly the number created. */
  function SyncIssuesIntended(t: seq<Issue>, ownerId: Id, repoOwner: string, repoName: string,
                              pages: seq<seq<GhItem>>, mapping: map<string, int>, now: Time)
    : (r: (seq<Issue>, SyncStats))
    ensures r.1.fetched == |FetchIssues(pages)|
    ensures r.1.created + r.1.updated + r.1.skipped == r.1.fetched
    ensures |r.0| == |t| + r.1.created
  {
    var xs := FetchIssues(pages);
    SyncAllIntended(t, ownerId, RepoUrl(repoOwner, repoName), xs, mapping, now, SyncStats(|xs|, 0, 0, 0))
  }

  /** Where the as-written loop does not raise, it does what the intended one
      does. */
  lemma {:induction false} IntendedAgreesWhenUnblocked(t: seq<Issue>, ownerId: Id, url: string, xs: seq<GhItem>,
                                                       mapping: map<string, int>, now: Time, stats: SyncStats)
    requires !Blocked(t, url, xs)
    ensures var i := SyncAllIntended(t, ownerId, url, xs, mapping, now, stats);
      SyncAll(t, ownerId, url, xs, mapping, now, stats) == Completed(i.0, i.1)
    decreases |xs|
  {
    SyncAllAbortsIff(t, ownerId, url, xs, mapping, now, stats);
    if xs != [] {
      var step := SyncItem(t, ownerId, url, xs[0], mapping, now);
      assert !BlocksAt(t, url, xs, 0);
      assert step.Stepped?;
      var t1 := step.t;
      assert SyncItemIntended(t, ownerId, url, xs[0], mapping, now) == (t1, step.upsert);
      SyncAllAbortsIff(t1, ownerId, url, xs[1..], mapping, now, Tally(stats, step.upsert));
      IntendedAgreesWhenUnblocked(t1, ownerId, url, xs[1..], mapping, now, Tally(stats, step.upsert));
    }
  }

  lemma IntendedItemKeepsCoverage(t: seq<Issue>, ownerId: Id, url: string, x: GhItem, mapping: map<string, int>,
                                  now: Time, n: int)
    requires HasIssueFor(t, url, n)
    ensures HasIssueFor(SyncItemIntended(t, ownerId, url, x, mapping, now).0, url, n)
  {
    var k :| 0 <= k < |t| && IsFor(t[k], url, n);
    var r := SyncItemIntended(t, ownerId, url, x, mapping, now);
    assert IsFor(r.0[k], url, n);
  }

  lemma IntendedItemCovers(t: seq<Issue>, ownerId: Id, url: string, x: GhItem, mapping: map<string, int>, now: Time)
    ensures HasIssueFor(SyncItemIntended(t, ownerId, url, x, mapping, now).0, url, x.number)
  {
    var r := SyncItemIntended(t, ownerId, url, x, mapping, now);
    if r.1 == Created {
      assert IsFor(r.0[|t|], url, x.number);
    } else {
      var k := FindFor(t, url, x.number).value;
      assert IsFor(r.0[k], url, x.number);
    }
  }

  /** After an intended sync every listed issue has a row for the repository,
      and every row that had one before still has it. */
  lemma {:induction false} IntendedCovers(t: seq<Issue>, ownerId: Id, url: string, xs: seq<GhItem>,
                                          mapping: map<string, int>, now: Time, stats: SyncStats, n: int)
    requires HasIssueFor(t, url, n) || exists k :: 0 <= k < |xs| && xs[k].number == n
    ensures HasIssueFor(SyncAllIntended(t, ownerId, url, xs, mapping, now, stats).0, url, n)
    decreases |xs|
  {
    if xs != [] {
      var step := SyncItemIntended(t, ownerId, url, xs[0], mapping, now);
      if HasIssueFor(t, url, n) {
        IntendedItemKeepsCoverage(t, ownerId, url, xs[0], mapping, now, n);
      } else if xs[0].number == n {
        IntendedItemCovers(t, ownerId, url, xs[0], mapping, now);
      } else {
        var k :| 0 <= k < |xs| && xs[k].number == n;
        assert xs[1..][k - 1].number == n;
      }
      IntendedCovers(step.0, ownerId, url, xs[1..], mapping, now, Tally(stats, step.1), n);
    }
  }

  /** Once every listed number has a row, syncing the same list again as
      intended creates nothing: a re-sync never duplicates issues. */
  lemma {:induction false} IntendedResyncCreatesNothing(t: seq<Issue>, ownerId: Id, url: string, xs: seq<GhItem>,
                                                        mapping: map<string, int>, now: Time, stats: SyncStats)
    requires forall k :: 0 <= k < |xs| ==> HasIssueFor(t, url, xs[k].number)
    ensures SyncAllIntended(t, ownerId, url, xs, mapping, now, stats).1.created == stats.created
    decreases |xs|
  {
    if xs != [] {
      var step := SyncItemIntended(t, ownerId, url, xs[0], mapping, now);
      forall k | 0 <= k < |xs[1..]|
        ensures HasIssueFor(step.0, url, xs[1..][k].number)
      {
        assert xs[1..][k] == xs[k + 1];
        IntendedItemKeepsCoverage(t, ownerId, url, xs[0], mapping, now, xs[k + 1].number);
      }
      IntendedResyncCreatesNothing(step.0, ownerId, url, xs[1..], mapping, now, Tally(stats, step.1));
    }
  }

  /** Syncing a repository twice as intended: the second pass succeeds and
      creates no issue. */
  lemma IntendedSyncTwiceCreatesNothing(t: seq<Issue>, ownerId: Id, repoOwner: string, repoName: string,
                                        pages: seq<seq<GhItem>>, mapping: map<string, int>, now: Time, later: Time)
    ensures
      var first := SyncIssuesIntended(t, ownerId, repoOwner, repoName, pages, mapping, now);
      SyncIssuesIntended(first.0, ownerId, repoOwner, repoName, pages, mapping, later).1.created == 0
  {
    var url := RepoUrl(repoOwner, repoName);
    var xs := FetchIssues(pages);
    var first := SyncIssuesIntended(t, ownerId, repoOwner, repoName, pages, mapping, now);
    forall k | 0 <= k < |xs| ensures HasIssueFor(first.0, url, xs[k].number) {
      IntendedCovers(t, ownerId, url, xs, mapping, now, SyncStats(|xs|, 0, 0, 0), xs[k].number);
    }
    IntendedResyncCreatesNothing(first.0, ownerId, url, xs, mapping, later, SyncStats(|xs|, 0, 0, 0));
  }

  /** An intended sync keeps the owner of every existing row (it updates rows
      in place) and gives every row it adds to the importing user. */
  lemma {:induction false} IntendedOwnership(t: seq<Issue>, ownerId: Id, url: string, xs: seq<GhItem>,
                                             mapping: map<string, int>, now: Time, stats: SyncStats)
    ensures Extends(t, SyncAllIntended(t, ownerId, url, xs, mapping, now, stats).0, ownerId)
    decreases |xs|
  {
    if xs != [] {
      var step := SyncItemIntended(t, ownerId, url, xs[0], mapping, now);
      IntendedOwnership(step.0, ownerId, url, xs[1..], mapping, now, Tally(stats, step.1));
      ExtendsTransitive(t, step.0, SyncAllIntended(t, ownerId, url, xs, mapping, now, stats).0, ownerId);
    }
  }

  // -------------------------------------------------------- several repos

  /** What GitHub answers for one repository: its pages, or an error. */
  datatype Listing = Listed(pages: seq<seq<GhItem>>) | Unreachable(message: string)

  /** One element of the request's `repos` list: a JSON object whose "owner"
      and "name" keys may be missing. */
  datatype RepoEntry = RepoEntry(owner: Option<string>, name: Option<string>, labels: Option<seq<string>>)

  /** The message of the KeyError raised when `repo['owner']` or
      `repo['name']` reads a missing key, or None when both are present. */
  function KeyCheck(e: RepoEntry): (r: Option<string>)
    ensures r.None? <==> e.owner.Some? && e.name.Some?
  {
    if e.owner.None? then Some("'owner'")
    else if e.name.None? then Some("'name'")
    else None
  }

  datatype RepoDetail = Synced(repo: string, stats: SyncStats) | SyncFailed(repo: string, error: string)

  datatype TotalStats = TotalStats(repos: nat, fetched: nat, created: nat, updated: nat, skipped: nat,
                                   details: seq<RepoDetail>)

  predicate Balanced(s: TotalStats) {
    s.created + s.updated + s.skipped == s.fetched
  }

  function RepoLabel(e: RepoEntry): string
    requires KeyCheck(e).None?
  {
    e.owner.value + "/" + e.name.value
  }

  /** The rows as last committed, and the rows the request's session sees:
      changes a raising sync left in the session are not committed, but the
      next commit of the same session commits them. */
  datatype Session = Session(committed: seq<Issue>, working: seq<Issue>)

  /** One repository of sync_multiple_repos: a listing failure or a raising
      sync is recorded in the details and adds nothing to the totals; only a
      completed sync commits, and it commits everything the session holds. */
  function SyncOne(s: Session, ownerId: Id, e: RepoEntry, listing: Listing, now: Time, acc: TotalStats)
    : (r: (Session, TotalStats))
    requires KeyCheck(e).None? && Balanced(acc)
    ensures Balanced(r.1) && r.1.updated == acc.updated && r.1.repos == acc.repos
    ensures |r.1.details| == |acc.details| + 1 && r.1.details[..|acc.details|] == acc.details
    ensures r.1.details[|acc.details|].repo == RepoLabel(e)
    ensures listing.Unreachable? ==> r == (s, acc.(details := acc.details + [SyncFailed(RepoLabel(e), listing.message)]))
    ensures listing.Listed? ==>
      var run := SyncIssuesToDb(s.working, ownerId, e.owner.value, e.name.value, listing.pages, DefaultPriorities, now);
      (run.Aborted? ==> r.0 == Session(s.committed, run.t)
                        && r.1.details[|acc.details|] == SyncFailed(RepoLabel(e), NO_CONTENT_FIELD))
      && (run.Completed? ==> r.0 == Session(run.t, run.t)
                             && r.1.details[|acc.details|] == Synced(RepoLabel(e), run.stats))
    ensures Extends(s.working, r.0.working, ownerId)
    ensures r.0.committed == s.committed || r.0.committed == r.0.working
  {
    match listing
    case Unreachable(msg) => (s, acc.(details := acc.details + [SyncFailed(RepoLabel(e), msg)]))
    case Listed(pages) =>
      match SyncIssuesToDb(s.working, ownerId, e.owner.value, e.name.value, pages, DefaultPriorities, now)
      case Aborted(t1, err) => (Session(s.committed, t1), acc.(details := acc.details + [SyncFailed(RepoLabel(e), err)]))
      case Completed(t1, st) =>
        (Session(t1, t1), acc.(fetched := acc.fetched + st.fetched, created := acc.created + st.created,
                               updated := acc.updated + st.updated, skipped := acc.skipped + st.skipped,
                               details := acc.details + [Synced(RepoLabel(e), st)]))
  }

  /** The result of sync_multiple_repos: the totals, or the KeyError that
      escaped it; either way the session as it was left. */
  datatype BatchRun = BatchDone(session: Session, stats: TotalStats) | BatchRaised(session: Session, error: string)

  predicate SessionExtends(t: seq<Issue>, s: Session, ownerId: Id) {
    Extends(t, s.committed, ownerId) && Extends(t, s.working, ownerId)
  }

  /** The loop of sync_multiple_repos. A missing key is read outside the
      per-repository try, so the first entry without "owner" or "name" ends the
      whole call with a KeyError; the repositories before it stay synced. */
  function SyncRepos(s: Session, ownerId: Id, repos: seq<RepoEntry>, listing: RepoEntry -> Listing,
                     now: Time, acc: TotalStats, t0: seq<Issue>): (r: BatchRun)
    requires Balanced(acc) && SessionExtends(t0, s, ownerId)
    ensures r.BatchRaised? <==> exists k :: 0 <= k < |repos| && KeyCheck(repos[k]).Some?
    ensures SessionExtends(t0, r.session, ownerId)
    ensures r.BatchDone? ==>
      Balanced(r.stats) && r.stats.updated == acc.updated && r.stats.repos == acc.repos
      && |r.stats.details| == |acc.details| + |repos| && r.stats.details[..|acc.details|] == acc.details
    decreases |repos|
  {
    if repos == [] then BatchDone(s, acc)
    else match KeyCheck(repos[0])
      case Some(err) => BatchRaised(s, err)
      case None =>
        var next := SyncOne(s, ownerId, repos[0], listing(repos[0]), now, acc);
        ExtendsTransitive(t0, s.working, next.0.working, ownerId);
        var r := SyncRepos(next.0, ownerId, repos[1..], listing, now, next.1, t0);
        SyncReposShift(repos, r, acc, next.1);
        r
  }

  /** The facts about the first repository survive the rest of the loop. */
  lemma SyncReposShift(repos: seq<RepoEntry>, r: BatchRun, acc: TotalStats, next: TotalStats)
    requires repos != [] && KeyCheck(repos[0]).None?
    requires |next.details| == |acc.details| + 1 && next.details[..|acc.details|] == acc.details
    requires r.BatchDone? ==>
      |r.stats.details| == |next.details| + |repos| - 1 && r.stats.details[..|next.details|] == next.details
    ensures (exists k :: 0 <= k < |repos| && KeyCheck(repos[k]).Some?)
      <==> exists k :: 0 <= k < |repos[1..]| && KeyCheck(repos[1..][k]).Some?
    ensures r.BatchDone? ==>
      r.stats.details[..|acc.details|] == acc.details && r.stats.details[|acc.details|] == next.details[|acc.details|]
  {
    if exists k :: 0 <= k < |repos| && KeyCheck(repos[k]).Some? {
      var k :| 0 <= k < |repos| && KeyCheck(repos[k]).Some?;
      assert repos[1..][k - 1] == repos[k];
    }
    if r.BatchDone? {
      assert r.stats.details[..|acc.details|] == r.stats.details[..|next.details|][..|acc.details|];
    }
  }

  /** The KeyError that ends the loop is the one of the first entry that lacks
      a key. */
  lemma {:induction false} SyncReposRaisesAtFirstBadEntry(s: Session, ownerId: Id, repos: seq<RepoEntry>,
                                                          listing: RepoEntry -> Listing, now: Time,
                                                          acc: TotalStats, t0: seq<Issue>)
    requires Balanced(acc) && SessionExtends(t0, s, ownerId)
    ensures var r := SyncRepos(s, ownerId, repos, listing, now, acc, t0);
      r.BatchRaised? ==>
        exists k :: 0 <= k < |repos| && KeyCheck(repos[k]) == Some(r.error)
                    && forall j :: 0 <= j < k ==> KeyCheck(repos[j]).None?
    decreases |repos|
  {
    var r := SyncRepos(s, ownerId, repos, listing, now, acc, t0);
    if r.BatchRaised? && KeyCheck(repos[0]).None? {
      var next := SyncOne(s, ownerId, repos[0], listing(repos[0]), now, acc);
      ExtendsTransitive(t0, s.working, next.0.working, ownerId);
      SyncReposRaisesAtFirstBadEntry(next.0, ownerId, repos[1..], listing, now, next.1, t0);
      var k :| 0 <= k < |repos[1..]| && KeyCheck(repos[1..][k]) == Some(r.error)
               && forall j :: 0 <= j < k ==> KeyCheck(repos[1..][j]).None?;
      assert repos[k + 1] == repos[1..][k];
      assert forall j :: 1 <= j < k + 1 ==> repos[j] == repos[1..][j - 1];
    }
  }

  /** What the totals say about the repository at `k` when the loop ends
      normally: its label, and why it failed if it did. */
  lemma {:induction false} SyncReposDetail(s: Session, ownerId: Id, repos: seq<RepoEntry>,
                                           listing: RepoEntry -> Listing, now: Time,
                                           acc: TotalStats, t0: seq<Issue>, k: nat)
    requires Balanced(acc) && SessionExtends(t0, s, ownerId)
    requires k < |repos| && SyncRepos(s, ownerId, repos, listing, now, acc, t0).BatchDone?
    ensures KeyCheck(repos[k]).None?
    ensures var d := SyncRepos(s, ownerId, repos, listing, now, acc, t0).stats.details[|acc.details| + k];
      d.repo == RepoLabel(repos[k])
      && (listing(repos[k]).Unreachable? ==> d == SyncFailed(RepoLabel(repos[k]), listing(repos[k]).message))
      && (d.SyncFailed? && listing(repos[k]).Listed? ==> d.error == NO_CONTENT_FIELD)
    decreases |repos|
  {
    var r := SyncRepos(s, ownerId, repos, listing, now, acc, t0);
    assert KeyCheck(repos[0]).None?;
    var next := SyncOne(s, ownerId, repos[0], listing(repos[0]), now, acc);
    ExtendsTransitive(t0, s.working, next.0.working, ownerId);
    var rest := SyncRepos(next.0, ownerId, repos[1..], listing, now, next.1, t0);
    assert r == rest;
    if k == 0 {
      SyncReposShift(repos, rest, acc, next.1);
    } else {
      assert repos[1..][k - 1] == repos[k];
      SyncReposDetail(next.0, ownerId, repos[1..], listing, now, next.1, t0, k - 1);
    }
  }

  /** sync_multiple_repos on a fresh session: every row is committed at the
      start. */
  function SyncMultipleRepos(t: seq<Issue>, ownerId: Id, repos: seq<RepoEntry>, listing: RepoEntry -> Listing,
                             now: Time): (r: BatchRun)
    ensures r.BatchRaised? <==> exists k :: 0 <= k < |repos| && KeyCheck(repos[k]).Some?
    ensures r.BatchRaised? ==> exists k :: 0 <= k < |repos| && KeyCheck(repos[k]) == Some(r.error)
    ensures r.BatchDone? ==>
      r.stats.repos == |repos| && |r.stats.details| == |repos| && Balanced(r.stats) && r.stats.updated == 0
    ensures Extends(t, r.session.committed, ownerId)
  {
    var acc := TotalStats(|repos|, 0, 0, 0, 0, []);
    SyncReposRaisesAtFirstBadEntry(Session(t, t), ownerId, repos, listing, now, acc, t);
    SyncRepos(Session(t, t), ownerId, repos, listing, now, acc, t)
  }
}

=== FILE: issue_form.dfy ===
/** The web client's issue dialogs (create and edit): the form defaults, the
    URL check, the payload each dialog sends, the chosen dependencies and
    the preselected project. The forms' "undefined" and "null" both appear
    as None where the code treats them alike; the edit payload, which tells
    them apart, uses Field. */
module IssueForm {
  import opened Common
  import opened Text
  import opened Seqs
  import ProjectSelection

  // ----------------------------------------------------------- URL check

  /** The characters JavaScript's "." does not match. */
  predicate LineTerminator(c: char) {
    c == '\n' || c == '\r' || c == '\U{2028}' || c == '\U{2029}'
  }

  /** /^https?:\/\/.+/i: "http://" or "https://" in any case, then at least
      one character that is not a line terminator. */
  predicate HttpUrl(s: string) {
    (|s| > 7 && Lower(s[..7]) == "http://" && !LineTerminator(s[7]))
    || (|s| > 8 && Lower(s[..8]) == "https://" && !LineTerminator(s[8]))
  }

  /** The repository URL field's check: an empty field passes, anything
      else must be an http(s) URL. */
  predicate UrlAccepted(v: Option<string>) {
    !Truthy(v) || HttpUrl(v.value)
  }

  lemma LowerTwice(s: string)
    ensures Lower(Lower(s)) == Lower(s)
  {
  }

  lemma LowerPrefix(s: string, n: nat)
    requires n <= |s|
    ensures Lower(s)[..n] == Lower(s[..n])
  {
  }

  /** The check ignores letter case: a URL passes exactly when its
      lower-cased form does. */
  lemma UrlCheckIgnoresCase(s: string)
    ensures HttpUrl(s) <==> HttpUrl(Lower(s))
  {
    if |s| > 7 {
      LowerPrefix(s, 7);
      LowerTwice(s[..7]);
    }
    if |s| > 8 {
      LowerPrefix(s, 8);
      LowerTwice(s[..8]);
    }
  }

  /** Every https URL with a host passes, whatever the case of its scheme. */
  lemma HttpsUrlsAccepted(scheme: string, rest: string)
    requires Lower(scheme) == "https://" && rest != [] && !LineTerminator(rest[0])
    ensures UrlAccepted(Some(scheme + rest))
  {
    assert (scheme + rest)[..8] == scheme;
    assert (scheme + rest)[8] == rest[0];
  }

  // ------------------------------------------------------ create dialog

  /** The create form's values; None is an unset or null field. */
  datatype CreateForm = CreateForm(title: string, description: Option<string>, priority: int,
                                   projectId: Option<string>, repositoryUrl: Option<string>,
                                   dependencyIds: Option<seq<string>>)

  /** Title "", priority 1 (medium), no project, no dependencies. */
  const CREATE_DEFAULTS := CreateForm("", Some(""), 1, None, Some(""), Some([]))

  /** The create request; None fields are left out of it. */
  datatype CreatePayload = CreatePayload(title: string, description: Option<string>, priority: int,
                                         projectId: Option<string>, repositoryUrl: Option<string>,
                                         dependencyIds: seq<string>)

  /** The URL sent: trimmed, and left out when that leaves nothing. */
  function TrimmedUrl(v: Option<string>): (r: Option<string>)
    ensures v.None? ==> r.None?
    ensures v.Some? && Trim(v.value) == "" ==> r.None?
    ensures r.Some? ==> r.value != "" && r.value == Trim(v.value)
  {
    if v.None? then None
    else
      var t := Trim(v.value);
      if |t| > 0 then Some(t) else None
  }

  /** The create dialog's submit: an empty description or project is left
      out, the URL is trimmed (and left out when blank), dependencies
      default to none; title and priority go as entered. */
  function CreatePayloadOf(f: CreateForm): (r: CreatePayload)
    ensures r.title == f.title && r.priority == f.priority
    ensures r.description == (if Truthy(f.description) then f.description else None)
    ensures r.projectId == (if Truthy(f.projectId) then f.projectId else None)
    ensures r.repositoryUrl == TrimmedUrl(f.repositoryUrl)
    ensures f.dependencyIds.Some? ==> r.dependencyIds == f.dependencyIds.value
    ensures f.dependencyIds.None? ==> r.dependencyIds == []
  {
    CreatePayload(f.title,
                  if Truthy(f.description) then f.description else None,
                  f.priority,
                  if Truthy(f.projectId) then f.projectId else None,
                  TrimmedUrl(f.repositoryUrl),
                  f.dependencyIds.GetOr([]))
  }

  /** The URL a create request carries has no blank at either end, so
      entering it again sends it unchanged. */
  lemma CreateUrlIsNormal(f: CreateForm)
    ensures var u := CreatePayloadOf(f).repositoryUrl;
      u.Some? ==> !IsSpace(u.value[0]) && !IsSpace(u.value[|u.value| - 1])
                  && CreatePayloadOf(f.(repositoryUrl := u)).repositoryUrl == u
  {
    var u := CreatePayloadOf(f).repositoryUrl;
    if u.Some? {
      TrimEdges(f.repositoryUrl.value);
      TrimIdempotent(f.repositoryUrl.value);
    }
  }

  /** The create dialog can submit once a title is entered and the URL check
      passes. */
  predicate CreateSubmittable(f: CreateForm) {
    f.title != "" && UrlAccepted(f.repositoryUrl)
  }

  /** The defaults cannot be submitted: the title is required. */
  lemma DefaultsNotSubmittable()
    ensures !CreateSubmittable(CREATE_DEFAULTS)
    ensures CREATE_DEFAULTS.priority == 1 && CREATE_DEFAULTS.projectId.None?
    ensures CreatePayloadOf(CREATE_DEFAULTS).dependencyIds == []
  {
  }

  /** On opening the create dialog, the project chosen in the header is
      filled in unless the form already names one. */
  function Preselect(f: CreateForm, isOpen: bool, current: Option<ProjectSelection.ProjectEntry>): (r: CreateForm)
    ensures !isOpen || current.None? || Truthy(f.projectId) ==> r == f
    ensures isOpen && current.Some? && !Truthy(f.projectId) ==> r == f.(projectId := Some(current.value.id))
  {
    if !isOpen || current.None? then f
    else if Truthy(f.projectId) then f
    else f.(projectId := Some(current.value.id))
  }

  /** Preselection never replaces a project the user picked, and running it
      again changes nothing; with a current project whose id is not empty it
      always leaves a project in the form. */
  lemma PreselectKeepsChoice(f: CreateForm, isOpen: bool, current: Option<ProjectSelection.ProjectEntry>)
    ensures Truthy(f.projectId) ==> Preselect(f, isOpen, current).projectId == f.projectId
    ensures var g := Preselect(f, isOpen, current); Preselect(g, isOpen, current) == g
    ensures isOpen && current.Some? && current.value.id != "" ==> Truthy(Preselect(f, isOpen, current).projectId)
  {
  }

  // -------------------------------------------------------- edit dialog

  /** A field of the update request: left out, sent as null, or sent. */
  datatype Field<T> = Unset | Null | Sent(value: T)

  /** The issue as the client receives it. */
  datatype IssueView = IssueView(title: string, description: Option<string>, priority: Option<int>,
                                 projectId: Option<string>, repositoryUrl: Option<string>,
                                 dependencyIds: Option<seq<string>>)

  datatype EditForm = EditForm(title: Option<string>, description: Option<string>, priority: Option<int>,
                               projectId: Option<string>, repositoryUrl: Option<string>,
                               dependencyIds: Option<seq<string>>)

  /** The edit form's starting values: the issue's own, with "" for a
      missing description or URL, priority 1 when it has none and no
      dependencies when it lists none. */
  function EditDefaults(issue: IssueView): (r: EditForm)
    ensures r.title == Some(issue.title) && r.projectId == issue.projectId
    ensures r.description == Some(if Truthy(issue.description) then issue.description.value else "")
    ensures r.priority == Some(issue.priority.GetOr(1))
    ensures r.repositoryUrl == Some(if Truthy(issue.repositoryUrl) then issue.repositoryUrl.value else "")
    ensures r.dependencyIds == Some(issue.dependencyIds.GetOr([]))
  {
    EditForm(Some(issue.title),
             Some(if Truthy(issue.description) then issue.description.value else ""),
             Some(issue.priority.GetOr(1)),
             issue.projectId,
             Some(if Truthy(issue.repositoryUrl) then issue.repositoryUrl.value else ""),
             Some(issue.dependencyIds.GetOr([])))
  }

  datatype EditPayload = EditPayload(title: Option<string>, description: Option<string>, priority: Option<int>,
                                     projectId: Field<string>, repositoryUrl: Field<string>,
                                     dependencyIds: seq<string>)

  /** The edit dialog's submit: an empty description is left out, a missing
      project is sent as null, the URL is left out when the field is unset,
      sent as null (clearing it) when blank and trimmed otherwise. */
  function EditPayloadOf(f: EditForm): (r: EditPayload)
    ensures r.title == f.title && r.priority == f.priority
    ensures r.description == (if Truthy(f.description) then f.description else None)
    ensures f.projectId.None? ==> r.projectId == Null
    ensures f.projectId.Some? ==> r.projectId == Sent(f.projectId.value)
    ensures f.repositoryUrl.None? ==> r.repositoryUrl == Unset
    ensures f.repositoryUrl.Some? && Trim(f.repositoryUrl.value) == "" ==> r.repositoryUrl == Null
    ensures f.repositoryUrl.Some? && Trim(f.repositoryUrl.value) != "" ==> r.repositoryUrl == Sent(Trim(f.repositoryUrl.value))
    ensures r.dependencyIds == f.dependencyIds.GetOr([])
  {
    EditPayload(f.title,
                if Truthy(f.description) then f.description else None,
                f.priority,
                if f.projectId.None? then Null else Sent(f.projectId.value),
                if f.repositoryUrl.None? then Unset
                else if |Trim(f.repositoryUrl.value)| == 0 then Null
                else Sent(Trim(f.repositoryUrl.value)),
                f.dependencyIds.GetOr([]))
  }

  /** Submitting the starting values sends the issue back as it is: the same
      title and project, its priority (1 when it had none), its URL trimmed
      or null when it had none. */
  lemma EditDefaultsRoundTrip(issue: IssueView)
    ensures var p := EditPayloadOf(EditDefaults(issue));
      p.title == Some(issue.title) && p.priority == Some(issue.priority.GetOr(1))
      && (issue.projectId.Some? ==> p.projectId == Sent(issue.projectId.value))
      && (issue.projectId.None? ==> p.projectId == Null)
      && (!Truthy(issue.repositoryUrl) ==> p.repositoryUrl == Null)
      && (Truthy(issue.repositoryUrl) && Trim(issue.repositoryUrl.value) != "" ==>
            p.repositoryUrl == Sent(Trim(issue.repositoryUrl.value)))
      && p.dependencyIds == issue.dependencyIds.GetOr([])
  {
    var f := EditDefaults(issue);
    var p := EditPayloadOf(f);
    if !Truthy(issue.repositoryUrl) {
      assert f.repositoryUrl == Some("");
      TrimEmpty("");
      assert p.repositoryUrl == Null;
    }
  }

  /** Emptying the description field does not clear it: the empty text is
      left out of the request, so the stored description stays. */
  lemma EditCannotClearDescription(f: EditForm)
    requires f.description == Some("")
    ensures EditPayloadOf(f).description.None?
  {
  }

  /** The edit dialog saves only a changed form that passes the URL check. */
  predicate SaveEnabled(f: EditForm, defaults: EditForm) {
    f != defaults && UrlAccepted(f.repositoryUrl)
  }

  /** An untouched form cannot be saved; a changed title with an accepted
      URL can. */
  lemma SaveNeedsChange(issue: IssueView, title: string)
    requires Some(title) != Some(issue.title)
    ensures !SaveEnabled(EditDefaults(issue), EditDefaults(issue))
    ensures var f := EditDefaults(issue).(title := Some(title));
      UrlAccepted(f.repositoryUrl) ==> SaveEnabled(f, EditDefaults(issue))
  {
  }

  // --------------------------------------------------------- dependencies

  /** A chosen dependency as its badge shows it. */
  datatype DependencyOption = DependencyOption(id: string, title: string, issueNumber: Option<int>)

  /** The badges shown and the id list the form submits. */
  datatype Dependencies = Dependencies(badges: seq<DependencyOption>, ids: seq<string>)

  function Ids(badges: seq<DependencyOption>): (r: seq<string>)
    ensures |r| == |badges| && forall k :: 0 <= k < |badges| ==> r[k] == badges[k].id
  {
    seq(|badges|, k requires 0 <= k < |badges| => badges[k].id)
  }

  predicate DistinctIds(badges: seq<DependencyOption>) {
    forall i, j :: 0 <= i < j < |badges| ==> badges[i].id != badges[j].id
  }

  /** The two lists agree and no issue is chosen twice. */
  predicate Synced(d: Dependencies) {
    d.ids == Ids(d.badges) && DistinctIds(d.badges)
  }

  /** Picking an option in the create dialog: an id already in the list is
      ignored, any other is appended to both lists. */
  function AddOnCreate(d: Dependencies, opt: DependencyOption): (r: Dependencies)
    ensures opt.id in d.ids ==> r == d
    ensures opt.id !in d.ids ==> r.badges == d.badges + [opt] && r.ids == d.ids + [opt.id]
  {
    if opt.id in d.ids then d else Dependencies(d.badges + [opt], d.ids + [opt.id])
  }

  predicate HasBadge(badges: seq<DependencyOption>, id: string) {
    exists k :: 0 <= k < |badges| && badges[k].id == id
  }

  /** Picking an option in the edit dialog: as on create, except that the
      badge is appended only if no badge has that id yet. */
  function AddOnEdit(d: Dependencies, opt: DependencyOption): (r: Dependencies)
    ensures opt.id in d.ids ==> r == d
    ensures opt.id !in d.ids ==> r.ids == d.ids + [opt.id]
    ensures opt.id !in d.ids && !HasBadge(d.badges, opt.id) ==> r.badges == d.badges + [opt]
    ensures opt.id !in d.ids && HasBadge(d.badges, opt.id) ==> r.badges == d.badges
  {
    if opt.id in d.ids then d
    else Dependencies(if HasBadge(d.badges, opt.id) then d.badges else d.badges + [opt], d.ids + [opt.id])
  }

  function NotId(id: string): DependencyOption -> bool {
    (b: DependencyOption) => b.id != id
  }

  /** Removing a badge: both lists become the remaining badges and their ids. */
  function Remove(d: Dependencies, id: string): (r: Dependencies)
    ensures r.ids == Ids(r.badges)
    ensures forall b :: b in r.badges <==> b in d.badges && b.id != id
  {
    var rest := Filter(d.badges, NotId(id));
    Dependencies(rest, Ids(rest))
  }

  lemma AppendDistinct(badges: seq<DependencyOption>, opt: DependencyOption)
    requires DistinctIds(badges) && !HasBadge(badges, opt.id)
    ensures DistinctIds(badges + [opt])
  {
    var s := badges + [opt];
    forall i, j | 0 <= i < j < |s| ensures s[i].id != s[j].id {
      if j == |badges| {
        assert s[i] == badges[i];
      }
    }
  }

  /** On lists in step, an id has a badge exactly when it is in the id list. */
  lemma SyncedBadges(d: Dependencies, id: string)
    requires d.ids == Ids(d.badges)
    ensures HasBadge(d.badges, id) <==> id in d.ids
  {
    if id in d.ids {
      var k :| 0 <= k < |d.ids| && d.ids[k] == id;
      assert d.badges[k].id == id;
    }
  }

  /** Picking on create keeps the lists in step and never adds an id twice. */
  lemma AddOnCreateSynced(d: Dependencies, opt: DependencyOption)
    requires Synced(d)
    ensures Synced(AddOnCreate(d, opt)) && opt.id in AddOnCreate(d, opt).ids
  {
    SyncedBadges(d, opt.id);
    if opt.id !in d.ids {
      AppendDistinct(d.badges, opt);
      assert Ids(d.badges + [opt]) == d.ids + [opt.id];
    }
  }

  /** The edit dialog's badge list never shows an issue twice, whatever the
      id list holds. */
  lemma AddOnEditBadgesDistinct(d: Dependencies, opt: DependencyOption)
    requires DistinctIds(d.badges)
    ensures DistinctIds(AddOnEdit(d, opt).badges)
  {
    if opt.id !in d.ids && !HasBadge(d.badges, opt.id) {
      AppendDistinct(d.badges, opt);
    }
  }

  /** On lists in step, the edit dialog's pick behaves as the create
      dialog's. */
  lemma AddOnEditAgrees(d: Dependencies, opt: DependencyOption)
    requires Synced(d)
    ensures AddOnEdit(d, opt) == AddOnCreate(d, opt)
  {
    SyncedBadges(d, opt.id);
  }

  lemma {:induction false} FilterDistinct(badges: seq<DependencyOption>, p: DependencyOption -> bool)
    requires DistinctIds(badges)
    ensures DistinctIds(Filter(badges, p))
  {
    if badges != [] {
      var tail := badges[1..];
      DistinctTail(badges);
      FilterDistinct(tail, p);
      if p(badges[0]) {
        assert Filter(badges, p) == [badges[0]] + Filter(tail, p);
        DistinctCons(badges[0], Filter(tail, p));
      } else {
        assert Filter(badges, p) == Filter(tail, p);
      }
    }
  }

  lemma DistinctTail(badges: seq<DependencyOption>)
    requires badges != [] && DistinctIds(badges)
    ensures DistinctIds(badges[1..])
    ensures forall y :: y in badges[1..] ==> y.id != badges[0].id
  {
    var tail := badges[1..];
    forall i, j | 0 <= i < j < |tail| ensures tail[i].id != tail[j].id {
      assert tail[i] == badges[i + 1] && tail[j] == badges[j + 1];
    }
    forall y | y in tail ensures y.id != badges[0].id {
      var m :| 0 <= m < |tail| && tail[m] == y;
      assert badges[m + 1] == y;
    }
  }

  lemma DistinctCons(h: DependencyOption, f: seq<DependencyOption>)
    requires DistinctIds(f) && forall y :: y in f ==> y.id != h.id
    ensures DistinctIds([h] + f)
  {
    var s := [h] + f;
    forall i, j | 0 <= i < j < |s| ensures s[i].id != s[j].id {
      if i == 0 {
        assert s[j] == f[j - 1];
      } else {
        assert s[i] == f[i - 1] && s[j] == f[j - 1];
      }
    }
  }

  /** Removing keeps the lists in step and drops exactly that issue. */
  lemma RemoveSynced(d: Dependencies, id: string)
    requires DistinctIds(d.badges)
    ensures Synced(Remove(d, id))
    ensures id !in Remove(d, id).ids
    ensures forall x :: x in Remove(d, id).ids <==> x in Ids(d.badges) && x != id
  {
    var r := Remove(d, id);
    FilterDistinct(d.badges, NotId(id));
    forall x ensures x in r.ids <==> x in Ids(d.badges) && x != id {
      if x in r.ids {
        var k :| 0 <= k < |r.ids| && r.ids[k] == x;
        assert r.badges[k] in d.badges;
        var m :| 0 <= m < |d.badges| && d.badges[m] == r.badges[k];
        assert Ids(d.badges)[m] == x;
      }
      if x in Ids(d.badges) && x != id {
        var m :| 0 <= m < |d.badges| && Ids(d.badges)[m] == x;
        assert d.badges[m] in r.badges;
        var k :| 0 <= k < |r.badges| && r.badges[k] == d.badges[m];
        assert r.ids[k] == x;
      }
    }
  }

  /** Removing an issue just picked undoes the pick. */
  lemma AddThenRemove(d: Dependencies, opt: DependencyOption)
    requires Synced(d) && opt.id !in d.ids
    ensures Remove(AddOnCreate(d, opt), opt.id) == d
  {
    forall k | 0 <= k < |d.badges| ensures NotId(opt.id)(d.badges[k]) {
      assert d.ids[k] == d.badges[k].id;
    }
    FilterAll(d.badges, NotId(opt.id));
    FilterAppend(d.badges, [opt], NotId(opt.id));
    assert Filter([opt], NotId(opt.id)) == [];
    assert d.badges + [] == d.badges;
  }
}

=== FILE: issue_routes.dfy ===
/** The /issues routes: listing, reading, creating, updating and deleting
    issues under the ownership rule, the next pending issue, and the routes
    that start the workflow and the GitHub import. */
module IssueRoutes {
  import opened Common
  import opened Seqs
  import opened Models
  import opened NodeSelection
  import Workflow
  import GitHubSync

  const ISSUE_NOT_FOUND := HttpError(404, "Issue not found")
  const FORBIDDEN := HttpError(403, NOT_ENOUGH_PERMISSIONS)

  /** The issues a user may see: every issue for a superuser, their own otherwise. */
  function Visible(t: seq<Issue>, user: User): (r: seq<Issue>)
    ensures forall x :: x in r <==> x in t && MayAccess(user, x.ownerId)
  {
    Filter(t, (i: Issue) => MayAccess(user, i.ownerId))
  }

  /** ORDER BY priority DESC, created_at DESC. */
  predicate ListBefore(a: Issue, b: Issue) {
    a.priority > b.priority || (a.priority == b.priority && a.createdAt >= b.createdAt)
  }

  lemma ListOrderIsPreorder()
    ensures Total(ListBefore) && Transitive(ListBefore)
  {
  }

  datatype IssuesPublic = IssuesPublic(data: seq<Issue>, count: nat)

  /** read_issues: the count of visible issues and one page of them, highest
      priority and then newest first. */
  function ReadIssues(t: seq<Issue>, user: User, skip: int, limit: int): (r: Result<IssuesPublic>)
    ensures r.Err? <==> !ValidWindow(skip, limit)
    ensures r.Err? ==> r.error == INTERNAL_ERROR
    ensures r.Ok? ==>
      (r.value.count == |Visible(t, user)|
       && SortedBy(r.value.data, ListBefore)
       && |r.value.data| == (if skip >= r.value.count then 0 else Min(limit, r.value.count - skip))
       && forall k :: 0 <= k < |r.value.data| ==> r.value.data[k] in t && MayAccess(user, r.value.data[k].ownerId))
  {
    if !ValidWindow(skip, limit) then Err(INTERNAL_ERROR)
    else
      ListOrderIsPreorder();
      var visible := Visible(t, user);
      var sorted := Sort(visible, ListBefore);
      var data := Page(sorted, skip, limit);
      PageSorted(sorted, ListBefore, skip, limit);
      assert forall x :: x in sorted ==> x in multiset(visible);
      Ok(IssuesPublic(data, |visible|))
  }

  /** A first page at least as long as the count holds every visible issue,
      each as often as it is stored. */
  lemma ReadIssuesFirstPageIsComplete(t: seq<Issue>, user: User, limit: int)
    requires limit >= |Visible(t, user)|
    ensures ReadIssues(t, user, 0, limit).Ok?
    ensures multiset(ReadIssues(t, user, 0, limit).value.data) == multiset(Visible(t, user))
  {
    ListOrderIsPreorder();
    var sorted := Sort(Visible(t, user), ListBefore);
    assert Page(sorted, 0, limit) == sorted;
  }

  /** Successive pages of the listing fit together without gap or overlap:
      every page is a window of one ordering of the visible issues. */
  lemma ReadIssuesWindowsJoin(t: seq<Issue>, user: User, skip: nat, a: nat, b: nat)
    ensures ReadIssues(t, user, skip, a).Ok? && ReadIssues(t, user, skip + a, b).Ok?
      && ReadIssues(t, user, skip, a + b).Ok?
    ensures ReadIssues(t, user, skip, a).value.data + ReadIssues(t, user, skip + a, b).value.data
      == ReadIssues(t, user, skip, a + b).value.data
  {
    PageConsecutive(Sort(Visible(t, user), ListBefore), skip, a, b);
  }

  /** A user who is not a superuser sees exactly their own issues. */
  lemma ReadIssuesCountsOwnIssues(t: seq<Issue>, user: User)
    requires !user.isSuperuser
    ensures ReadIssues(t, user, 0, 0).Ok?
    ensures ReadIssues(t, user, 0, 0).value.count == CountWhere(t, (i: Issue) => i.ownerId == user.id)
  {
    FilterCongruent(t, (i: Issue) => MayAccess(user, i.ownerId), (i: Issue) => i.ownerId == user.id);
  }

  /** The 404-then-403 guard of the single-issue routes. */
  function Guard(t: seq<Issue>, user: User, id: Id): (r: Result<Issue>)
    ensures FindIssue(t, id).None? <==> r == Err(ISSUE_NOT_FOUND)
    ensures r.Err? && r.error == FORBIDDEN <==> FindIssue(t, id).Some? && !MayAccess(user, FindIssue(t, id).value.ownerId)
    ensures r.Ok? <==> FindIssue(t, id).Some? && MayAccess(user, FindIssue(t, id).value.ownerId)
    ensures r.Ok? ==> r.value == FindIssue(t, id).value
  {
    match FindIssue(t, id)
    case None => Err(ISSUE_NOT_FOUND)
    case Some(i) => if !MayAccess(user, i.ownerId) then Err(FORBIDDEN) else Ok(i)
  }

  /** read_issue. */
  function ReadIssue(t: seq<Issue>, user: User, id: Id): (r: Result<Issue>)
    ensures r.Ok? ==> r.value in t && r.value.id == id && MayAccess(user, r.value.ownerId)
    ensures r.Err? ==> r.error == ISSUE_NOT_FOUND || r.error == FORBIDDEN
    ensures (exists k :: 0 <= k < |t| && t[k].id == id) ==> r != Err(ISSUE_NOT_FOUND)
  {
    Guard(t, user, id)
  }

  /** create_issue: a schema-valid request becomes a new row owned by the
      caller; nothing else changes. */
  function CreateIssue(t: seq<Issue>, user: User, f: IssueFields, now: Time): (r: Result<(seq<Issue>, Issue)>)
    ensures r.Err? <==> !ValidIssueFields(f)
    ensures r.Err? ==> r.error == VALIDATION_FAILED
    ensures r.Ok? ==>
      var (t2, i) := r.value;
      t2 == t + [i] && i.ownerId == user.id && FieldsOf(i) == f && ValidIssue(i)
      && i.createdAt == now && i.updatedAt == now
      && forall k :: 0 <= k < |t| ==> t[k].id != i.id
  {
    if !ValidIssueFields(f) then Err(VALIDATION_FAILED)
    else
      var i := NewIssue(FreshIssueId(t), user.id, f, now);
      Ok((t + [i], i))
  }

  /** A created issue can be read back by its creator. */
  lemma CreatedIssueReadable(t: seq<Issue>, user: User, f: IssueFields, now: Time)
    requires ValidIssueFields(f)
    ensures var (t2, i) := CreateIssue(t, user, f, now).value;
      ReadIssue(t2, user, i.id) == Ok(i)
  {
    var (t2, i) := CreateIssue(t, user, f, now).value;
    FindIssueAppendFresh(t, i);
  }

  lemma {:induction false} FindIssueAppendFresh(t: seq<Issue>, i: Issue)
    requires forall k :: 0 <= k < |t| ==> t[k].id != i.id
    ensures FindIssue(t + [i], i.id) == Some(i)
  {
    if t != [] {
      assert (t + [i])[1..] == t[1..] + [i];
      FindIssueAppendFresh(t[1..], i);
    }
  }

  /** update_issue: body validation first, then the guard; the row takes the
      set fields and a fresh updated_at, and no other row changes. */
  function UpdateIssue(t: seq<Issue>, user: User, id: Id, u: IssueUpdate, now: Time)
    : (r: Result<(seq<Issue>, Issue)>)
    ensures !ValidIssueUpdate(u) ==> r == Err(VALIDATION_FAILED)
    ensures ValidIssueUpdate(u) ==> (r.Ok? <==> Guard(t, user, id).Ok?)
    ensures ValidIssueUpdate(u) && Guard(t, user, id).Err? ==> r == Err(Guard(t, user, id).error)
    ensures r.Ok? ==>
      var (t2, i) := r.value;
      var before := FindIssue(t, id).value;
      i == ApplyIssueUpdate(before, u, now) && |t2| == |t|
      && forall k :: 0 <= k < |t| ==> t2[k] == (if t[k].id == id then i else t[k])
  {
    if !ValidIssueUpdate(u) then Err(VALIDATION_FAILED)
    else match Guard(t, user, id)
      case Err(e) => Err(e)
      case Ok(i) =>
        var i2 := ApplyIssueUpdate(i, u, now);
        Ok((ReplaceIssue(t, i2), i2))
  }

  /** After an update, reading the issue returns the updated row. */
  lemma UpdateThenRead(t: seq<Issue>, user: User, id: Id, u: IssueUpdate, now: Time)
    requires UpdateIssue(t, user, id, u, now).Ok?
    ensures var (t2, i) := UpdateIssue(t, user, id, u, now).value;
      ReadIssue(t2, user, id) == Ok(i)
  {
    var (t2, i) := UpdateIssue(t, user, id, u, now).value;
    FindAfterReplaceIssue(t, i);
  }

  /** delete_issue: after the guard, the row is removed and every other row kept. */
  function DeleteIssue(t: seq<Issue>, user: User, id: Id): (r: Result<(seq<Issue>, string)>)
    ensures r.Err? <==> Guard(t, user, id).Err?
    ensures r.Err? ==> r.error == Guard(t, user, id).error
    ensures r.Ok? ==>
      r.value.1 == "Issue deleted successfully"
      && (forall x :: x in r.value.0 <==> x in t && x.id != id)
      && FindIssue(r.value.0, id).None?
  {
    match Guard(t, user, id)
    case Err(e) => Err(e)
    case Ok(_) =>
      var t2 := RemoveIssue(t, id);
      assert forall k :: 0 <= k < |t2| ==> t2[k] in t2;
      Ok((t2, "Issue deleted successfully"))
  }

  /** The pending issues the user may take. */
  function PendingFor(t: seq<Issue>, user: User): (r: seq<Issue>)
    ensures forall x :: x in r <==> x in t && x.status == PENDING && MayAccess(user, x.ownerId)
  {
    Filter(t, (i: Issue) => i.status == PENDING && MayAccess(user, i.ownerId))
  }

  /** get_next_pending_issue: the visible pending issue that comes first in
      dispatch order (highest priority, then oldest), or 404. */
  function NextPendingIssue(t: seq<Issue>, user: User): (r: Result<Issue>)
    ensures r.Err? <==> PendingFor(t, user) == []
    ensures r.Err? ==> r.error == HttpError(404, "No pending issues found")
    ensures r.Ok? ==>
      (r.value in t && r.value.status == PENDING && MayAccess(user, r.value.ownerId)
       && forall x :: x in t && x.status == PENDING && MayAccess(user, x.ownerId) ==> DispatchBefore(r.value, x))
  {
    var p := PendingFor(t, user);
    if p == [] then Err(HttpError(404, "No pending issues found"))
    else
      DispatchOrderIsPreorder();
      var s := Sort(p, DispatchBefore);
      assert s[0] in multiset(p);
      assert forall x :: x in p ==> DispatchBefore(s[0], x) by {
        forall x | x in p ensures DispatchBefore(s[0], x) {
          assert x in multiset(s);
          SortedHead(s, DispatchBefore, x);
        }
      }
      Ok(s[0])
  }

  /** The next pending issue is the one the scheduler dispatches first. */
  lemma NextPendingIsFirstDispatched(t: seq<Issue>, user: User)
    requires user.isSuperuser && NextPendingIssue(t, user).Ok?
    ensures PendingInDispatchOrder(t) != []
    ensures DispatchBefore(NextPendingIssue(t, user).value, PendingInDispatchOrder(t)[0])
  {
    var r := NextPendingIssue(t, user).value;
    assert r in PendingInDispatchOrder(t);
  }

  // ------------------------------------------------------- workflow routes

  /** The work the process route leaves to run after its answer. */
  datatype BackgroundJob = AutoProcess(issueId: Id, nodeId: Id)

  /** process_issue_workflow: superusers only; the issue must exist (the node
      is not checked here); the workflow is scheduled, not run. */
  function StartProcessing(t: seq<Issue>, user: User, id: Id, nodeId: Id): (r: Result<(string, BackgroundJob)>)
    ensures !user.isSuperuser ==> r == Err(FORBIDDEN)
    ensures user.isSuperuser && FindIssue(t, id).None? ==> r == Err(ISSUE_NOT_FOUND)
    ensures r.Ok? <==> user.isSuperuser && FindIssue(t, id).Some?
    ensures r.Ok? ==> r.value == ("Issue processing started", AutoProcess(id, nodeId))
  {
    if !user.isSuperuser then Err(FORBIDDEN)
    else if FindIssue(t, id).None? then Err(ISSUE_NOT_FOUND)
    else Ok(("Issue processing started", AutoProcess(id, nodeId)))
  }

  /** commit_and_push_issue: superusers only; any exception of the workflow
      becomes a 500 carrying its message. */
  function CommitPushRoute(issues: seq<Issue>, nodes: seq<Node>, user: User, id: Id, message: Option<string>,
                           exec: Workflow.CommandRequest -> Workflow.Reply): (r: Result<seq<Workflow.CommandResult>>)
    ensures !user.isSuperuser ==> r == Err(FORBIDDEN)
    ensures user.isSuperuser ==>
      var t := Workflow.CommitAndPush(Workflow.AsWritten, issues, nodes, id, message, exec);
      (t.error.Some? ==> r == Err(HttpError(500, t.error.value)))
      && (t.error.None? ==> r == Ok(t.results) && |t.results| == 3)
  {
    if !user.isSuperuser then Err(FORBIDDEN)
    else
      var t := Workflow.CommitAndPush(Workflow.AsWritten, issues, nodes, id, message, exec);
      if t.error.Some? then Err(HttpError(500, t.error.value)) else Ok(t.results)
  }

  /** sync_github_issues: superusers only; the import runs as written with the
      caller as owner and the default priorities. A GitHub failure, or a listed
      issue that reaches an open row (the update raises), becomes a 500 and
      nothing is committed. */
  function SyncGitHubRoute(t: seq<Issue>, user: User, repoOwner: string, repoName: string,
                           listing: GitHubSync.Listing, now: Time)
    : (r: Result<(seq<Issue>, GitHubSync.SyncStats)>)
    ensures !user.isSuperuser ==> r == Err(FORBIDDEN)
    ensures user.isSuperuser && listing.Unreachable? ==> r == Err(HttpError(500, listing.message))
    ensures user.isSuperuser && listing.Listed? ==>
      var xs := GitHubSync.FetchAsWritten(listing.pages, 1, []);
      (r.Err? <==> GitHubSync.Blocked(t, GitHubSync.RepoUrl(repoOwner, repoName), xs))
      && (r.Err? ==> r.error == HttpError(500, GitHubSync.NO_CONTENT_FIELD))
      && (r.Ok? ==> r.value.1.fetched == |xs|)
    ensures r.Ok? ==>
      r.value.1.created + r.value.1.skipped == r.value.1.fetched && r.value.1.updated == 0
      && |r.value.0| == |t| + r.value.1.created
      && GitHubSync.Extends(t, r.value.0, user.id)
  {
    if !user.isSuperuser then Err(FORBIDDEN)
    else match listing
      case Unreachable(msg) => Err(HttpError(500, msg))
      case Listed(pages) =>
        match GitHubSync.SyncIssuesToDb(t, user.id, repoOwner, repoName, pages, GitHubSync.DefaultPriorities, now)
        case Aborted(_, e) => Err(HttpError(500, e))
        case Completed(t1, st) => Ok((t1, st))
  }

  /** sync_multiple_github_repos: superusers only. Failures of single
      repositories are reported inside the result; an entry without "owner" or
      "name" makes the whole request a 500. The table is what the session
      committed: repositories synced before the failure stay imported. */
  function SyncBatchRoute(t: seq<Issue>, user: User, repos: seq<GitHubSync.RepoEntry>,
                          listing: GitHubSync.RepoEntry -> GitHubSync.Listing, now: Time)
    : (r: (seq<Issue>, Result<GitHubSync.TotalStats>))
    ensures !user.isSuperuser ==> r == (t, Err(FORBIDDEN))
    ensures user.isSuperuser ==>
      (r.1.Err? <==> exists k :: 0 <= k < |repos| && GitHubSync.KeyCheck(repos[k]).Some?)
    ensures user.isSuperuser && r.1.Err? ==>
      r.1.error.code == 500
      && exists k :: 0 <= k < |repos| && GitHubSync.KeyCheck(repos[k]) == Some(r.1.error.detail)
    ensures r.1.Ok? ==>
      r.1.value.repos == |repos| && |r.1.value.details| == |repos|
      && GitHubSync.Balanced(r.1.value) && r.1.value.updated == 0
    ensures GitHubSync.Extends(t, r.0, user.id)
  {
    if !user.isSuperuser then (t, Err(FORBIDDEN))
    else
      var run := GitHubSync.SyncMultipleRepos(t, user.id, repos, listing, now);
      (run.session.committed,
       match run
       case BatchDone(_, st) => Ok(st)
       case BatchRaised(_, e) => Err(HttpError(500, e)))
  }
}

=== FILE: models.dfy ===
/** The two central tables, Issue and Node, with their request schemas: the
    creation fields and their defaults, the length bounds the schemas declare,
    and partial updates in which every field is optional. */
module Models {
  import opened Common

  // ---------------------------------------------------------------- Issue

  /** The creatable fields of an issue (IssueBase / IssueCreate). */
  datatype IssueFields = IssueFields(
    title: string,
    description: Option<string>,
    repositoryUrl: Option<string>,
    issueNumber: Option<int>,
    status: string,
    priority: int,
    assignedNodeId: Option<Id>)

  /** A stored issue row. */
  datatype Issue = Issue(
    id: Id,
    ownerId: Id,
    title: string,
    description: Option<string>,
    repositoryUrl: Option<string>,
    issueNumber: Option<int>,
    status: string,
    priority: int,
    assignedNodeId: Option<Id>,
    createdAt: Time,
    updatedAt: Time,
    startedAt: Option<Time>,
    completedAt: Option<Time>,
    errorMessage: Option<string>,
    resultBranch: Option<string>)

  predicate AtMost(s: Option<string>, n: nat) {
    s.None? || |s.value| <= n
  }

  /** The length bounds IssueBase declares. */
  predicate ValidIssueFields(f: IssueFields) {
    1 <= |f.title| <= 255 && AtMost(f.description, 2048) && AtMost(f.repositoryUrl, 512)
    && |f.status| <= 32
  }

  /** The bounds of a stored issue: the IssueBase ones plus the workflow columns. */
  predicate ValidIssue(i: Issue) {
    ValidIssueFields(FieldsOf(i)) && AtMost(i.errorMessage, 1024) && AtMost(i.resultBranch, 255)
  }

  function FieldsOf(i: Issue): IssueFields {
    IssueFields(i.title, i.description, i.repositoryUrl, i.issueNumber, i.status, i.priority,
      i.assignedNodeId)
  }

  /** A creation request giving only the title: every other field takes its default. */
  function DefaultIssueFields(title: string): (f: IssueFields)
    ensures f.title == title
    ensures f.status == PENDING && f.priority == 0 && f.assignedNodeId.None?
    ensures f.description.None? && f.repositoryUrl.None? && f.issueNumber.None?
    ensures 1 <= |title| <= 255 ==> ValidIssueFields(f)
  {
    IssueFields(title, None, None, None, PENDING, 0, None)
  }

  /** A new row built from creation fields: the workflow columns start empty
      and both timestamps are the creation time. */
  function NewIssue(id: Id, ownerId: Id, f: IssueFields, now: Time): (i: Issue)
    ensures FieldsOf(i) == f && i.id == id && i.ownerId == ownerId
    ensures i.createdAt == now && i.updatedAt == now
    ensures i.startedAt.None? && i.completedAt.None? && i.errorMessage.None? && i.resultBranch.None?
    ensures ValidIssueFields(f) ==> ValidIssue(i)
  {
    Issue(id, ownerId, f.title, f.description, f.repositoryUrl, f.issueNumber, f.status,
      f.priority, f.assignedNodeId, now, now, None, None, None, None)
  }

  /** IssueUpdate: every field optional; there is no field for dependencies, the
      owner, the timestamps or the workflow columns. */
  datatype IssueUpdate = IssueUpdate(
    title: Patch<string>,
    description: Patch<Option<string>>,
    repositoryUrl: Patch<Option<string>>,
    issueNumber: Patch<Option<int>>,
    status: Patch<string>,
    priority: Patch<int>,
    assignedNodeId: Patch<Option<Id>>)

  const NoIssueChanges := IssueUpdate(Keep, Keep, Keep, Keep, Keep, Keep, Keep)

  predicate ValidIssueUpdate(u: IssueUpdate) {
    (u.title.Set? ==> 1 <= |u.title.value| <= 255)
    && (u.description.Set? ==> AtMost(u.description.value, 2048))
    && (u.repositoryUrl.Set? ==> AtMost(u.repositoryUrl.value, 512))
    && (u.status.Set? ==> |u.status.value| <= 32)
  }

  /** sqlmodel_update with the fields the request set, then updated_at := now. */
  function ApplyIssueUpdate(i: Issue, u: IssueUpdate, now: Time): (r: Issue)
    ensures r.id == i.id && r.ownerId == i.ownerId && r.createdAt == i.createdAt
    ensures r.startedAt == i.startedAt && r.completedAt == i.completedAt
    ensures r.errorMessage == i.errorMessage && r.resultBranch == i.resultBranch
    ensures r.updatedAt == now
    ensures ValidIssue(i) && ValidIssueUpdate(u) ==> ValidIssue(r)
  {
    i.(title := u.title.ApplyTo(i.title),
       description := u.description.ApplyTo(i.description),
       repositoryUrl := u.repositoryUrl.ApplyTo(i.repositoryUrl),
       issueNumber := u.issueNumber.ApplyTo(i.issueNumber),
       status := u.status.ApplyTo(i.status),
       priority := u.priority.ApplyTo(i.priority),
       assignedNodeId := u.assignedNodeId.ApplyTo(i.assignedNodeId),
       updatedAt := now)
  }

  /** A field the request leaves out keeps its value; one it sets takes the new value. */
  lemma ApplyIssueUpdateFields(i: Issue, u: IssueUpdate, now: Time)
    ensures var r := ApplyIssueUpdate(i, u, now);
      (u.title.Keep? ==> r.title == i.title) && (u.title.Set? ==> r.title == u.title.value)
      && (u.status.Keep? ==> r.status == i.status) && (u.status.Set? ==> r.status == u.status.value)
      && (u.priority.Keep? ==> r.priority == i.priority)
      && (u.priority.Set? ==> r.priority == u.priority.value)
      && (u.assignedNodeId.Keep? ==> r.assignedNodeId == i.assignedNodeId)
      && (u.description.Keep? ==> r.description == i.description)
      && (u.repositoryUrl.Keep? ==> r.repositoryUrl == i.repositoryUrl)
      && (u.issueNumber.Keep? ==> r.issueNumber == i.issueNumber)
  {
  }

  /** An empty request only refreshes updated_at, and repeating a request changes nothing more. */
  lemma ApplyIssueUpdateIdempotent(i: Issue, u: IssueUpdate, now: Time)
    ensures ApplyIssueUpdate(i, NoIssueChanges, now) == i.(updatedAt := now)
    ensures ApplyIssueUpdate(ApplyIssueUpdate(i, u, now), u, now) == ApplyIssueUpdate(i, u, now)
  {
  }

  // ----------------------------------------------------------------- Node

  /** The creatable fields of a node (NodeBase / NodeCreate). */
  datatype NodeFields = NodeFields(
    name: string,
    ip: string,
    description: Option<string>,
    tags: Option<string>,
    status: Option<string>,
    isPublic: bool,
    isDisabled: bool)

  /** A stored node row. */
  datatype Node = Node(
    id: Id,
    ownerId: Id,
    name: string,
    ip: string,
    description: Option<string>,
    tags: Option<string>,
    status: Option<string>,
    isPublic: bool,
    isDisabled: bool,
    lastHeartbeat: Option<Time>,
    createdAt: Time,
    updatedAt: Time,
    deletedAt: Option<Time>)

  /** The length bounds NodeBase declares. */
  predicate ValidNodeFields(f: NodeFields) {
    |f.name| <= 255 && |f.ip| <= 64 && AtMost(f.description, 255) && AtMost(f.tags, 255)
    && AtMost(f.status, 32)
  }

  function NodeFieldsOf(n: Node): NodeFields {
    NodeFields(n.name, n.ip, n.description, n.tags, n.status, n.isPublic, n.isDisabled)
  }

  /** A creation request giving only name and ip. */
  function DefaultNodeFields(name: string, ip: string): (f: NodeFields)
    ensures f.name == name && f.ip == ip
    ensures f.status == Some(OFFLINE) && f.isPublic && !f.isDisabled
    ensures f.description.None? && f.tags.None?
    ensures |name| <= 255 && |ip| <= 64 ==> ValidNodeFields(f)
  {
    NodeFields(name, ip, None, None, Some(OFFLINE), true, false)
  }

  /** A new node row: it has never sent a heartbeat. */
  function NewNode(id: Id, ownerId: Id, f: NodeFields, now: Time): (n: Node)
    ensures NodeFieldsOf(n) == f && n.id == id && n.ownerId == ownerId
    ensures n.lastHeartbeat.None? && n.deletedAt.None?
    ensures n.createdAt == now && n.updatedAt == now
  {
    Node(id, ownerId, f.name, f.ip, f.description, f.tags, f.status, f.isPublic, f.isDisabled,
      None, now, now, None)
  }

  /** NodeUpdate: name, ip, description, tags and status, each optional. */
  datatype NodeUpdate = NodeUpdate(
    name: Patch<string>,
    ip: Patch<string>,
    description: Patch<Option<string>>,
    tags: Patch<Option<string>>,
    status: Patch<Option<string>>)

  const NoNodeChanges := NodeUpdate(Keep, Keep, Keep, Keep, Keep)

  /** setattr for every field the request set; nothing else, not even updated_at. */
  function ApplyNodeUpdate(n: Node, u: NodeUpdate): (r: Node)
    ensures r.id == n.id && r.ownerId == n.ownerId
    ensures r.isPublic == n.isPublic && r.isDisabled == n.isDisabled
    ensures r.lastHeartbeat == n.lastHeartbeat
    ensures r.createdAt == n.createdAt && r.updatedAt == n.updatedAt && r.deletedAt == n.deletedAt
    ensures u == NoNodeChanges ==> r == n
  {
    n.(name := u.name.ApplyTo(n.name),
       ip := u.ip.ApplyTo(n.ip),
       description := u.description.ApplyTo(n.description),
       tags := u.tags.ApplyTo(n.tags),
       status := u.status.ApplyTo(n.status))
  }

  /** The register and heartbeat requests a worker node sends. */
  datatype NodeRegister = NodeRegister(
    name: string, host: string, registerKey: string, desc: Option<string>, tags: Option<string>)

  datatype NodeHeartbeat = NodeHeartbeat(nodeId: Id, registerKey: string)

  predicate ValidNodeRegister(r: NodeRegister) {
    |r.name| <= 255 && |r.host| <= 64 && |r.registerKey| <= 255 && AtMost(r.desc, 255)
    && AtMost(r.tags, 255)
  }

  predicate ValidNodeHeartbeat(h: NodeHeartbeat) {
    |h.registerKey| <= 255
  }

  // ---------------------------------------------------------------- Tables

  predicate UniqueIssueIds(t: seq<Issue>) {
    forall i, j :: 0 <= i < j < |t| ==> t[i].id != t[j].id
  }

  predicate UniqueNodeIds(t: seq<Node>) {
    forall i, j :: 0 <= i < j < |t| ==> t[i].id != t[j].id
  }

  /** An id no row uses yet (uuid4 stands in for it in the system): one more
      than the largest. */
  function FreshIssueId(t: seq<Issue>): (id: Id)
    ensures forall k :: 0 <= k < |t| ==> t[k].id < id
  {
    if t == [] then 0
    else
      var rest := FreshIssueId(t[1..]);
      if t[0].id < rest then rest else t[0].id + 1
  }

  function FreshNodeId(t: seq<Node>): (id: Id)
    ensures forall k :: 0 <= k < |t| ==> t[k].id < id
  {
    if t == [] then 0
    else
      var rest := FreshNodeId(t[1..]);
      if t[0].id < rest then rest else t[0].id + 1
  }

  /** session.get(Issue, id). */
  function FindIssue(t: seq<Issue>, id: Id): (r: Option<Issue>)
    ensures r.Some? ==> r.value in t && r.value.id == id
    ensures r.None? ==> forall k :: 0 <= k < |t| ==> t[k].id != id
  {
    if t == [] then None
    else if t[0].id == id then Some(t[0])
    else FindIssue(t[1..], id)
  }

  /** session.get(Node, id). */
  function FindNode(t: seq<Node>, id: Id): (r: Option<Node>)
    ensures r.Some? ==> r.value in t && r.value.id == id
    ensures r.None? ==> forall k :: 0 <= k < |t| ==> t[k].id != id
  {
    if t == [] then None
    else if t[0].id == id then Some(t[0])
    else FindNode(t[1..], id)
  }

  /** The row with the given id replaced (the table is unchanged if it is absent). */
  function ReplaceIssue(t: seq<Issue>, i: Issue): (r: seq<Issue>)
    ensures |r| == |t|
    ensures forall k :: 0 <= k < |t| ==> r[k] == (if t[k].id == i.id then i else t[k])
  {
    if t == [] then []
    else [if t[0].id == i.id then i else t[0]] + ReplaceIssue(t[1..], i)
  }

  function ReplaceNode(t: seq<Node>, n: Node): (r: seq<Node>)
    ensures |r| == |t|
    ensures forall k :: 0 <= k < |t| ==> r[k] == (if t[k].id == n.id then n else t[k])
  {
    if t == [] then []
    else [if t[0].id == n.id then n else t[0]] + ReplaceNode(t[1..], n)
  }

  /** session.delete: every row with the id removed, the rest kept in order. */
  function RemoveIssue(t: seq<Issue>, id: Id): (r: seq<Issue>)
    ensures forall x :: x in r <==> x in t && x.id != id
    ensures |r| <= |t|
  {
    if t == [] then []
    else if t[0].id == id then RemoveIssue(t[1..], id)
    else [t[0]] + RemoveIssue(t[1..], id)
  }

  function RemoveNode(t: seq<Node>, id: Id): (r: seq<Node>)
    ensures forall x :: x in r <==> x in t && x.id != id
    ensures |r| <= |t|
  {
    if t == [] then []
    else if t[0].id == id then RemoveNode(t[1..], id)
    else [t[0]] + RemoveNode(t[1..], id)
  }

  /** After a replacement, looking the id up finds the new row. */
  lemma {:induction false} FindAfterReplaceIssue(t: seq<Issue>, i: Issue)
    requires FindIssue(t, i.id).Some?
    ensures FindIssue(ReplaceIssue(t, i), i.id) == Some(i)
  {
    if t[0].id != i.id {
      FindAfterReplaceIssue(t[1..], i);
      assert ReplaceIssue(t, i)[1..] == ReplaceIssue(t[1..], i);
    }
  }
}

=== FILE: node_monitor.dfy ===
/** The offline sweep: nodes still marked online whose heartbeat is missing or
    older than the configured threshold are marked offline. */
module NodeMonitor {
  import opened Common
  import opened Models

  /** Online, and silent since before `threshold` (or never heard from). */
  predicate IsStale(n: Node, threshold: Time) {
    n.status == Some(ONLINE) && (n.lastHeartbeat.None? || n.lastHeartbeat.value < threshold)
  }

  function StaleCount(nodes: seq<Node>, threshold: Time): (c: nat)
    ensures c <= |nodes|
  {
    if nodes == [] then 0
    else (if IsStale(nodes[0], threshold) then 1 else 0) + StaleCount(nodes[1..], threshold)
  }

  lemma {:induction false} StaleCountPrefix(nodes: seq<Node>, i: nat, threshold: Time)
    requires i < |nodes|
    ensures StaleCount(nodes[..i + 1], threshold)
      == StaleCount(nodes[..i], threshold) + (if IsStale(nodes[i], threshold) then 1 else 0)
    decreases i
  {
    if i > 0 {
      assert nodes[..i + 1][1..] == nodes[1..][..i];
      assert nodes[..i][1..] == nodes[1..][..i - 1];
      StaleCountPrefix(nodes[1..], i - 1, threshold);
    }
  }

  /** mark_offline_nodes: the new node table and the number of nodes changed. */
  method MarkOfflineNodes(nodes: seq<Node>, now: Time, thresholdSeconds: int)
    returns (swept: seq<Node>, changed: nat)
    ensures |swept| == |nodes|
    ensures forall k :: 0 <= k < |nodes| ==>
      swept[k] == if IsStale(nodes[k], now - thresholdSeconds)
                  then nodes[k].(status := Some(OFFLINE)) else nodes[k]
    ensures changed == StaleCount(nodes, now - thresholdSeconds)
    ensures forall k :: 0 <= k < |swept| ==> !IsStale(swept[k], now - thresholdSeconds)
  {
    var threshold := now - thresholdSeconds;
    swept := [];
    changed := 0;
    var i := 0;
    while i < |nodes|
      invariant 0 <= i <= |nodes| && |swept| == i
      invariant forall k :: 0 <= k < i ==>
        swept[k] == if IsStale(nodes[k], threshold) then nodes[k].(status := Some(OFFLINE)) else nodes[k]
      invariant changed == StaleCount(nodes[..i], threshold)
    {
      StaleCountPrefix(nodes, i, threshold);
      if IsStale(nodes[i], threshold) {
        swept := swept + [nodes[i].(status := Some(OFFLINE))];
        changed := changed + 1;
      } else {
        swept := swept + [nodes[i]];
      }
      i := i + 1;
    }
    assert nodes[..i] == nodes;
  }

  /** A table without stale nodes counts none: a second sweep at the same
      instant changes nothing and reports 0. */
  lemma {:induction false} NothingStaleCountsZero(nodes: seq<Node>, threshold: Time)
    requires forall k :: 0 <= k < |nodes| ==> !IsStale(nodes[k], threshold)
    ensures StaleCount(nodes, threshold) == 0
  {
    if nodes != [] {
      NothingStaleCountsZero(nodes[1..], threshold);
    }
  }
}

=== FILE: node_routes.dfy ===
/** The /nodes routes: only a superuser lists, creates, reads, updates or
    deletes nodes; a missing node is reported before the permission check. */
module NodeRoutes {
  import opened Common
  import opened Seqs
  import opened Models

  const NODE_NOT_FOUND := HttpError(404, "Node not found")
  const FORBIDDEN := HttpError(403, NOT_ENOUGH_PERMISSIONS)

  datatype NodesPublic = NodesPublic(data: seq<Node>, count: nat)

  /** read_nodes: empty for anyone but a superuser (answered before any
      query, so the window is not even looked at); otherwise every node is
      counted and one window of the table is returned. */
  function ReadNodes(t: seq<Node>, user: User, skip: int, limit: int): (r: Result<NodesPublic>)
    ensures !user.isSuperuser ==> r == Ok(NodesPublic([], 0))
    ensures user.isSuperuser ==> (r.Err? <==> !ValidWindow(skip, limit))
    ensures r.Err? ==> r.error == INTERNAL_ERROR
    ensures user.isSuperuser && r.Ok? ==>
      (r.value.count == |t| && |r.value.data| <= limit
       && forall k :: 0 <= k < |r.value.data| ==> skip + k < |t| && r.value.data[k] == t[skip + k])
  {
    if !user.isSuperuser then Ok(NodesPublic([], 0))
    else if !ValidWindow(skip, limit) then Err(INTERNAL_ERROR)
    else Ok(NodesPublic(Page(t, skip, limit), |t|))
  }

  /** For a superuser, consecutive windows of the listing join up. */
  lemma ReadNodesWindowsJoin(t: seq<Node>, user: User, skip: nat, a: nat, b: nat)
    requires user.isSuperuser
    ensures ReadNodes(t, user, skip, a).Ok? && ReadNodes(t, user, skip + a, b).Ok?
    ensures ReadNodes(t, user, skip, a).value.data + ReadNodes(t, user, skip + a, b).value.data
      == ReadNodes(t, user, skip, a + b).value.data
  {
    PageConsecutive(t, skip, a, b);
  }

  /** create_node as written: the row is built from the request alone, so
      owner_id stays empty and the NOT NULL column makes the insert fail. */
  function CreateNodeAsWritten(t: seq<Node>, user: User, f: NodeFields): (r: Result<(seq<Node>, Node)>)
    ensures !ValidNodeFields(f) ==> r == Err(VALIDATION_FAILED)
    ensures ValidNodeFields(f) && !user.isSuperuser ==> r == Err(FORBIDDEN)
    ensures r.Err?
  {
    if !ValidNodeFields(f) then Err(VALIDATION_FAILED)
    else if !user.isSuperuser then Err(FORBIDDEN)
    else Err(INTERNAL_ERROR)
  }

  /** Even a superuser with the minimal request (name and ip) gets no node. */
  lemma CreateNodeAsWrittenRejectsMinimalRequest(t: seq<Node>, user: User)
    requires user.isSuperuser
    ensures CreateNodeAsWritten(t, user, DefaultNodeFields("minimal-node", "10.0.0.5")) == Err(INTERNAL_ERROR)
  {
  }

  /** create_node with the owner filled in from the caller, as the other
      owner-scoped routes do. */
  function CreateNode(t: seq<Node>, user: User, f: NodeFields, now: Time): (r: Result<(seq<Node>, Node)>)
    ensures !ValidNodeFields(f) ==> r == Err(VALIDATION_FAILED)
    ensures ValidNodeFields(f) && !user.isSuperuser ==> r == Err(FORBIDDEN)
    ensures r.Ok? <==> ValidNodeFields(f) && user.isSuperuser
    ensures r.Ok? ==>
      var (t2, n) := r.value;
      t2 == t + [n] && n.ownerId == user.id && NodeFieldsOf(n) == f && n.lastHeartbeat.None?
      && FindNode(t, n.id).None?
  {
    if !ValidNodeFields(f) then Err(VALIDATION_FAILED)
    else if !user.isSuperuser then Err(FORBIDDEN)
    else
      var n := NewNode(FreshNodeId(t), user.id, f, now);
      Ok((t + [n], n))
  }

  lemma {:induction false} FindNodeAppendFresh(t: seq<Node>, n: Node)
    requires forall k :: 0 <= k < |t| ==> t[k].id != n.id
    ensures FindNode(t + [n], n.id) == Some(n)
  {
    if t != [] {
      assert (t + [n])[1..] == t[1..] + [n];
      FindNodeAppendFresh(t[1..], n);
    }
  }

  /** A node created from name and ip alone is offline and can be read back. */
  lemma MinimalNodeIsOffline(t: seq<Node>, user: User, name: string, ip: string, now: Time)
    requires user.isSuperuser && |name| <= 255 && |ip| <= 64
    ensures CreateNode(t, user, DefaultNodeFields(name, ip), now).Ok?
    ensures var (t2, n) := CreateNode(t, user, DefaultNodeFields(name, ip), now).value;
      n.status == Some(OFFLINE) && n.name == name && n.ip == ip && ReadNode(t2, user, n.id) == Ok(n)
  {
    var (t2, n) := CreateNode(t, user, DefaultNodeFields(name, ip), now).value;
    FindNodeAppendFresh(t, n);
  }

  /** The guard of the single-node routes: 404 first, then 403. */
  function ReadNode(t: seq<Node>, user: User, id: Id): (r: Result<Node>)
    ensures FindNode(t, id).None? <==> r == Err(NODE_NOT_FOUND)
    ensures r == Err(FORBIDDEN) <==> FindNode(t, id).Some? && !user.isSuperuser
    ensures r.Ok? <==> FindNode(t, id).Some? && user.isSuperuser
    ensures r.Ok? ==> r.value == FindNode(t, id).value
  {
    match FindNode(t, id)
    case None => Err(NODE_NOT_FOUND)
    case Some(n) => if user.isSuperuser then Ok(n) else Err(FORBIDDEN)
  }

  /** The bounds NodeUpdate declares. */
  predicate ValidNodeUpdate(u: NodeUpdate) {
    (u.name.Set? ==> |u.name.value| <= 255) && (u.ip.Set? ==> |u.ip.value| <= 64)
    && (u.description.Set? ==> AtMost(u.description.value, 255))
    && (u.tags.Set? ==> AtMost(u.tags.value, 255))
    && (u.status.Set? ==> AtMost(u.status.value, 32))
  }

  lemma {:induction false} FindNodeReplaced(t: seq<Node>, n: Node)
    requires FindNode(t, n.id).Some?
    ensures FindNode(ReplaceNode(t, n), n.id) == Some(n)
  {
    if t[0].id != n.id {
      assert ReplaceNode(t, n)[1..] == ReplaceNode(t[1..], n);
      FindNodeReplaced(t[1..], n);
    }
  }

  /** update_node: 422, then 404, then 403; the supplied fields are set on
      that one node and nothing else changes. */
  function UpdateNode(t: seq<Node>, user: User, id: Id, u: NodeUpdate): (r: Result<(seq<Node>, Node)>)
    ensures !ValidNodeUpdate(u) ==> r == Err(VALIDATION_FAILED)
    ensures ValidNodeUpdate(u) ==> (r.Ok? <==> ReadNode(t, user, id).Ok?)
    ensures ValidNodeUpdate(u) && ReadNode(t, user, id).Err? ==> r == Err(ReadNode(t, user, id).error)
    ensures r.Ok? ==>
      var (t2, n) := r.value;
      n == ApplyNodeUpdate(FindNode(t, id).value, u) && |t2| == |t|
      && FindNode(t2, id) == Some(n)
      && forall k :: 0 <= k < |t| ==> t2[k] == (if t[k].id == id then n else t[k])
  {
    if !ValidNodeUpdate(u) then Err(VALIDATION_FAILED)
    else match ReadNode(t, user, id)
      case Err(e) => Err(e)
      case Ok(before) =>
        var n := ApplyNodeUpdate(before, u);
        FindNodeReplaced(t, n);
        Ok((ReplaceNode(t, n), n))
  }

  /** Setting only the status leaves name and ip as they were. */
  lemma StatusOnlyUpdate(t: seq<Node>, user: User, id: Id, s: string)
    requires user.isSuperuser && FindNode(t, id).Some? && |s| <= 32
    ensures var u := NodeUpdate(Keep, Keep, Keep, Keep, Set(Some(s)));
      UpdateNode(t, user, id, u).Ok?
      && UpdateNode(t, user, id, u).value.1.status == Some(s)
      && UpdateNode(t, user, id, u).value.1.name == FindNode(t, id).value.name
      && UpdateNode(t, user, id, u).value.1.ip == FindNode(t, id).value.ip
  {
  }

  /** delete_node: 404, then 403; the node disappears and the others stay. */
  function DeleteNode(t: seq<Node>, user: User, id: Id): (r: Result<(seq<Node>, string)>)
    ensures r.Err? <==> ReadNode(t, user, id).Err?
    ensures r.Err? ==> r.error == ReadNode(t, user, id).error
    ensures r.Ok? ==>
      r.value.1 == "Node deleted successfully"
      && (forall x :: x in r.value.0 <==> x in t && x.id != id)
      && FindNode(r.value.0, id).None?
  {
    match ReadNode(t, user, id)
    case Err(e) => Err(e)
    case Ok(_) => Ok((RemoveNode(t, id), "Node deleted successfully"))
  }

  /** Deleting twice: the second attempt is a 404. */
  lemma DeleteTwice(t: seq<Node>, user: User, id: Id)
    requires DeleteNode(t, user, id).Ok?
    ensures DeleteNode(DeleteNode(t, user, id).value.0, user, id) == Err(NODE_NOT_FOUND)
  {
  }
}

=== FILE: node_selection.dfy ===
/** Node selection and load balancing: which worker nodes may take work, which
    one is the least loaded, and how a pass hands pending issues to nodes. */
module NodeSelection {
  import opened Common
  import opened Text
  import opened Seqs
  import opened Models

  /** Default max_offline_minutes of the health check. */
  const MAX_OFFLINE_MINUTES := 5

  predicate Online(n: Node) {
    n.status == Some(ONLINE)
  }

  /** A heartbeat strictly newer than `now` minus the allowed silence. */
  predicate IsNodeHealthy(n: Node, now: Time, maxOfflineMinutes: int) {
    n.lastHeartbeat.Some? && n.lastHeartbeat.value > now - maxOfflineMinutes * 60
  }

  /** Online and healthy with the default window. */
  predicate Eligible(n: Node, now: Time) {
    Online(n) && IsNodeHealthy(n, now, MAX_OFFLINE_MINUTES)
  }

  /** An issue that counts towards a node's workload. */
  predicate LoadsNode(i: Issue, nodeId: Id) {
    i.assignedNodeId == Some(nodeId) && i.status == PROCESSING
  }

  /** get_node_workload: issues assigned to the node and in "processing". */
  function Workload(t: seq<Issue>, nodeId: Id): (n: nat)
    ensures n <= |t|
  {
    if t == [] then 0
    else (if LoadsNode(t[0], nodeId) then 1 else 0) + Workload(t[1..], nodeId)
  }

  /** Two tables that agree row by row on what loads a node give it the same workload. */
  lemma {:induction false} WorkloadPointwise(t: seq<Issue>, u: seq<Issue>, nodeId: Id)
    requires |t| == |u|
    requires forall k :: 0 <= k < |t| ==> (LoadsNode(t[k], nodeId) <==> LoadsNode(u[k], nodeId))
    ensures Workload(t, nodeId) == Workload(u, nodeId)
  {
    if t != [] {
      WorkloadPointwise(t[1..], u[1..], nodeId);
    }
  }

  /** The comma-separated tags of a node, each stripped. */
  function TagList(tags: string): (r: seq<string>)
    ensures |r| == |Split(tags, ',')|
    ensures forall k :: 0 <= k < |r| ==> r[k] == Trim(Split(tags, ',')[k])
  {
    var parts := Split(tags, ',');
    seq(|parts|, k requires 0 <= k < |parts| => Trim(parts[k]))
  }

  /** The node has tags and one of the required tags is among them. */
  predicate MatchesTags(n: Node, required: seq<string>) {
    Truthy(n.tags) && exists k :: 0 <= k < |required| && required[k] in TagList(n.tags.value)
  }

  function EligibleAt(now: Time): Node -> bool {
    (n: Node) => Eligible(n, now)
  }

  function TaggedWith(tags: seq<string>): Node -> bool {
    (n: Node) => MatchesTags(n, tags)
  }

  /** The nodes select_best_node chooses among: the online, healthy ones,
      narrowed to those matching a required tag when at least one does. */
  function Candidates(nodes: seq<Node>, now: Time, tags: seq<string>): (r: seq<Node>)
    ensures forall n :: n in r ==> n in nodes && Eligible(n, now)
    ensures r == [] <==> forall n :: n in nodes ==> !Eligible(n, now)
    ensures (tags == [] || forall n :: n in nodes && Eligible(n, now) ==> !MatchesTags(n, tags))
      ==> forall n :: n in r <==> n in nodes && Eligible(n, now)
    ensures (tags != [] && exists n :: n in nodes && Eligible(n, now) && MatchesTags(n, tags))
      ==> forall n :: n in r <==> n in nodes && Eligible(n, now) && MatchesTags(n, tags)
  {
    var healthy := Filter(nodes, EligibleAt(now));
    var tagged := Filter(healthy, TaggedWith(tags));
    FilteredNodes(nodes, now, tags);
    if tags != [] && tagged != [] then tagged else healthy
  }

  /** What the two filters of select_best_node keep, and when they keep nothing. */
  lemma FilteredNodes(nodes: seq<Node>, now: Time, tags: seq<string>)
    ensures var healthy := Filter(nodes, EligibleAt(now));
      var tagged := Filter(healthy, TaggedWith(tags));
      (forall n :: n in healthy <==> n in nodes && Eligible(n, now))
      && (forall n :: n in tagged <==> n in nodes && Eligible(n, now) && MatchesTags(n, tags))
      && (healthy == [] <==> forall n :: n in nodes ==> !Eligible(n, now))
      && (tagged == [] <==> forall n :: n in nodes && Eligible(n, now) ==> !MatchesTags(n, tags))
  {
    var healthy := Filter(nodes, EligibleAt(now));
    var tagged := Filter(healthy, TaggedWith(tags));
    assert healthy != [] ==> healthy[0] in healthy;
    assert tagged != [] ==> tagged[0] in tagged;
  }

  /** The first candidate with the smallest workload. */
  function LeastLoadedIndex(c: seq<Node>, t: seq<Issue>): (i: nat)
    requires c != []
    ensures i < |c|
    ensures forall j :: 0 <= j < |c| ==> Workload(t, c[i].id) <= Workload(t, c[j].id)
    ensures forall j :: 0 <= j < i ==> Workload(t, c[j].id) > Workload(t, c[i].id)
  {
    var loads := seq(|c|, k requires 0 <= k < |c| => Workload(t, c[k].id));
    var i := FirstMinIndex(loads);
    assert forall j :: 0 <= j < |c| ==> loads[j] == Workload(t, c[j].id);
    i
  }

  /** select_best_node: the first least-loaded candidate, or nothing when no node
      is both online and healthy. */
  function SelectBestNode(nodes: seq<Node>, t: seq<Issue>, now: Time, tags: seq<string>)
    : (r: Option<Node>)
    ensures r.None? <==> forall n :: n in nodes ==> !Eligible(n, now)
    ensures r.Some? ==> r.value in nodes && Eligible(r.value, now)
    ensures r.Some? && tags != [] && (exists n :: n in nodes && Eligible(n, now) && MatchesTags(n, tags))
      ==> MatchesTags(r.value, tags)
    ensures r.Some? ==> var c := Candidates(nodes, now, tags);
      exists i :: (0 <= i < |c| && c[i] == r.value
        && (forall j :: 0 <= j < |c| ==> Workload(t, r.value.id) <= Workload(t, c[j].id))
        && forall j :: 0 <= j < i ==> Workload(t, c[j].id) > Workload(t, r.value.id))
  {
    var c := Candidates(nodes, now, tags);
    if c == [] then None
    else
      var i := LeastLoadedIndex(c, t);
      assert c[i] in c;
      Some(c[i])
  }

  /** The choice depends on the issue table only through the workloads. */
  lemma SelectBestNodeDependsOnWorkloads(nodes: seq<Node>, t: seq<Issue>, u: seq<Issue>, now: Time,
                                         tags: seq<string>)
    requires forall id :: Workload(t, id) == Workload(u, id)
    ensures SelectBestNode(nodes, t, now, tags) == SelectBestNode(nodes, u, now, tags)
  {
    var c := Candidates(nodes, now, tags);
    if c != [] {
      LeastLoadedIndexDependsOnWorkloads(c, t, u);
    }
  }

  /** The first least-loaded index is determined by the candidates' workloads. */
  lemma LeastLoadedIndexDependsOnWorkloads(c: seq<Node>, t: seq<Issue>, u: seq<Issue>)
    requires c != []
    requires forall j :: 0 <= j < |c| ==> Workload(t, c[j].id) == Workload(u, c[j].id)
    ensures LeastLoadedIndex(c, t) == LeastLoadedIndex(c, u)
  {
    var i := LeastLoadedIndex(c, t);
    var i' := LeastLoadedIndex(c, u);
    assert Workload(u, c[i].id) <= Workload(u, c[i'].id);
    assert Workload(t, c[i'].id) <= Workload(t, c[i].id);
  }

  // ------------------------------------------------------------ distribution

  datatype DistributionStats = DistributionStats(numAssigned: nat, numSkipped: nat, numNoAvailableNodes: nat)

  predicate IsPending(i: Issue) {
    i.status == PENDING
  }

  /** ORDER BY priority DESC, created_at ASC. */
  predicate DispatchBefore(a: Issue, b: Issue) {
    a.priority > b.priority || (a.priority == b.priority && a.createdAt <= b.createdAt)
  }

  lemma DispatchOrderIsPreorder()
    ensures Total(DispatchBefore) && Transitive(DispatchBefore)
  {
  }

  /** The pending issues, highest priority first and oldest first within a priority. */
  function PendingInDispatchOrder(t: seq<Issue>): (r: seq<Issue>)
    ensures multiset(r) == multiset(Filter(t, IsPending))
    ensures |r| == CountWhere(t, IsPending)
    ensures SortedBy(r, DispatchBefore)
    ensures forall k :: 0 <= k < |r| ==> r[k].status == PENDING && r[k] in t
    ensures forall i :: i in t && i.status == PENDING ==> i in r
  {
    DispatchOrderIsPreorder();
    var f := Filter(t, IsPending);
    var r := Sort(f, DispatchBefore);
    SameMembers(r, f);
    r
  }

  function Assign(i: Issue, nodeId: Id): Issue {
    i.(assignedNodeId := Some(nodeId))
  }

  predicate InIds(order: seq<Issue>, id: Id) {
    exists j :: 0 <= j < |order| && order[j].id == id
  }

  /** The loop of distribute_issues_to_nodes over the remaining issues. */
  function DistributeFrom(nodes: seq<Node>, order: seq<Issue>, t: seq<Issue>, now: Time,
                          maxPerNode: int, st: DistributionStats): (seq<Issue>, DistributionStats)
    decreases |order|
  {
    if order == [] then (t, st)
    else
      var best := SelectBestNode(nodes, t, now, []);
      if best.None? then
        DistributeFrom(nodes, order[1..], t, now, maxPerNode,
          st.(numNoAvailableNodes := st.numNoAvailableNodes + 1))
      else if Workload(t, best.value.id) >= maxPerNode then
        DistributeFrom(nodes, order[1..], t, now, maxPerNode, st.(numSkipped := st.numSkipped + 1))
      else
        DistributeFrom(nodes, order[1..], ReplaceIssue(t, Assign(order[0], best.value.id)), now,
          maxPerNode, st.(numAssigned := st.numAssigned + 1))
  }

  /** With no eligible node, or a best node already at the cap, the pass
      changes nothing and counts every remaining issue the same way. */
  lemma DistributeFromIdle(nodes: seq<Node>, order: seq<Issue>, t: seq<Issue>,
                            now: Time, maxPerNode: int, st: DistributionStats)
    ensures var b := SelectBestNode(nodes, t, now, []);
      var r := DistributeFrom(nodes, order, t, now, maxPerNode, st);
      (b.None? ==> r == (t, st.(numNoAvailableNodes := st.numNoAvailableNodes + |order|)))
      && (b.Some? && Workload(t, b.value.id) >= maxPerNode
          ==> r == (t, st.(numSkipped := st.numSkipped + |order|)))
  {
    var b := SelectBestNode(nodes, t, now, []);
    if b.None? {
      DistributeFromNoNode(nodes, order, t, now, maxPerNode, st);
    } else if Workload(t, b.value.id) >= maxPerNode {
      DistributeFromFull(nodes, order, t, now, maxPerNode, st);
    }
  }

  lemma {:induction false} DistributeFromNoNode(nodes: seq<Node>, order: seq<Issue>, t: seq<Issue>,
                                                now: Time, maxPerNode: int, st: DistributionStats)
    requires SelectBestNode(nodes, t, now, []).None?
    ensures DistributeFrom(nodes, order, t, now, maxPerNode, st)
      == (t, st.(numNoAvailableNodes := st.numNoAvailableNodes + |order|))
    decreases |order|
  {
    if order != [] {
      DistributeFromNoNode(nodes, order[1..], t, now, maxPerNode,
        st.(numNoAvailableNodes := st.numNoAvailableNodes + 1));
    }
  }

  lemma {:induction false} DistributeFromFull(nodes: seq<Node>, order: seq<Issue>, t: seq<Issue>,
                                              now: Time, maxPerNode: int, st: DistributionStats)
    requires var b := SelectBestNode(nodes, t, now, []);
      b.Some? && Workload(t, b.value.id) >= maxPerNode
    ensures DistributeFrom(nodes, order, t, now, maxPerNode, st)
      == (t, st.(numSkipped := st.numSkipped + |order|))
    decreases |order|
  {
    if order != [] {
      DistributeFromFull(nodes, order[1..], t, now, maxPerNode, st.(numSkipped := st.numSkipped + 1));
    }
  }

  /** The rows of `order` are pending, a row is determined by its id, and the
      table holds each of them either untouched or already assigned to `nodeId`. */
  ghost predicate PassInvariant(order: seq<Issue>, t: seq<Issue>, nodeId: Id) {
    (forall j :: 0 <= j < |order| ==> order[j].status == PENDING)
    && (forall j, j' :: (0 <= j < |order| && 0 <= j' < |order| && order[j].id == order[j'].id
          ==> order[j] == order[j']))
    && (forall j, k :: (0 <= j < |order| && 0 <= k < |t| && order[j].id == t[k].id
          ==> t[k] == order[j] || t[k] == Assign(order[j], nodeId)))
  }

  lemma InIdsCons(order: seq<Issue>, id: Id)
    requires order != []
    ensures InIds(order, id) <==> order[0].id == id || InIds(order[1..], id)
  {
    if InIds(order, id) && order[0].id != id {
      var j :| 0 <= j < |order| && order[j].id == id;
      assert order[1..][j - 1] == order[j];
    }
    if InIds(order[1..], id) {
      var j :| 0 <= j < |order[1..]| && order[1..][j].id == id;
      assert order[j + 1] == order[1..][j];
    }
  }

  /** One assignment keeps every workload. */
  lemma AssignKeepsWorkloads(order: seq<Issue>, t: seq<Issue>, nodeId: Id)
    requires order != [] && PassInvariant(order, t, nodeId)
    ensures forall id :: Workload(ReplaceIssue(t, Assign(order[0], nodeId)), id) == Workload(t, id)
  {
    var row := Assign(order[0], nodeId);
    var t1 := ReplaceIssue(t, row);
    forall id ensures Workload(t1, id) == Workload(t, id) {
      forall k | 0 <= k < |t| ensures LoadsNode(t[k], id) <==> LoadsNode(t1[k], id) {
        if t[k].id == row.id {
          assert t[k] == order[0] || t[k] == row;
        }
      }
      WorkloadPointwise(t, t1, id);
    }
  }

  /** One assignment keeps the invariant for the remaining rows and touches
      exactly the rows with the assigned issue's id. */
  lemma AssignStep(order: seq<Issue>, t: seq<Issue>, nodeId: Id)
    requires order != [] && PassInvariant(order, t, nodeId)
    ensures var t1 := ReplaceIssue(t, Assign(order[0], nodeId));
      PassInvariant(order[1..], t1, nodeId)
      && forall k :: 0 <= k < |t| ==>
        t1[k] == if t[k].id == order[0].id then Assign(t[k], nodeId) else t[k]
  {
    AssignStepKeepsInvariant(order, t, nodeId);
    AssignStepRows(order, t, nodeId);
  }

  lemma AssignStepKeepsInvariant(order: seq<Issue>, t: seq<Issue>, nodeId: Id)
    requires order != [] && PassInvariant(order, t, nodeId)
    ensures PassInvariant(order[1..], ReplaceIssue(t, Assign(order[0], nodeId)), nodeId)
  {
    var row := Assign(order[0], nodeId);
    var t1 := ReplaceIssue(t, row);
    var rest := order[1..];
    assert forall j :: 0 <= j < |rest| ==> rest[j] == order[j + 1];
    forall j, k | 0 <= j < |rest| && 0 <= k < |t1| && rest[j].id == t1[k].id
      ensures t1[k] == rest[j] || t1[k] == Assign(rest[j], nodeId)
    {
      if t[k].id == row.id {
        assert order[j + 1].id == order[0].id;
      } else {
        assert t1[k] == t[k];
      }
    }
  }

  lemma AssignStepRows(order: seq<Issue>, t: seq<Issue>, nodeId: Id)
    requires order != [] && PassInvariant(order, t, nodeId)
    ensures var t1 := ReplaceIssue(t, Assign(order[0], nodeId));
      forall k :: 0 <= k < |t| ==>
        t1[k] == if t[k].id == order[0].id then Assign(t[k], nodeId) else t[k]
  {
    var row := Assign(order[0], nodeId);
    var t1 := ReplaceIssue(t, row);
    forall k | 0 <= k < |t| && t[k].id == order[0].id ensures t1[k] == Assign(t[k], nodeId) {
      assert t[k] == order[0] || t[k] == row;
    }
  }

  lemma DistributeFromUnfold(nodes: seq<Node>, order: seq<Issue>, t: seq<Issue>, now: Time,
                             maxPerNode: int, st: DistributionStats, nodeId: Id)
    requires order != []
    requires var b := SelectBestNode(nodes, t, now, []);
      b.Some? && b.value.id == nodeId && Workload(t, nodeId) < maxPerNode
    ensures DistributeFrom(nodes, order, t, now, maxPerNode, st)
      == DistributeFrom(nodes, order[1..], ReplaceIssue(t, Assign(order[0], nodeId)), now, maxPerNode,
           st.(numAssigned := st.numAssigned + 1))
  {
    var best := SelectBestNode(nodes, t, now, []);
    assert best.Some? && best.value.id == nodeId;
    assert !(Workload(t, best.value.id) >= maxPerNode);
  }

  lemma AssignedRowsShift(order: seq<Issue>, t: seq<Issue>, t1: seq<Issue>, r: seq<Issue>, nodeId: Id)
    requires order != [] && |t1| == |t| && |r| == |t|
    requires forall k :: 0 <= k < |t| ==>
      t1[k] == if t[k].id == order[0].id then Assign(t[k], nodeId) else t[k]
    requires forall k :: 0 <= k < |t1| ==>
      r[k] == if InIds(order[1..], t1[k].id) then Assign(t1[k], nodeId) else t1[k]
    ensures forall k :: 0 <= k < |t| ==>
      r[k] == if InIds(order, t[k].id) then Assign(t[k], nodeId) else t[k]
  {
    forall k | 0 <= k < |t|
      ensures r[k] == if InIds(order, t[k].id) then Assign(t[k], nodeId) else t[k]
    {
      InIdsCons(order, t[k].id);
    }
  }

  /** When the first decision is an assignment, every remaining issue gets the same node. */
  lemma {:induction false} DistributeFromAssigns(nodes: seq<Node>, order: seq<Issue>, t: seq<Issue>,
                                                 now: Time, maxPerNode: int, st: DistributionStats,
                                                 nodeId: Id)
    requires var b := SelectBestNode(nodes, t, now, []);
      b.Some? && b.value.id == nodeId && Workload(t, nodeId) < maxPerNode
    requires PassInvariant(order, t, nodeId)
    ensures var r := DistributeFrom(nodes, order, t, now, maxPerNode, st);
      |r.0| == |t| && (forall id :: Workload(r.0, id) == Workload(t, id))
      && r.1 == st.(numAssigned := st.numAssigned + |order|)
      && forall k :: 0 <= k < |t| ==>
        r.0[k] == if InIds(order, t[k].id) then Assign(t[k], nodeId) else t[k]
    decreases |order|
  {
    if order != [] {
      var t1 := ReplaceIssue(t, Assign(order[0], nodeId));
      var st1 := st.(numAssigned := st.numAssigned + 1);
      AssignsStep(nodes, order, t, now, maxPerNode, st, nodeId);
      DistributeFromAssigns(nodes, order[1..], t1, now, maxPerNode, st1, nodeId);
      var r := DistributeFrom(nodes, order[1..], t1, now, maxPerNode, st1);
      AssignedRowsShift(order, t, t1, r.0, nodeId);
      forall id ensures Workload(r.0, id) == Workload(t, id) {
        assert Workload(r.0, id) == Workload(t1, id);
      }
    }
  }

  /** The first assignment of a pass: the table after it keeps the
      invariant and every workload, so the same node is chosen next. */
  lemma AssignsStep(nodes: seq<Node>, order: seq<Issue>, t: seq<Issue>, now: Time, maxPerNode: int,
                    st: DistributionStats, nodeId: Id)
    requires order != []
    requires var b := SelectBestNode(nodes, t, now, []);
      b.Some? && b.value.id == nodeId && Workload(t, nodeId) < maxPerNode
    requires PassInvariant(order, t, nodeId)
    ensures var t1 := ReplaceIssue(t, Assign(order[0], nodeId));
      var b1 := SelectBestNode(nodes, t1, now, []);
      PassInvariant(order[1..], t1, nodeId)
      && (forall id :: Workload(t1, id) == Workload(t, id))
      && b1.Some? && b1.value.id == nodeId && Workload(t1, nodeId) < maxPerNode
      && (forall k :: 0 <= k < |t| ==>
            t1[k] == if t[k].id == order[0].id then Assign(t[k], nodeId) else t[k])
      && DistributeFrom(nodes, order, t, now, maxPerNode, st)
         == DistributeFrom(nodes, order[1..], t1, now, maxPerNode, st.(numAssigned := st.numAssigned + 1))
  {
    var t1 := ReplaceIssue(t, Assign(order[0], nodeId));
    AssignKeepsWorkloads(order, t, nodeId);
    AssignStep(order, t, nodeId);
    SelectBestNodeDependsOnWorkloads(nodes, t1, t, now, []);
    DistributeFromUnfold(nodes, order, t, now, maxPerNode, st, nodeId);
  }

  /** distribute_issues_to_nodes as written: every pending issue receives the
      decision taken for the first one, because an assignment leaves the issue
      "pending" and so never adds to any node's workload. */
  function DistributeIssues(nodes: seq<Node>, issues: seq<Issue>, now: Time, maxPerNode: int)
    : (r: (seq<Issue>, DistributionStats))
    requires UniqueIssueIds(issues)
    ensures r.1.numAssigned + r.1.numSkipped + r.1.numNoAvailableNodes == CountWhere(issues, IsPending)
    ensures |r.0| == |issues| && forall id :: Workload(r.0, id) == Workload(issues, id)
    ensures var b := SelectBestNode(nodes, issues, now, []);
      var p := CountWhere(issues, IsPending);
      (b.None? ==> r.0 == issues && r.1 == DistributionStats(0, 0, p))
      && (b.Some? && Workload(issues, b.value.id) >= maxPerNode
          ==> r.0 == issues && r.1 == DistributionStats(0, p, 0))
      && (b.Some? && Workload(issues, b.value.id) < maxPerNode
          ==> (r.1 == DistributionStats(p, 0, 0)
               && forall k :: 0 <= k < |issues| ==>
                 r.0[k] == if issues[k].status == PENDING then Assign(issues[k], b.value.id) else issues[k]))
  {
    DistributeIssuesCases(nodes, issues, now, maxPerNode);
    DistributeFrom(nodes, PendingInDispatchOrder(issues), issues, now, maxPerNode,
      DistributionStats(0, 0, 0))
  }

  /** Rows drawn from a table with unique ids are determined by their id. */
  lemma RowsOfUniqueTable(order: seq<Issue>, t: seq<Issue>)
    requires UniqueIssueIds(t)
    requires forall j :: 0 <= j < |order| ==> order[j] in t
    ensures forall j, k :: (0 <= j < |order| && 0 <= k < |t| && order[j].id == t[k].id
      ==> t[k] == order[j])
    ensures forall j, j' :: (0 <= j < |order| && 0 <= j' < |order| && order[j].id == order[j'].id
      ==> order[j] == order[j'])
  {
    forall j, k | 0 <= j < |order| && 0 <= k < |t| && order[j].id == t[k].id
      ensures t[k] == order[j]
    {
      var m :| 0 <= m < |t| && t[m] == order[j];
      assert m == k;
    }
  }

  lemma DistributeIssuesCases(nodes: seq<Node>, issues: seq<Issue>, now: Time, maxPerNode: int)
    requires UniqueIssueIds(issues)
    ensures var order := PendingInDispatchOrder(issues);
      var r := DistributeFrom(nodes, order, issues, now, maxPerNode, DistributionStats(0, 0, 0));
      var b := SelectBestNode(nodes, issues, now, []);
      var p := |order|;
      |r.0| == |issues| && (forall id :: Workload(r.0, id) == Workload(issues, id))
      && (b.None? ==> r.0 == issues && r.1 == DistributionStats(0, 0, p))
      && (b.Some? && Workload(issues, b.value.id) >= maxPerNode
          ==> r.0 == issues && r.1 == DistributionStats(0, p, 0))
      && (b.Some? && Workload(issues, b.value.id) < maxPerNode
          ==> (r.1 == DistributionStats(p, 0, 0)
               && forall k :: 0 <= k < |issues| ==>
                 r.0[k] == if issues[k].status == PENDING then Assign(issues[k], b.value.id) else issues[k]))
  {
    var order := PendingInDispatchOrder(issues);
    var b := SelectBestNode(nodes, issues, now, []);
    DistributeFromIdle(nodes, order, issues, now, maxPerNode, DistributionStats(0, 0, 0));
    if b.Some? && Workload(issues, b.value.id) < maxPerNode {
      RowsOfUniqueTable(order, issues);
      forall k | 0 <= k < |issues| ensures InIds(order, issues[k].id) <==> issues[k].status == PENDING {
        if issues[k].status == PENDING {
          assert issues[k] in order;
        }
      }
      DistributeFromAssigns(nodes, order, issues, now, maxPerNode, DistributionStats(0, 0, 0),
        b.value.id);
    }
  }

  // ------------------------------------------------- balanced distribution

  function Occurrences(s: seq<Id>, x: Id): (n: nat)
    ensures n <= |s|
  {
    if s == [] then 0 else (if s[0] == x then 1 else 0) + Occurrences(s[1..], x)
  }

  lemma {:induction false} OccurrencesAppend(s: seq<Id>, y: Id, x: Id)
    ensures Occurrences(s + [y], x) == Occurrences(s, x) + (if x == y then 1 else 0)
  {
    if s != [] {
      assert (s + [y])[1..] == s[1..] + [y];
      OccurrencesAppend(s[1..], y, x);
    }
  }

  /** A node's load counting the assignments already made in this pass. */
  function QueueLoad(t: seq<Issue>, given: seq<Id>, nodeId: Id): nat {
    Workload(t, nodeId) + Occurrences(given, nodeId)
  }

  /** The least-queued eligible node, earliest first among equals. */
  function SelectLeastQueued(nodes: seq<Node>, t: seq<Issue>, now: Time, given: seq<Id>)
    : (r: Option<Node>)
    ensures r.None? <==> forall n :: n in nodes ==> !Eligible(n, now)
    ensures r.Some? ==> r.value in nodes && Eligible(r.value, now)
    ensures r.Some? ==> forall n :: (n in nodes && Eligible(n, now)
      ==> QueueLoad(t, given, r.value.id) <= QueueLoad(t, given, n.id))
  {
    var c := Candidates(nodes, now, []);
    if c == [] then None
    else
      var loads := seq(|c|, k requires 0 <= k < |c| => QueueLoad(t, given, c[k].id));
      var i := FirstMinIndex(loads);
      assert forall n :: n in c ==> QueueLoad(t, given, c[i].id) <= QueueLoad(t, given, n.id) by {
        forall n | n in c ensures QueueLoad(t, given, c[i].id) <= QueueLoad(t, given, n.id) {
          var m :| 0 <= m < |c| && c[m] == n;
          assert loads[i] <= loads[m];
        }
      }
      Some(c[i])
  }

  datatype BalancedResult = BalancedResult(
    issues: seq<Issue>, stats: DistributionStats, given: seq<Id>)

  /** One turn of the balanced loop for issue i. */
  function BalanceNext(nodes: seq<Node>, i: Issue, t: seq<Issue>, now: Time, maxPerNode: int,
                       given: seq<Id>, st: DistributionStats): BalancedResult
  {
    var best := SelectLeastQueued(nodes, t, now, given);
    if best.None? then
      BalancedResult(t, st.(numNoAvailableNodes := st.numNoAvailableNodes + 1), given)
    else if QueueLoad(t, given, best.value.id) >= maxPerNode then
      BalancedResult(t, st.(numSkipped := st.numSkipped + 1), given)
    else
      BalancedResult(ReplaceIssue(t, Assign(i, best.value.id)), st.(numAssigned := st.numAssigned + 1),
        given + [best.value.id])
  }

  function BalanceFrom(nodes: seq<Node>, order: seq<Issue>, t: seq<Issue>, now: Time,
                       maxPerNode: int, given: seq<Id>, st: DistributionStats): BalancedResult
    decreases |order|
  {
    if order == [] then BalancedResult(t, st, given)
    else
      var next := BalanceNext(nodes, order[0], t, now, maxPerNode, given, st);
      BalanceFrom(nodes, order[1..], next.issues, now, maxPerNode, next.given, next.stats)
  }

  ghost predicate WithinCap(t: seq<Issue>, given: seq<Id>, maxPerNode: int) {
    forall id :: Occurrences(given, id) > 0 ==> QueueLoad(t, given, id) <= maxPerNode
  }

  ghost predicate EligibleId(nodes: seq<Node>, now: Time, id: Id) {
    exists n :: n in nodes && Eligible(n, now) && n.id == id
  }

  /** `after` is `before`, or `before` was pending and now names an eligible node. */
  ghost predicate AssignedOrSame(before: Issue, after: Issue, nodes: seq<Node>, now: Time) {
    after == before
    || (before.status == PENDING && after.assignedNodeId.Some?
        && EligibleId(nodes, now, after.assignedNodeId.value)
        && after == Assign(before, after.assignedNodeId.value))
  }

  lemma {:induction false} BalanceFromSpec(nodes: seq<Node>, order: seq<Issue>, t0: seq<Issue>,
                                           t: seq<Issue>, now: Time, maxPerNode: int,
                                           given: seq<Id>, st: DistributionStats)
    requires forall j :: 0 <= j < |order| ==> order[j].status == PENDING
    requires forall j, k :: (0 <= j < |order| && 0 <= k < |t0| && order[j].id == t0[k].id
      ==> t0[k] == order[j])
    requires |t| == |t0| && forall k :: 0 <= k < |t| ==> AssignedOrSame(t0[k], t[k], nodes, now)
    requires WithinCap(t, given, maxPerNode)
    requires st.numAssigned == |given|
    requires forall k :: 0 <= k < |given| ==> EligibleId(nodes, now, given[k])
    ensures var r := BalanceFrom(nodes, order, t, now, maxPerNode, given, st);
      |r.issues| == |t| && (forall id :: Workload(r.issues, id) == Workload(t, id))
      && WithinCap(t, r.given, maxPerNode)
      && r.stats.numAssigned + r.stats.numSkipped + r.stats.numNoAvailableNodes
        == st.numAssigned + st.numSkipped + st.numNoAvailableNodes + |order|
      && r.stats.numAssigned == |r.given|
      && (forall k :: 0 <= k < |r.given| ==> EligibleId(nodes, now, r.given[k]))
      && forall k :: 0 <= k < |t| ==> AssignedOrSame(t0[k], r.issues[k], nodes, now)
    decreases |order|
  {
    if order != [] {
      var rest := order[1..];
      var next := BalanceNext(nodes, order[0], t, now, maxPerNode, given, st);
      BalanceNextSpec(nodes, order[0], t0, t, now, maxPerNode, given, st);
      assert forall j :: 0 <= j < |rest| ==> rest[j] == order[j + 1];
      BalanceFromSpec(nodes, rest, t0, next.issues, now, maxPerNode, next.given, next.stats);
      var r := BalanceFrom(nodes, rest, next.issues, now, maxPerNode, next.given, next.stats);
      forall id | Occurrences(r.given, id) > 0 ensures QueueLoad(t, r.given, id) <= maxPerNode {
        assert QueueLoad(next.issues, r.given, id) <= maxPerNode;
      }
      forall id ensures Workload(r.issues, id) == Workload(t, id) {
        assert Workload(r.issues, id) == Workload(next.issues, id);
      }
    }
  }

  /** One turn keeps the pass invariant: each row untouched or assigned to an
      eligible node, every workload, the cap counting the assignments made,
      and one more issue counted. */
  lemma BalanceNextSpec(nodes: seq<Node>, i: Issue, t0: seq<Issue>, t: seq<Issue>, now: Time,
                        maxPerNode: int, given: seq<Id>, st: DistributionStats)
    requires i.status == PENDING
    requires forall k :: 0 <= k < |t0| && t0[k].id == i.id ==> t0[k] == i
    requires |t| == |t0| && forall k :: 0 <= k < |t| ==> AssignedOrSame(t0[k], t[k], nodes, now)
    requires WithinCap(t, given, maxPerNode)
    requires st.numAssigned == |given|
    requires forall k :: 0 <= k < |given| ==> EligibleId(nodes, now, given[k])
    ensures var n := BalanceNext(nodes, i, t, now, maxPerNode, given, st);
      |n.issues| == |t0| && (forall k :: 0 <= k < |t0| ==> AssignedOrSame(t0[k], n.issues[k], nodes, now))
      && (forall id :: Workload(n.issues, id) == Workload(t, id))
      && WithinCap(n.issues, n.given, maxPerNode)
      && n.stats.numAssigned + n.stats.numSkipped + n.stats.numNoAvailableNodes
        == st.numAssigned + st.numSkipped + st.numNoAvailableNodes + 1
      && n.stats.numAssigned == |n.given|
      && (forall k :: 0 <= k < |n.given| ==> EligibleId(nodes, now, n.given[k]))
  {
    var best := SelectLeastQueued(nodes, t, now, given);
    if best.Some? && QueueLoad(t, given, best.value.id) < maxPerNode {
      var nid := best.value.id;
      assert EligibleId(nodes, now, nid);
      BalanceStepRows(nodes, i, t0, t, now, nid);
      BalanceStepCap(t, given, nid, maxPerNode);
      EligibleGiven(nodes, now, given, nid);
    }
  }

  lemma EligibleGiven(nodes: seq<Node>, now: Time, given: seq<Id>, nid: Id)
    requires forall k :: 0 <= k < |given| ==> EligibleId(nodes, now, given[k])
    requires EligibleId(nodes, now, nid)
    ensures forall k :: 0 <= k < |given + [nid]| ==> EligibleId(nodes, now, (given + [nid])[k])
  {
  }

  /** Assigning a pending row to an eligible node keeps every row untouched
      or assigned, and every workload. */
  lemma BalanceStepRows(nodes: seq<Node>, i: Issue, t0: seq<Issue>, t: seq<Issue>, now: Time, nid: Id)
    requires i.status == PENDING
    requires forall k :: 0 <= k < |t0| && t0[k].id == i.id ==> t0[k] == i
    requires |t| == |t0| && forall k :: 0 <= k < |t| ==> AssignedOrSame(t0[k], t[k], nodes, now)
    requires EligibleId(nodes, now, nid)
    ensures var t1 := ReplaceIssue(t, Assign(i, nid));
      |t1| == |t0| && (forall k :: 0 <= k < |t1| ==> AssignedOrSame(t0[k], t1[k], nodes, now))
      && (forall id :: Workload(t1, id) == Workload(t, id))
  {
    var row := Assign(i, nid);
    var t1 := ReplaceIssue(t, row);
    forall k | 0 <= k < |t| && t[k].id == row.id ensures t0[k] == i && !LoadsNode(t[k], nid) {
      assert t0[k].id == t[k].id;
    }
    forall id ensures Workload(t1, id) == Workload(t, id) {
      WorkloadPointwise(t, t1, id);
    }
  }

  /** Counting the new assignment keeps the pass within the cap when the
      chosen node was below it. */
  lemma BalanceStepCap(t: seq<Issue>, given: seq<Id>, nid: Id, maxPerNode: int)
    requires WithinCap(t, given, maxPerNode)
    requires QueueLoad(t, given, nid) < maxPerNode
    ensures WithinCap(t, given + [nid], maxPerNode)
  {
    var g1 := given + [nid];
    forall id | Occurrences(g1, id) > 0 ensures QueueLoad(t, g1, id) <= maxPerNode {
      OccurrencesAppend(given, nid, id);
    }
  }

  /** distribute_issues_to_nodes with the per-node cap applied to the
      assignments made during the pass: no node is handed more issues than
      max_per_node minus its current workload. */
  function DistributeIssuesBalanced(nodes: seq<Node>, issues: seq<Issue>, now: Time, maxPerNode: int)
    : (r: BalancedResult)
    requires UniqueIssueIds(issues)
    ensures r.stats.numAssigned + r.stats.numSkipped + r.stats.numNoAvailableNodes
      == CountWhere(issues, IsPending)
    ensures |r.issues| == |issues| && forall id :: Workload(r.issues, id) == Workload(issues, id)
    ensures forall id :: (Occurrences(r.given, id) > 0
      ==> Workload(issues, id) + Occurrences(r.given, id) <= maxPerNode)
    ensures r.stats.numAssigned == |r.given|
    ensures forall k :: 0 <= k < |r.given| ==> EligibleId(nodes, now, r.given[k])
    ensures forall k :: 0 <= k < |issues| ==> AssignedOrSame(issues[k], r.issues[k], nodes, now)
  {
    var order := PendingInDispatchOrder(issues);
    RowsOfUniqueTable(order, issues);
    BalanceFromSpec(nodes, order, issues, issues, now, maxPerNode, [], DistributionStats(0, 0, 0));
    BalanceFrom(nodes, order, issues, now, maxPerNode, [], DistributionStats(0, 0, 0))
  }

  /** Two eligible nodes with nothing in processing, two pending issues and a
      cap of one issue per node: the pass as written hands both issues to the
      first node, while the balanced pass gives no node more than one. */
  lemma DistributeOverfillsFirstNode(a: Node, b: Node, i1: Issue, i2: Issue, now: Time)
    requires Eligible(a, now) && Eligible(b, now)
    requires i1.status == PENDING && i2.status == PENDING && i1.id != i2.id
    ensures var r := DistributeIssues([a, b], [i1, i2], now, 1);
      var fixed := DistributeIssuesBalanced([a, b], [i1, i2], now, 1);
      r.1.numAssigned == 2
      && r.0[0].assignedNodeId == Some(a.id) && r.0[1].assignedNodeId == Some(a.id)
      && Occurrences(fixed.given, a.id) <= 1 && Occurrences(fixed.given, b.id) <= 1
  {
    var issues := [i1, i2];
    PendingPairIdle(i1, i2);
    FirstIdleNodeIsBest(a, b, issues, now);
    FilterAll(issues, IsPending);
    AsWrittenAssignsAllToBest([a, b], issues, now, a);
    var r := DistributeIssues([a, b], issues, now, 1);
    assert |issues| == 2;
    assert r.0[0].assignedNodeId == Some(a.id) && r.0[1].assignedNodeId == Some(a.id);
    BalancedRespectsIdleCap([a, b], issues, now);
  }

  /** Pending issues put no load on any node. */
  lemma PendingPairIdle(i1: Issue, i2: Issue)
    requires i1.status == PENDING && i2.status == PENDING
    ensures forall id :: Workload([i1, i2], id) == 0
  {
    assert [i1, i2][1..] == [i2] && [i2][1..] == [];
  }

  /** Below the cap, the pass as written gives every pending issue to the node
      chosen for the first. */
  lemma AsWrittenAssignsAllToBest(nodes: seq<Node>, issues: seq<Issue>, now: Time, best: Node)
    requires UniqueIssueIds(issues) && SelectBestNode(nodes, issues, now, []) == Some(best)
    requires Workload(issues, best.id) == 0
    requires forall k :: 0 <= k < |issues| ==> issues[k].status == PENDING
    requires Filter(issues, IsPending) == issues
    ensures var r := DistributeIssues(nodes, issues, now, 1);
      r.1.numAssigned == |issues|
      && forall k :: 0 <= k < |issues| ==> r.0[k].assignedNodeId == Some(best.id)
  {
  }

  /** With no load anywhere and a cap of one, the balanced pass gives each
      node at most one issue. */
  lemma BalancedRespectsIdleCap(nodes: seq<Node>, issues: seq<Issue>, now: Time)
    requires UniqueIssueIds(issues) && forall id :: Workload(issues, id) == 0
    ensures forall id :: Occurrences(DistributeIssuesBalanced(nodes, issues, now, 1).given, id) <= 1
  {
  }

  /** Of two eligible nodes, the first is chosen when it has no work. */
  lemma FirstIdleNodeIsBest(a: Node, b: Node, t: seq<Issue>, now: Time)
    requires Eligible(a, now) && Eligible(b, now) && Workload(t, a.id) == 0
    ensures SelectBestNode([a, b], t, now, []) == Some(a)
  {
    var nodes := [a, b];
    FilterAll(nodes, EligibleAt(now));
    var c := Candidates(nodes, now, []);
    assert c == nodes;
    var i := LeastLoadedIndex(c, t);
    assert Workload(t, c[0].id) == 0;
    assert i == 0;
  }
}

=== FILE: node_service.dfy ===
/** The worker node service: it runs commands for the backend (/execute) and
    works an issue on its own (process_issue_task): clone, branch, write the
    change note, add, commit, push, then report the branch or the error to
    the backend. Processes, the file system and the report's HTTP call are
    outside the model: what a process does is a parameter (`run`), and a
    failing mkdir or file write is given as its error message. */
module NodeService {
  import opened Common
  import opened Text

  // ------------------------------------------------------------- run_command

  /** A process to start: the argument vector and the working directory. */
  datatype CommandSpec = CommandSpec(argv: seq<string>, cwd: Option<string>)

  /** How a started process ended: with an exit status, killed by the
      300-second timeout, or not started at all (the exception's text). */
  datatype ProcessOutcome = Exited(code: int, stdout: string, stderr: string)
                          | TimedOut
                          | NotStarted(message: string)

  datatype CommandResult = CommandResult(exitCode: int, stdout: string, stderr: string)

  const TIMEOUT_MESSAGE := "Command timeout after 300 seconds"

  /** The argument vector of run_command: the command, then the arguments
      (none when they are left out). */
  function FullCommand(command: string, args: Option<seq<string>>): (r: seq<string>)
    ensures |r| >= 1 && r[0] == command
    ensures args.Some? ==> r[1..] == args.value
    ensures args.None? ==> r == [command]
  {
    [command] + args.GetOr([])
  }

  /** run_command's result: the process's own exit status and output, or
      exit status -1 with the reason in stderr when it timed out or could not
      start. */
  function RunCommand(outcome: ProcessOutcome): (r: CommandResult)
    ensures outcome.Exited? ==> r == CommandResult(outcome.code, outcome.stdout, outcome.stderr)
    ensures outcome.TimedOut? ==> r == CommandResult(-1, "", TIMEOUT_MESSAGE)
    ensures outcome.NotStarted? ==> r == CommandResult(-1, "", outcome.message)
    ensures !outcome.Exited? ==> r.exitCode != 0 && r.stdout == ""
  {
    match outcome
    case Exited(code, out, err) => CommandResult(code, out, err)
    case TimedOut => CommandResult(-1, "", TIMEOUT_MESSAGE)
    case NotStarted(msg) => CommandResult(-1, "", msg)
  }

  // ---------------------------------------------------------------- /execute

  datatype ExecuteRequest = ExecuteRequest(command: string, args: Option<seq<string>>)

  /** POST /execute: the result when the exit status is 0, otherwise HTTP 500
      naming the status and carrying stderr. */
  function Execute(req: ExecuteRequest, run: CommandSpec -> ProcessOutcome): (r: Result<CommandResult>)
    ensures var res := RunCommand(run(CommandSpec(FullCommand(req.command, req.args), None)));
      (r.Ok? <==> res.exitCode == 0)
      && (r.Ok? ==> r.value == res)
      && (r.Err? ==> r.error == HttpError(500, "Command failed with exit code " + IntToString(res.exitCode) + ": " + res.stderr))
  {
    var res := RunCommand(run(CommandSpec(FullCommand(req.command, req.args), None)));
    if res.exitCode != 0 then
      Err(HttpError(500, "Command failed with exit code " + IntToString(res.exitCode) + ": " + res.stderr))
    else Ok(res)
  }

  /** A command that times out, or cannot start, is never a success: the
      route answers 500 with exit status -1 and the reason. */
  lemma ExecuteTimeoutIsError(req: ExecuteRequest, run: CommandSpec -> ProcessOutcome)
    requires !run(CommandSpec(FullCommand(req.command, req.args), None)).Exited?
    ensures var o := run(CommandSpec(FullCommand(req.command, req.args), None));
      Execute(req, run) == Err(HttpError(500, "Command failed with exit code -1: "
        + (if o.TimedOut? then TIMEOUT_MESSAGE else o.message)))
  {
    assert IntToString(-1) == "-1";
  }

  // ------------------------------------------------------ names of an issue run

  datatype ProcessIssueRequest = ProcessIssueRequest(
    issueId: string,
    taskId: string,
    repositoryUrl: string,
    issueNumber: Option<int>,
    issueTitle: string,
    issueDescription: Option<string>,
    credentialToken: string,
    command: Option<string>)

  /** The issue's label in names: its number when that is set and not 0,
      else its id. */
  function IssueKey(req: ProcessIssueRequest): string {
    if TruthyInt(req.issueNumber) then IntToString(req.issueNumber.value) else req.issueId
  }

  /** The working copy: "issue-<number or id>" under the workspace directory
      (given here already normalised, without a trailing slash). */
  function Workspace(workspaceDir: string, req: ProcessIssueRequest): (r: string)
    ensures StartsWith(r, workspaceDir + "/issue-")
    ensures r[|workspaceDir + "/issue-"|..] == IssueKey(req)
  {
    workspaceDir + "/issue-" + IssueKey(req)
  }

  /** Python's s[:n]: at most the first n characters. */
  function Prefix(s: string, n: nat): (r: string)
    ensures |r| <= n && |r| <= |s| && r == s[..|r|]
    ensures |s| >= n ==> |r| == n
    ensures |s| < n ==> r == s
  {
    if |s| <= n then s else s[..n]
  }

  /** "ai/issue-<n>" for a numbered issue, else "ai/task-" and the first
      eight characters of the task id. */
  function BranchName(req: ProcessIssueRequest): (r: string)
    ensures TruthyInt(req.issueNumber) ==> r == "ai/issue-" + IntToString(req.issueNumber.value)
    ensures !TruthyInt(req.issueNumber) ==>
      (StartsWith(r, "ai/task-") && r[8..] == Prefix(req.taskId, 8))
  {
    if TruthyInt(req.issueNumber) then "ai/issue-" + IntToString(req.issueNumber.value)
    else "ai/task-" + Prefix(req.taskId, 8)
  }

  /** The commit message names the issue number and title, or the task. */
  function CommitMessage(req: ProcessIssueRequest): (r: string)
    ensures TruthyInt(req.issueNumber) ==>
      (StartsWith(r, "AI: Fix issue #" + IntToString(req.issueNumber.value) + " - ")
       && EndsWith(r, req.issueTitle))
    ensures !TruthyInt(req.issueNumber) ==> r == "AI: Process task " + req.taskId
  {
    if TruthyInt(req.issueNumber) then
      var head := "AI: Fix issue #" + IntToString(req.issueNumber.value) + " - ";
      assert (head + req.issueTitle)[..|head|] == head;
      assert (head + req.issueTitle)[|head|..] == req.issueTitle;
      head + req.issueTitle
    else "AI: Process task " + req.taskId
  }

  /** The text of an integer starts with '-' exactly when it is negative. */
  lemma IntToStringSign(i: int)
    ensures IntToString(i)[0] == '-' <==> i < 0
  {
    if i >= 0 {
      assert IsDigit(NatToString(i)[0]);
    }
  }

  lemma IntToStringInjective(a: int, b: int)
    ensures IntToString(a) == IntToString(b) ==> a == b
  {
    IntToStringSign(a);
    IntToStringSign(b);
    if IntToString(a) == IntToString(b) {
      if a < 0 && b < 0 {
        assert IntToString(a)[1..] == NatToString(-a);
        assert IntToString(b)[1..] == NatToString(-b);
        NatToStringInjective(-a, -b);
      } else if a >= 0 && b >= 0 {
        NatToStringInjective(a, b);
      }
    }
  }

  /** Two numbered issues get the same branch only when their numbers agree. */
  lemma BranchNamesDistinct(a: ProcessIssueRequest, b: ProcessIssueRequest)
    requires TruthyInt(a.issueNumber) && TruthyInt(b.issueNumber)
    ensures BranchName(a) == BranchName(b) ==> a.issueNumber == b.issueNumber
  {
    if BranchName(a) == BranchName(b) {
      var n := |"ai/issue-"|;
      assert BranchName(a)[n..] == IntToString(a.issueNumber.value);
      assert BranchName(b)[n..] == IntToString(b.issueNumber.value);
      IntToStringInjective(a.issueNumber.value, b.issueNumber.value);
    }
  }

  const GITHUB_PREFIX := "https://github.com/"
  const SCHEME := "https://"

  /** The clone URL: for a GitHub https URL the token is written in after
      every "https://"; any other URL is used as given. */
  function AuthUrl(url: string, token: string): (r: string)
    ensures !StartsWith(url, GITHUB_PREFIX) ==> r == url
    ensures StartsWith(url, GITHUB_PREFIX) ==> StartsWith(r, SCHEME + token + "@")
    ensures StartsWith(url, GITHUB_PREFIX) && !Contains(url[|SCHEME|..], SCHEME) ==>
      r == SCHEME + token + "@" + url[|SCHEME|..]
  {
    if StartsWith(url, GITHUB_PREFIX) then
      assert url[..|SCHEME|] == SCHEME;
      var r := ReplaceAll(url, SCHEME, SCHEME + token + "@");
      assert r == SCHEME + token + "@" + ReplaceAll(url[|SCHEME|..], SCHEME, SCHEME + token + "@");
      assert r[..|SCHEME + token + "@"|] == SCHEME + token + "@";
      r
    else url
  }

  // --------------------------------------------------------- process_issue_task

  /** A git step: its label in the error message, its command, and whether a
      non-zero exit with "nothing to commit" on stdout still counts as done. */
  datatype Step = Step(name: string, spec: CommandSpec, tolerateNothingToCommit: bool)

  const NOTHING_TO_COMMIT := "nothing to commit"

  /** Whether a step's result stops the run. */
  predicate Failed(s: Step, res: CommandResult) {
    res.exitCode != 0 && !(s.tolerateNothingToCommit && Contains(res.stdout, NOTHING_TO_COMMIT))
  }

  /** The commit step is done with exit status 0, or with a non-zero status
      exactly when stdout reports nothing to commit; every other step needs 0. */
  lemma CommitTolerance(s: Step, res: CommandResult)
    ensures !Failed(s, res) <==>
      (res.exitCode == 0 || (s.tolerateNothingToCommit && Contains(res.stdout, NOTHING_TO_COMMIT)))
    ensures !s.tolerateNothingToCommit ==> (Failed(s, res) <==> res.exitCode != 0)
  {
  }

  function ResultOf(s: Step, run: CommandSpec -> ProcessOutcome): CommandResult {
    RunCommand(run(s.spec))
  }

  /** The commands run so far, and the message of the step that failed. */
  datatype StepsOutcome = StepsOutcome(ran: seq<CommandSpec>, error: Option<string>)

  function StepError(s: Step, res: CommandResult): string {
    s.name + " failed: " + res.stderr
  }

  /** Steps one after another; the first failure raises and the rest never run. */
  function RunSteps(steps: seq<Step>, run: CommandSpec -> ProcessOutcome): (r: StepsOutcome)
    ensures |r.ran| <= |steps| && forall k :: 0 <= k < |r.ran| ==> r.ran[k] == steps[k].spec
    ensures r.error.None? <==> forall k :: 0 <= k < |steps| ==> !Failed(steps[k], ResultOf(steps[k], run))
    ensures r.error.None? ==> |r.ran| == |steps|
  {
    if steps == [] then StepsOutcome([], None)
    else
      var res := ResultOf(steps[0], run);
      if Failed(steps[0], res) then StepsOutcome([steps[0].spec], Some(StepError(steps[0], res)))
      else
        var rest := RunSteps(steps[1..], run);
        var r := StepsOutcome([steps[0].spec] + rest.ran, rest.error);
        assert forall k :: 0 < k < |steps| ==> steps[1..][k - 1] == steps[k];
        assert forall k :: 0 < k < |r.ran| ==> r.ran[k] == rest.ran[k - 1];
        r
  }

  /** The first failing step ends the run: it is the last command run, and
      the error is its message. */
  lemma {:induction false} RunStepsStopsAt(steps: seq<Step>, run: CommandSpec -> ProcessOutcome, i: nat)
    requires i < |steps| && Failed(steps[i], ResultOf(steps[i], run))
    requires forall k :: 0 <= k < i ==> !Failed(steps[k], ResultOf(steps[k], run))
    ensures var r := RunSteps(steps, run);
      |r.ran| == i + 1 && r.error == Some(StepError(steps[i], ResultOf(steps[i], run)))
  {
    if i > 0 {
      assert !Failed(steps[0], ResultOf(steps[0], run));
      forall k | 0 <= k < i - 1 ensures !Failed(steps[1..][k], ResultOf(steps[1..][k], run)) {
        assert steps[1..][k] == steps[k + 1];
      }
      assert steps[1..][i - 1] == steps[i];
      RunStepsStopsAt(steps[1..], run, i - 1);
    }
  }

  /** The backend's issue URL the report goes to. */
  function ReportUrl(serverUrl: string, issueId: string): string {
    serverUrl + "/api/v1/issues/" + issueId + "/report-branch"
  }

  /** The report posted when the run ends. */
  datatype Report = Report(url: string, taskId: string, branchName: string, status: string,
                           errorMessage: Option<string>)

  const SUCCESS := "success"
  const FAILED_STATUS := "failed"

  datatype TaskOutcome = TaskOutcome(ran: seq<CommandSpec>, report: Report)

  /** The environment of the worker. */
  datatype Env = Env(serverUrl: string, workspaceDir: string)

  /** The failures that are not commands: creating the workspace directory
      and writing the change note. */
  datatype FileErrors = FileErrors(mkdir: Option<string>, write: Option<string>)

  /** clone, then checkout -b. */
  function CloneSteps(env: Env, req: ProcessIssueRequest): seq<Step> {
    var ws := Workspace(env.workspaceDir, req);
    [Step("Git clone", CommandSpec(["git", "clone", AuthUrl(req.repositoryUrl, req.credentialToken), ws], None), false),
     Step("Git branch creation", CommandSpec(["git", "checkout", "-b", BranchName(req)], Some(ws)), false)]
  }

  /** add, commit, push. */
  function PublishSteps(env: Env, req: ProcessIssueRequest): seq<Step> {
    var ws := Workspace(env.workspaceDir, req);
    [Step("Git add", CommandSpec(["git", "add", "."], Some(ws)), false),
     Step("Git commit", CommandSpec(["git", "commit", "-m", CommitMessage(req)], Some(ws)), true),
     Step("Git push", CommandSpec(["git", "push", "-u", "origin", BranchName(req)], Some(ws)), false)]
  }

  /** All five git commands in order. */
  function AllSteps(env: Env, req: ProcessIssueRequest): seq<Step> {
    CloneSteps(env, req) + PublishSteps(env, req)
  }

  /** process_issue_task: mkdir, clone, checkout, write the note, add,
      commit, push; the first thing that fails ends the run with a "failed"
      report carrying its message, otherwise a "success" report. Either
      report names the branch. */
  function ProcessIssueTask(env: Env, req: ProcessIssueRequest, files: FileErrors, run: CommandSpec -> ProcessOutcome)
    : (r: TaskOutcome)
    ensures r.report.url == ReportUrl(env.serverUrl, req.issueId)
    ensures r.report.taskId == req.taskId && r.report.branchName == BranchName(req)
    ensures r.report.status == SUCCESS || r.report.status == FAILED_STATUS
    ensures r.report.status == SUCCESS <==> r.report.errorMessage.None?
    ensures |r.ran| <= 5 && forall k :: 0 <= k < |r.ran| ==> r.ran[k] == AllSteps(env, req)[k].spec
  {
    var fail := (msg: string) => Report(ReportUrl(env.serverUrl, req.issueId), req.taskId, BranchName(req),
                                        FAILED_STATUS, Some(msg));
    if files.mkdir.Some? then TaskOutcome([], fail(files.mkdir.value))
    else
      var first := RunSteps(CloneSteps(env, req), run);
      if first.error.Some? then TaskOutcome(first.ran, fail(first.error.value))
      else if files.write.Some? then TaskOutcome(first.ran, fail(files.write.value))
      else
        var second := RunSteps(PublishSteps(env, req), run);
        var ran := first.ran + second.ran;
        assert forall k :: 0 <= k < |ran| ==> ran[k] == AllSteps(env, req)[k].spec;
        if second.error.Some? then TaskOutcome(ran, fail(second.error.value))
        else TaskOutcome(ran, Report(ReportUrl(env.serverUrl, req.issueId), req.taskId, BranchName(req), SUCCESS, None))
  }

  /** A run reports success exactly when the directory and the note could be
      written and none of the five git steps failed; then all five ran. */
  lemma ProcessIssueSucceeds(env: Env, req: ProcessIssueRequest, files: FileErrors, run: CommandSpec -> ProcessOutcome)
    ensures var r := ProcessIssueTask(env, req, files, run);
      var steps := AllSteps(env, req);
      (r.report.status == SUCCESS <==> files.mkdir.None? && files.write.None? && AllPass(steps, run))
      && (r.report.status == SUCCESS ==> |r.ran| == |steps| == 5)
  {
    var cs := CloneSteps(env, req);
    var ps := PublishSteps(env, req);
    TaskSucceedsWhenStepsDo(env, req, files, run);
    AllPassAppend(cs, ps, run);
    assert RunSteps(cs, run).error.None? <==> AllPass(cs, run);
    assert RunSteps(ps, run).error.None? <==> AllPass(ps, run);
  }

  lemma TaskSucceedsWhenStepsDo(env: Env, req: ProcessIssueRequest, files: FileErrors, run: CommandSpec -> ProcessOutcome)
    ensures var r := ProcessIssueTask(env, req, files, run);
      var first := RunSteps(CloneSteps(env, req), run);
      var second := RunSteps(PublishSteps(env, req), run);
      (r.report.status == SUCCESS <==>
        files.mkdir.None? && first.error.None? && files.write.None? && second.error.None?)
      && (r.report.status == SUCCESS ==> r.ran == first.ran + second.ran)
  {
  }

  /** No step of a list fails. */
  predicate AllPass(steps: seq<Step>, run: CommandSpec -> ProcessOutcome) {
    forall k :: 0 <= k < |steps| ==> !Failed(steps[k], ResultOf(steps[k], run))
  }

  /** Two lists run back to back pass exactly when each passes. */
  lemma AllPassAppend(a: seq<Step>, b: seq<Step>, run: CommandSpec -> ProcessOutcome)
    ensures AllPass(a + b, run) <==> AllPass(a, run) && AllPass(b, run)
  {
    if AllPass(a, run) && AllPass(b, run) {
      forall k | 0 <= k < |a + b| ensures !Failed((a + b)[k], ResultOf((a + b)[k], run)) {
        if k < |a| {
          assert (a + b)[k] == a[k];
        } else {
          assert (a + b)[k] == b[k - |a|];
        }
      }
    }
    if AllPass(a + b, run) {
      forall k | 0 <= k < |a| ensures !Failed(a[k], ResultOf(a[k], run)) {
        assert (a + b)[k] == a[k];
      }
      forall k | 0 <= k < |b| ensures !Failed(b[k], ResultOf(b[k], run)) {
        assert (a + b)[|a| + k] == b[k];
      }
    }
  }

  /** A failing git step ends the run there: the commands after it never
      run, and the report carries that step's message. */
  lemma ProcessIssueStopsAtFailure(env: Env, req: ProcessIssueRequest, files: FileErrors,
                                   run: CommandSpec -> ProcessOutcome, i: nat)
    requires files.mkdir.None? && files.write.None? && i < 5
    requires Failed(AllSteps(env, req)[i], ResultOf(AllSteps(env, req)[i], run))
    requires forall k :: 0 <= k < i ==> !Failed(AllSteps(env, req)[k], ResultOf(AllSteps(env, req)[k], run))
    ensures var r := ProcessIssueTask(env, req, files, run);
      var s := AllSteps(env, req)[i];
      |r.ran| == i + 1 && r.report.status == FAILED_STATUS
      && r.report.errorMessage == Some(StepError(s, ResultOf(s, run)))
  {
    var steps := AllSteps(env, req);
    var cs := CloneSteps(env, req);
    var ps := PublishSteps(env, req);
    assert forall k :: 0 <= k < 2 ==> steps[k] == cs[k];
    assert forall k :: 2 <= k < 5 ==> steps[k] == ps[k - 2];
    var first := RunSteps(cs, run);
    if i < 2 {
      RunStepsStopsAt(cs, run, i);
    } else {
      assert forall k :: 0 <= k < 2 ==> !Failed(cs[k], ResultOf(cs[k], run));
      assert first.error.None?;
      forall k | 0 <= k < i - 2 ensures !Failed(ps[k], ResultOf(ps[k], run)) {
        assert steps[k + 2] == ps[k];
      }
      RunStepsStopsAt(ps, run, i - 2);
    }
  }

  /** POST /process-issue answers at once; the run goes on in the background. */
  function AcceptProcessIssue(req: ProcessIssueRequest): (r: (string, string))
    ensures r.0 == "accepted"
    ensures r.1 == "Task " + req.taskId + " accepted and processing started"
  {
    ("accepted", "Task " + req.taskId + " accepted and processing started")
  }
}

=== FILE: owned_store.dfy ===
/** The owner-scoped table behind the /repositories, /prompts and
    /credentials routes: every row belongs to the user who created it, a
    superuser sees and edits every row, anyone else only their own, and a
    foreign row is refused with 400 after a missing one is refused with 404. */
module OwnedStore {
  import opened Common
  import opened Seqs

  datatype Row<F> = Row(id: Id, ownerId: Id, fields: F, createdAt: Time, updatedAt: Time)

  /** The listing response: one page of rows and the number of rows visible. */
  datatype Listed<F> = Listed(data: seq<Row<F>>, count: nat)

  /** What these routes answer for a row that belongs to someone else. */
  const NO_PERMISSION := HttpError(400, NOT_ENOUGH_PERMISSIONS)

  function NotFound(entity: string): HttpError {
    HttpError(404, entity + " not found")
  }

  predicate UniqueIds<F>(t: seq<Row<F>>) {
    forall i, j :: 0 <= i < j < |t| ==> t[i].id != t[j].id
  }

  /** session.get by primary key. */
  function Find<F>(t: seq<Row<F>>, id: Id): (r: Option<Row<F>>)
    ensures r.Some? ==> r.value in t && r.value.id == id
    ensures r.None? <==> forall k :: 0 <= k < |t| ==> t[k].id != id
  {
    if t == [] then None
    else if t[0].id == id then Some(t[0])
    else
      var r := Find(t[1..], id);
      assert r.None? ==> forall k :: 1 <= k < |t| ==> t[1..][k - 1] == t[k];
      r
  }

  lemma {:induction false} FindUnique<F>(t: seq<Row<F>>, k: nat)
    requires UniqueIds(t) && k < |t|
    ensures Find(t, t[k].id) == Some(t[k])
  {
    if k > 0 {
      assert t[0].id != t[k].id;
      assert t[1..][k - 1] == t[k];
      FindUnique(t[1..], k - 1);
    }
  }

  /** The rows a user may list: all of them for a superuser, their own otherwise. */
  function Visible<F(==,!new)>(t: seq<Row<F>>, user: User): (r: seq<Row<F>>)
    ensures forall x :: x in r <==> x in t && MayAccess(user, x.ownerId)
  {
    Filter(t, (x: Row<F>) => MayAccess(user, x.ownerId))
  }

  /** The listing route: the visible rows in table order (the query has no
      ORDER BY), OFFSET skip LIMIT limit, and their total. */
  function List<F(==,!new)>(t: seq<Row<F>>, user: User, skip: int, limit: int): (r: Result<Listed<F>>)
    ensures r.Err? <==> !ValidWindow(skip, limit)
    ensures r.Err? ==> r.error == INTERNAL_ERROR
    ensures r.Ok? ==>
      (r.value.count == |Visible(t, user)| && |r.value.data| <= limit
       && forall k :: 0 <= k < |r.value.data| ==>
            skip + k < r.value.count && r.value.data[k] == Visible(t, user)[skip + k])
  {
    if !ValidWindow(skip, limit) then Err(INTERNAL_ERROR)
    else Ok(Listed(Page(Visible(t, user), skip, limit), |Visible(t, user)|))
  }

  /** Successive windows of the listing fit together without gap or overlap. */
  lemma ListWindowsJoin<F(!new)>(t: seq<Row<F>>, user: User, skip: nat, a: nat, b: nat)
    ensures List(t, user, skip, a).Ok? && List(t, user, skip + a, b).Ok? && List(t, user, skip, a + b).Ok?
    ensures List(t, user, skip, a).value.data + List(t, user, skip + a, b).value.data
      == List(t, user, skip, a + b).value.data
  {
    PageConsecutive(Visible(t, user), skip, a, b);
  }

  /** A user who is not a superuser lists exactly the rows they own. */
  lemma ListOwnRows<F(!new)>(t: seq<Row<F>>, user: User)
    requires !user.isSuperuser
    ensures List(t, user, 0, |t|).Ok?
    ensures forall x :: x in List(t, user, 0, |t|).value.data <==> x in t && x.ownerId == user.id
  {
    var v := Visible(t, user);
    assert Page(v, 0, |t|) == v;
  }

  /** The 404-then-400 guard of the single-row routes. */
  function Guard<F>(t: seq<Row<F>>, user: User, id: Id, entity: string): (r: Result<Row<F>>)
    ensures Find(t, id).None? <==> r == Err(NotFound(entity))
    ensures r == Err(NO_PERMISSION) <==> Find(t, id).Some? && !MayAccess(user, Find(t, id).value.ownerId)
    ensures r.Ok? <==> Find(t, id).Some? && MayAccess(user, Find(t, id).value.ownerId)
    ensures r.Ok? ==> r.value == Find(t, id).value
  {
    match Find(t, id)
    case None => Err(NotFound(entity))
    case Some(x) => if MayAccess(user, x.ownerId) then Ok(x) else Err(NO_PERMISSION)
  }

  /** A fresh primary key: larger than every key in the table (uuid4 stand-in). */
  function FreshId<F>(t: seq<Row<F>>): (id: Id)
    ensures forall k :: 0 <= k < |t| ==> t[k].id < id
  {
    if t == [] then 0
    else
      var rest := FreshId(t[1..]);
      assert forall k :: 1 <= k < |t| ==> t[k] == t[1..][k - 1];
      if t[0].id < rest then rest else t[0].id + 1
  }

  /** model_validate(request, owner_id = caller): a new row owned by the caller. */
  function Create<F>(t: seq<Row<F>>, user: User, f: F, now: Time): (r: (seq<Row<F>>, Row<F>))
    ensures r.1.ownerId == user.id && r.1.fields == f && r.1.createdAt == now && r.1.updatedAt == now
    ensures |r.0| == |t| + 1 && r.0[..|t|] == t
    ensures Find(t, r.1.id).None? && Find(r.0, r.1.id) == Some(r.1)
    ensures UniqueIds(t) ==> UniqueIds(r.0)
  {
    var x := Row(FreshId(t), user.id, f, now, now);
    var t2 := t + [x];
    FindAppendFresh(t, x);
    (t2, x)
  }

  lemma {:induction false} FindAppendFresh<F>(t: seq<Row<F>>, x: Row<F>)
    requires forall k :: 0 <= k < |t| ==> t[k].id != x.id
    ensures Find(t + [x], x.id) == Some(x)
    ensures forall id :: id != x.id ==> Find(t + [x], id) == Find(t, id)
  {
    if t != [] {
      assert (t + [x])[1..] == t[1..] + [x];
      FindAppendFresh(t[1..], x);
    } else {
      assert [x][1..] == [];
    }
  }

  /** The creator may read the row they just created. */
  lemma CreateThenRead<F>(t: seq<Row<F>>, user: User, f: F, now: Time, entity: string)
    ensures var (t2, x) := Create(t, user, f, now);
      Guard(t2, user, x.id, entity) == Ok(x)
  {
  }

  /** Replace the row with the same key. */
  function Replace<F>(t: seq<Row<F>>, x: Row<F>): (r: seq<Row<F>>)
    ensures |r| == |t|
    ensures forall k :: 0 <= k < |t| ==> r[k] == (if t[k].id == x.id then x else t[k])
  {
    if t == [] then [] else [if t[0].id == x.id then x else t[0]] + Replace(t[1..], x)
  }

  lemma {:induction false} FindReplaceOther<F>(t: seq<Row<F>>, x: Row<F>, id: Id)
    requires id != x.id
    ensures Find(Replace(t, x), id) == Find(t, id)
  {
    if t != [] {
      assert Replace(t, x)[1..] == Replace(t[1..], x);
      FindReplaceOther(t[1..], x, id);
    }
  }

  lemma {:induction false} FindReplaced<F>(t: seq<Row<F>>, x: Row<F>)
    requires Find(t, x.id).Some?
    ensures Find(Replace(t, x), x.id) == Some(x)
  {
    if t[0].id != x.id {
      assert Replace(t, x)[1..] == Replace(t[1..], x);
      FindReplaced(t[1..], x);
    }
  }

  /** sqlmodel_update with the supplied fields of the request u: apply says
      how a request changes the fields; nothing else of the row changes, the
      timestamps included. */
  function Update<F, U>(t: seq<Row<F>>, user: User, id: Id, entity: string, u: U,
                        apply: (F, U) -> F): (r: Result<(seq<Row<F>>, Row<F>)>)
    ensures r.Err? <==> Guard(t, user, id, entity).Err?
    ensures r.Err? ==> r.error == Guard(t, user, id, entity).error
    ensures r.Ok? ==>
      var before := Find(t, id).value;
      r.value.1 == before.(fields := apply(before.fields, u))
      && Find(r.value.0, id) == Some(r.value.1)
      && (forall other :: other != id ==> Find(r.value.0, other) == Find(t, other))
      && |r.value.0| == |t|
  {
    match Guard(t, user, id, entity)
    case Err(e) => Err(e)
    case Ok(x) =>
      var y := x.(fields := apply(x.fields, u));
      assert forall other :: other != id ==> Find(Replace(t, y), other) == Find(t, other) by {
        forall other | other != id ensures Find(Replace(t, y), other) == Find(t, other) {
          FindReplaceOther(t, y, other);
        }
      }
      FindReplaced(t, y);
      Ok((Replace(t, y), y))
  }

  /** Everything but the row with the given key. */
  function Remove<F>(t: seq<Row<F>>, id: Id): (r: seq<Row<F>>)
    ensures |r| <= |t|
    ensures Find(r, id).None?
    ensures forall other :: other != id ==> Find(r, other) == Find(t, other)
  {
    if t == [] then []
    else if t[0].id == id then Remove(t[1..], id)
    else
      var rest := Remove(t[1..], id);
      assert ([t[0]] + rest)[1..] == rest;
      [t[0]] + rest
  }

  /** With unique keys, deleting an existing row removes exactly one row. */
  lemma {:induction false} RemoveOne<F>(t: seq<Row<F>>, id: Id)
    requires UniqueIds(t) && Find(t, id).Some?
    ensures |Remove(t, id)| == |t| - 1
  {
    if t[0].id == id {
      assert forall k :: 0 <= k < |t[1..]| ==> t[1..][k].id != id by {
        forall k | 0 <= k < |t[1..]| ensures t[1..][k].id != id {
          assert t[1..][k] == t[k + 1];
        }
      }
      RemoveNone(t[1..], id);
    } else {
      assert UniqueIds(t[1..]) by {
        forall i, j | 0 <= i < j < |t[1..]| ensures t[1..][i].id != t[1..][j].id {
          assert t[1..][i] == t[i + 1] && t[1..][j] == t[j + 1];
        }
      }
      RemoveOne(t[1..], id);
    }
  }

  lemma {:induction false} RemoveNone<F>(t: seq<Row<F>>, id: Id)
    requires forall k :: 0 <= k < |t| ==> t[k].id != id
    ensures Remove(t, id) == t
  {
    if t != [] {
      assert forall k :: 0 <= k < |t[1..]| ==> t[1..][k] == t[k + 1];
      RemoveNone(t[1..], id);
    }
  }

  /** The delete route: the row goes, the other rows stay. */
  function Delete<F>(t: seq<Row<F>>, user: User, id: Id, entity: string): (r: Result<(seq<Row<F>>, string)>)
    ensures r.Err? <==> Guard(t, user, id, entity).Err?
    ensures r.Err? ==> r.error == Guard(t, user, id, entity).error
    ensures r.Ok? ==>
      r.value.1 == entity + " deleted successfully"
      && Find(r.value.0, id).None?
      && forall other :: other != id ==> Find(r.value.0, other) == Find(t, other)
  {
    match Guard(t, user, id, entity)
    case Err(e) => Err(e)
    case Ok(_) => Ok((Remove(t, id), entity + " deleted successfully"))
  }

  /** After a delete the row reads as missing, not as forbidden. */
  lemma DeleteThenRead<F>(t: seq<Row<F>>, user: User, id: Id, entity: string, reader: User)
    requires Delete(t, user, id, entity).Ok?
    ensures Guard(Delete(t, user, id, entity).value.0, reader, id, entity) == Err(NotFound(entity))
  {
  }

  /** A row owned by someone else is refused to a user who is not a
      superuser, for reading and deleting alike, and stays in the table. */
  lemma ForeignRowRefused<F>(t: seq<Row<F>>, user: User, id: Id, entity: string)
    requires Find(t, id).Some? && !user.isSuperuser && Find(t, id).value.ownerId != user.id
    ensures Guard(t, user, id, entity) == Err(NO_PERMISSION)
    ensures Delete(t, user, id, entity) == Err(NO_PERMISSION)
  {
  }
}

=== FILE: project_form.dfy ===
/** The web client's project dialogs: the bounded list of repository URL
    rows (at most 5 when creating, 20 when editing), the URLs each dialog
    submits, the edit dialog's cancel, and its two-column layout for long
    lists. */
module ProjectForm {
  import opened Common
  import opened Text
  import opened Seqs
  import opened OwnedStore
  import Projects
  import RepositoryRoutes

  const ADD_MAX: nat := 5
  const EDIT_MAX: nat := 20

  /** addRepository: a blank row is added only while there are fewer than
      the maximum. */
  function AddRow(rows: seq<string>, max: nat): (r: seq<string>)
    ensures |rows| < max ==> r == rows + [""]
    ensures |rows| >= max ==> r == rows
    ensures |rows| <= max ==> |r| <= max
  {
    if |rows| < max then rows + [""] else rows
  }

  /** Adding rows never takes the list past the maximum, however often the
      button is pressed. */
  lemma {:induction false} AddRowsBounded(rows: seq<string>, max: nat, presses: nat)
    requires |rows| <= max
    ensures |AddRows(rows, max, presses)| <= max
    ensures |AddRows(rows, max, presses)| == Min(max, |rows| + presses)
    decreases presses
  {
    if presses > 0 {
      AddRowsBounded(AddRow(rows, max), max, presses - 1);
    }
  }

  function AddRows(rows: seq<string>, max: nat, presses: nat): seq<string>
    decreases presses
  {
    if presses == 0 then rows else AddRows(AddRow(rows, max), max, presses - 1)
  }

  /** removeRepository: exactly row i goes and the others keep their order;
      an index outside the list removes nothing. */
  function RemoveRow(rows: seq<string>, i: int): (r: seq<string>)
    ensures !(0 <= i < |rows|) ==> r == rows
    ensures 0 <= i < |rows| ==>
      |r| == |rows| - 1
      && (forall k :: 0 <= k < i ==> r[k] == rows[k])
      && (forall k :: i <= k < |r| ==> r[k] == rows[k + 1])
  {
    if 0 <= i < |rows| then rows[..i] + rows[i + 1..] else rows
  }

  /** updateRepository: row i takes the new value, the others stay. The
      rows rendered are the only callers, so i is always a row. */
  function UpdateRow(rows: seq<string>, i: nat, v: string): (r: seq<string>)
    requires i < |rows|
    ensures |r| == |rows| && r[i] == v
    ensures forall k :: 0 <= k < |rows| && k != i ==> r[k] == rows[k]
  {
    rows[i := v]
  }

  /** Removing the row just added gives the list back; editing a row and
      then removing it is the same as removing it. */
  lemma RowEditsUndo(rows: seq<string>, max: nat, i: nat, v: string)
    requires |rows| < max && i < |rows|
    ensures RemoveRow(AddRow(rows, max), |rows|) == rows
    ensures RemoveRow(UpdateRow(rows, i, v), i) == RemoveRow(rows, i)
  {
    assert (rows + [""])[..|rows|] == rows;
  }

  function NonBlankRow(u: string): bool {
    Trim(u) != ""
  }

  /** The URLs a dialog submits: the rows that are not blank, untrimmed and
      in order, or nothing at all when no such row remains. */
  function SubmittedUrls(rows: seq<string>): (r: Option<seq<string>>)
    ensures r.None? <==> forall k :: 0 <= k < |rows| ==> Trim(rows[k]) == ""
    ensures r.Some? ==>
      r.value != [] && |r.value| <= |rows|
      && forall u :: u in r.value <==> u in rows && Trim(u) != ""
  {
    var kept := Filter(rows, NonBlankRow);
    if |kept| > 0 then
      assert kept[0] in rows;
      var k :| 0 <= k < |rows| && rows[k] == kept[0];
      assert Trim(rows[k]) != "";
      Some(kept)
    else
      assert forall k :: 0 <= k < |rows| ==> rows[k] !in kept;
      None
  }

  /** The submitted URLs keep the rows' order: a row appended to the list
      is submitted last, or not at all when it is blank. */
  lemma SubmittedUrlsAppend(rows: seq<string>, u: string)
    requires Trim(u) != ""
    ensures SubmittedUrls(rows + [u]) == Some(SubmittedUrls(rows).GetOr([]) + [u])
  {
    var a := Filter(rows, NonBlankRow);
    FilterAppend(rows, [u], NonBlankRow);
    assert [u][1..] == [];
    assert Filter([u], NonBlankRow) == [u];
    assert Filter(rows + [u], NonBlankRow) == a + [u];
    assert SubmittedUrls(rows).GetOr([]) == a;
  }

  /** Closing the create dialog: the form is reset and no rows remain. */
  function CloseAdd(rows: seq<string>): (r: seq<string>)
    ensures r == [] && SubmittedUrls(r).None?
  {
    []
  }

  /** The project as the edit dialog receives it; the rows start from its
      repository URLs, when the response carries any. */
  datatype ProjectView = ProjectView(name: string, description: Option<string>, repositoryUrls: Option<seq<string>>)

  function InitialRows(p: ProjectView): (r: seq<string>)
    ensures p.repositoryUrls.Some? ==> r == p.repositoryUrls.value
    ensures p.repositoryUrls.None? ==> r == []
  {
    p.repositoryUrls.GetOr([])
  }

  /** Cancelling restores the rows the dialog started with, whatever was
      edited in between. */
  function Cancel(p: ProjectView, edited: seq<string>): (r: seq<string>)
    ensures r == InitialRows(p)
  {
    InitialRows(p)
  }

  /** An edit that removed or blanked every row submits no URL list, and
      update_project then keeps the project's links as they were: the dialog
      cannot unlink the last repositories. */
  lemma BlankRowsKeepLinks(t: seq<Projects.Project>, repos: seq<RepositoryRoutes.Repository>, user: User, id: Id,
                           name: Patch<string>, description: Patch<Option<string>>, rows: seq<string>, now: Time)
    requires forall k :: 0 <= k < |rows| ==> Trim(rows[k]) == ""
    requires Projects.ValidProjectUpdate(Projects.ProjectUpdate(name, description, None, SubmittedUrls(rows)))
    requires Guard(t, user, id, Projects.PROJECT).Ok?
    ensures var r := Projects.UpdateProject(t, repos, user, id,
                       Projects.ProjectUpdate(name, description, None, SubmittedUrls(rows)), now);
      r.Ok? && r.value.2.fields.repositoryIds == Find(t, id).value.fields.repositoryIds && r.value.1 == repos
  {
    var u := Projects.ProjectUpdate(name, description, None, SubmittedUrls(rows));
    assert Projects.LinksOf(u) == Projects.LinkRequest(None, None);
  }

  // ---------------------------------------------------- two-column layout

  /** More than ten rows are shown in two columns, the first holding
      ceil(n/2) rows. */
  function SplitPoint(n: nat): (r: nat)
    ensures n <= 2 * r <= n + 1
  {
    (n + 1) / 2
  }

  predicate TwoColumns(rows: seq<string>) {
    |rows| > 10
  }

  /** The list index a row's input and remove button act on: its position
      in the first column, or its position in the second plus the split. */
  function RowIndex(rows: seq<string>, secondColumn: bool, position: nat): nat {
    if TwoColumns(rows) && secondColumn then position + SplitPoint(|rows|) else position
  }

  /** The rows each column shows. */
  function Column(rows: seq<string>, secondColumn: bool): (r: seq<string>)
    ensures !TwoColumns(rows) ==> r == (if secondColumn then [] else rows)
  {
    if !TwoColumns(rows) then (if secondColumn then [] else rows)
    else if secondColumn then rows[SplitPoint(|rows|)..] else rows[..SplitPoint(|rows|)]
  }

  /** Where entry k of the list is shown: its column and its position there. */
  function Place(rows: seq<string>, k: nat): (r: (bool, nat))
    requires k < |rows|
    ensures r.1 < |Column(rows, r.0)| && RowIndex(rows, r.0, r.1) == k
  {
    if TwoColumns(rows) && k >= SplitPoint(|rows|) then (true, k - SplitPoint(|rows|)) else (false, k)
  }

  /** Every shown row acts on its own list entry, every entry is shown (at
      Place), and no two shown rows act on the same entry, so edits and
      removals in either column reach the right URL. */
  lemma ColumnsCoverRows(rows: seq<string>)
    ensures forall c: bool, j :: 0 <= j < |Column(rows, c)| ==>
      RowIndex(rows, c, j) < |rows| && Column(rows, c)[j] == rows[RowIndex(rows, c, j)]
    ensures |Column(rows, false)| + |Column(rows, true)| == |rows|
    ensures forall c1: bool, j1, c2: bool, j2 ::
      0 <= j1 < |Column(rows, c1)| && 0 <= j2 < |Column(rows, c2)| && RowIndex(rows, c1, j1) == RowIndex(rows, c2, j2)
      ==> c1 == c2 && j1 == j2
    ensures TwoColumns(rows) ==> |Column(rows, false)| - |Column(rows, true)| in {0, 1}
  {
  }

  /** Removing through the second column drops the entry that row shows. */
  lemma SecondColumnRemove(rows: seq<string>, j: nat)
    requires TwoColumns(rows) && j < |Column(rows, true)|
    ensures var i := RowIndex(rows, true, j);
      i < |rows| && rows[i] == Column(rows, true)[j]
      && |RemoveRow(rows, i)| == |rows| - 1
  {
  }
}

=== FILE: project_selection.dfy ===
/** The web client's current project: the selection kept in the browser
    session, its reconciliation with the project list the backend returns,
    and the selector menu's search, label and placeholder. Project ids are
    the strings the client receives. */
module ProjectSelection {
  import opened Common
  import opened Text
  import opened Seqs

  datatype ProjectEntry = ProjectEntry(id: string, name: string, description: Option<string>)

  /** The selection and the session storage entry "selectedProjectId"
      (absent when None). Without a window there is no storage to write. */
  datatype Selection = Selection(selected: Option<string>, stored: Option<string>, hasWindow: bool)

  /** getInitialSelection: what the session stored, nothing without a window. */
  function InitialSelection(hasWindow: bool, stored: Option<string>): (r: Selection)
    ensures r.selected == (if hasWindow then stored else None)
    ensures r.stored == stored && r.hasWindow == hasWindow
  {
    Selection(if hasWindow then stored else None, stored, hasWindow)
  }

  /** selectedProject: the first listed project carrying the selected id. */
  function SelectedProject(projects: seq<ProjectEntry>, selected: Option<string>): (r: Option<ProjectEntry>)
    ensures r.Some? <==> selected.Some? && exists k :: 0 <= k < |projects| && projects[k].id == selected.value
    ensures r.Some? ==> r.value in projects && r.value.id == selected.value
  {
    if selected.None? || projects == [] then None
    else if projects[0].id == selected.value then Some(projects[0])
    else
      var r := SelectedProject(projects[1..], selected);
      assert forall k :: 1 <= k < |projects| ==> projects[k] == projects[1..][k - 1];
      r
  }

  /** persistSelection: without a window nothing happens; a non-empty id is
      stored, null or "" removes the entry. */
  function Persist(s: Selection, id: Option<string>): (r: Option<string>)
    ensures !s.hasWindow ==> r == s.stored
    ensures s.hasWindow ==> r == (if Truthy(id) then id else None)
  {
    if !s.hasWindow then s.stored
    else if Truthy(id) then id
    else None
  }

  /** selectProject: the selection becomes the id and is persisted. */
  function SelectProject(s: Selection, id: Option<string>): (r: Selection)
    ensures r.selected == id && r.hasWindow == s.hasWindow
    ensures r.stored == Persist(s, id)
  {
    s.(selected := id, stored := Persist(s, id))
  }

  /** Whether some listed project carries the id. */
  predicate Listed(projects: seq<ProjectEntry>, id: string) {
    exists k :: 0 <= k < |projects| && projects[k].id == id
  }

  /** The reconciliation effect: with projects listed, an empty selection or
      one naming no listed project moves to the first project; otherwise
      nothing changes. */
  function Reconcile(s: Selection, projects: seq<ProjectEntry>): (r: Selection)
    ensures projects == [] ==> r == s
    ensures projects != [] && Truthy(s.selected) && Listed(projects, s.selected.value) ==> r == s
    ensures projects != [] && !(Truthy(s.selected) && Listed(projects, s.selected.value)) ==>
      r == SelectProject(s, Some(projects[0].id))
  {
    if |projects| == 0 then s
    else if !Truthy(s.selected) then SelectProject(s, Some(projects[0].id))
    else if !Listed(projects, s.selected.value) then SelectProject(s, Some(projects[0].id))
    else s
  }

  /** After reconciliation against a non-empty list the selection names a
      listed project, so selectedProject is defined. */
  lemma ReconcileSelectsListed(s: Selection, projects: seq<ProjectEntry>)
    requires projects != []
    ensures var r := Reconcile(s, projects);
      r.selected.Some? && Listed(projects, r.selected.value)
      && SelectedProject(projects, r.selected).Some?
  {
    var r := Reconcile(s, projects);
    if !(Truthy(s.selected) && Listed(projects, s.selected.value)) {
      assert projects[0].id == r.selected.value;
    }
  }

  /** Running the effect again changes nothing, so it settles after one step. */
  lemma ReconcileIdempotent(s: Selection, projects: seq<ProjectEntry>)
    ensures Reconcile(Reconcile(s, projects), projects) == Reconcile(s, projects)
  {
    var r := Reconcile(s, projects);
    if projects != [] && !(Truthy(s.selected) && Listed(projects, s.selected.value)) {
      assert projects[0].id == r.selected.value;
      assert r.stored == Persist(r, r.selected);
    }
  }

  /** The context value, or the error useProjectContext raises outside a
      provider. */
  datatype ContextLookup = Provided(value: Selection) | Thrown(message: string)

  const OUTSIDE_PROVIDER := "useProjectContext must be used within a ProjectProvider"

  function UseProjectContext(context: Option<Selection>): (r: ContextLookup)
    ensures r.Provided? <==> context.Some?
    ensures context.Some? ==> r.value == context.value
    ensures context.None? ==> r.message == OUTSIDE_PROVIDER
  {
    if context.None? then Thrown(OUTSIDE_PROVIDER) else Provided(context.value)
  }

  // ------------------------------------------------------------ the selector

  /** Whether a project matches a non-empty, already normalised term: its
      lower-cased name or description contains it. */
  function MatchesTerm(term: string): ProjectEntry -> bool {
    (p: ProjectEntry) =>
      Contains(Lower(p.name), term) || (p.description.Some? && Contains(Lower(p.description.value), term))
  }

  function NormalizedSearch(search: string): string {
    Lower(Trim(search))
  }

  /** filteredProjects: all projects for a blank search, otherwise the
      projects whose name or description contains the trimmed, lower-cased
      term, in list order. */
  function FilterProjects(projects: seq<ProjectEntry>, search: string): (r: seq<ProjectEntry>)
    ensures NormalizedSearch(search) == "" ==> r == projects
    ensures NormalizedSearch(search) != "" ==>
      forall p :: p in r <==> p in projects && MatchesTerm(NormalizedSearch(search))(p)
  {
    var term := NormalizedSearch(search);
    if term == "" then projects else Filter(projects, MatchesTerm(term))
  }

  /** The filter keeps list order: a project appended to the list lands at
      the end of the result when it matches and nowhere otherwise. */
  lemma FilterProjectsAppend(projects: seq<ProjectEntry>, p: ProjectEntry, search: string)
    ensures var term := NormalizedSearch(search);
      FilterProjects(projects + [p], search) ==
        FilterProjects(projects, search) + (if term == "" || MatchesTerm(term)(p) then [p] else [])
  {
    var term := NormalizedSearch(search);
    if term != "" {
      FilterAppend(projects, [p], MatchesTerm(term));
      assert [p][1..] == [];
    }
  }

  /** menuLabel: an error wins, then the selected project's name, then the
      loading notice, then the prompt to select. */
  function MenuLabel(isError: bool, isLoading: bool, selected: Option<ProjectEntry>): (r: string)
    ensures isError ==> r == "Projects unavailable"
    ensures !isError && selected.Some? ==> r == selected.value.name
    ensures !isError && selected.None? ==> r == (if isLoading then "Loading projects..." else "Select Project")
  {
    if isError then "Projects unavailable"
    else if selected.Some? then selected.value.name
    else if isLoading then "Loading projects..."
    else "Select Project"
  }

  /** Once a non-empty list has loaded without error and the selection is
      reconciled, the menu shows the name of a listed project. */
  lemma MenuShowsListedProject(s: Selection, projects: seq<ProjectEntry>, isLoading: bool)
    requires projects != []
    ensures var sel := SelectedProject(projects, Reconcile(s, projects).selected);
      sel.Some? && sel.value in projects && MenuLabel(false, isLoading, sel) == sel.value.name
  {
    ReconcileSelectsListed(s, projects);
  }

  predicate CanSearch(isError: bool, isLoading: bool, projects: seq<ProjectEntry>) {
    !isLoading && !isError && |projects| > 0
  }

  const SEARCH_READY := "Search by name or description..."

  /** searchPlaceholder: the error, loading and empty cases before the ready text. */
  function SearchPlaceholder(isError: bool, isLoading: bool, projects: seq<ProjectEntry>): (r: string)
    ensures isError ==> r == "Search unavailable"
    ensures !isError && isLoading ==> r == "Loading projects..."
    ensures !isError && !isLoading && projects == [] ==> r == "No projects available"
  {
    if isError then "Search unavailable"
    else if isLoading then "Loading projects..."
    else if |projects| == 0 then "No projects available"
    else SEARCH_READY
  }

  /** The placeholder invites a search exactly when search is enabled. */
  lemma PlaceholderMatchesCanSearch(isError: bool, isLoading: bool, projects: seq<ProjectEntry>)
    ensures SearchPlaceholder(isError, isLoading, projects) == SEARCH_READY <==> CanSearch(isError, isLoading, projects)
  {
  }

  /** The effect that clears the search text while search is disabled. */
  function SearchAfterEffect(canSearch: bool, search: string): (r: string)
    ensures !canSearch ==> r == ""
    ensures canSearch ==> r == search
  {
    if !canSearch && search != "" then "" else search
  }

  /** The menu: the search text and whether it is open. */
  datatype Menu = Menu(search: string, isOpen: bool)

  /** handleProjectSelect: select, clear the search, close the menu. */
  function PickProject(s: Selection, menu: Menu, id: string): (r: (Selection, Menu))
    ensures r.0 == SelectProject(s, Some(id)) && r.1 == Menu("", false)
  {
    (SelectProject(s, Some(id)), Menu("", false))
  }

  /** handleOpenChange: closing clears the search; opening keeps it. */
  function OpenChange(menu: Menu, open: bool): (r: Menu)
    ensures r.isOpen == open
    ensures !open ==> r.search == ""
    ensures open ==> r.search == menu.search
  {
    if open then Menu(menu.search, true) else Menu("", false)
  }

  /** A closed menu, or one just used to pick, always shows the whole list
      when it opens again. */
  lemma ReopenedMenuShowsAll(s: Selection, menu: Menu, id: string, projects: seq<ProjectEntry>)
    ensures FilterProjects(projects, OpenChange(OpenChange(menu, false), true).search) == projects
    ensures FilterProjects(projects, OpenChange(PickProject(s, menu, id).1, true).search) == projects
  {
    assert NormalizedSearch("") == "";
  }
}

=== FILE: projects.dfy ===
/** The /projects routes and the linking of a project to repositories, given
    by id or by URL: URLs are normalised, de-duplicated, matched against the
    repository table and created when no repository has them yet. */
module Projects {
  import opened Common
  import opened Text
  import opened Seqs
  import opened Models
  import opened OwnedStore
  import opened RepositoryRoutes

  // ------------------------------------------------------------ URL helpers

  /** _normalize_repository_url: whitespace stripped, then every trailing "/". */
  function NormalizeUrl(raw: string): (r: string)
    ensures AllSpace(raw) ==> r == ""
    ensures r == [] || r[|r| - 1] != '/'
  {
    TrimEmpty(raw);
    var s := Trim(raw);
    if s == "" then "" else RStrip(s, '/')
  }

  /** The normalised URL is the trimmed input less a run of trailing "/". */
  lemma NormalizeUrlShape(raw: string)
    ensures var r := NormalizeUrl(raw);
      |r| <= |Trim(raw)| && r == Trim(raw)[..|r|]
      && forall i :: |r| <= i < |Trim(raw)| ==> Trim(raw)[i] == '/'
  {
  }

  /** A URL without surrounding whitespace or trailing slash is kept as it
      is, ".git" included, and any number of trailing slashes is dropped. */
  lemma NormalizeUrlKeepsCleanUrl(u: string, slashes: nat)
    requires u != [] && !IsSpace(u[0]) && !IsSpace(u[|u| - 1]) && u[|u| - 1] != '/'
    ensures NormalizeUrl(u + Repeat('/', slashes)) == u
  {
    var s := u + Repeat('/', slashes);
    assert TrimStart(s) == s;
    if slashes == 0 {
      assert s == u;
    }
    assert TrimEnd(s) == s;
    RStripSlashes(u, slashes);
  }

  lemma {:induction false} RStripSlashes(u: string, n: nat)
    requires u != [] && u[|u| - 1] != '/'
    ensures RStrip(u + Repeat('/', n), '/') == u
  {
    if n > 0 {
      var s := u + Repeat('/', n);
      assert s[..|s| - 1] == u + Repeat('/', n - 1);
      RStripSlashes(u, n - 1);
    } else {
      assert u + Repeat('/', 0) == u;
    }
  }

  function NonBlank(u: string): bool {
    u != ""
  }

  function NormalizeEach(raws: seq<string>): (r: seq<string>)
    ensures |r| == |raws| && forall k :: 0 <= k < |raws| ==> r[k] == NormalizeUrl(raws[k])
    ensures forall x :: x in r <==> exists k :: 0 <= k < |raws| && NormalizeUrl(raws[k]) == x
  {
    var r := seq(|raws|, k requires 0 <= k < |raws| => NormalizeUrl(raws[k]));
    assert forall x :: x in r ==> exists k :: 0 <= k < |raws| && r[k] == x;
    r
  }

  /** The normalised URLs of a request in the order first given, without
      blanks and without repeats. */
  function NormalizeUrls(raws: seq<string>): (r: seq<string>)
    ensures forall i, j :: 0 <= i < j < |r| ==> r[i] != r[j]
    ensures forall x :: x in r <==> x != "" && exists k :: 0 <= k < |raws| && NormalizeUrl(raws[k]) == x
  {
    var normalized := NormalizeEach(raws);
    var kept := Filter(normalized, NonBlank);
    var r := Dedup(kept);
    assert forall x :: x in r <==> x in kept;
    assert forall x :: x in kept <==> x in normalized && x != "";
    r
  }

  /** The last "/"-separated piece of a string. */
  function LastSegment(s: string): (r: string)
    ensures '/' !in r
  {
    var parts := Split(s, '/');
    parts[|parts| - 1]
  }

  /** The last piece does not depend on what precedes the first "/". */
  lemma LastSegmentAfter(s: string, j: nat)
    requires j < |s| && s[j] == '/' && '/' !in s[..j]
    ensures LastSegment(s) == LastSegment(s[j + 1..])
  {
    FirstIndexAt(s, '/', j);
    assert Split(s, '/') == [s[..j]] + Split(s[j + 1..], '/');
  }

  lemma {:induction false} SplitLast(a: string, b: string)
    requires '/' !in b
    ensures LastSegment(a + "/" + b) == b
    decreases |a|
  {
    var s := a + "/" + b;
    if '/' in a {
      var j := FirstIndex(a, '/');
      assert s[j] == '/' && s[..j] == a[..j];
      assert s[j + 1..] == a[j + 1..] + "/" + b;
      LastSegmentAfter(s, j);
      SplitLast(a[j + 1..], b);
    } else {
      assert s[|a|] == '/' && s[..|a|] == a;
      assert s[|a| + 1..] == b;
      LastSegmentAfter(s, |a|);
      assert Split(b, '/') == [b];
    }
  }

  /** _derive_repository_name: the last path piece of the URL without its
      trailing slashes, less one ".git" suffix, or "repository" when that
      leaves nothing. */
  function DeriveName(url: string): (r: string)
    ensures r != "" && '/' !in r
  {
    var candidate := LastSegment(RStrip(url, '/'));
    var bare := if EndsWith(candidate, ".git") then candidate[..|candidate| - 4] else candidate;
    assert forall c :: c in bare ==> c in candidate;
    if bare == "" then "repository" else bare
  }

  /** The name of a repository URL is its last piece, with ".git" dropped. */
  lemma DeriveNameOfUrl(prefix: string, name: string, slashes: nat)
    requires name != "" && '/' !in name && name[|name| - 1] != '/'
    ensures DeriveName(prefix + "/" + name + ".git" + Repeat('/', slashes)) == name
    ensures !EndsWith(name, ".git") ==> DeriveName(prefix + "/" + name + Repeat('/', slashes)) == name
  {
    var g := name + ".git";
    assert prefix + "/" + name + ".git" == prefix + "/" + g;
    RStripSlashes(prefix + "/" + g, slashes);
    SplitLast(prefix, g);
    assert g[..|g| - 4] == name;
    if !EndsWith(name, ".git") {
      RStripSlashes(prefix + "/" + name, slashes);
      SplitLast(prefix, name);
    }
  }

  // ------------------------------------------------------- linking by URL

  /** The first repository with exactly this URL (owner not considered). */
  function FindByUrl(t: seq<Repository>, url: string): (r: Option<Repository>)
    ensures r.Some? ==> r.value in t && r.value.fields.url == url
  {
    if t == [] then None
    else if t[0].fields.url == url then Some(t[0])
    else FindByUrl(t[1..], url)
  }

  /** No repository is found exactly when none has the URL. */
  lemma {:induction false} FindByUrlNone(t: seq<Repository>, url: string)
    ensures FindByUrl(t, url).None? <==> forall k :: 0 <= k < |t| ==> t[k].fields.url != url
  {
    if t != [] {
      FindByUrlNone(t[1..], url);
      assert forall k :: 1 <= k < |t| ==> t[1..][k - 1] == t[k];
    }
  }

  lemma {:induction false} FindByUrlPrefix(a: seq<Repository>, b: seq<Repository>, url: string)
    requires FindByUrl(a, url).Some?
    ensures FindByUrl(a + b, url) == FindByUrl(a, url)
  {
    if a[0].fields.url != url {
      assert (a + b)[1..] == a[1..] + b;
      FindByUrlPrefix(a[1..], b, url);
    }
  }

  lemma {:induction false} FindPrefix<F>(a: seq<Row<F>>, b: seq<Row<F>>, id: Id)
    requires Find(a, id).Some?
    ensures Find(a + b, id) == Find(a, id)
  {
    if a[0].id != id {
      assert (a + b)[1..] == a[1..] + b;
      FindPrefix(a[1..], b, id);
    }
  }

  predicate Distinct(xs: seq<Id>) {
    forall i, j :: 0 <= i < j < |xs| ==> xs[i] != xs[j]
  }

  /** The link list with id appended unless it is there already. */
  function AddLink(links: seq<Id>, id: Id): (r: seq<Id>)
    requires Distinct(links)
    ensures Distinct(r) && id in r && |r| >= |links| && r[..|links|] == links
    ensures forall x :: x in r ==> x in links || x == id
    ensures id in links ==> r == links
  {
    if id in links then links else links + [id]
  }

  /** The repository a URL resolves to in the table. */
  function UrlRepoId(t: seq<Repository>, url: string): Option<Id> {
    match FindByUrl(t, url)
    case None => None
    case Some(x) => Some(x.id)
  }

  /** One URL of the loop: the first repository with that URL, or a new one
      named from the URL and owned by ownerId, appended to the table. */
  function LinkOne(repos: seq<Repository>, ownerId: Id, url: string, now: Time)
    : (r: (seq<Repository>, Repository))
    ensures |r.0| >= |repos| && r.0[..|repos|] == repos && |r.0| <= |repos| + 1
    ensures FindByUrl(r.0, url) == Some(r.1) && Find(r.0, r.1.id).Some?
    ensures FindByUrl(repos, url).Some? ==> r.0 == repos
    ensures FindByUrl(repos, url).None? ==>
      (r.1.fields == RepositoryFields(DeriveName(url), url, None) && r.1.ownerId == ownerId)
  {
    match FindByUrl(repos, url)
    case Some(x) => (repos, x)
    case None =>
      var (t, x) := Create(repos, User(ownerId, false), RepositoryFields(DeriveName(url), url, None), now);
      assert t == repos + [x];
      FindByUrlAppendNew(repos, x);
      (t, x)
  }

  /** The URL loop of _sync_project_repositories: each URL's repository joins
      the links unless it is there already. */
  function LinkUrls(repos: seq<Repository>, ownerId: Id, urls: seq<string>, links: seq<Id>, now: Time)
    : (r: (seq<Repository>, seq<Id>))
    requires Distinct(links)
    ensures |r.0| >= |repos| && r.0[..|repos|] == repos
    ensures Distinct(r.1) && |r.1| >= |links| && r.1[..|links|] == links
    decreases |urls|
  {
    if urls == [] then (repos, links)
    else
      var (repos1, repo) := LinkOne(repos, ownerId, urls[0], now);
      var links1 := AddLink(links, repo.id);
      var r := LinkUrls(repos1, ownerId, urls[1..], links1, now);
      assert r.1[..|links|] == r.1[..|links1|][..|links|];
      assert r.0[..|repos|] == r.0[..|repos1|][..|repos|];
      r
  }

  lemma LinkUrlsUnfold(repos: seq<Repository>, ownerId: Id, urls: seq<string>, links: seq<Id>, now: Time)
    requires Distinct(links) && urls != []
    ensures var (repos1, repo) := LinkOne(repos, ownerId, urls[0], now);
      var links1 := AddLink(links, repo.id);
      Distinct(links1)
      && LinkUrls(repos, ownerId, urls, links, now) == LinkUrls(repos1, ownerId, urls[1..], links1, now)
  {
  }

  /** Every URL resolves, in the final table, to a repository that is linked. */
  lemma {:induction false} LinkUrlsResolvesEveryUrl(repos: seq<Repository>, ownerId: Id, urls: seq<string>,
                                                    links: seq<Id>, now: Time)
    requires Distinct(links)
    ensures var r := LinkUrls(repos, ownerId, urls, links, now);
      forall u :: u in urls ==> UrlRepoId(r.0, u).Some? && UrlRepoId(r.0, u).value in r.1
    decreases |urls|
  {
    if urls != [] {
      var p := LinkOne(repos, ownerId, urls[0], now);
      var links1 := AddLink(links, p.1.id);
      LinkUrlsUnfold(repos, ownerId, urls, links, now);
      var r := LinkUrls(p.0, ownerId, urls[1..], links1, now);
      LinkUrlsResolvesEveryUrl(p.0, ownerId, urls[1..], links1, now);
      LinkUrlsFirstResolved(repos, ownerId, urls, links, now);
      assert p.1.id in links1 && r.1[..|links1|] == links1;
      forall u | u in urls
        ensures UrlRepoId(r.0, u).Some? && UrlRepoId(r.0, u).value in r.1
      {
        if u != urls[0] {
          assert u in urls[1..];
        }
      }
    }
  }

  /** Every link added comes from one of the URLs. */
  lemma {:induction false} LinkUrlsAddsOnlyUrlRepos(repos: seq<Repository>, ownerId: Id, urls: seq<string>,
                                                    links: seq<Id>, now: Time)
    requires Distinct(links)
    ensures var r := LinkUrls(repos, ownerId, urls, links, now);
      forall x :: x in r.1 ==> x in links || exists u :: u in urls && UrlRepoId(r.0, u) == Some(x)
    decreases |urls|
  {
    if urls != [] {
      var p := LinkOne(repos, ownerId, urls[0], now);
      var links1 := AddLink(links, p.1.id);
      LinkUrlsUnfold(repos, ownerId, urls, links, now);
      LinkUrlsAddsOnlyUrlRepos(p.0, ownerId, urls[1..], links1, now);
      var r := LinkUrls(p.0, ownerId, urls[1..], links1, now);
      LinkUrlsFirstResolved(repos, ownerId, urls, links, now);
      forall x | x in r.1 && x !in links
        ensures exists u :: u in urls && UrlRepoId(r.0, u) == Some(x)
      {
        FirstOrRest(r.0, urls, p.1.id, x);
      }
    }
  }

  /** The first URL still resolves, after the rest are linked, to the
      repository it was linked to. */
  lemma LinkUrlsFirstResolved(repos: seq<Repository>, ownerId: Id, urls: seq<string>, links: seq<Id>, now: Time)
    requires Distinct(links) && urls != []
    ensures var p := LinkOne(repos, ownerId, urls[0], now);
      var links1 := AddLink(links, p.1.id);
      Distinct(links1)
      && UrlRepoId(LinkUrls(p.0, ownerId, urls[1..], links1, now).0, urls[0]) == Some(p.1.id)
  {
    var p := LinkOne(repos, ownerId, urls[0], now);
    var links1 := AddLink(links, p.1.id);
    var r := LinkUrls(p.0, ownerId, urls[1..], links1, now);
    assert r.0 == p.0 + r.0[|p.0|..];
    FindByUrlPrefix(p.0, r.0[|p.0|..], urls[0]);
  }

  lemma FirstOrRest(t: seq<Repository>, urls: seq<string>, first: Id, x: Id)
    requires |urls| > 0 && UrlRepoId(t, urls[0]) == Some(first)
    requires x == first || exists u :: u in urls[1..] && UrlRepoId(t, u) == Some(x)
    ensures exists u :: u in urls && UrlRepoId(t, u) == Some(x)
  {
    if x != first {
      var u :| u in urls[1..] && UrlRepoId(t, u) == Some(x);
      assert u in urls;
    } else {
      assert urls[0] in urls;
    }
  }

  /** Links to existing repositories stay links to existing repositories. */
  lemma {:induction false} LinkUrlsLinksExist(repos: seq<Repository>, ownerId: Id, urls: seq<string>,
                                              links: seq<Id>, now: Time)
    requires Distinct(links) && forall x :: x in links ==> Find(repos, x).Some?
    ensures var r := LinkUrls(repos, ownerId, urls, links, now);
      forall x :: x in r.1 ==> Find(r.0, x).Some?
    decreases |urls|
  {
    if urls != [] {
      var (repos1, repo) := LinkOne(repos, ownerId, urls[0], now);
      var links1 := AddLink(links, repo.id);
      forall x | x in links1 ensures Find(repos1, x).Some? {
        if x in links {
          assert repos1 == repos + repos1[|repos|..];
          FindPrefix(repos, repos1[|repos|..], x);
        }
      }
      assert LinkUrls(repos, ownerId, urls, links, now) == LinkUrls(repos1, ownerId, urls[1..], links1, now);
      LinkUrlsLinksExist(repos1, ownerId, urls[1..], links1, now);
    }
  }

  /** URLs that all have a repository already create none. */
  lemma {:induction false} LinkUrlsReuses(repos: seq<Repository>, ownerId: Id, urls: seq<string>,
                                          links: seq<Id>, now: Time)
    requires Distinct(links)
    requires forall k :: 0 <= k < |urls| ==> FindByUrl(repos, urls[k]).Some?
    ensures LinkUrls(repos, ownerId, urls, links, now).0 == repos
    decreases |urls|
  {
    if urls != [] {
      var (repos1, repo) := LinkOne(repos, ownerId, urls[0], now);
      var links1 := AddLink(links, repo.id);
      assert forall k :: 0 <= k < |urls[1..]| ==> urls[1..][k] == urls[k + 1];
      LinkUrlsReuses(repos1, ownerId, urls[1..], links1, now);
    }
  }

  lemma {:induction false} FindByUrlAppendNew(t: seq<Repository>, x: Repository)
    requires FindByUrl(t, x.fields.url).None?
    ensures FindByUrl(t + [x], x.fields.url) == Some(x)
  {
    if t != [] {
      assert (t + [x])[1..] == t[1..] + [x];
      FindByUrlAppendNew(t[1..], x);
    } else {
      assert [x][1..] == [];
    }
  }

  // ------------------------------------------------ _sync_project_repositories

  /** The ids of a table's rows, in table order. */
  function RowIds<F>(t: seq<Row<F>>): (r: seq<Id>)
    ensures |r| == |t| && forall k :: 0 <= k < |t| ==> r[k] == t[k].id
  {
    if t == [] then [] else [t[0].id] + RowIds(t[1..])
  }

  /** The requested repository ids that name no repository, ascending, each once. */
  function MissingRepoIds(repos: seq<Repository>, ids: seq<Id>): (r: seq<Id>)
    ensures SortedBy(r, (a: Id, b: Id) => a <= b)
    ensures forall x :: x in r <==> x in ids && Find(repos, x).None?
  {
    var missing := Dedup(Filter(ids, (x: Id) => Find(repos, x).None?));
    var r := Sort(missing, (a: Id, b: Id) => a <= b);
    assert forall x :: x in r <==> x in multiset(missing);
    r
  }

  /** The repository links a request asks for: repository_ids and
      repository_urls, each either given (possibly empty) or left out. */
  datatype LinkRequest = LinkRequest(ids: Option<seq<Id>>, urls: Option<seq<string>>)

  /** What the synchronisation did: nothing asked, or the new repository
      table and the project's new links, in link order. */
  datatype Synced = Unchanged | Linked(repos: seq<Repository>, links: seq<Id>)

  /** The links the id list contributes: the existing repositories whose id
      was asked for, in table order, each once. */
  function IdLinks(repos: seq<Repository>, ids: seq<Id>): (r: seq<Id>)
    ensures Distinct(r)
    ensures forall x :: x in r <==> x in ids && Find(repos, x).Some?
  {
    var existing := Filter(repos, (x: Repository) => x.id in ids);
    var r := Dedup(RowIds(existing));
    forall x ensures x in r <==> x in ids && Find(repos, x).Some? {
      if x in r {
        var k :| 0 <= k < |RowIds(existing)| && RowIds(existing)[k] == x;
        assert existing[k] in repos;
        FindPresent(repos, existing[k]);
      }
      if x in ids && Find(repos, x).Some? {
        var y := Find(repos, x).value;
        var k :| 0 <= k < |existing| && existing[k] == y;
        assert RowIds(existing)[k] == x;
      }
    }
    r
  }

  /** A row in the table is found by its id (perhaps as an earlier row with
      the same id). */
  lemma {:induction false} FindPresent<F>(t: seq<Row<F>>, x: Row<F>)
    requires x in t
    ensures Find(t, x.id).Some?
  {
    if t[0] != x {
      assert x in t[1..];
      FindPresent(t[1..], x);
    }
  }

  /** The linking itself, once the ids are known to exist: the id links
      first, then each URL's repository. */
  function LinkAll(repos: seq<Repository>, ownerId: Id, req: LinkRequest, now: Time)
    : (r: (seq<Repository>, seq<Id>))
    ensures |r.0| >= |repos| && r.0[..|repos|] == repos && Distinct(r.1)
    ensures req.urls.None? ==> r.0 == repos
  {
    var links := if req.ids.Some? then IdLinks(repos, req.ids.value) else [];
    if req.urls.None? then (repos, links)
    else LinkUrls(repos, ownerId, NormalizeUrls(req.urls.value), links, now)
  }

  /** _sync_project_repositories: nothing asked leaves the links alone; an
      unknown repository id is a 400 listing every unknown id and nothing is
      stored; otherwise the id links come first, then each URL's repository
      (found by exact URL, whoever owns it, or created for ownerId). */
  function SyncLinks(repos: seq<Repository>, ownerId: Id, req: LinkRequest, now: Time): (r: Result<Synced>)
    ensures r == Ok(Unchanged) <==> req.ids.None? && req.urls.None?
    ensures r.Err? <==> req.ids.Some? && exists k :: 0 <= k < |req.ids.value| && Find(repos, req.ids.value[k]).None?
    ensures r.Err? ==>
      r.error == HttpError(400, "Repositories not found: " + Join(NatStrings(MissingRepoIds(repos, req.ids.value)), ", "))
    ensures r.Ok? && r.value.Linked? ==>
      r.value == Linked(LinkAll(repos, ownerId, req, now).0, LinkAll(repos, ownerId, req, now).1)
  {
    if req.ids.None? && req.urls.None? then Ok(Unchanged)
    else
      var missing := if req.ids.Some? then MissingRepoIds(repos, req.ids.value) else [];
      if missing != [] then
        assert missing[0] in req.ids.value;
        Err(HttpError(400, "Repositories not found: " + Join(NatStrings(missing), ", ")))
      else
        assert req.ids.Some? ==> forall k :: 0 <= k < |req.ids.value| ==> Find(repos, req.ids.value[k]).Some? by {
          if req.ids.Some? {
            forall k | 0 <= k < |req.ids.value| ensures Find(repos, req.ids.value[k]).Some? {
              assert req.ids.value[k] in req.ids.value && req.ids.value[k] !in missing;
            }
          }
        }
        var r := LinkAll(repos, ownerId, req, now);
        Ok(Linked(r.0, r.1))
  }

  /** Every requested id that names a repository is linked. */
  lemma LinkAllKeepsIds(repos: seq<Repository>, ownerId: Id, req: LinkRequest, now: Time)
    requires req.ids.Some?
    ensures forall x :: x in req.ids.value && Find(repos, x).Some? ==> x in LinkAll(repos, ownerId, req, now).1
  {
    var links := IdLinks(repos, req.ids.value);
    if req.urls.Some? {
      var r := LinkUrls(repos, ownerId, NormalizeUrls(req.urls.value), links, now);
      assert r.1[..|links|] == links;
      assert forall x :: x in links ==> x in r.1;
    }
  }

  /** Every non-blank URL resolves to a linked repository of the new table. */
  lemma LinkAllResolvesUrls(repos: seq<Repository>, ownerId: Id, req: LinkRequest, now: Time)
    requires req.urls.Some?
    ensures var r := LinkAll(repos, ownerId, req, now);
      forall k :: 0 <= k < |req.urls.value| && NormalizeUrl(req.urls.value[k]) != "" ==>
        UrlRepoId(r.0, NormalizeUrl(req.urls.value[k])).Some?
        && UrlRepoId(r.0, NormalizeUrl(req.urls.value[k])).value in r.1
  {
    var links := if req.ids.Some? then IdLinks(repos, req.ids.value) else [];
    var urls := NormalizeUrls(req.urls.value);
    var r := LinkUrls(repos, ownerId, urls, links, now);
    assert LinkAll(repos, ownerId, req, now) == r;
    LinkUrlsResolvesEveryUrl(repos, ownerId, urls, links, now);
    forall k | 0 <= k < |req.urls.value| && NormalizeUrl(req.urls.value[k]) != ""
      ensures UrlRepoId(r.0, NormalizeUrl(req.urls.value[k])).Some?
        && UrlRepoId(r.0, NormalizeUrl(req.urls.value[k])).value in r.1
    {
      assert NormalizeUrl(req.urls.value[k]) in urls;
    }
  }

  /** Every link names a repository of the new table. */
  lemma LinkAllLinksExist(repos: seq<Repository>, ownerId: Id, req: LinkRequest, now: Time)
    ensures var r := LinkAll(repos, ownerId, req, now);
      forall x :: x in r.1 ==> Find(r.0, x).Some?
  {
    var links: seq<Id> := if req.ids.Some? then IdLinks(repos, req.ids.value) else [];
    IdLinksExist(repos, req.ids);
    if req.urls.Some? {
      LinkUrlsLinksExist(repos, ownerId, NormalizeUrls(req.urls.value), links, now);
      assert LinkAll(repos, ownerId, req, now) == LinkUrls(repos, ownerId, NormalizeUrls(req.urls.value), links, now);
    } else {
      assert LinkAll(repos, ownerId, req, now) == (repos, links);
    }
  }

  lemma IdLinksExist(repos: seq<Repository>, ids: Option<seq<Id>>)
    ensures var links: seq<Id> := if ids.Some? then IdLinks(repos, ids.value) else [];
      forall x :: x in links ==> Find(repos, x).Some?
  {
  }

  /** No link comes from anywhere but the request: it is a requested id, or
      the repository one of the request's URLs resolves to. */
  lemma LinkAllOnlyRequested(repos: seq<Repository>, ownerId: Id, req: LinkRequest, now: Time)
    ensures var r := LinkAll(repos, ownerId, req, now);
      forall x :: x in r.1 ==>
        (req.ids.Some? && x in req.ids.value)
        || (req.urls.Some? && exists u :: u in NormalizeUrls(req.urls.value) && UrlRepoId(r.0, u) == Some(x))
  {
    var links := if req.ids.Some? then IdLinks(repos, req.ids.value) else [];
    if req.urls.Some? {
      var urls := NormalizeUrls(req.urls.value);
      var r := LinkUrls(repos, ownerId, urls, links, now);
      assert LinkAll(repos, ownerId, req, now) == r;
      LinkUrlsAddsOnlyUrlRepos(repos, ownerId, urls, links, now);
      forall x | x in r.1
        ensures (req.ids.Some? && x in req.ids.value) || exists u :: u in urls && UrlRepoId(r.0, u) == Some(x)
      {
        if x in links {
          assert req.ids.Some? && x in req.ids.value;
        }
      }
    } else {
      assert LinkAll(repos, ownerId, req, now) == (repos, links);
    }
  }

  // ------------------------------------------------------------ the routes

  datatype ProjectFields = ProjectFields(name: string, description: Option<string>)

  /** A project's fields and the ids of its linked repositories. */
  datatype ProjectData = ProjectData(fields: ProjectFields, repositoryIds: seq<Id>)

  type Project = Row<ProjectData>

  const PROJECT := "Project"

  /** ProjectBase: name 1..255, description at most 999. */
  predicate ValidProjectFields(f: ProjectFields) {
    1 <= |f.name| <= 255 && AtMost(f.description, 999)
  }

  /** The search filter of read_projects: a case-insensitive substring of
      the name or of the description, after stripping the search text. */
  predicate MatchesSearch(p: Project, search: Option<string>) {
    !Truthy(search)
    || var pattern := Lower(Trim(search.value));
       Contains(Lower(p.fields.fields.name), pattern)
       || (p.fields.fields.description.Some? && Contains(Lower(p.fields.fields.description.value), pattern))
  }

  /** The rows read_projects counts: visible to the user and matching the search. */
  function Listable(t: seq<Project>, user: User, search: Option<string>): (r: seq<Project>)
    ensures forall x :: x in r <==> x in t && MayAccess(user, x.ownerId) && MatchesSearch(x, search)
  {
    Filter(t, (x: Project) => MayAccess(user, x.ownerId) && MatchesSearch(x, search))
  }

  /** read_projects: the window of the listable rows in table order, and
      their total; a negative window is a database error. */
  function ReadProjects(t: seq<Project>, user: User, skip: int, limit: int, search: Option<string>)
    : (r: Result<Listed<ProjectData>>)
    ensures r.Err? <==> !ValidWindow(skip, limit)
    ensures r.Err? ==> r.error == INTERNAL_ERROR
    ensures r.Ok? ==>
      (r.value.count == |Listable(t, user, search)| && |r.value.data| <= limit
       && forall k :: 0 <= k < |r.value.data| ==>
            skip + k < r.value.count && r.value.data[k] == Listable(t, user, search)[skip + k])
  {
    var matching := Filter(t, (x: Project) => MatchesSearch(x, search));
    FilterFilter(t, (x: Project) => MatchesSearch(x, search), (x: Project) => MayAccess(user, x.ownerId),
      (x: Project) => MayAccess(user, x.ownerId) && MatchesSearch(x, search));
    List(matching, user, skip, limit)
  }

  /** A search of nothing but whitespace lists the same as no search. */
  lemma BlankSearchListsAll(t: seq<Project>, user: User, skip: int, limit: int, search: string)
    requires AllSpace(search)
    ensures ReadProjects(t, user, skip, limit, Some(search)) == ReadProjects(t, user, skip, limit, None)
  {
    TrimEmpty(search);
    forall x: Project ensures MatchesSearch(x, Some(search)) {
      assert StartsWith(Lower(x.fields.fields.name), "");
    }
    FilterCongruent(t, (x: Project) => MatchesSearch(x, Some(search)), (x: Project) => MatchesSearch(x, None));
  }

  /** create_project: 422 for a body outside the schema; then the links are
      synchronised (repository_ids defaults to the empty list, so they
      always are), a missing id refusing the request with nothing stored;
      otherwise a new project owned by the caller with those links. */
  function CreateProject(t: seq<Project>, repos: seq<Repository>, user: User, f: ProjectFields,
                         ids: seq<Id>, urls: Option<seq<string>>, now: Time)
    : (r: Result<(seq<Project>, seq<Repository>, Project)>)
    ensures !ValidProjectFields(f) ==> r == Err(VALIDATION_FAILED)
    ensures ValidProjectFields(f) ==>
      (r.Err? <==> exists k :: 0 <= k < |ids| && Find(repos, ids[k]).None?)
      && (r.Err? ==> r.error == SyncLinks(repos, user.id, LinkRequest(Some(ids), urls), now).error)
    ensures r.Ok? ==>
      var (t2, repos2, p) := r.value;
      p.ownerId == user.id && p.fields.fields == f
      && p.fields.repositoryIds == LinkAll(repos, user.id, LinkRequest(Some(ids), urls), now).1
      && repos2 == LinkAll(repos, user.id, LinkRequest(Some(ids), urls), now).0
      && |t2| == |t| + 1 && t2[..|t|] == t && Guard(t2, user, p.id, PROJECT) == Ok(p)
  {
    if !ValidProjectFields(f) then Err(VALIDATION_FAILED)
    else
      var req := LinkRequest(Some(ids), urls);
      var sync := SyncLinks(repos, user.id, req, now);
      if sync.Err? then Err(sync.error)
      else
        var (repos2, links) := LinkAll(repos, user.id, req, now);
        var (t2, p) := Create(t, user, ProjectData(f, links), now);
        Ok((t2, repos2, p))
  }

  /** ProjectUpdate: each field optional; only upper bounds are declared. */
  datatype ProjectUpdate = ProjectUpdate(
    name: Patch<string>, description: Patch<Option<string>>,
    repositoryIds: Option<seq<Id>>, repositoryUrls: Option<seq<string>>)

  predicate ValidProjectUpdate(u: ProjectUpdate) {
    (u.name.Set? ==> |u.name.value| <= 255) && (u.description.Set? ==> AtMost(u.description.value, 999))
  }

  function LinksOf(u: ProjectUpdate): LinkRequest {
    LinkRequest(u.repositoryIds, u.repositoryUrls)
  }

  /** The new data of an updated project: the supplied fields, and the new
      links when there are any. */
  function ApplyProjectUpdate(d: ProjectData, change: (ProjectUpdate, Option<seq<Id>>)): ProjectData {
    var (u, links) := change;
    ProjectData(ProjectFields(u.name.ApplyTo(d.fields.name), u.description.ApplyTo(d.fields.description)),
      links.GetOr(d.repositoryIds))
  }

  /** update_project: 422, then 404, then 400; then the links are
      synchronised (an unknown id refuses the request with nothing stored);
      the supplied fields change, and the links change only when ids or
      URLs were given. */
  function UpdateProject(t: seq<Project>, repos: seq<Repository>, user: User, id: Id, u: ProjectUpdate, now: Time)
    : (r: Result<(seq<Project>, seq<Repository>, Project)>)
    ensures !ValidProjectUpdate(u) ==> r == Err(VALIDATION_FAILED)
    ensures ValidProjectUpdate(u) && Guard(t, user, id, PROJECT).Err? ==> r == Err(Guard(t, user, id, PROJECT).error)
    ensures ValidProjectUpdate(u) && Guard(t, user, id, PROJECT).Ok? ==>
      (r.Err? <==> SyncLinks(repos, user.id, LinksOf(u), now).Err?)
    ensures r.Ok? ==>
      var (t2, repos2, p) := r.value;
      var before := Find(t, id).value;
      var synced := SyncLinks(repos, user.id, LinksOf(u), now).value;
      p.id == id && p.ownerId == before.ownerId
      && p.createdAt == before.createdAt && p.updatedAt == before.updatedAt
      && p.fields.fields.name == u.name.ApplyTo(before.fields.fields.name)
      && p.fields.fields.description == u.description.ApplyTo(before.fields.fields.description)
      && (synced.Unchanged? ==> p.fields.repositoryIds == before.fields.repositoryIds && repos2 == repos)
      && (synced.Linked? ==> p.fields.repositoryIds == synced.links && repos2 == synced.repos)
      && Find(t2, id) == Some(p)
      && forall other :: other != id ==> Find(t2, other) == Find(t, other)
  {
    if !ValidProjectUpdate(u) then Err(VALIDATION_FAILED)
    else
      match Guard(t, user, id, PROJECT)
      case Err(e) => Err(e)
      case Ok(_) =>
        match SyncLinks(repos, user.id, LinksOf(u), now)
        case Err(e) => Err(e)
        case Ok(synced) =>
          var links := if synced.Linked? then Some(synced.links) else None;
          var repos2 := if synced.Linked? then synced.repos else repos;
          match Update(t, user, id, PROJECT, (u, links), ApplyProjectUpdate)
          case Err(e) => Err(e)
          case Ok((t2, p)) => Ok((t2, repos2, p))
  }

  /** delete_project: the row goes, the other rows stay; the repositories
      it linked are not touched. */
  function DeleteProject(t: seq<Project>, user: User, id: Id): (r: Result<(seq<Project>, string)>)
    ensures r.Err? <==> Guard(t, user, id, PROJECT).Err?
    ensures r.Err? ==> r.error == Guard(t, user, id, PROJECT).error
    ensures r.Ok? ==>
      r.value.1 == PROJECT + " deleted successfully"
      && Guard(r.value.0, user, id, PROJECT) == Err(NotFound(PROJECT))
      && forall other :: other != id ==> Find(r.value.0, other) == Find(t, other)
  {
    Delete(t, user, id, PROJECT)
  }

  // ------------------------------------------------------------ properties

  /** Updating with URLs only drops every earlier link: each link of the
      updated project is the repository one of the new URLs resolves to. */
  lemma UpdateWithUrlsReplacesLinks(t: seq<Project>, repos: seq<Repository>, user: User, id: Id,
                                    u: ProjectUpdate, now: Time)
    requires UpdateProject(t, repos, user, id, u, now).Ok?
    requires u.repositoryIds.None? && u.repositoryUrls.Some?
    ensures var (t2, repos2, p) := UpdateProject(t, repos, user, id, u, now).value;
      forall x :: x in p.fields.repositoryIds ==>
        exists url :: url in NormalizeUrls(u.repositoryUrls.value) && UrlRepoId(repos2, url) == Some(x)
  {
    LinkAllOnlyRequested(repos, user.id, LinksOf(u), now);
  }

  /** An update without ids or URLs keeps the links and the repository table. */
  lemma UpdateWithoutLinksKeepsLinks(t: seq<Project>, repos: seq<Repository>, user: User, id: Id,
                                     u: ProjectUpdate, now: Time)
    requires UpdateProject(t, repos, user, id, u, now).Ok?
    requires u.repositoryIds.None? && u.repositoryUrls.None?
    ensures var (t2, repos2, p) := UpdateProject(t, repos, user, id, u, now).value;
      p.fields.repositoryIds == Find(t, id).value.fields.repositoryIds && repos2 == repos
  {
  }

  /** A created project links every id asked for and every non-blank URL,
      and links nothing else. */
  lemma CreateProjectLinksRequest(t: seq<Project>, repos: seq<Repository>, user: User, f: ProjectFields,
                                  ids: seq<Id>, urls: Option<seq<string>>, now: Time)
    requires CreateProject(t, repos, user, f, ids, urls, now).Ok?
    ensures var (t2, repos2, p) := CreateProject(t, repos, user, f, ids, urls, now).value;
      (forall x :: x in ids ==> x in p.fields.repositoryIds)
      && (urls.Some? ==> forall k :: 0 <= k < |urls.value| && NormalizeUrl(urls.value[k]) != "" ==>
            UrlRepoId(repos2, NormalizeUrl(urls.value[k])).Some?
            && UrlRepoId(repos2, NormalizeUrl(urls.value[k])).value in p.fields.repositoryIds)
      && (forall x :: x in p.fields.repositoryIds ==> Find(repos2, x).Some?)
  {
    var req := LinkRequest(Some(ids), urls);
    assert forall k :: 0 <= k < |ids| ==> Find(repos, ids[k]).Some?;
    LinkAllKeepsIds(repos, user.id, req, now);
    if urls.Some? {
      LinkAllResolvesUrls(repos, user.id, req, now);
    }
    LinkAllLinksExist(repos, user.id, req, now);
  }

  /** URLs that all name an existing repository create no repository. */
  lemma ExistingUrlsCreateNoRepository(repos: seq<Repository>, ownerId: Id, req: LinkRequest, now: Time)
    requires req.urls.Some?
    requires forall k :: 0 <= k < |req.urls.value| && NormalizeUrl(req.urls.value[k]) != "" ==>
      FindByUrl(repos, NormalizeUrl(req.urls.value[k])).Some?
    ensures LinkAll(repos, ownerId, req, now).0 == repos
  {
    var urls := NormalizeUrls(req.urls.value);
    var links: seq<Id> := if req.ids.Some? then IdLinks(repos, req.ids.value) else [];
    forall j | 0 <= j < |urls| ensures FindByUrl(repos, urls[j]).Some? {
      assert urls[j] in urls;
      var k :| 0 <= k < |req.urls.value| && NormalizeUrl(req.urls.value[k]) == urls[j];
    }
    LinkUrlsReuses(repos, ownerId, urls, links, now);
  }
}

=== FILE: prompt_routes.dfy ===
/** The /prompts routes: the owner-scoped table with the Prompt schema
    (name, content, optional tags) and its length bounds. */
module PromptRoutes {
  import opened Common
  import opened Models
  import opened OwnedStore

  datatype PromptFields = PromptFields(name: string, content: string, tags: Option<string>)

  type Prompt = Row<PromptFields>

  const PROMPT := "Prompt"

  /** PromptBase: name 1..255, content at most 9999, tags at most 255. */
  predicate ValidPromptFields(f: PromptFields) {
    1 <= |f.name| <= 255 && |f.content| <= 9999 && AtMost(f.tags, 255)
  }

  /** PromptUpdate: each field optional, with the same bounds. */
  datatype PromptUpdate = PromptUpdate(name: Patch<string>, content: Patch<string>, tags: Patch<Option<string>>)

  predicate ValidPromptUpdate(u: PromptUpdate) {
    (u.name.Set? ==> 1 <= |u.name.value| <= 255) && (u.content.Set? ==> |u.content.value| <= 9999)
    && (u.tags.Set? ==> AtMost(u.tags.value, 255))
  }

  function ApplyPromptUpdate(f: PromptFields, u: PromptUpdate): PromptFields {
    PromptFields(u.name.ApplyTo(f.name), u.content.ApplyTo(f.content), u.tags.ApplyTo(f.tags))
  }

  /** A valid update of a valid prompt is a valid prompt; untouched fields
      keep their values. */
  lemma PromptUpdateFields(f: PromptFields, u: PromptUpdate)
    ensures var r := ApplyPromptUpdate(f, u);
      (u.name.Keep? ==> r.name == f.name) && (u.name.Set? ==> r.name == u.name.value)
      && (u.content.Keep? ==> r.content == f.content) && (u.content.Set? ==> r.content == u.content.value)
      && (u.tags.Keep? ==> r.tags == f.tags) && (u.tags.Set? ==> r.tags == u.tags.value)
      && (ValidPromptFields(f) && ValidPromptUpdate(u) ==> ValidPromptFields(r))
  {
  }

  /** create_prompt: 422 for a body outside the schema, otherwise a new row
      owned by the caller. */
  function CreatePrompt(t: seq<Prompt>, user: User, f: PromptFields, now: Time)
    : (r: Result<(seq<Prompt>, Prompt)>)
    ensures r.Err? <==> !ValidPromptFields(f)
    ensures r.Err? ==> r.error == VALIDATION_FAILED
    ensures r.Ok? ==>
      r.value.1.ownerId == user.id && r.value.1.fields == f
      && |r.value.0| == |t| + 1 && r.value.0[..|t|] == t
      && Guard(r.value.0, user, r.value.1.id, PROMPT) == Ok(r.value.1)
  {
    if !ValidPromptFields(f) then Err(VALIDATION_FAILED)
    else Ok(Create(t, user, f, now))
  }

  /** update_prompt: 422, then 404, then 400; otherwise only the supplied
      fields of that one row change. */
  function UpdatePrompt(t: seq<Prompt>, user: User, id: Id, u: PromptUpdate)
    : (r: Result<(seq<Prompt>, Prompt)>)
    ensures !ValidPromptUpdate(u) ==> r == Err(VALIDATION_FAILED)
    ensures ValidPromptUpdate(u) ==>
      (r.Err? <==> Guard(t, user, id, PROMPT).Err?)
      && (r.Err? ==> r.error == Guard(t, user, id, PROMPT).error)
    ensures r.Ok? ==>
      var before := Find(t, id).value;
      r.value.1 == before.(fields := ApplyPromptUpdate(before.fields, u))
      && Find(r.value.0, id) == Some(r.value.1)
      && forall other :: other != id ==> Find(r.value.0, other) == Find(t, other)
  {
    if !ValidPromptUpdate(u) then Err(VALIDATION_FAILED)
    else Update(t, user, id, PROMPT, u, ApplyPromptUpdate)
  }
}

=== FILE: registration_key.dfy ===
/** The node registration key: a single-row table (the row's id is always 1)
    holding the secret worker nodes present when they register. Startup
    makes sure the row exists without ever overwriting it; rotation replaces
    the key. The start-up check and the crud helper name this table and its
    setting differently (a register key and a node registration key); both
    are this one table. The random token and the clock are parameters. */
module RegistrationKey {
  import opened Common

  datatype KeyRow = KeyRow(id: nat, key: string, createdAt: Time, updatedAt: Time)

  /** The table, by primary key. */
  type KeyTable = map<nat, KeyRow>

  const KEY_ROW_ID: nat := 1

  /** Only row 1 exists, and it carries its own key. */
  predicate SingleRow(t: KeyTable) {
    forall k :: k in t ==> k == KEY_ROW_ID && t[k].id == KEY_ROW_ID
  }

  /** The key a fresh row gets: the configured one when it is set and not
      empty, else the random token. */
  function InitialKey(configured: Option<string>, token: string): (r: string)
    ensures Truthy(configured) ==> r == configured.value
    ensures !Truthy(configured) ==> r == token
  {
    if Truthy(configured) then configured.value else token
  }

  /** ensure_register_key and _ensure_registration_key: a failing lookup
      (table not migrated yet) writes nothing and yields nothing; a missing
      row 1 is created with InitialKey; an existing row is returned as it is,
      whatever the configuration says. */
  function EnsureKey(t: KeyTable, lookupFails: bool, configured: Option<string>, token: string, now: Time)
    : (r: (KeyTable, Option<KeyRow>))
    ensures lookupFails ==> r == (t, None)
    ensures !lookupFails && KEY_ROW_ID in t ==> r == (t, Some(t[KEY_ROW_ID]))
    ensures !lookupFails && KEY_ROW_ID !in t ==>
      (r.1 == Some(KeyRow(KEY_ROW_ID, InitialKey(configured, token), now, now))
       && r.0 == t[KEY_ROW_ID := r.1.value])
    ensures SingleRow(t) ==> SingleRow(r.0)
    ensures !lookupFails ==> KEY_ROW_ID in r.0 && r.1 == Some(r.0[KEY_ROW_ID])
  {
    if lookupFails then (t, None)
    else if KEY_ROW_ID in t then (t, Some(t[KEY_ROW_ID]))
    else
      var row := KeyRow(KEY_ROW_ID, InitialKey(configured, token), now, now);
      (t[KEY_ROW_ID := row], Some(row))
  }

  /** After an ensure that reached the table, a second one changes nothing
      and returns the same row, whatever key is configured the second time
      and whatever token it draws. */
  lemma EnsureKeyIdempotent(t: KeyTable, configured: Option<string>, token: string, now: Time,
                            configured2: Option<string>, token2: string, now2: Time)
    ensures var (t1, row1) := EnsureKey(t, false, configured, token, now);
      EnsureKey(t1, false, configured2, token2, now2) == (t1, row1)
  {
    var (t1, row1) := EnsureKey(t, false, configured, token, now);
    assert KEY_ROW_ID in t1;
  }

  /** NodeRegistrationKey.rotate: a new key and a fresh updated_at; the id
      and created_at stay. */
  function Rotate(row: KeyRow, token: string, now: Time): (r: KeyRow)
    ensures r.id == row.id && r.createdAt == row.createdAt
    ensures r.key == token && r.updatedAt == now
  {
    row.(key := token, updatedAt := now)
  }

  /** Rotating the stored row keeps the table single-row; the key read
      afterwards, by the next ensure as by anyone, is the rotated one, and
      it differs from the old key whenever the token does. */
  lemma RotateThenRead(t: KeyTable, token: string, now: Time, configured: Option<string>, token2: string, now2: Time)
    requires SingleRow(t) && KEY_ROW_ID in t
    ensures var t2 := t[KEY_ROW_ID := Rotate(t[KEY_ROW_ID], token, now)];
      SingleRow(t2)
      && EnsureKey(t2, false, configured, token2, now2).1 == Some(Rotate(t[KEY_ROW_ID], token, now))
      && (token != t[KEY_ROW_ID].key ==> EnsureKey(t2, false, configured, token2, now2).1.value.key != t[KEY_ROW_ID].key)
  {
  }
}

=== FILE: repository_routes.dfy ===
/** The /repositories routes: the owner-scoped table with the Repository
    schema (name, url, optional description) and its length bounds. */
module RepositoryRoutes {
  import opened Common
  import opened Models
  import opened OwnedStore

  datatype RepositoryFields = RepositoryFields(name: string, url: string, description: Option<string>)

  type Repository = Row<RepositoryFields>

  const REPOSITORY := "Repository"

  /** RepositoryBase: name 1..255, url 1..1023, description at most 500. */
  predicate ValidRepositoryFields(f: RepositoryFields) {
    1 <= |f.name| <= 255 && 1 <= |f.url| <= 1023 && AtMost(f.description, 500)
  }

  /** RepositoryUpdate: each field optional; only upper bounds are declared. */
  datatype RepositoryUpdate = RepositoryUpdate(
    name: Patch<string>, url: Patch<string>, description: Patch<Option<string>>)

  predicate ValidRepositoryUpdate(u: RepositoryUpdate) {
    (u.name.Set? ==> |u.name.value| <= 255) && (u.url.Set? ==> |u.url.value| <= 1023)
    && (u.description.Set? ==> AtMost(u.description.value, 500))
  }

  function ApplyRepositoryUpdate(f: RepositoryFields, u: RepositoryUpdate): RepositoryFields {
    RepositoryFields(u.name.ApplyTo(f.name), u.url.ApplyTo(f.url), u.description.ApplyTo(f.description))
  }

  /** A field the request leaves out keeps its value, a supplied one takes the
      new value, and applying the same request twice is applying it once. */
  lemma RepositoryUpdateFields(f: RepositoryFields, u: RepositoryUpdate)
    ensures var r := ApplyRepositoryUpdate(f, u);
      (u.name.Keep? ==> r.name == f.name) && (u.name.Set? ==> r.name == u.name.value)
      && (u.url.Keep? ==> r.url == f.url) && (u.url.Set? ==> r.url == u.url.value)
      && (u.description.Keep? ==> r.description == f.description)
      && (u.description.Set? ==> r.description == u.description.value)
      && ApplyRepositoryUpdate(r, u) == r
    ensures u == RepositoryUpdate(Keep, Keep, Keep) ==> ApplyRepositoryUpdate(f, u) == f
  {
  }

  /** create_repository: a body outside the schema is refused with 422;
      otherwise a new row owned by the caller. */
  function CreateRepository(t: seq<Repository>, user: User, f: RepositoryFields, now: Time)
    : (r: Result<(seq<Repository>, Repository)>)
    ensures r.Err? <==> !ValidRepositoryFields(f)
    ensures r.Err? ==> r.error == VALIDATION_FAILED
    ensures r.Ok? ==>
      r.value.1.ownerId == user.id && r.value.1.fields == f
      && |r.value.0| == |t| + 1 && r.value.0[..|t|] == t
      && Guard(r.value.0, user, r.value.1.id, REPOSITORY) == Ok(r.value.1)
  {
    if !ValidRepositoryFields(f) then Err(VALIDATION_FAILED)
    else Ok(Create(t, user, f, now))
  }

  /** update_repository: 422 for a body outside the schema, then 404, then
      400; otherwise only the supplied fields of that one row change. */
  function UpdateRepository(t: seq<Repository>, user: User, id: Id, u: RepositoryUpdate)
    : (r: Result<(seq<Repository>, Repository)>)
    ensures !ValidRepositoryUpdate(u) ==> r == Err(VALIDATION_FAILED)
    ensures ValidRepositoryUpdate(u) ==>
      (r.Err? <==> Guard(t, user, id, REPOSITORY).Err?)
      && (r.Err? ==> r.error == Guard(t, user, id, REPOSITORY).error)
    ensures r.Ok? ==>
      var before := Find(t, id).value;
      r.value.1 == before.(fields := ApplyRepositoryUpdate(before.fields, u))
      && Find(r.value.0, id) == Some(r.value.1)
      && forall other :: other != id ==> Find(r.value.0, other) == Find(t, other)
  {
    if !ValidRepositoryUpdate(u) then Err(VALIDATION_FAILED)
    else Update(t, user, id, REPOSITORY, u, ApplyRepositoryUpdate)
  }

  /** Bounds survive an accepted update. */
  lemma UpdateRepositoryKeepsBounds(t: seq<Repository>, user: User, id: Id, u: RepositoryUpdate)
    requires UpdateRepository(t, user, id, u).Ok?
    requires ValidRepositoryFields(Find(t, id).value.fields)
    requires u.name.Set? ==> |u.name.value| >= 1
    requires u.url.Set? ==> |u.url.value| >= 1
    ensures ValidRepositoryFields(UpdateRepository(t, user, id, u).value.1.fields)
  {
  }
}

=== FILE: scheduler.dfy ===
/** The background scheduler: its start/stop bookkeeping and one pass of each
    periodic job (GitHub import, distribution plus batch processing, and the
    selection of old workspaces to clean up). Sleeping between passes is not
    modelled: a pass is a function of the tables and the clock. */
module Scheduler {
  import opened Common
  import opened Seqs
  import opened Models
  import opened NodeSelection
  import Workflow
  import GitHubSync

  datatype Job = GitHubSyncLoop | AutoProcessLoop | CleanupLoop

  datatype SchedulerState = SchedulerState(running: bool, tasks: seq<Job>)

  const Initial := SchedulerState(false, [])

  // Periods and limits of the loops, in seconds and rows.
  const SYNC_INTERVAL := 1 * 3600
  const AUTO_PROCESS_INTERVAL := 30 * 60
  const CLEANUP_INTERVAL := 24 * 3600
  const MAX_PER_NODE := 5
  const MAX_PER_BATCH := 10
  const MAX_AGE_DAYS := 7

  /** start: marks the scheduler running and adds one task per enabled loop,
      after the tasks it already had. */
  function Start(s: SchedulerState, syncRepos: seq<GitHubSync.RepoEntry>, syncOwner: Option<Id>,
                 enableAutoProcess: bool, enableCleanup: bool): (r: SchedulerState)
    ensures r.running && |r.tasks| >= |s.tasks|
    ensures r.tasks[..|s.tasks|] == s.tasks
    ensures GitHubSyncLoop in r.tasks[|s.tasks|..] <==> syncRepos != [] && syncOwner.Some?
    ensures AutoProcessLoop in r.tasks[|s.tasks|..] <==> enableAutoProcess
    ensures CleanupLoop in r.tasks[|s.tasks|..] <==> enableCleanup
    ensures |r.tasks| - |s.tasks| <= 3
  {
    var sync := if syncRepos != [] && syncOwner.Some? then [GitHubSyncLoop] else [];
    var auto := if enableAutoProcess then [AutoProcessLoop] else [];
    var clean := if enableCleanup then [CleanupLoop] else [];
    var added := sync + auto + clean;
    var r := SchedulerState(true, s.tasks + added);
    assert r.tasks[|s.tasks|..] == added;
    r
  }

  /** stop: not running, every task cancelled. */
  function Stop(s: SchedulerState): (r: SchedulerState)
    ensures !r.running && r.tasks == []
  {
    SchedulerState(false, [])
  }

  /** Stopping forgets everything a start added: start then stop is stop. */
  lemma StartThenStop(s: SchedulerState, syncRepos: seq<GitHubSync.RepoEntry>, syncOwner: Option<Id>,
                      a: bool, c: bool)
    ensures Stop(Start(s, syncRepos, syncOwner, a, c)) == Stop(s) == Initial
  {
  }

  // ------------------------------------------------------- GitHub import

  /** One pass of the import loop: sync_multiple_repos on a fresh session.
      The table is what the session committed; the totals are logged, or, when
      an entry lacks "owner" or "name", the KeyError is logged instead (None). */
  function GitHubSyncPass(t: seq<Issue>, ownerId: Id, repos: seq<GitHubSync.RepoEntry>,
                          listing: GitHubSync.RepoEntry -> GitHubSync.Listing, now: Time)
    : (r: (seq<Issue>, Option<GitHubSync.TotalStats>))
    ensures r.1.None? <==> exists k :: 0 <= k < |repos| && GitHubSync.KeyCheck(repos[k]).Some?
    ensures r.1.Some? ==>
      r.1.value.repos == |repos| && |r.1.value.details| == |repos|
      && GitHubSync.Balanced(r.1.value) && r.1.value.updated == 0
    ensures GitHubSync.Extends(t, r.0, ownerId)
  {
    var run := GitHubSync.SyncMultipleRepos(t, ownerId, repos, listing, now);
    (run.session.committed, if run.BatchDone? then Some(run.stats) else None)
  }

  // -------------------------------------------------------- auto process

  /** Assigned but not started: what the batch query selects. */
  predicate ReadyToProcess(i: Issue) {
    i.status == PENDING && i.assignedNodeId.Some?
  }

  /** WHERE status = 'pending' AND assigned_node_id IS NOT NULL LIMIT n, in
      table order (the query has no ORDER BY). */
  function Batch(t: seq<Issue>, n: nat): (r: seq<Issue>)
    ensures |r| <= n
    ensures forall k :: 0 <= k < |r| ==> ReadyToProcess(r[k]) && r[k] in t
    ensures CountWhere(t, ReadyToProcess) <= n ==> r == Filter(t, ReadyToProcess)
    ensures CountWhere(t, ReadyToProcess) >= n ==> |r| == n
  {
    var f := Filter(t, ReadyToProcess);
    if |f| <= n then f
    else
      assert forall k :: 0 <= k < n ==> f[..n][k] == f[k] && f[k] in f;
      f[..n]
  }

  lemma {:induction false} FilterKeepsUniqueIds(t: seq<Issue>, p: Issue -> bool)
    requires UniqueIssueIds(t)
    ensures UniqueIssueIds(Filter(t, p))
  {
    if t != [] {
      FilterKeepsUniqueIds(t[1..], p);
      var rest := Filter(t[1..], p);
      forall k | 0 <= k < |rest| ensures rest[k].id != t[0].id {
        assert rest[k] in t[1..];
        var j :| 0 <= j < |t[1..]| && t[1..][j] == rest[k];
        assert t[j + 1] == rest[k];
      }
    }
  }

  lemma BatchHasUniqueIds(t: seq<Issue>, n: nat)
    requires UniqueIssueIds(t)
    ensures UniqueIssueIds(Batch(t, n))
  {
    FilterKeepsUniqueIds(t, ReadyToProcess);
  }

  predicate Settled(i: Issue) {
    i.status == COMPLETED || i.status == FAILED
  }

  lemma FindIssueReplaceOther(t: seq<Issue>, i: Issue, id: Id)
    requires i.id != id
    ensures FindIssue(ReplaceIssue(t, i), id) == FindIssue(t, id)
  {
    if t != [] {
      FindIssueReplaceOther(t[1..], i, id);
      assert ReplaceIssue(t, i)[1..] == ReplaceIssue(t[1..], i);
    }
  }

  lemma {:induction false} FoundWhenPresent(t: seq<Issue>, i: Issue)
    requires i in t
    ensures FindIssue(t, i.id).Some?
  {
    if t[0] != i {
      assert i in t[1..];
      FoundWhenPresent(t[1..], i);
    }
  }

  /** auto_process_workflow for one batch issue on its assigned node. A
      workflow that cannot start (issue or node gone) is logged and leaves the
      table as it was; otherwise only that issue's row changes, and it ends
      completed or failed. The push that follows a completed run leaves the
      table alone, so the table is the one process_issue leaves. */
  function BatchStep(t: seq<Issue>, nodes: seq<Node>, b: Issue, now: Time,
                     exec: Workflow.CommandRequest -> Workflow.Reply): (r: seq<Issue>)
    requires b.assignedNodeId.Some?
    ensures |r| == |t| && forall k :: 0 <= k < |t| ==> r[k].id == t[k].id
    ensures forall id :: id != b.id ==> FindIssue(r, id) == FindIssue(t, id)
    ensures FindIssue(t, b.id).Some? && FindNode(nodes, b.assignedNodeId.value).Some?
      ==> FindIssue(r, b.id).Some? && Settled(FindIssue(r, b.id).value)
    ensures FindIssue(t, b.id).None? ==> r == t
  {
    var p := Workflow.ProcessIssue(Workflow.AsWritten, t, nodes, b.id, b.assignedNodeId.value, now, now, exec);
    if p.Processed? then
      BatchStepProcessed(t, nodes, b, now, exec);
      p.issues
    else
      t
  }

  /** The table a processed batch issue leaves: only its row changed, and
      that row is settled. */
  lemma BatchStepProcessed(t: seq<Issue>, nodes: seq<Node>, b: Issue, now: Time,
                           exec: Workflow.CommandRequest -> Workflow.Reply)
    requires b.assignedNodeId.Some?
    requires Workflow.ProcessIssue(Workflow.AsWritten, t, nodes, b.id, b.assignedNodeId.value, now, now, exec).Processed?
    ensures var r := Workflow.ProcessIssue(Workflow.AsWritten, t, nodes, b.id, b.assignedNodeId.value, now, now, exec).issues;
      |r| == |t| && (forall k :: 0 <= k < |t| ==> r[k].id == t[k].id)
      && (forall id :: id != b.id ==> FindIssue(r, id) == FindIssue(t, id))
      && FindIssue(r, b.id).Some? && Settled(FindIssue(r, b.id).value)
  {
    var p := Workflow.ProcessIssue(Workflow.AsWritten, t, nodes, b.id, b.assignedNodeId.value, now, now, exec);
    var i := FindIssue(t, b.id).value;
    var f := Workflow.Settle(Workflow.Claim(i, b.assignedNodeId.value, now), p.trace, Workflow.BranchName(i), now);
    assert p.issues == ReplaceIssue(t, f);
    assert f.id == b.id && Settled(f);
    ReplaceSettled(t, f);
  }

  /** Replacing an existing row by a settled one changes only that row. */
  lemma ReplaceSettled(t: seq<Issue>, f: Issue)
    requires FindIssue(t, f.id).Some? && Settled(f)
    ensures var r := ReplaceIssue(t, f);
      |r| == |t| && (forall k :: 0 <= k < |t| ==> r[k].id == t[k].id)
      && (forall id :: id != f.id ==> FindIssue(r, id) == FindIssue(t, id))
      && FindIssue(r, f.id) == Some(f)
  {
    FindAfterReplaceIssue(t, f);
    forall id | id != f.id ensures FindIssue(ReplaceIssue(t, f), id) == FindIssue(t, id) {
      FindIssueReplaceOther(t, f, id);
    }
  }

  /** The batch loop: the workflow for each selected issue in turn, each on
      the table the previous one left. */
  function RunBatch(t: seq<Issue>, nodes: seq<Node>, batch: seq<Issue>, now: Time,
                    exec: Workflow.CommandRequest -> Workflow.Reply): (r: seq<Issue>)
    requires forall k :: 0 <= k < |batch| ==> batch[k].assignedNodeId.Some?
    ensures |r| == |t| && forall k :: 0 <= k < |t| ==> r[k].id == t[k].id
    decreases |batch|
  {
    if batch == [] then t
    else RunBatch(BatchStep(t, nodes, batch[0], now, exec), nodes, batch[1..], now, exec)
  }

  /** An issue the batch does not name keeps its row. */
  lemma {:induction false} RunBatchKeepsOthers(t: seq<Issue>, nodes: seq<Node>, batch: seq<Issue>, now: Time,
                                               exec: Workflow.CommandRequest -> Workflow.Reply, id: Id)
    requires forall k :: 0 <= k < |batch| ==> batch[k].assignedNodeId.Some? && batch[k].id != id
    ensures FindIssue(RunBatch(t, nodes, batch, now, exec), id) == FindIssue(t, id)
    decreases |batch|
  {
    if batch != [] {
      RunBatchKeepsOthers(BatchStep(t, nodes, batch[0], now, exec), nodes, batch[1..], now, exec, id);
    }
  }

  /** Every batch issue whose row exists and whose node exists ends the pass
      completed or failed: none is left pending or processing. */
  lemma {:induction false} RunBatchSettles(t: seq<Issue>, nodes: seq<Node>, batch: seq<Issue>, now: Time,
                                           exec: Workflow.CommandRequest -> Workflow.Reply, j: nat)
    requires forall k :: 0 <= k < |batch| ==> batch[k].assignedNodeId.Some?
    requires UniqueIssueIds(batch)
    requires j < |batch| && FindIssue(t, batch[j].id).Some?
    requires FindNode(nodes, batch[j].assignedNodeId.value).Some?
    ensures var r := FindIssue(RunBatch(t, nodes, batch, now, exec), batch[j].id);
      r.Some? && Settled(r.value)
    decreases |batch|
  {
    var t2 := BatchStep(t, nodes, batch[0], now, exec);
    var rest := batch[1..];
    UniqueTail(batch);
    if j == 0 {
      assert FindIssue(t2, batch[0].id).Some? && Settled(FindIssue(t2, batch[0].id).value);
      RunBatchKeepsOthers(t2, nodes, rest, now, exec, batch[0].id);
    } else {
      assert rest[j - 1] == batch[j];
      assert FindIssue(t2, batch[j].id) == FindIssue(t, batch[j].id);
      RunBatchSettles(t2, nodes, rest, now, exec, j - 1);
    }
  }

  /** The rest of a batch without repeated ids has none either, and none of
      its ids is the first one's. */
  lemma UniqueTail(batch: seq<Issue>)
    requires batch != [] && UniqueIssueIds(batch)
    ensures UniqueIssueIds(batch[1..])
    ensures forall k :: 0 <= k < |batch[1..]| ==> batch[1..][k].id != batch[0].id && batch[1..][k] == batch[k + 1]
  {
  }

  datatype PassResult = PassResult(distribution: DistributionStats, batch: seq<Id>, issues: seq<Issue>)

  /** One pass of the auto-process loop: distribute the pending issues with
      distribute_issues_to_nodes as written (MAX_PER_NODE is checked once,
      against the best node's load before the pass), then run the workflow for
      up to MAX_PER_BATCH assigned pending issues. */
  function AutoProcessPass(issues: seq<Issue>, nodes: seq<Node>, now: Time,
                           exec: Workflow.CommandRequest -> Workflow.Reply): (r: PassResult)
    requires UniqueIssueIds(issues)
    ensures |r.batch| <= MAX_PER_BATCH && |r.issues| == |issues|
    ensures r.distribution.numAssigned + r.distribution.numSkipped + r.distribution.numNoAvailableNodes
      == CountWhere(issues, IsPending)
    ensures forall k :: 0 <= k < |issues| ==> r.issues[k].id == issues[k].id
  {
    var d := DistributeIssues(nodes, issues, now, MAX_PER_NODE);
    var batch := Batch(d.0, MAX_PER_BATCH);
    DistributionKeepsIds(issues, nodes, now);
    PassResult(d.1, BatchIds(batch), RunBatch(d.0, nodes, batch, now, exec))
  }

  /** The ids of the batch, in batch order. */
  function BatchIds(batch: seq<Issue>): (r: seq<Id>)
    ensures |r| == |batch| && forall k :: 0 <= k < |batch| ==> r[k] == batch[k].id
  {
    seq(|batch|, k requires 0 <= k < |batch| => batch[k].id)
  }

  /** Distribution keeps every row where it was, with its id. */
  lemma DistributionKeepsIds(issues: seq<Issue>, nodes: seq<Node>, now: Time)
    requires UniqueIssueIds(issues)
    ensures var d := DistributeIssues(nodes, issues, now, MAX_PER_NODE);
      |d.0| == |issues| && (forall k :: 0 <= k < |issues| ==> d.0[k].id == issues[k].id)
      && UniqueIssueIds(d.0)
  {
    var d := DistributeIssues(nodes, issues, now, MAX_PER_NODE);
    forall k | 0 <= k < |issues| ensures d.0[k].id == issues[k].id {
    }
  }

  /** After a pass, every batch issue whose node exists is completed or failed. */
  lemma AutoProcessPassSettlesBatch(issues: seq<Issue>, nodes: seq<Node>, now: Time,
                                    exec: Workflow.CommandRequest -> Workflow.Reply, j: nat)
    requires UniqueIssueIds(issues)
    requires j < |AutoProcessPass(issues, nodes, now, exec).batch|
    ensures
      var d := DistributeIssues(nodes, issues, now, MAX_PER_NODE);
      var b := Batch(d.0, MAX_PER_BATCH)[j];
      var r := AutoProcessPass(issues, nodes, now, exec);
      r.batch[j] == b.id
      && (FindNode(nodes, b.assignedNodeId.value).Some?
          ==> FindIssue(r.issues, b.id).Some? && Settled(FindIssue(r.issues, b.id).value))
  {
    var d := DistributeIssues(nodes, issues, now, MAX_PER_NODE);
    DistributionKeepsIds(issues, nodes, now);
    BatchSettles(d.0, nodes, now, exec, j);
  }

  /** The batch loop settles every batch issue whose node exists. */
  lemma BatchSettles(t: seq<Issue>, nodes: seq<Node>, now: Time,
                     exec: Workflow.CommandRequest -> Workflow.Reply, j: nat)
    requires UniqueIssueIds(t) && j < |Batch(t, MAX_PER_BATCH)|
    ensures var b := Batch(t, MAX_PER_BATCH)[j];
      var r := RunBatch(t, nodes, Batch(t, MAX_PER_BATCH), now, exec);
      FindNode(nodes, b.assignedNodeId.value).Some? ==> FindIssue(r, b.id).Some? && Settled(FindIssue(r, b.id).value)
  {
    var batch := Batch(t, MAX_PER_BATCH);
    var b := batch[j];
    BatchHasUniqueIds(t, MAX_PER_BATCH);
    FoundWhenPresent(t, b);
    if FindNode(nodes, b.assignedNodeId.value).Some? {
      RunBatchSettles(t, nodes, batch, now, exec, j);
    }
  }

  // ------------------------------------------------------------- cleanup

  /** The issues whose workspace the cleanup loop reports: finished more than
      MAX_AGE_DAYS ago (a missing completion time never qualifies) and
      assigned to a node. */
  predicate CleanupDue(i: Issue, now: Time) {
    (i.status == COMPLETED || i.status == FAILED)
    && i.completedAt.Some? && i.completedAt.value < now - MAX_AGE_DAYS * 86400
    && i.assignedNodeId.Some?
  }

  function CleanupCandidates(t: seq<Issue>, now: Time): (r: seq<Id>)
    ensures |r| <= |t|
    ensures forall id :: id in r <==> exists i :: i in t && i.id == id && CleanupDue(i, now)
  {
    if t == [] then []
    else
      var rest := CleanupCandidates(t[1..], now);
      assert forall i :: i in t <==> i == t[0] || i in t[1..];
      (if CleanupDue(t[0], now) then [t[0].id] else []) + rest
  }

  /** Reporting a workspace never changes the table, so a later pass reports
      at least the same issues. */
  lemma CleanupMonotone(t: seq<Issue>, now: Time, later: Time)
    requires now <= later
    ensures forall id :: id in CleanupCandidates(t, now) ==> id in CleanupCandidates(t, later)
  {
  }
  /** With unique ids, an issue's own id finds its row. */
  lemma {:induction false} FindIssueAt(t: seq<Issue>, k: nat)
    requires UniqueIssueIds(t) && k < |t|
    ensures FindIssue(t, t[k].id) == Some(t[k])
  {
    if k > 0 {
      assert t[0].id != t[k].id;
      assert UniqueIssueIds(t[1..]) by {
        forall a, b | 0 <= a < b < |t[1..]| ensures t[1..][a].id != t[1..][b].id {
          assert t[1..][a] == t[a + 1] && t[1..][b] == t[b + 1];
        }
      }
      assert t[1..][k - 1] == t[k];
      FindIssueAt(t[1..], k - 1);
    }
  }

  /** The auto-process pass leaves a workspace the cleanup loop reports
      alone: the settled issue keeps its row, status, completion time and
      node, so every later cleanup pass still reports it. */
  lemma CleanupSurvivesAutoProcess(issues: seq<Issue>, nodes: seq<Node>, now: Time,
                                   exec: Workflow.CommandRequest -> Workflow.Reply, k: nat, later: Time)
    requires UniqueIssueIds(issues) && k < |issues| && CleanupDue(issues[k], now) && now <= later
    ensures var after := AutoProcessPass(issues, nodes, now, exec).issues;
      FindIssue(after, issues[k].id) == Some(issues[k])
      && issues[k].id in CleanupCandidates(after, later)
  {
    var id := issues[k].id;
    var d := DistributeIssues(nodes, issues, now, MAX_PER_NODE);
    DistributionKeepsIds(issues, nodes, now);
    assert d.0[k] == issues[k];
    var batch := Batch(d.0, MAX_PER_BATCH);
    forall j | 0 <= j < |batch| ensures batch[j].assignedNodeId.Some? && batch[j].id != id {
      var m :| 0 <= m < |d.0| && d.0[m] == batch[j];
      assert m != k;
    }
    RunBatchKeepsOthers(d.0, nodes, batch, now, exec, id);
    FindIssueAt(d.0, k);
    var after := AutoProcessPass(issues, nodes, now, exec).issues;
    assert after == RunBatch(d.0, nodes, batch, now, exec);
    assert issues[k] in after;
  }
}

=== FILE: seeding.dfy ===
/** Start-up seeding of the database: the first superuser, the node register
    key, and a demo project linked to the canonical repositories. Every step
    looks before it writes, so seeding twice leaves the database as seeding
    once did. The password hasher, the random token and the clock are
    parameters. */
module Seeding {
  import opened Common
  import opened OwnedStore
  import opened RepositoryRoutes
  import opened Projects
  import opened RegistrationKey
  import opened Crud

  const DEMO_PROJECT_NAME := "AI Software Engineer"
  const DEMO_PROJECT_DESCRIPTION := "Preloaded demo project with canonical AI Software Engineer repositories."

  /** One entry of the canonical repository list. */
  datatype RepoMeta = RepoMeta(name: string, url: string)

  const DEMO_REPOSITORIES: seq<RepoMeta> := [
    RepoMeta("ai-software-engineer", "https://github.com/liukunup-ai/ai-software-engineer"),
    RepoMeta("ai-software-engineer-team", "https://github.com/liukunup-ai/ai-software-engineer-team")
  ]

  // ------------------------------------------------- ensure_demo_repositories

  /** The URL resolves to a repository, and the project links it. */
  predicate Linked(repos: seq<Repository>, links: seq<Id>, url: string) {
    FindByUrl(repos, url).Some? && FindByUrl(repos, url).value.id in links
  }

  /** One entry of the loop: the first repository with the URL (whoever owns
      it), or a new one with the entry's name owned by ownerId; then the link,
      unless the project has it. The flag says whether anything was added. */
  function EnsureDemoRepo(repos: seq<Repository>, links: seq<Id>, ownerId: Id, meta: RepoMeta, now: Time)
    : (r: (seq<Repository>, seq<Id>, bool))
    ensures |r.0| >= |repos| && r.0[..|repos|] == repos
    ensures |r.1| >= |links| && r.1[..|links|] == links
    ensures Linked(r.0, r.1, meta.url)
    ensures Distinct(links) ==> Distinct(r.1)
    ensures !r.2 <==> Linked(repos, links, meta.url)
    ensures !r.2 ==> r.0 == repos && r.1 == links
    ensures FindByUrl(repos, meta.url).Some? ==> r.0 == repos
    ensures FindByUrl(repos, meta.url).None? ==>
      (|r.0| == |repos| + 1 && r.0[|repos|].fields == RepositoryFields(meta.name, meta.url, None)
       && r.0[|repos|].ownerId == ownerId)
  {
    var (repos1, repo, created) :=
      (match FindByUrl(repos, meta.url)
      case Some(x) => (repos, x, false)
      case None =>
        var (t, x) := Create(repos, User(ownerId, false), RepositoryFields(meta.name, meta.url, None), now);
        FindByUrlAppendNew(repos, x);
        (t, x, true));
    assert FindByUrl(repos1, meta.url) == Some(repo);
    if repo.id in links then (repos1, links, created)
    else (repos1, links + [repo.id], true)
  }

  /** The whole loop over the entries; the flag is the commit decision. */
  function EnsureDemoRepos(repos: seq<Repository>, links: seq<Id>, ownerId: Id, metas: seq<RepoMeta>, now: Time)
    : (r: (seq<Repository>, seq<Id>, bool))
    ensures |r.0| >= |repos| && r.0[..|repos|] == repos
    ensures |r.1| >= |links| && r.1[..|links|] == links
    ensures Distinct(links) ==> Distinct(r.1)
    ensures !r.2 ==> r.0 == repos && r.1 == links
    decreases |metas|
  {
    if metas == [] then (repos, links, false)
    else
      var (repos1, links1, c1) := EnsureDemoRepo(repos, links, ownerId, metas[0], now);
      var (repos2, links2, c2) := EnsureDemoRepos(repos1, links1, ownerId, metas[1..], now);
      (repos2, links2, c1 || c2)
  }

  /** Later rows and later links do not undo a link. */
  lemma LinkedGrows(repos: seq<Repository>, links: seq<Id>, repos2: seq<Repository>, links2: seq<Id>, url: string)
    requires Linked(repos, links, url)
    requires |repos2| >= |repos| && repos2[..|repos|] == repos
    requires |links2| >= |links| && links2[..|links|] == links
    ensures Linked(repos2, links2, url) && FindByUrl(repos2, url) == FindByUrl(repos, url)
  {
    assert repos2 == repos + repos2[|repos|..];
    FindByUrlPrefix(repos, repos2[|repos|..], url);
    var id := FindByUrl(repos, url).value.id;
    var k :| 0 <= k < |links| && links[k] == id;
    assert links2[k] == id;
  }

  /** Afterwards every entry's URL resolves to a repository the project links. */
  lemma {:induction false} EnsureDemoReposLinksAll(repos: seq<Repository>, links: seq<Id>, ownerId: Id,
                                                   metas: seq<RepoMeta>, now: Time)
    ensures var r := EnsureDemoRepos(repos, links, ownerId, metas, now);
      forall k :: 0 <= k < |metas| ==> Linked(r.0, r.1, metas[k].url)
    decreases |metas|
  {
    if metas != [] {
      var (repos1, links1, c1) := EnsureDemoRepo(repos, links, ownerId, metas[0], now);
      var r := EnsureDemoRepos(repos1, links1, ownerId, metas[1..], now);
      assert EnsureDemoRepos(repos, links, ownerId, metas, now).0 == r.0;
      assert EnsureDemoRepos(repos, links, ownerId, metas, now).1 == r.1;
      EnsureDemoReposLinksAll(repos1, links1, ownerId, metas[1..], now);
      LinkedGrows(repos1, links1, r.0, r.1, metas[0].url);
      forall k | 1 <= k < |metas| ensures Linked(r.0, r.1, metas[k].url) {
        assert metas[k] == metas[1..][k - 1];
      }
    }
  }

  /** When every entry is already linked, the loop adds nothing and does not commit. */
  lemma {:induction false} EnsureDemoReposNoop(repos: seq<Repository>, links: seq<Id>, ownerId: Id,
                                               metas: seq<RepoMeta>, now: Time)
    requires forall k :: 0 <= k < |metas| ==> Linked(repos, links, metas[k].url)
    ensures EnsureDemoRepos(repos, links, ownerId, metas, now) == (repos, links, false)
    decreases |metas|
  {
    if metas != [] {
      assert Linked(repos, links, metas[0].url);
      assert forall k :: 0 <= k < |metas[1..]| ==> metas[1..][k] == metas[k + 1];
      EnsureDemoReposNoop(repos, links, ownerId, metas[1..], now);
    }
  }

  /** A second pass over the result finds everything in place. */
  lemma EnsureDemoReposIdempotent(repos: seq<Repository>, links: seq<Id>, ownerId: Id,
                                  metas: seq<RepoMeta>, now: Time, now2: Time)
    ensures var r := EnsureDemoRepos(repos, links, ownerId, metas, now);
      EnsureDemoRepos(r.0, r.1, ownerId, metas, now2) == (r.0, r.1, false)
  {
    var r := EnsureDemoRepos(repos, links, ownerId, metas, now);
    EnsureDemoReposLinksAll(repos, links, ownerId, metas, now);
    EnsureDemoReposNoop(r.0, r.1, ownerId, metas, now2);
  }

  /** A repository already registered under an entry's URL is the one linked
      for it; when all are registered, no repository is created. */
  lemma {:induction false} EnsureDemoReposReuses(repos: seq<Repository>, links: seq<Id>, ownerId: Id,
                                                 metas: seq<RepoMeta>, now: Time)
    requires forall k :: 0 <= k < |metas| ==> FindByUrl(repos, metas[k].url).Some?
    ensures EnsureDemoRepos(repos, links, ownerId, metas, now).0 == repos
    decreases |metas|
  {
    if metas != [] {
      var (repos1, links1, c1) := EnsureDemoRepo(repos, links, ownerId, metas[0], now);
      assert FindByUrl(repos, metas[0].url).Some?;
      assert forall k :: 0 <= k < |metas[1..]| ==> metas[1..][k] == metas[k + 1];
      EnsureDemoReposReuses(repos1, links1, ownerId, metas[1..], now);
    }
  }

  // ------------------------------------------------------ ensure_demo_project

  predicate IsDemoProject(p: Project, ownerId: Id) {
    p.ownerId == ownerId && p.fields.fields.name == DEMO_PROJECT_NAME
  }

  /** The first project of this owner with the demo name. */
  function FindDemoProject(t: seq<Project>, ownerId: Id): (r: Option<Project>)
    ensures r.Some? ==> r.value in t && IsDemoProject(r.value, ownerId)
    ensures r.None? <==> forall k :: 0 <= k < |t| ==> !IsDemoProject(t[k], ownerId)
  {
    if t == [] then None
    else if IsDemoProject(t[0], ownerId) then Some(t[0])
    else
      var r := FindDemoProject(t[1..], ownerId);
      assert r.None? ==> forall k :: 1 <= k < |t| ==> t[k] == t[1..][k - 1];
      r
  }

  lemma {:induction false} FindDemoAppended(t: seq<Project>, p: Project)
    requires FindDemoProject(t, p.ownerId).None? && IsDemoProject(p, p.ownerId)
    ensures FindDemoProject(t + [p], p.ownerId) == Some(p)
  {
    if t == [] {
      assert [p][0] == p;
    } else {
      assert (t + [p])[1..] == t[1..] + [p];
      FindDemoAppended(t[1..], p);
    }
  }

  /** Rewriting the found project's links keeps it the one found. */
  lemma {:induction false} FindDemoReplaced(t: seq<Project>, p: Project, p2: Project)
    requires FindDemoProject(t, p.ownerId) == Some(p)
    requires p2.id == p.id && IsDemoProject(p2, p.ownerId)
    ensures FindDemoProject(Replace(t, p2), p.ownerId) == Some(p2)
  {
    if t[0].id != p2.id && !IsDemoProject(t[0], p.ownerId) {
      assert Replace(t, p2)[1..] == Replace(t[1..], p2);
      FindDemoReplaced(t[1..], p, p2);
    }
  }

  /** The demo project this owner has, or a new one with no links yet. */
  function DemoProjectOf(projects: seq<Project>, owner: UserRecord, now: Time): (r: (seq<Project>, Project))
    ensures IsDemoProject(r.1, owner.id)
    ensures FindDemoProject(r.0, owner.id) == Some(r.1)
    ensures FindDemoProject(projects, owner.id).Some? ==> r.0 == projects
    ensures FindDemoProject(projects, owner.id).None? ==>
      (r.0 == projects + [r.1] && Find(projects, r.1.id).None?
       && r.1.fields == ProjectData(ProjectFields(DEMO_PROJECT_NAME, Some(DEMO_PROJECT_DESCRIPTION)), []))
  {
    match FindDemoProject(projects, owner.id)
    case Some(p) => (projects, p)
    case None =>
      var (t, p) := Create(projects, User(owner.id, owner.isSuperuser),
                           ProjectData(ProjectFields(DEMO_PROJECT_NAME, Some(DEMO_PROJECT_DESCRIPTION)), []), now);
      assert t == projects + [p];
      FindDemoAppended(projects, p);
      (t, p)
  }

  /** ensure_demo_project: nothing without an owner; otherwise the owner's
      demo project, found or created, gets its repository links. The project
      row is rewritten only when the repository loop added something. */
  function EnsureDemoProject(projects: seq<Project>, repos: seq<Repository>, owner: Option<UserRecord>, now: Time)
    : (r: (seq<Project>, seq<Repository>))
    ensures owner.None? ==> r == (projects, repos)
    ensures owner.Some? ==> FindDemoProject(r.0, owner.value.id).Some?
    ensures |r.1| >= |repos| && r.1[..|repos|] == repos
  {
    if owner.None? then (projects, repos)
    else
      var (projects1, p) := DemoProjectOf(projects, owner.value, now);
      var (repos2, links2, changed) := EnsureDemoRepos(repos, p.fields.repositoryIds, owner.value.id, DEMO_REPOSITORIES, now);
      if changed then
        var p2 := p.(fields := p.fields.(repositoryIds := links2));
        FindDemoReplaced(projects1, p, p2);
        (Replace(projects1, p2), repos2)
      else (projects1, repos2)
  }

  /** After ensure_demo_project the owner's demo project links a repository
      for every canonical URL. */
  lemma DemoProjectLinksAll(projects: seq<Project>, repos: seq<Repository>, owner: UserRecord, now: Time)
    ensures var r := EnsureDemoProject(projects, repos, Some(owner), now);
      var p := FindDemoProject(r.0, owner.id).value;
      forall k :: 0 <= k < |DEMO_REPOSITORIES| ==> Linked(r.1, p.fields.repositoryIds, DEMO_REPOSITORIES[k].url)
  {
    var (projects1, p) := DemoProjectOf(projects, owner, now);
    var (repos2, links2, changed) := EnsureDemoRepos(repos, p.fields.repositoryIds, owner.id, DEMO_REPOSITORIES, now);
    EnsureDemoReposLinksAll(repos, p.fields.repositoryIds, owner.id, DEMO_REPOSITORIES, now);
    var r := EnsureDemoProject(projects, repos, Some(owner), now);
    if changed {
      var p2 := p.(fields := p.fields.(repositoryIds := links2));
      FindDemoReplaced(projects1, p, p2);
      assert r == (Replace(projects1, p2), repos2);
    } else {
      assert r == (projects1, repos2);
    }
  }

  /** Running ensure_demo_project again, at any time, changes nothing. */
  lemma EnsureDemoProjectIdempotent(projects: seq<Project>, repos: seq<Repository>, owner: Option<UserRecord>,
                                    now: Time, now2: Time)
    ensures var r := EnsureDemoProject(projects, repos, owner, now);
      EnsureDemoProject(r.0, r.1, owner, now2) == r
  {
    if owner.Some? {
      var r := EnsureDemoProject(projects, repos, owner, now);
      DemoProjectLinksAll(projects, repos, owner.value, now);
      var p := FindDemoProject(r.0, owner.value.id).value;
      assert DemoProjectOf(r.0, owner.value, now2) == (r.0, p);
      EnsureDemoReposNoop(r.1, p.fields.repositoryIds, owner.value.id, DEMO_REPOSITORIES, now2);
    }
  }

  // ------------------------------------------------------------------ init_db

  /** The settings init_db reads. */
  datatype Settings = Settings(firstSuperuser: string, firstSuperuserPassword: string, registerKey: Option<string>)

  /** The tables seeding touches. */
  datatype Db = Db(users: seq<UserRecord>, keys: KeyTable, projects: seq<Project>, repos: seq<Repository>)

  /** The first superuser: the user with the configured e-mail, or a new
      superuser with that e-mail and the configured password. */
  function Superuser(users: seq<UserRecord>, s: Settings, hash: string -> string): (r: (seq<UserRecord>, UserRecord))
    ensures UserByEmail(r.0, s.firstSuperuser) == Some(r.1)
    ensures UserByEmail(users, s.firstSuperuser).Some? ==> r.0 == users
    ensures UserByEmail(users, s.firstSuperuser).None? ==>
      (r.0 == users + [r.1] && r.1.isSuperuser && r.1.hashedPassword == hash(s.firstSuperuserPassword))
  {
    match UserByEmail(users, s.firstSuperuser)
    case Some(u) => (users, u)
    case None =>
      var c := CreateUser(users, s.firstSuperuser, s.firstSuperuserPassword, true, hash);
      UserByEmailAppended(users, c.value.1);
      c.value
  }

  /** What init_db leaves behind: the database, and whether it raised. */
  datatype InitOutcome = InitOutcome(db: Db, raised: bool)

  /** init_db: the first superuser (committed by create_user), then the
      register key, then the demo project owned by that superuser.
      keyLookupFails stands for a key table that cannot be queried yet: the
      key helper swallows the error, but the failed statement has aborted the
      session's transaction, so the demo project's first query raises and
      init_db ends there with only the superuser stored. */
  function InitDb(db: Db, s: Settings, hash: string -> string, keyLookupFails: bool, token: string, now: Time)
    : (r: InitOutcome)
    ensures r.raised <==> keyLookupFails
    ensures UserByEmail(r.db.users, s.firstSuperuser).Some?
    ensures UserByEmail(db.users, s.firstSuperuser).Some? ==> r.db.users == db.users
    ensures r.db.keys == EnsureKey(db.keys, keyLookupFails, s.registerKey, token, now).0
    ensures keyLookupFails ==> r.db.keys == db.keys && r.db.projects == db.projects && r.db.repos == db.repos
    ensures !keyLookupFails ==> FindDemoProject(r.db.projects, UserByEmail(r.db.users, s.firstSuperuser).value.id).Some?
    ensures |r.db.repos| >= |db.repos| && r.db.repos[..|db.repos|] == db.repos
  {
    var (users, u) := Superuser(db.users, s, hash);
    var (keys, _) := EnsureKey(db.keys, keyLookupFails, s.registerKey, token, now);
    if keyLookupFails then InitOutcome(Db(users, keys, db.projects, db.repos), true)
    else
      var (projects, repos) := EnsureDemoProject(db.projects, db.repos, Some(u), now);
      InitOutcome(Db(users, keys, projects, repos), false)
  }

  /** A second init_db, with any token and at any time, leaves the database
      as the first one left it, once the first reached the key table; it
      still raises when its own key lookup fails. */
  lemma InitDbIdempotent(db: Db, s: Settings, hash: string -> string, token: string, now: Time,
                         keyLookupFails2: bool, token2: string, now2: Time)
    ensures var d1 := InitDb(db, s, hash, false, token, now).db;
      InitDb(d1, s, hash, keyLookupFails2, token2, now2) == InitOutcome(d1, keyLookupFails2)
  {
    var d1 := InitDb(db, s, hash, false, token, now).db;
    var (users, u) := Superuser(db.users, s, hash);
    assert Superuser(d1.users, s, hash) == (users, u);
    EnsureKeyIdempotent(db.keys, s.registerKey, token, now, s.registerKey, token2, now2);
    EnsureDemoProjectIdempotent(db.projects, db.repos, Some(u), now, now2);
  }

  /** After an init_db that got past the key table, the superuser's demo
      project links every canonical URL. */
  lemma InitDbLinksDemoRepositories(db: Db, s: Settings, hash: string -> string, token: string, now: Time)
    ensures var d := InitDb(db, s, hash, false, token, now).db;
      var p := FindDemoProject(d.projects, UserByEmail(d.users, s.firstSuperuser).value.id).value;
      forall k :: 0 <= k < |DEMO_REPOSITORIES| ==> Linked(d.repos, p.fields.repositoryIds, DEMO_REPOSITORIES[k].url)
  {
    var (users, u) := Superuser(db.users, s, hash);
    DemoProjectLinksAll(db.projects, db.repos, u, now);
  }

  /** When the key lookup fails, init_db raises after storing the superuser
      and before any demo project or repository is written. */
  lemma InitDbAbortsOnKeyLookupFailure(db: Db, s: Settings, hash: string -> string, token: string, now: Time)
    ensures var r := InitDb(db, s, hash, true, token, now);
      r.raised && r.db == db.(users := Superuser(db.users, s, hash).0)
  {
  }
}

=== FILE: seqs.dfy ===
/** Query building blocks shared by the routes: WHERE (filter), COUNT,
    ORDER BY (an insertion sort under a total preorder) and OFFSET/LIMIT. */
module Seqs {

  /** WHERE p: the rows satisfying p, in table order. */
  function Filter<T(==,!new)>(s: seq<T>, p: T -> bool): (r: seq<T>)
    ensures |r| <= |s|
    ensures forall i :: 0 <= i < |r| ==> p(r[i])
    ensures forall x :: x in r <==> x in s && p(x)
  {
    if s == [] then []
    else if p(s[0]) then [s[0]] + Filter(s[1..], p)
    else Filter(s[1..], p)
  }

  lemma {:induction false} FilterAll<T(!new)>(s: seq<T>, p: T -> bool)
    requires forall i :: 0 <= i < |s| ==> p(s[i])
    ensures Filter(s, p) == s
  {
    if s != [] {
      FilterAll(s[1..], p);
    }
  }

  lemma {:induction false} FilterNone<T(!new)>(s: seq<T>, p: T -> bool)
    requires forall i :: 0 <= i < |s| ==> !p(s[i])
    ensures Filter(s, p) == []
  {
    if s != [] {
      FilterNone(s[1..], p);
    }
  }

  lemma {:induction false} FilterAppend<T(!new)>(a: seq<T>, b: seq<T>, p: T -> bool)
    ensures Filter(a + b, p) == Filter(a, p) + Filter(b, p)
  {
    if a == [] {
      assert a + b == b;
    } else {
      assert (a + b)[1..] == a[1..] + b;
      FilterAppend(a[1..], b, p);
    }
  }

  /** A row failing p makes the result strictly shorter than the table. */
  lemma {:induction false} FilterDrops<T(!new)>(s: seq<T>, p: T -> bool, k: nat)
    requires k < |s| && !p(s[k])
    ensures |Filter(s, p)| < |s|
  {
    if k > 0 {
      FilterDrops(s[1..], p, k - 1);
    }
  }

  /** Equivalent conditions select the same rows. */
  lemma {:induction false} FilterCongruent<T(!new)>(s: seq<T>, p: T -> bool, q: T -> bool)
    requires forall x :: p(x) == q(x)
    ensures Filter(s, p) == Filter(s, q)
  {
    if s != [] {
      FilterCongruent(s[1..], p, q);
    }
  }

  /** COUNT(*) ... WHERE p. */
  function CountWhere<T(==,!new)>(s: seq<T>, p: T -> bool): (n: nat)
    ensures n <= |s|
  {
    |Filter(s, p)|
  }

  /** A row appended to the table adds itself to WHERE q when it meets q, and
      then to COUNT ... WHERE p over those rows when it also meets p. */
  lemma CountFilterSnoc<T(!new)>(s: seq<T>, x: T, q: T -> bool, p: T -> bool)
    ensures |Filter(s + [x], q)| == |Filter(s, q)| + (if q(x) then 1 else 0)
    ensures CountWhere(Filter(s + [x], q), p) == CountWhere(Filter(s, q), p) + (if q(x) && p(x) then 1 else 0)
  {
    FilterAppend(s, [x], q);
    assert [x][1..] == [];
    var last := Filter([x], q);
    assert last == if q(x) then [x] else [];
    FilterAppend(Filter(s, q), last, p);
    assert last != [] ==> last[1..] == [];
  }

  /** A narrower WHERE never counts more rows. */
  lemma {:induction false} CountMonotone<T(!new)>(s: seq<T>, p: T -> bool, q: T -> bool)
    requires forall x :: p(x) ==> q(x)
    ensures CountWhere(s, p) <= CountWhere(s, q)
  {
    if s != [] {
      CountMonotone(s[1..], p, q);
    }
  }

  /** Two conditions no row meets together count at most every row between them. */
  lemma {:induction false} CountDisjoint<T(!new)>(s: seq<T>, p: T -> bool, q: T -> bool)
    requires forall x :: !(p(x) && q(x))
    ensures CountWhere(s, p) + CountWhere(s, q) <= |s|
  {
    if s != [] {
      CountDisjoint(s[1..], p, q);
    }
  }

  /** WHERE keeps the order of an ordered sequence. */
  lemma {:induction false} FilterSorted<T(!new)>(s: seq<T>, p: T -> bool, le: (T, T) -> bool)
    requires SortedBy(s, le)
    ensures SortedBy(Filter(s, p), le)
  {
    if s != [] {
      var rest := Filter(s[1..], p);
      assert SortedBy(s[1..], le) by {
        forall i, j | 0 <= i < j < |s[1..]| ensures le(s[1..][i], s[1..][j]) {
          assert s[1..][i] == s[i + 1] && s[1..][j] == s[j + 1];
        }
      }
      FilterSorted(s[1..], p, le);
      if p(s[0]) {
        forall j | 0 <= j < |rest| ensures le(s[0], rest[j]) {
          assert rest[j] in s[1..];
          var m :| 0 <= m < |s[1..]| && s[1..][m] == rest[j];
          assert s[m + 1] == rest[j];
        }
        assert Filter(s, p) == [s[0]] + rest;
      }
    }
  }

  function Min(a: int, b: int): int {
    if a <= b then a else b
  }

  /** OFFSET skip LIMIT limit: a contiguous window of at most `limit` rows. */
  function Page<T>(s: seq<T>, skip: nat, limit: nat): (r: seq<T>)
    ensures |r| <= limit
    ensures skip >= |s| ==> r == []
    ensures skip < |s| ==> |r| == Min(limit, |s| - skip) && forall i :: 0 <= i < |r| ==> r[i] == s[skip + i]
  {
    if skip >= |s| then [] else s[skip..skip + Min(limit, |s| - skip)]
  }

  /** Consecutive pages neither overlap nor leave a gap: two pages read one
      after the other are the single page spanning both. */
  lemma PageConsecutive<T>(s: seq<T>, skip: nat, a: nat, b: nat)
    ensures Page(s, skip, a) + Page(s, skip + a, b) == Page(s, skip, a + b)
  {
    var p := Page(s, skip, a);
    var q := Page(s, skip + a, b);
    var w := Page(s, skip, a + b);
    if skip < |s| {
      assert |p + q| == |w|;
      forall i | 0 <= i < |w| ensures (p + q)[i] == w[i] {
        if i >= |p| {
          assert |p| == a;
        }
      }
    }
  }

  // Orders passed to Sort: `le(a, b)` means a may come before b.

  ghost predicate Total<T(!new)>(le: (T, T) -> bool) {
    forall a, b :: le(a, b) || le(b, a)
  }

  ghost predicate Transitive<T(!new)>(le: (T, T) -> bool) {
    forall a, b, c :: le(a, b) && le(b, c) ==> le(a, c)
  }

  predicate SortedBy<T>(s: seq<T>, le: (T, T) -> bool) {
    forall i, j :: 0 <= i < j < |s| ==> le(s[i], s[j])
  }

  /** Insertion of x before the first element it may precede. */
  function Insert<T(!new)>(x: T, s: seq<T>, le: (T, T) -> bool): (r: seq<T>)
    requires Total(le) && Transitive(le)
    requires SortedBy(s, le)
    ensures SortedBy(r, le)
    ensures multiset(r) == multiset(s) + multiset{x}
    ensures |r| == |s| + 1
  {
    if s == [] || le(x, s[0]) then
      assert forall j :: 0 <= j < |s| ==> le(x, s[j]) by {
        if s != [] {
          assert forall j :: 0 <= j < |s| ==> le(s[0], s[j]) || j == 0;
        }
      }
      [x] + s
    else
      var t := Insert(x, s[1..], le);
      assert le(s[0], x);
      assert forall j :: 0 <= j < |s[1..]| ==> le(s[0], s[1..][j]) by {
        assert forall j :: 0 <= j < |s[1..]| ==> s[1..][j] == s[j + 1];
      }
      PermutationBoundedBelow(s[0], x, s[1..], t, le);
      assert s == [s[0]] + s[1..];
      [s[0]] + t
  }

  /** A permutation of rest plus x keeps every lower bound of both. */
  lemma PermutationBoundedBelow<T>(h: T, x: T, rest: seq<T>, t: seq<T>, le: (T, T) -> bool)
    requires le(h, x) && forall j :: 0 <= j < |rest| ==> le(h, rest[j])
    requires multiset(t) == multiset(rest) + multiset{x}
    ensures forall k :: 0 <= k < |t| ==> le(h, t[k])
  {
    forall k | 0 <= k < |t| ensures le(h, t[k]) {
      assert t[k] in multiset(t);
      if t[k] != x {
        assert t[k] in multiset(rest);
        var m :| 0 <= m < |rest| && rest[m] == t[k];
      }
    }
  }

  /** ORDER BY le: a sorted permutation of the rows. */
  function Sort<T(!new)>(s: seq<T>, le: (T, T) -> bool): (r: seq<T>)
    requires Total(le) && Transitive(le)
    ensures SortedBy(r, le)
    ensures multiset(r) == multiset(s)
    ensures |r| == |s|
  {
    if s == [] then []
    else
      assert s == [s[0]] + s[1..];
      Insert(s[0], Sort(s[1..], le), le)
  }

  /** Sequences holding the same multiset hold the same elements. */
  lemma SameMembers<T>(a: seq<T>, b: seq<T>)
    requires multiset(a) == multiset(b)
    ensures forall x :: x in a <==> x in b
  {
    forall x ensures x in a <==> x in b {
      assert x in a <==> x in multiset(a);
      assert x in b <==> x in multiset(b);
    }
  }

  /** A page of a sorted sequence is sorted, and holds only its elements. */
  lemma PageSorted<T>(s: seq<T>, le: (T, T) -> bool, skip: nat, limit: nat)
    requires SortedBy(s, le)
    ensures SortedBy(Page(s, skip, limit), le)
    ensures forall k :: 0 <= k < |Page(s, skip, limit)| ==> Page(s, skip, limit)[k] in s
  {
    var r := Page(s, skip, limit);
    forall i, j | 0 <= i < j < |r| ensures le(r[i], r[j]) {
      assert r[i] == s[skip + i] && r[j] == s[skip + j];
    }
  }

  /** The head of a sorted sequence may precede every element of it. */
  lemma SortedHead<T>(s: seq<T>, le: (T, T) -> bool, x: T)
    requires SortedBy(s, le) && s != [] && x in s
    requires forall a :: le(a, a)
    ensures le(s[0], x)
  {
    var i :| 0 <= i < |s| && s[i] == x;
    if i > 0 {
      assert le(s[0], s[i]);
    }
  }

  /** The position of the first occurrence of `x` in `s` (see IndexOfFirst). */
  function IndexOf<T(==)>(s: seq<T>, x: T): (i: nat)
    requires x in s
    ensures i < |s| && s[i] == x
  {
    if s[0] == x then 0 else 1 + IndexOf(s[1..], x)
  }

  /** No earlier position holds `x`. */
  lemma {:induction false} IndexOfFirst<T>(s: seq<T>, x: T, j: nat)
    requires x in s && j < IndexOf(s, x)
    ensures s[j] != x
  {
    if j > 0 {
      assert x in s[1..] by {
        assert s[IndexOf(s, x)] == s[1..][IndexOf(s, x) - 1];
      }
      IndexOfFirst(s[1..], x, j - 1);
    }
  }

  /** The elements without repetition, in the order of their first
      occurrences (dict.fromkeys). */
  function Dedup<T(==,!new)>(s: seq<T>): (r: seq<T>)
    ensures forall x :: x in r <==> x in s
    ensures forall i, j :: 0 <= i < j < |r| ==> r[i] != r[j]
    ensures forall i, j :: 0 <= i < j < |r| ==> IndexOf(s, r[i]) < IndexOf(s, r[j])
    ensures |r| <= |s|
  {
    DedupAfterOrder(s, []);
    DedupAfter(s, [])
  }

  function DedupAfter<T(==,!new)>(s: seq<T>, seen: seq<T>): (r: seq<T>)
    requires forall i, j :: 0 <= i < j < |seen| ==> seen[i] != seen[j]
    ensures forall x :: x in r <==> x in s && x !in seen
    ensures forall i, j :: 0 <= i < j < |r| ==> r[i] != r[j]
    ensures |r| <= |s|
  {
    if s == [] then []
    else if s[0] in seen then DedupAfter(s[1..], seen)
    else
      var rest := DedupAfter(s[1..], seen + [s[0]]);
      assert s[0] !in rest;
      var r := [s[0]] + rest;
      assert forall i :: 1 <= i < |r| ==> r[i] == rest[i - 1];
      r
  }

  /** The kept elements appear in the order of their first occurrences. */
  lemma {:induction false} DedupAfterOrder<T(!new)>(s: seq<T>, seen: seq<T>)
    requires forall i, j :: 0 <= i < j < |seen| ==> seen[i] != seen[j]
    ensures forall i, j :: 0 <= i < j < |DedupAfter(s, seen)| ==>
      IndexOf(s, DedupAfter(s, seen)[i]) < IndexOf(s, DedupAfter(s, seen)[j])
  {
    if s != [] {
      var seen1 := if s[0] in seen then seen else seen + [s[0]];
      assert s[0] in seen1;
      var rest := DedupAfter(s[1..], seen1);
      DedupAfterOrder(s[1..], seen1);
      forall k | 0 <= k < |rest| ensures rest[k] in s[1..] && rest[k] != s[0] {
        assert rest[k] in rest;
      }
      PrependOrder(s, rest);
      if s[0] in seen {
        assert DedupAfter(s, seen) == rest;
      } else {
        assert DedupAfter(s, seen) == [s[0]] + rest;
        HeadThenRest(s, rest);
      }
    }
  }

  /** Elements of the tail other than the head, in the order of their first
      occurrences in the tail, are in that order in the whole sequence, and
      stay so behind the head. */
  lemma PrependOrder<T>(s: seq<T>, rest: seq<T>)
    requires s != [] && forall k :: 0 <= k < |rest| ==> rest[k] in s[1..] && rest[k] != s[0]
    requires forall i, j :: 0 <= i < j < |rest| ==> IndexOf(s[1..], rest[i]) < IndexOf(s[1..], rest[j])
    ensures forall k :: 0 <= k < |rest| ==> rest[k] in s && 0 < IndexOf(s, rest[k])
    ensures forall i, j :: 0 <= i < j < |rest| ==> rest[i] in s && rest[j] in s && IndexOf(s, rest[i]) < IndexOf(s, rest[j])
  {
    forall k | 0 <= k < |rest| ensures rest[k] in s && 0 < IndexOf(s, rest[k]) {
      IndexOfTail(s, rest[k]);
    }
    forall i, j | 0 <= i < j < |rest|
      ensures rest[i] in s && rest[j] in s && IndexOf(s, rest[i]) < IndexOf(s, rest[j])
    {
      IndexOfTail(s, rest[i]);
      IndexOfTail(s, rest[j]);
    }
  }

  /** The head of `s` followed by elements placed after it keeps the order
      of first occurrences. */
  lemma HeadThenRest<T>(s: seq<T>, rest: seq<T>)
    requires s != []
    requires forall k :: 0 <= k < |rest| ==> rest[k] in s && 0 < IndexOf(s, rest[k])
    requires forall i, j :: 0 <= i < j < |rest| ==> rest[i] in s && rest[j] in s && IndexOf(s, rest[i]) < IndexOf(s, rest[j])
    ensures forall i, j :: 0 <= i < j < |[s[0]] + rest| ==>
      ([s[0]] + rest)[i] in s && ([s[0]] + rest)[j] in s
      && IndexOf(s, ([s[0]] + rest)[i]) < IndexOf(s, ([s[0]] + rest)[j])
  {
    var r := [s[0]] + rest;
    forall i, j | 0 <= i < j < |r| ensures r[i] in s && r[j] in s && IndexOf(s, r[i]) < IndexOf(s, r[j]) {
      assert r[j] == rest[j - 1];
      if i > 0 {
        assert r[i] == rest[i - 1];
      }
    }
  }

  /** Past the head, a position in `s` is one more than in its tail. */
  lemma IndexOfTail<T>(s: seq<T>, x: T)
    requires s != [] && x in s[1..] && x != s[0]
    ensures x in s && IndexOf(s, x) == 1 + IndexOf(s[1..], x)
  {
  }

  /** The position of the first smallest value: Python's min() over a dict
      keeps the earliest key among equal minima. */
  function FirstMinIndex(loads: seq<int>): (i: nat)
    requires |loads| > 0
    ensures i < |loads|
    ensures forall j :: 0 <= j < |loads| ==> loads[i] <= loads[j]
    ensures forall j :: 0 <= j < i ==> loads[j] > loads[i]
  {
    if |loads| == 1 then 0
    else
      var j := FirstMinIndex(loads[..|loads| - 1]);
      assert forall k :: 0 <= k < |loads| - 1 ==> loads[..|loads| - 1][k] == loads[k];
      if loads[|loads| - 1] < loads[j] then |loads| - 1 else j
  }

  /** Filtering twice is filtering once by both conditions. */
  lemma {:induction false} FilterFilter<T(!new)>(s: seq<T>, p: T -> bool, q: T -> bool, pq: T -> bool)
    requires forall x :: pq(x) == (q(x) && p(x))
    ensures Filter(Filter(s, p), q) == Filter(s, pq)
  {
    if s != [] {
      FilterFilter(s[1..], p, q, pq);
      if p(s[0]) {
        assert Filter(s, p) == [s[0]] + Filter(s[1..], p);
        assert ([s[0]] + Filter(s[1..], p))[1..] == Filter(s[1..], p);
      }
    }
  }
}

=== FILE: shell.dfy ===
/** The part of POSIX shell word splitting that decides what a `bash -c` line
    hands to the program: unquoted spaces separate words, single quotes keep
    everything up to the next single quote, and a backslash outside quotes
    takes the next character literally. Other shell syntax is not modelled. */
module Shell {
  import opened Text

  datatype LexState = LexState(
    done: seq<string>,   // completed words
    cur: string,         // the word being built
    started: bool,       // a word is in progress (it may still be empty, as in '')
    quoted: bool,        // inside '...'
    escaped: bool)       // just after an unquoted backslash

  const Idle := LexState([], [], false, false, false)

  function Step(st: LexState, c: char): LexState {
    if st.escaped then st.(cur := st.cur + [c], started := true, escaped := false)
    else if st.quoted then (if c == '\'' then st.(quoted := false) else st.(cur := st.cur + [c]))
    else if c == '\'' then st.(quoted := true, started := true)
    else if c == '\\' then st.(escaped := true, started := true)
    else if c == ' ' then
      (if st.started then st.(done := st.done + [st.cur], cur := [], started := false) else st)
    else st.(cur := st.cur + [c], started := true)
  }

  function Run(st: LexState, s: string): LexState
    decreases |s|
  {
    if s == [] then st else Run(Step(st, s[0]), s[1..])
  }

  /** The words bash passes on for the command line s. */
  function ShellWords(s: string): seq<string> {
    var st := Run(Idle, s);
    if st.started then st.done + [st.cur] else st.done
  }

  lemma {:induction false} RunAppend(st: LexState, a: string, b: string)
    ensures Run(st, a + b) == Run(Run(st, a), b)
    decreases |a|
  {
    if a == [] {
      assert a + b == b;
    } else {
      assert (a + b)[0] == a[0];
      assert (a + b)[1..] == a[1..] + b;
      RunAppend(Step(st, a[0]), a[1..], b);
    }
  }

  lemma RunOne(st: LexState, c: char)
    ensures Run(st, [c]) == Step(st, c)
  {
    assert [c][1..] == [];
  }

  // ---------------------------------------------------------- plain text

  predicate NoSpace(w: string) {
    ' ' !in w
  }

  predicate NoQuoting(s: string) {
    '\'' !in s && '\\' !in s
  }

  ghost predicate SpaceFreeWords(st: LexState) {
    !st.quoted && !st.escaped && NoSpace(st.cur)
    && forall k :: 0 <= k < |st.done| ==> NoSpace(st.done[k])
  }

  lemma {:induction false} RunPlainKeepsWordsSpaceFree(st: LexState, s: string)
    requires SpaceFreeWords(st) && NoQuoting(s)
    ensures SpaceFreeWords(Run(st, s))
    decreases |s|
  {
    if s != [] {
      assert s[0] in s;
      assert forall c :: c in s[1..] ==> c in s;
      RunPlainKeepsWordsSpaceFree(Step(st, s[0]), s[1..]);
    }
  }

  /** Without quotes or backslashes no word bash passes on contains a space:
      a space-separated join can never deliver an argument that has one. */
  lemma PlainLineSplitsAtSpaces(s: string)
    requires NoQuoting(s)
    ensures forall k :: 0 <= k < |ShellWords(s)| ==> NoSpace(ShellWords(s)[k])
  {
    RunPlainKeepsWordsSpaceFree(Idle, s);
  }

  // --------------------------------------------------------------- quoting

  /** The body of a single-quoted word: each ' becomes '\'' (close, escaped
      quote, reopen). */
  function Escape(a: string): string {
    if a == [] then []
    else (if a[0] == '\'' then "'\\''" else [a[0]]) + Escape(a[1..])
  }

  /** shlex.quote-style quoting: the whole argument inside single quotes. */
  function Quote(a: string): string {
    "'" + Escape(a) + "'"
  }

  function QuoteAll(xs: seq<string>): (r: seq<string>)
    ensures |r| == |xs| && forall k :: 0 <= k < |xs| ==> r[k] == Quote(xs[k])
  {
    if xs == [] then [] else [Quote(xs[0])] + QuoteAll(xs[1..])
  }

  /** The arguments quoted one by one and joined with single spaces. */
  function QuoteJoin(xs: seq<string>): string {
    Join(QuoteAll(xs), " ")
  }

  lemma {:induction false} RunEscape(st: LexState, a: string)
    requires st.quoted && !st.escaped && st.started
    ensures Run(st, Escape(a)) == st.(cur := st.cur + a)
    decreases |a|
  {
    if a != [] {
      var head := if a[0] == '\'' then "'\\''" else [a[0]];
      RunAppend(st, head, Escape(a[1..]));
      var st1 := st.(cur := st.cur + [a[0]]);
      if a[0] == '\'' {
        RunEscapedQuote(st);
      } else {
        RunOne(st, a[0]);
      }
      assert Run(st, head) == st1;
      RunEscape(st1, a[1..]);
      assert st1.cur + a[1..] == st.cur + a;
    } else {
      assert st.cur + a == st.cur;
    }
  }

  /** '\'' inside single quotes: close, escaped quote, reopen. */
  lemma RunEscapedQuote(st: LexState)
    requires st.quoted && !st.escaped && st.started
    ensures Run(st, "'\\''") == st.(cur := st.cur + "'")
  {
    var s0 := st.(quoted := false);
    var s1 := s0.(escaped := true);
    var s2 := s1.(cur := st.cur + "'", escaped := false);
    var s3 := s2.(quoted := true);
    assert "'\\''" == ['\''] + (['\\'] + (['\''] + ['\'']));
    RunAppend(st, ['\''], ['\\'] + (['\''] + ['\'']));
    RunOne(st, '\'');
    RunAppend(s0, ['\\'], ['\''] + ['\'']);
    RunOne(s0, '\\');
    RunAppend(s1, ['\''], ['\'']);
    RunOne(s1, '\'');
    RunOne(s2, '\'');
  }

  /** Lexing a quoted argument from outside any word yields exactly the argument. */
  lemma RunQuote(st: LexState, a: string)
    requires !st.quoted && !st.escaped && !st.started && st.cur == []
    ensures Run(st, Quote(a)) == st.(cur := a, started := true)
  {
    var open := st.(quoted := true, started := true);
    assert Quote(a) == "'" + (Escape(a) + "'");
    RunAppend(st, "'", Escape(a) + "'");
    RunOne(st, '\'');
    RunAppend(open, Escape(a), "'");
    RunEscape(open, a);
    RunOne(open.(cur := a), '\'');
    assert open.cur + a == a;
  }

  /** A quoted argument followed by a space, from outside any word, completes that argument. */
  lemma RunQuoteSpace(st: LexState, a: string)
    requires !st.quoted && !st.escaped && !st.started && st.cur == []
    ensures Run(st, Quote(a) + " ") == st.(done := st.done + [a])
  {
    RunAppend(st, Quote(a), " ");
    RunQuote(st, a);
  }

  lemma QuoteJoinCons(xs: seq<string>)
    requires |xs| > 1
    ensures QuoteJoin(xs) == Quote(xs[0]) + " " + QuoteJoin(xs[1..])
  {
    var q := QuoteAll(xs);
    assert q[1..] == QuoteAll(xs[1..]);
  }

  lemma {:induction false} RunQuoteJoin(st: LexState, xs: seq<string>)
    requires xs != []
    requires !st.quoted && !st.escaped && !st.started && st.cur == []
    ensures Run(st, QuoteJoin(xs)) == st.(done := st.done + xs[..|xs| - 1], cur := xs[|xs| - 1], started := true)
    decreases |xs|
  {
    if |xs| == 1 {
      assert QuoteJoin(xs) == Quote(xs[0]);
      RunQuote(st, xs[0]);
      assert st.done + xs[..0] == st.done;
    } else {
      var st1 := st.(done := st.done + [xs[0]]);
      var rest := xs[1..];
      calc {
        Run(st, QuoteJoin(xs));
        { QuoteJoinCons(xs); }
        Run(st, Quote(xs[0]) + " " + QuoteJoin(rest));
        { RunAppend(st, Quote(xs[0]) + " ", QuoteJoin(rest)); }
        Run(Run(st, Quote(xs[0]) + " "), QuoteJoin(rest));
        { RunQuoteSpace(st, xs[0]); }
        Run(st1, QuoteJoin(rest));
        { RunQuoteJoin(st1, rest); }
        st1.(done := st1.done + rest[..|rest| - 1], cur := rest[|rest| - 1], started := true);
        { DoneShift(st.done, xs); }
        st.(done := st.done + xs[..|xs| - 1], cur := xs[|xs| - 1], started := true);
      }
    }
  }

  lemma DoneShift(d: seq<string>, xs: seq<string>)
    requires |xs| > 1
    ensures (d + [xs[0]]) + xs[1..][..|xs| - 2] == d + xs[..|xs| - 1]
    ensures xs[1..][|xs| - 2] == xs[|xs| - 1]
  {
    assert xs[..|xs| - 1] == [xs[0]] + xs[1..][..|xs| - 2];
  }

  /** Text without spaces or quoting characters. */
  predicate Plain(w: string) {
    NoQuoting(w) && NoSpace(w)
  }

  lemma {:induction false} RunPlainChars(st: LexState, w: string)
    requires !st.quoted && !st.escaped && Plain(w)
    ensures Run(st, w) == st.(cur := st.cur + w, started := st.started || w != [])
    decreases |w|
  {
    if w == [] {
      assert st.cur + w == st.cur;
    } else {
      assert w[0] in w;
      assert forall c :: c in w[1..] ==> c in w;
      RunPlainChars(Step(st, w[0]), w[1..]);
      assert st.cur + [w[0]] + w[1..] == st.cur + w;
    }
  }

  /** The quoted form of `cd dir && `, the prefix of every wrapped command. */
  function CdPrefix(dir: string): string {
    "cd " + Quote(dir) + " && "
  }

  /** The quoted form of `cd dir && xs...`. */
  function CdLine(dir: string, xs: seq<string>): string {
    CdPrefix(dir) + QuoteJoin(xs)
  }

  /** A plain word followed by a space, from outside any word, completes that word. */
  lemma RunPlainWord(st: LexState, w: string)
    requires !st.quoted && !st.escaped && !st.started && st.cur == []
    requires Plain(w) && w != []
    ensures Run(st, w + " ") == st.(done := st.done + [w])
  {
    RunAppend(st, w, " ");
    RunPlainChars(st, w);
    assert st.cur + w == w;
    RunOne(st.(cur := w, started := true), ' ');
  }

  lemma RunCdPrefix(dir: string)
    ensures Run(Idle, CdPrefix(dir)) == LexState(["cd", dir, "&&"], [], false, false, false)
  {
    var s1 := LexState(["cd"], [], false, false, false);
    assert Plain("cd") && "cd " == "cd" + " ";
    RunPlainWord(Idle, "cd");
    RunQuote(s1, dir);
    var s2 := s1.(cur := dir, started := true);
    RunOne(s2, ' ');
    var s3 := LexState(["cd", dir], [], false, false, false);
    assert Plain("&&") && "&& " == "&&" + " ";
    RunPlainWord(s3, "&&");
    assert CdPrefix(dir) == "cd " + (Quote(dir) + (" " + "&& "));
    RunAppend(Idle, "cd ", Quote(dir) + (" " + "&& "));
    RunAppend(s1, Quote(dir), " " + "&& ");
    RunAppend(s2, " ", "&& ");
    assert Run(Idle, "cd ") == s1;
    assert Run(s2, " ") == s3;
  }

  /** The shell sees cd, the directory, &&, then every argument unchanged. */
  lemma CdLineWords(dir: string, xs: seq<string>)
    requires xs != []
    ensures ShellWords(CdLine(dir, xs)) == ["cd", dir, "&&"] + xs
  {
    var s4 := LexState(["cd", dir, "&&"], [], false, false, false);
    RunCdPrefix(dir);
    RunAppend(Idle, CdPrefix(dir), QuoteJoin(xs));
    RunQuoteJoin(s4, xs);
    assert ["cd", dir, "&&"] + xs[..|xs| - 1] + [xs[|xs| - 1]] == ["cd", dir, "&&"] + xs;
  }

  /** Quoted arguments come back from the shell exactly as given. */
  lemma QuoteJoinRoundTrip(xs: seq<string>)
    ensures ShellWords(QuoteJoin(xs)) == xs
  {
    if xs == [] {
      assert QuoteJoin(xs) == "";
    } else {
      RunQuoteJoin(Idle, xs);
      assert xs[..|xs| - 1] + [xs[|xs| - 1]] == xs;
    }
  }
}

=== FILE: start_button.dfy ===
/** The issue list's start button: what it shows for each issue status,
    when it is disabled, and when a click asks the backend to start a task. */
module StartButton {
  import opened Common

  datatype ButtonConfig = ButtonConfig(caption: string, colorScheme: string, isDisabled: bool)

  const START := ButtonConfig("启动", "blue", false)

  /** getButtonConfig: pending and terminated issues can be started (the
      latter as a restart); processing, pending_merge and merged are
      disabled; any other status falls back to the pending button. */
  function Config(status: string): (r: ButtonConfig)
    ensures status == PENDING ==> r == START
    ensures status == TERMINATED ==> r == ButtonConfig("重新启动", "orange", false)
    ensures status in {PROCESSING, PENDING_MERGE, MERGED} ==> r.isDisabled
    ensures status !in {PENDING, PROCESSING, PENDING_MERGE, MERGED, TERMINATED} ==> r == START
  {
    if status == PENDING then START
    else if status == PROCESSING then ButtonConfig("运行中", "blue", true)
    else if status == PENDING_MERGE then ButtonConfig("待合入", "yellow", true)
    else if status == MERGED then ButtonConfig("已合入", "green", true)
    else if status == TERMINATED then ButtonConfig("重新启动", "orange", false)
    else START
  }

  /** handleStart: only pending and terminated issues send the start request. */
  predicate ClickStarts(status: string) {
    status == PENDING || status == TERMINATED
  }

  /** The rendered button is disabled by its config or while a start is in flight. */
  function Disabled(status: string, isStarting: bool): (r: bool)
    ensures isStarting ==> r
    ensures !isStarting ==> (r <==> status in {PROCESSING, PENDING_MERGE, MERGED})
  {
    Config(status).isDisabled || isStarting
  }

  /** A click on the rendered button: whether a start request goes out. A
      disabled button takes no clicks. */
  function Click(status: string, isStarting: bool): (r: bool)
    ensures r ==> !isStarting && ClickStarts(status)
  {
    !Disabled(status, isStarting) && ClickStarts(status)
  }

  /** For the five statuses of the issue lifecycle the button is enabled
      exactly when a click on it starts a task. */
  lemma EnabledIffClickStarts(status: string)
    requires status in {PENDING, PROCESSING, PENDING_MERGE, MERGED, TERMINATED}
    ensures !Disabled(status, false) <==> Click(status, false)
  {
  }

  /** Any other status shows an enabled start button whose click does nothing. */
  lemma UnknownStatusIsInert(status: string)
    requires status !in {PENDING, PROCESSING, PENDING_MERGE, MERGED, TERMINATED}
    ensures !Disabled(status, false) && !Click(status, false)
  {
  }
}

=== FILE: status_migration.dfy ===
/** The data part of schema revision 002: issue statuses move from the old
    vocabulary ("completed", "failed") to the new one ("pending_merge",
    "terminated") and back. The task table this revision also creates and
    drops is schema only. */
module StatusMigration {
  import opened Common
  import opened Models

  /** UPDATE issue SET status = to WHERE status = from: rows with that status
      get the new one; every other column and every other row stay. */
  function SetStatusWhere(t: seq<Issue>, from: string, to: string): (r: seq<Issue>)
    ensures |r| == |t|
    ensures forall k :: 0 <= k < |t| ==> r[k] == (if t[k].status == from then t[k].(status := to) else t[k])
  {
    seq(|t|, k requires 0 <= k < |t| => if t[k].status == from then t[k].(status := to) else t[k])
  }

  /** upgrade: completed becomes pending_merge, then failed becomes terminated. */
  function Upgrade(t: seq<Issue>): (r: seq<Issue>)
    ensures |r| == |t|
  {
    SetStatusWhere(SetStatusWhere(t, COMPLETED, PENDING_MERGE), FAILED, TERMINATED)
  }

  /** downgrade: pending_merge becomes completed, then terminated becomes failed. */
  function Downgrade(t: seq<Issue>): (r: seq<Issue>)
    ensures |r| == |t|
  {
    SetStatusWhere(SetStatusWhere(t, PENDING_MERGE, COMPLETED), TERMINATED, FAILED)
  }

  /** The status a row has after upgrade, as a table of the renames. */
  function Renamed(s: string): string {
    if s == COMPLETED then PENDING_MERGE else if s == FAILED then TERMINATED else s
  }

  /** The status a row has after downgrade. */
  function RenamedBack(s: string): string {
    if s == PENDING_MERGE then COMPLETED else if s == TERMINATED then FAILED else s
  }

  /** Upgrade renames each row's status and touches nothing else; afterwards
      no issue is "completed" or "failed". */
  lemma UpgradeRows(t: seq<Issue>)
    ensures forall k :: 0 <= k < |t| ==> Upgrade(t)[k] == t[k].(status := Renamed(t[k].status))
    ensures forall k :: 0 <= k < |t| ==> Upgrade(t)[k].status != COMPLETED && Upgrade(t)[k].status != FAILED
  {
    var t1 := SetStatusWhere(t, COMPLETED, PENDING_MERGE);
    assert forall k :: 0 <= k < |t| ==> t1[k] == t[k].(status := (if t[k].status == COMPLETED then PENDING_MERGE else t[k].status));
  }

  /** Downgrade renames back and touches nothing else; afterwards no issue is
      "pending_merge" or "terminated". */
  lemma DowngradeRows(t: seq<Issue>)
    ensures forall k :: 0 <= k < |t| ==> Downgrade(t)[k] == t[k].(status := RenamedBack(t[k].status))
    ensures forall k :: 0 <= k < |t| ==> Downgrade(t)[k].status != PENDING_MERGE && Downgrade(t)[k].status != TERMINATED
  {
    var t1 := SetStatusWhere(t, PENDING_MERGE, COMPLETED);
    assert forall k :: 0 <= k < |t| ==> t1[k] == t[k].(status := (if t[k].status == PENDING_MERGE then COMPLETED else t[k].status));
  }

  /** Statuses outside the four renamed ones are never touched, in either direction. */
  lemma OtherStatusesUntouched(t: seq<Issue>, k: nat)
    requires k < |t|
    requires t[k].status !in {COMPLETED, FAILED, PENDING_MERGE, TERMINATED}
    ensures Upgrade(t)[k] == t[k] && Downgrade(t)[k] == t[k]
  {
    UpgradeRows(t);
    DowngradeRows(t);
  }

  /** Downgrade undoes upgrade on every row that was not already in the new
      vocabulary: those rows would come back as "completed" or "failed". */
  lemma DowngradeAfterUpgrade(t: seq<Issue>)
    ensures forall k :: 0 <= k < |t| && t[k].status != PENDING_MERGE && t[k].status != TERMINATED ==>
      Downgrade(Upgrade(t))[k] == t[k]
    ensures forall k :: 0 <= k < |t| && t[k].status == PENDING_MERGE ==> Downgrade(Upgrade(t))[k].status == COMPLETED
  {
    UpgradeRows(t);
    DowngradeRows(Upgrade(t));
  }

  /** Upgrade undoes downgrade on every row that was not in the old vocabulary. */
  lemma UpgradeAfterDowngrade(t: seq<Issue>)
    ensures forall k :: 0 <= k < |t| && t[k].status != COMPLETED && t[k].status != FAILED ==>
      Upgrade(Downgrade(t))[k] == t[k]
  {
    DowngradeRows(t);
    UpgradeRows(Downgrade(t));
  }
}

=== FILE: text.dfy ===
/** String helpers with the semantics of the Python and JavaScript built-ins the
    services call: strip/trim, rstrip of one character, lower-casing,
    substring search, join, split, replace and integer formatting. */
module Text {

  /** Whitespace removed by str.strip() / String.prototype.trim(), restricted
      to the ASCII range. */
  predicate IsSpace(c: char) {
    c == ' ' || c == '\t' || c == '\n' || c == '\r' || c as int == 11 || c as int == 12
  }

  predicate AllSpace(s: string) {
    forall i :: 0 <= i < |s| ==> IsSpace(s[i])
  }

  function TrimStart(s: string): (r: string)
    ensures |r| <= |s| && r == s[|s| - |r|..]
    ensures AllSpace(s[..|s| - |r|])
    ensures r == [] || !IsSpace(r[0])
  {
    if |s| > 0 && IsSpace(s[0]) then TrimStart(s[1..]) else s
  }

  function TrimEnd(s: string): (r: string)
    ensures |r| <= |s| && r == s[..|r|]
    ensures AllSpace(s[|r|..])
    ensures r == [] || !IsSpace(r[|r| - 1])
  {
    if |s| > 0 && IsSpace(s[|s| - 1]) then TrimEnd(s[..|s| - 1]) else s
  }

  /** str.strip() / trim(): both ends stripped of whitespace. */
  function Trim(s: string): (r: string)
  {
    TrimEnd(TrimStart(s))
  }

  /** A trimmed string has no whitespace at either end. */
  lemma TrimEdges(s: string)
    ensures Trim(s) == [] || (!IsSpace(Trim(s)[0]) && !IsSpace(Trim(s)[|Trim(s)| - 1]))
  {
    var a := TrimStart(s);
    var r := TrimEnd(a);
    if r != [] {
      assert r[0] == a[0];
    }
  }

  /** Trimming leaves nothing exactly when the input is all whitespace. */
  lemma TrimEmpty(s: string)
    ensures Trim(s) == [] <==> AllSpace(s)
  {
    var a := TrimStart(s);
    var k := |s| - |a|;
    if TrimEnd(a) == [] {
      assert a[0..] == a;
      assert |a| == 0;
      assert s[..k] == s;
    } else {
      var j := k;
      assert s[j] == a[0];
    }
  }

  lemma TrimIdempotent(s: string)
    ensures Trim(Trim(s)) == Trim(s)
  {
    var r := Trim(s);
    assert TrimStart(r) == r;
    if r != [] {
      assert TrimEnd(r) == r by { TrimEdges(s); }
    }
  }

  /** str.rstrip(c): every trailing copy of c removed. */
  function RStrip(s: string, c: char): (r: string)
    ensures |r| <= |s| && r == s[..|r|]
    ensures forall i :: |r| <= i < |s| ==> s[i] == c
    ensures r == [] || r[|r| - 1] != c
  {
    if |s| > 0 && s[|s| - 1] == c then RStrip(s[..|s| - 1], c) else s
  }

  function LowerChar(c: char): char {
    if 'A' <= c <= 'Z' then (c as int + 32) as char else c
  }

  /** str.lower() / toLowerCase(), restricted to ASCII letters. */
  function Lower(s: string): (r: string)
    ensures |r| == |s|
    ensures forall i :: 0 <= i < |s| ==> r[i] == LowerChar(s[i])
  {
    if s == [] then [] else [LowerChar(s[0])] + Lower(s[1..])
  }

  /** Text without capital letters is its own lower case. */
  lemma LowerNoCapitals(s: string)
    requires forall i :: 0 <= i < |s| ==> !('A' <= s[i] <= 'Z')
    ensures Lower(s) == s
  {
    assert forall i :: 0 <= i < |s| ==> Lower(s)[i] == s[i];
  }

  predicate StartsWith(s: string, prefix: string) {
    |prefix| <= |s| && s[..|prefix|] == prefix
  }

  predicate EndsWith(s: string, suffix: string) {
    |suffix| <= |s| && s[|s| - |suffix|..] == suffix
  }

  /** Substring test ("in" / includes). */
  predicate Contains(s: string, t: string)
    decreases |s|
  {
    StartsWith(s, t) || (|s| > 0 && Contains(s[1..], t))
  }

  lemma {:induction false} ContainsAt(s: string, t: string, i: nat)
    requires i + |t| <= |s| && s[i..i + |t|] == t
    ensures Contains(s, t)
    decreases i
  {
    if i == 0 {
      assert s[..|t|] == t;
    } else {
      assert s[1..][i - 1..i - 1 + |t|] == s[i..i + |t|];
      ContainsAt(s[1..], t, i - 1);
    }
  }

  /** sep.join(parts). */
  function Join(parts: seq<string>, sep: string): string {
    if parts == [] then ""
    else if |parts| == 1 then parts[0]
    else parts[0] + sep + Join(parts[1..], sep)
  }

  /** A character in neither the parts nor the separator is not in the join. */
  lemma {:induction false} JoinAvoids(parts: seq<string>, sep: string, c: char)
    requires c !in sep && forall k :: 0 <= k < |parts| ==> c !in parts[k]
    ensures c !in Join(parts, sep)
  {
    if |parts| > 1 {
      JoinAvoids(parts[1..], sep, c);
    }
  }

  /** str.split(c): the pieces between occurrences of c, at least one piece. */
  function Split(s: string, c: char): (r: seq<string>)
    ensures |r| >= 1
    ensures forall k :: 0 <= k < |r| ==> c !in r[k]
    decreases |s|
  {
    if c !in s then [s]
    else
      var i := FirstIndex(s, c);
      [s[..i]] + Split(s[i + 1..], c)
  }

  function FirstIndex(s: string, c: char): (i: nat)
    requires c in s
    ensures i < |s| && s[i] == c && c !in s[..i]
  {
    if s[0] == c then 0 else 1 + FirstIndex(s[1..], c)
  }

  /** The first occurrence is the one with no occurrence before it. */
  lemma FirstIndexAt(s: string, c: char, j: nat)
    requires j < |s| && s[j] == c && c !in s[..j]
    ensures FirstIndex(s, c) == j
  {
    var i := FirstIndex(s, c);
    assert forall k :: 0 <= k < j ==> s[..j][k] == s[k];
    assert forall k :: 0 <= k < i ==> s[..i][k] == s[k];
  }

  /** Splitting and re-joining with the same separator gives back the input. */
  lemma {:induction false} SplitJoin(s: string, c: char)
    ensures Join(Split(s, c), [c]) == s
    decreases |s|
  {
    if c in s {
      var i := FirstIndex(s, c);
      var rest := Split(s[i + 1..], c);
      SplitJoin(s[i + 1..], c);
      assert Split(s, c) == [s[..i]] + rest;
      assert (Split(s, c))[1..] == rest;
      assert s == s[..i] + [c] + s[i + 1..];
    }
  }

  /** Joining pieces that do not hold the separator and splitting again gives
      the pieces back. */
  lemma {:induction false} JoinSplit(parts: seq<string>, c: char)
    requires |parts| >= 1 && forall k :: 0 <= k < |parts| ==> c !in parts[k]
    ensures Split(Join(parts, [c]), c) == parts
  {
    if |parts| > 1 {
      var p0 := parts[0];
      var rest := Join(parts[1..], [c]);
      var s := Join(parts, [c]);
      assert s == p0 + [c] + rest;
      assert s[..|p0|] == p0;
      assert c !in p0;
      FirstIndexAt(s, c, |p0|);
      assert s[|p0| + 1..] == rest;
      assert Split(s, c) == [p0] + Split(rest, c);
      assert forall k :: 0 <= k < |parts[1..]| ==> parts[1..][k] == parts[k + 1];
      JoinSplit(parts[1..], c);
      assert parts == [p0] + parts[1..];
    }
  }

  /** str.replace(pat, rep): every non-overlapping occurrence, left to right. */
  function ReplaceAll(s: string, pat: string, rep: string): (r: string)
    requires |pat| > 0
    ensures !Contains(s, pat) ==> r == s
    decreases |s|
  {
    if |s| == 0 then s
    else if StartsWith(s, pat) then rep + ReplaceAll(s[|pat|..], pat, rep)
    else [s[0]] + ReplaceAll(s[1..], pat, rep)
  }

  function Repeat(c: char, n: nat): (r: string)
    ensures |r| == n && forall i :: 0 <= i < n ==> r[i] == c
  {
    if n == 0 then "" else [c] + Repeat(c, n - 1)
  }

  predicate IsDigit(c: char) {
    '0' <= c <= '9'
  }

  /** str(n) for a natural number. */
  function NatToString(n: nat): (r: string)
    ensures |r| >= 1 && forall i :: 0 <= i < |r| ==> IsDigit(r[i])
  {
    if n < 10 then [('0' as int + n) as char]
    else NatToString(n / 10) + [('0' as int + n % 10) as char]
  }

  /** str(i) for an integer: a minus sign before negative values. */
  function IntToString(i: int): (r: string)
    ensures |r| >= 1
  {
    if i < 0 then "-" + NatToString(-i) else NatToString(i)
  }

  function DigitValue(c: char): nat
    requires IsDigit(c)
  {
    c as int - '0' as int
  }

  /** int(s) for a string of decimal digits. */
  function ParseNat(s: string): nat
    requires forall i :: 0 <= i < |s| ==> IsDigit(s[i])
  {
    if s == [] then 0 else 10 * ParseNat(s[..|s| - 1]) + DigitValue(s[|s| - 1])
  }

  /** Decimal formatting is undone by parsing, so distinct numbers print differently. */
  lemma {:induction false} NatToStringRoundTrip(n: nat)
    ensures ParseNat(NatToString(n)) == n
  {
    if n >= 10 {
      var s := NatToString(n);
      assert s[..|s| - 1] == NatToString(n / 10);
      NatToStringRoundTrip(n / 10);
    }
  }

  lemma NatToStringInjective(a: nat, b: nat)
    ensures NatToString(a) == NatToString(b) ==> a == b
  {
    NatToStringRoundTrip(a);
    NatToStringRoundTrip(b);
  }

  /** The decimal forms of a list of numbers, element by element. */
  function NatStrings(xs: seq<nat>): (r: seq<string>)
    ensures |r| == |xs| && forall k :: 0 <= k < |xs| ==> r[k] == NatToString(xs[k])
  {
    if xs == [] then [] else [NatToString(xs[0])] + NatStrings(xs[1..])
  }
}

=== FILE: workflow.dfy ===
/** The issue workflow run from the backend on a worker node: prepare a
    workspace and clone the repository, run the AI coding command, then
    commit and push. Every command goes to the node's /execute endpoint; the
    node's answer is a parameter (`exec`), so the model fixes which requests
    are sent, in which order, and how the rows change with the answers. */
module Workflow {
  import opened Common
  import opened Text
  import opened Models
  import Shell
  import NodeService

  datatype CommandRequest = CommandRequest(command: string, args: seq<string>)

  datatype CommandResult = CommandResult(
    command: string, args: seq<string>, exitCode: int, stdout: string, stderr: string,
    durationMs: int)

  /** What execute_command_on_node yields: the parsed result, or the message of
      the exception it raises (an error status, a transport failure, a body that
      does not parse). */
  datatype Reply = Answered(result: CommandResult) | Raised(message: string)

  /** Requests sent in order, the results received, and the message of the
      exception that stopped the run, if one did. */
  datatype Trace = Trace(sent: seq<CommandRequest>, results: seq<CommandResult>, error: Option<string>)

  function Failure(message: string): Trace {
    Trace([], [], Some(message))
  }

  // ------------------------------------------------------------ requests

  function WorkspacePath(issueId: Id): (p: string)
    ensures StartsWith(p, "/workspace/issue-")
  {
    "/workspace/issue-" + NatToString(issueId)
  }

  /** Distinct issues work in distinct directories. */
  lemma WorkspacePathInjective(a: Id, b: Id)
    ensures WorkspacePath(a) == WorkspacePath(b) ==> a == b
  {
    if WorkspacePath(a) == WorkspacePath(b) {
      var n := |"/workspace/issue-"|;
      assert WorkspacePath(a)[n..] == NatToString(a);
      assert WorkspacePath(b)[n..] == NatToString(b);
      NatToStringInjective(a, b);
    }
  }

  /** execute_command_on_node as written: with a working directory the command
      runs as `bash -c "cd dir && command args..."`, the arguments joined with
      spaces and not quoted. */
  function WrapCommand(command: string, args: seq<string>, workingDir: Option<string>): (r: CommandRequest)
    ensures !Truthy(workingDir) ==> r == CommandRequest(command, args)
    ensures Truthy(workingDir) ==>
      (r.command == "bash" && |r.args| == 2 && r.args[0] == "-c"
       && StartsWith(r.args[1], "cd " + workingDir.value + " && " + command))
  {
    if Truthy(workingDir) then
      CommandRequest("bash", ["-c", "cd " + workingDir.value + " && " + command + " " + Join(args, " ")])
    else CommandRequest(command, args)
  }

  /** The same wrapper with every word shell-quoted: what the shell hands to
      the program is exactly `command` followed by `args`. */
  function WrapCommandQuoted(command: string, args: seq<string>, workingDir: Option<string>): (r: CommandRequest)
    ensures !Truthy(workingDir) ==> r == CommandRequest(command, args)
    ensures Truthy(workingDir) ==>
      (r.command == "bash" && |r.args| == 2 && r.args[0] == "-c"
       && Shell.ShellWords(r.args[1]) == ["cd", workingDir.value, "&&", command] + args)
  {
    if Truthy(workingDir) then
      Shell.CdLineWords(workingDir.value, [command] + args);
      assert ["cd", workingDir.value, "&&"] + ([command] + args)
          == ["cd", workingDir.value, "&&", command] + args;
      CommandRequest("bash", ["-c", Shell.CdLine(workingDir.value, [command] + args)])
    else CommandRequest(command, args)
  }

  /** As written, an argument containing a space never reaches the program as
      one word: the shell splits it (for lines without quoting characters). */
  lemma WrapCommandSplitsSpacedArgument(command: string, args: seq<string>, dir: string, k: nat)
    requires dir != "" && k < |args| && ' ' in args[k]
    requires Shell.NoQuoting(dir) && Shell.NoQuoting(command)
    requires forall j :: 0 <= j < |args| ==> Shell.NoQuoting(args[j])
    ensures Shell.ShellWords(WrapCommand(command, args, Some(dir)).args[1])
      != ["cd", dir, "&&", command] + args
  {
    var line := WrapCommand(command, args, Some(dir)).args[1];
    JoinAvoids(args, " ", '\'');
    JoinAvoids(args, " ", '\\');
    assert Shell.NoQuoting(line);
    Shell.PlainLineSplitsAtSpaces(line);
    assert !Shell.NoSpace((["cd", dir, "&&", command] + args)[4 + k]);
  }

  /** The issue number as Python formats an optional integer. */
  function IssueNumberText(n: Option<int>): (r: string)
    ensures n.None? <==> r == "None"
  {
    if n.Some? then
      assert IntToString(n.value)[0] == '-' || IsDigit(IntToString(n.value)[0]);
      IntToString(n.value)
    else "None"
  }

  /** The default commit message: "Fix issue #<number>: <title>". */
  function DefaultCommitMessage(i: Issue): (m: string)
    ensures StartsWith(m, "Fix issue #") && EndsWith(m, i.title)
  {
    var m := "Fix issue #" + IssueNumberText(i.issueNumber) + ": " + i.title;
    assert m[|m| - |i.title|..] == i.title;
    m
  }

  /** With the wrapper as written, the default commit message never reaches
      git as one argument: it always contains a space. */
  lemma DefaultCommitMessageIsSplit(i: Issue)
    requires Shell.NoQuoting(i.title)
    ensures Shell.ShellWords(WrapCommand("git", CommitArgs(DefaultCommitMessage(i)), Some(WorkspacePath(i.id))).args[1])
      != ["cd", WorkspacePath(i.id), "&&", "git"] + CommitArgs(DefaultCommitMessage(i))
  {
    var m := DefaultCommitMessage(i);
    DefaultCommitMessagePlain(i);
    WorkspacePathPlain(i.id);
    var args := CommitArgs(m);
    assert args[2] == m && Shell.NoQuoting(args[0]) && Shell.NoQuoting(args[1]);
    WrapCommandSplitsSpacedArgument("git", args, WorkspacePath(i.id), 2);
  }

  /** The default message has a space and, for a plain title, no quoting
      character. */
  lemma DefaultCommitMessagePlain(i: Issue)
    requires Shell.NoQuoting(i.title)
    ensures ' ' in DefaultCommitMessage(i) && Shell.NoQuoting(DefaultCommitMessage(i))
  {
    var m := DefaultCommitMessage(i);
    var num := IssueNumberText(i.issueNumber);
    assert m == "Fix issue #" + num + ": " + i.title;
    assert m[3] == ' ';
    assert Shell.NoQuoting(num) by {
      if i.issueNumber.Some? && i.issueNumber.value < 0 {
        assert num == "-" + NatToString(-i.issueNumber.value);
      }
    }
  }

  lemma WorkspacePathPlain(id: Id)
    ensures Shell.NoQuoting(WorkspacePath(id))
  {
  }

  function CommitArgs(message: string): seq<string> {
    ["commit", "-m", message]
  }

  /** Which wrapper builds the requests: the one execute_command_on_node has,
      or the quoting one it evidently intends. The scheduler and the routes
      use AsWritten. */
  datatype Wrapping = AsWritten | Quoted

  /** The request sent for `command args` in `workingDir`. */
  function OnNode(w: Wrapping, command: string, args: seq<string>, workingDir: Option<string>): (r: CommandRequest)
    ensures w == AsWritten ==> r == WrapCommand(command, args, workingDir)
    ensures w == Quoted ==> r == WrapCommandQuoted(command, args, workingDir)
  {
    match w
    case AsWritten => WrapCommand(command, args, workingDir)
    case Quoted => WrapCommandQuoted(command, args, workingDir)
  }

  // ------------------------------------------------------------ running

  /** The requests sent one after another; the first that raises stops the run
      and its exception propagates. */
  function RunSteps(reqs: seq<CommandRequest>, exec: CommandRequest -> Reply): (t: Trace)
    ensures |t.sent| <= |reqs| && t.sent == reqs[..|t.sent|]
    ensures t.error.None? <==> forall k :: 0 <= k < |reqs| ==> exec(reqs[k]).Answered?
    ensures t.error.None? ==> t.sent == reqs && |t.results| == |reqs|
    ensures t.error.Some? ==>
      (|t.sent| >= 1 && |t.results| == |t.sent| - 1
       && exec(t.sent[|t.sent| - 1]) == Raised(t.error.value))
    ensures forall k :: 0 <= k < |t.results| ==> exec(t.sent[k]) == Answered(t.results[k])
  {
    if reqs == [] then Trace([], [], None)
    else match exec(reqs[0])
      case Raised(msg) => Trace([reqs[0]], [], Some(msg))
      case Answered(res) =>
        var rest := RunSteps(reqs[1..], exec);
        AnsweredThenRest(reqs, exec, res, rest);
        Trace([reqs[0]] + rest.sent, [res] + rest.results, rest.error)
  }

  /** The facts RunSteps promises about a trace of `reqs`. */
  predicate TraceOf(reqs: seq<CommandRequest>, exec: CommandRequest -> Reply, t: Trace) {
    |t.sent| <= |reqs| && t.sent == reqs[..|t.sent|]
    && (t.error.None? <==> forall k :: 0 <= k < |reqs| ==> exec(reqs[k]).Answered?)
    && (t.error.None? ==> t.sent == reqs && |t.results| == |reqs|)
    && (t.error.Some? ==>
          |t.sent| >= 1 && |t.results| == |t.sent| - 1
          && exec(t.sent[|t.sent| - 1]) == Raised(t.error.value))
    && forall k :: 0 <= k < |t.results| && k < |t.sent| ==> exec(t.sent[k]) == Answered(t.results[k])
  }

  /** An answered first request followed by a trace of the rest is a trace
      of the whole. */
  lemma AnsweredThenRest(reqs: seq<CommandRequest>, exec: CommandRequest -> Reply, res: CommandResult, rest: Trace)
    requires reqs != [] && exec(reqs[0]) == Answered(res) && TraceOf(reqs[1..], exec, rest)
    ensures TraceOf(reqs, exec, Trace([reqs[0]] + rest.sent, [res] + rest.results, rest.error))
  {
    var t := Trace([reqs[0]] + rest.sent, [res] + rest.results, rest.error);
    assert forall k :: 1 <= k < |reqs| ==> reqs[k] == reqs[1..][k - 1];
    assert t.sent == reqs[..|t.sent|];
    forall k | 0 <= k < |t.results| && k < |t.sent| ensures exec(t.sent[k]) == Answered(t.results[k]) {
      if k > 0 {
        assert t.sent[k] == rest.sent[k - 1] && t.results[k] == rest.results[k - 1];
      }
    }
  }

  // ------------------------------------------------------ init_repository

  function InitRequests(w: Wrapping, issueId: Id, repoUrl: string, branch: string): seq<CommandRequest> {
    var ws := WorkspacePath(issueId);
    [ OnNode(w, "mkdir", ["-p", ws], None),
      OnNode(w, "git", ["clone", repoUrl, "."], Some(ws)),
      OnNode(w, "git", ["checkout", "-b", branch], Some(ws)) ]
  }

  /** The node checks of init_repository: the message of the error it raises. */
  function InitGuard(nodes: seq<Node>, nodeId: Id): (e: Option<string>)
    ensures e.None? <==> FindNode(nodes, nodeId).Some? && FindNode(nodes, nodeId).value.status == Some(ONLINE)
  {
    match FindNode(nodes, nodeId)
    case None => Some("Node " + NatToString(nodeId) + " not found")
    case Some(n) =>
      if n.status != Some(ONLINE) then Some("Node " + NatToString(nodeId) + " is not online")
      else None
  }

  /** init_repository: refuses a missing or not-online node before sending
      anything; otherwise creates the workspace, clones into it and creates the
      branch, stopping at the first command that raises. */
  function InitRepository(w: Wrapping, nodes: seq<Node>, nodeId: Id, issueId: Id, repoUrl: string, branch: string,
                          exec: CommandRequest -> Reply): (t: Trace)
    ensures FindNode(nodes, nodeId).None? ==> t == Failure("Node " + NatToString(nodeId) + " not found")
    ensures FindNode(nodes, nodeId).Some? && FindNode(nodes, nodeId).value.status != Some(ONLINE)
      ==> t == Failure("Node " + NatToString(nodeId) + " is not online")
    ensures t.sent != [] ==> t.sent[0] == CommandRequest("mkdir", ["-p", WorkspacePath(issueId)])
    ensures t.error.None? <==>
      (InitGuard(nodes, nodeId).None?
       && forall k :: 0 <= k < 3 ==> exec(InitRequests(w, issueId, repoUrl, branch)[k]).Answered?)
  {
    match InitGuard(nodes, nodeId)
    case Some(e) => Failure(e)
    case None => RunSteps(InitRequests(w, issueId, repoUrl, branch), exec)
  }

  // --------------------------------------------------------- process_issue

  /** fix-issue-<issue_number>, or fix-issue-<id> when the number is missing or 0. */
  function BranchName(i: Issue): (b: string)
    ensures StartsWith(b, "fix-issue-") && |b| > |"fix-issue-"|
  {
    "fix-issue-" + (if TruthyInt(i.issueNumber) then IntToString(i.issueNumber.value) else NatToString(i.id))
  }

  function Prompt(i: Issue): string {
    "Fix Issue #" + IssueNumberText(i.issueNumber) + ": " + i.title
      + "\n\nDescription:\n" + (if Truthy(i.description) then i.description.value else "No description provided")
      + "\n\nPlease analyze the issue, implement the fix, and ensure all tests pass."
  }

  function CodingRequest(w: Wrapping, i: Issue): CommandRequest {
    OnNode(w, "qoder", ["--prompt", Prompt(i), "--auto-test"], Some(WorkspacePath(i.id)))
  }

  /** The row as committed before any command is sent. */
  function Claim(i: Issue, nodeId: Id, startedAt: Time): Issue {
    i.(status := PROCESSING, assignedNodeId := Some(nodeId), startedAt := Some(startedAt))
  }

  /** The commands process_issue runs: init (only when the issue has a
      repository URL) and then the coding command. */
  function ProcessTrace(w: Wrapping, i: Issue, nodes: seq<Node>, nodeId: Id, exec: CommandRequest -> Reply): (t: Trace)
    ensures !Truthy(i.repositoryUrl) ==> t == RunSteps([CodingRequest(w, i)], exec)
    ensures t.error.None? ==> t.sent != [] && t.sent[|t.sent| - 1] == CodingRequest(w, i)
  {
    if Truthy(i.repositoryUrl) then
      var init := InitRepository(w, nodes, nodeId, i.id, i.repositoryUrl.value, BranchName(i), exec);
      if init.error.Some? then init
      else
        var code := RunSteps([CodingRequest(w, i)], exec);
        LastOfAppend(init.sent, code.sent);
        Trace(init.sent + code.sent, init.results + code.results, code.error)
    else RunSteps([CodingRequest(w, i)], exec)
  }

  lemma LastOfAppend<T>(a: seq<T>, b: seq<T>)
    requires b != []
    ensures a + b != [] && (a + b)[|a + b| - 1] == b[|b| - 1]
  {
  }

  /** The final row: completed with the branch when every command answered,
      failed with the exception's message otherwise. */
  function Settle(claimed: Issue, t: Trace, branch: string, finishedAt: Time): Issue {
    if t.error.None? then claimed.(status := COMPLETED, completedAt := Some(finishedAt), resultBranch := Some(branch))
    else claimed.(status := FAILED, errorMessage := t.error)
  }

  datatype ProcessOutcome =
    | NotFound(message: string)
    | Processed(claimed: seq<Issue>, issues: seq<Issue>, trace: Trace)

  /** process_issue: the issue and node must exist (otherwise the error
      propagates and nothing changes); the issue is claimed for the node and
      committed, the commands run, and the row ends completed or failed. */
  function ProcessIssue(w: Wrapping, issues: seq<Issue>, nodes: seq<Node>, issueId: Id, nodeId: Id,
                        startedAt: Time, finishedAt: Time, exec: CommandRequest -> Reply): (r: ProcessOutcome)
    ensures FindIssue(issues, issueId).None? ==> r == NotFound("Issue " + NatToString(issueId) + " not found")
    ensures FindIssue(issues, issueId).Some? && FindNode(nodes, nodeId).None?
      ==> r == NotFound("Node " + NatToString(nodeId) + " not found")
    ensures r.Processed? <==> FindIssue(issues, issueId).Some? && FindNode(nodes, nodeId).Some?
    ensures r.Processed? ==>
      var i := FindIssue(issues, issueId).value;
      r.claimed == ReplaceIssue(issues, Claim(i, nodeId, startedAt))
      && r.issues == ReplaceIssue(issues, Settle(Claim(i, nodeId, startedAt), r.trace, BranchName(i), finishedAt))
      && r.trace == ProcessTrace(w, i, nodes, nodeId, exec)
  {
    match FindIssue(issues, issueId)
    case None => NotFound("Issue " + NatToString(issueId) + " not found")
    case Some(i) =>
      if FindNode(nodes, nodeId).None? then NotFound("Node " + NatToString(nodeId) + " not found")
      else
        var claimed := Claim(i, nodeId, startedAt);
        var t := ProcessTrace(w, i, nodes, nodeId, exec);
        Processed(ReplaceIssue(issues, claimed), ReplaceIssue(issues, Settle(claimed, t, BranchName(i), finishedAt)), t)
  }

  /** What a processed row looks like: it is never left in "processing"; it is
      assigned to the node with its start time; it is completed exactly when
      every command answered, and then carries the branch and finish time;
      otherwise it is failed with the exception's message. Its user-visible
      fields are untouched. */
  lemma ProcessedRow(w: Wrapping, issues: seq<Issue>, nodes: seq<Node>, issueId: Id, nodeId: Id,
                     startedAt: Time, finishedAt: Time, exec: CommandRequest -> Reply)
    requires FindIssue(issues, issueId).Some? && FindNode(nodes, nodeId).Some?
    ensures
      var i := FindIssue(issues, issueId).value;
      var r := ProcessIssue(w, issues, nodes, issueId, nodeId, startedAt, finishedAt, exec);
      FindIssue(r.issues, issueId).Some?
      && var f := FindIssue(r.issues, issueId).value;
      && f.id == i.id && f.ownerId == i.ownerId && f.title == i.title && f.description == i.description
      && f.repositoryUrl == i.repositoryUrl && f.issueNumber == i.issueNumber && f.priority == i.priority
      && f.createdAt == i.createdAt && f.updatedAt == i.updatedAt
      && f.assignedNodeId == Some(nodeId) && f.startedAt == Some(startedAt)
      && (f.status == COMPLETED || f.status == FAILED)
      && (f.status == COMPLETED <==> r.trace.error.None?)
      && (f.status == COMPLETED ==> f.resultBranch == Some(BranchName(i)) && f.completedAt == Some(finishedAt)
                                    && f.errorMessage == i.errorMessage)
      && (f.status == FAILED ==> f.errorMessage == r.trace.error && f.resultBranch == i.resultBranch
                                 && f.completedAt == i.completedAt)
  {
    var i := FindIssue(issues, issueId).value;
    var r := ProcessIssue(w, issues, nodes, issueId, nodeId, startedAt, finishedAt, exec);
    FindAfterReplaceIssue(issues, Settle(Claim(i, nodeId, startedAt), r.trace, BranchName(i), finishedAt));
  }

  /** Without a repository URL only the coding command is sent. */
  lemma ProcessWithoutRepository(w: Wrapping, i: Issue, nodes: seq<Node>, nodeId: Id, exec: CommandRequest -> Reply)
    requires !Truthy(i.repositoryUrl)
    ensures ProcessTrace(w, i, nodes, nodeId, exec).sent == [CodingRequest(w, i)]
  {
  }

  /** With a repository URL and a node that is missing or not online, nothing
      is sent and the row fails with the init error. */
  lemma ProcessNodeUnavailable(w: Wrapping, i: Issue, nodes: seq<Node>, nodeId: Id, exec: CommandRequest -> Reply)
    requires Truthy(i.repositoryUrl) && InitGuard(nodes, nodeId).Some?
    ensures ProcessTrace(w, i, nodes, nodeId, exec) == Failure(InitGuard(nodes, nodeId).value)
  {
  }

  /** With a repository URL and an online node the commands sent are a prefix
      of mkdir, clone, checkout, coding. */
  lemma ProcessSendsInitThenCoding(w: Wrapping, i: Issue, nodes: seq<Node>, nodeId: Id, exec: CommandRequest -> Reply)
    requires Truthy(i.repositoryUrl) && InitGuard(nodes, nodeId).None?
    ensures ProcessTrace(w, i, nodes, nodeId, exec).sent
      <= InitRequests(w, i.id, i.repositoryUrl.value, BranchName(i)) + [CodingRequest(w, i)]
  {
    var reqs := InitRequests(w, i.id, i.repositoryUrl.value, BranchName(i));
    var init := InitRepository(w, nodes, nodeId, i.id, i.repositoryUrl.value, BranchName(i), exec);
    var code := RunSteps([CodingRequest(w, i)], exec);
    assert init == RunSteps(reqs, exec);
    assert ProcessTrace(w, i, nodes, nodeId, exec).sent
      == if init.error.Some? then init.sent else init.sent + code.sent;
    ThenPrefix(init, code, reqs, CodingRequest(w, i));
  }

  /** Two runs one after the other, the second only when the first answered
      every request, send a prefix of both request lists. */
  lemma ThenPrefix(first: Trace, second: Trace, reqs: seq<CommandRequest>, last: CommandRequest)
    requires |first.sent| <= |reqs| && first.sent == reqs[..|first.sent|]
    requires first.error.None? ==> first.sent == reqs
    requires second.sent <= [last]
    ensures (if first.error.Some? then first.sent else first.sent + second.sent) <= reqs + [last]
  {
    if first.error.None? {
      assert (reqs + [last])[..|reqs + second.sent|] == reqs + second.sent;
    } else {
      assert (reqs + [last])[..|first.sent|] == reqs[..|first.sent|];
    }
  }

  // -------------------------------------------------------- commit_and_push

  /** commit_and_push: the issue must exist, have an assigned node, and that
      node must exist; then add, commit and push run in the workspace. The
      issue row is not changed. */
  function CommitAndPush(w: Wrapping, issues: seq<Issue>, nodes: seq<Node>, issueId: Id, message: Option<string>,
                         exec: CommandRequest -> Reply): (t: Trace)
    ensures FindIssue(issues, issueId).None? ==> t == Failure("Issue " + NatToString(issueId) + " not found")
    ensures FindIssue(issues, issueId).Some? && FindIssue(issues, issueId).value.assignedNodeId.None?
      ==> t == Failure("Issue " + NatToString(issueId) + " has no assigned node")
    ensures FindIssue(issues, issueId).Some? && FindIssue(issues, issueId).value.assignedNodeId.Some?
      ==> var i := FindIssue(issues, issueId).value;
          t == if FindNode(nodes, i.assignedNodeId.value).None?
               then Failure("Node " + NatToString(i.assignedNodeId.value) + " not found")
               else RunSteps(CommitRequests(w, i, message), exec)
  {
    match FindIssue(issues, issueId)
    case None => Failure("Issue " + NatToString(issueId) + " not found")
    case Some(i) =>
      if i.assignedNodeId.None? then Failure("Issue " + NatToString(issueId) + " has no assigned node")
      else if FindNode(nodes, i.assignedNodeId.value).None? then
        Failure("Node " + NatToString(i.assignedNodeId.value) + " not found")
      else RunSteps(CommitRequests(w, i, message), exec)
  }

  /** The branch pushed: the issue's result branch, or main when it has none. */
  function PushBranch(i: Issue): (b: string)
    ensures b != ""
    ensures Truthy(i.resultBranch) ==> b == i.resultBranch.value
  {
    if Truthy(i.resultBranch) then i.resultBranch.value else "main"
  }

  function CommitMessage(i: Issue, message: Option<string>): (m: string)
    ensures Truthy(message) ==> m == message.value
    ensures !Truthy(message) ==> m == DefaultCommitMessage(i)
  {
    if Truthy(message) then message.value else DefaultCommitMessage(i)
  }

  /** git add ., git commit -m <message>, git push origin <branch>, each in the workspace. */
  function CommitRequests(w: Wrapping, i: Issue, message: Option<string>): (reqs: seq<CommandRequest>)
    ensures |reqs| == 3
    ensures reqs[1] == OnNode(w, "git", CommitArgs(CommitMessage(i, message)), Some(WorkspacePath(i.id)))
    ensures reqs[2] == OnNode(w, "git", ["push", "origin", PushBranch(i)], Some(WorkspacePath(i.id)))
  {
    var ws := Some(WorkspacePath(i.id));
    [ OnNode(w, "git", ["add", "."], ws),
      OnNode(w, "git", CommitArgs(CommitMessage(i, message)), ws),
      OnNode(w, "git", ["push", "origin", PushBranch(i)], ws) ]
  }

  /** As written, the commit request splits the default message into several
      words (for a title without quoting characters), so git never receives
      it as the message. */
  lemma CommitRequestSplitsDefaultMessage(i: Issue)
    requires Shell.NoQuoting(i.title)
    ensures var req := CommitRequests(AsWritten, i, None)[1];
      Shell.ShellWords(req.args[1]) != ["cd", WorkspacePath(i.id), "&&", "git", "commit", "-m", DefaultCommitMessage(i)]
  {
    DefaultCommitMessageIsSplit(i);
    assert ["cd", WorkspacePath(i.id), "&&", "git"] + CommitArgs(DefaultCommitMessage(i))
      == ["cd", WorkspacePath(i.id), "&&", "git", "commit", "-m", DefaultCommitMessage(i)];
  }

  /** With the quoting wrapper, every commit message reaches git as one
      argument after `commit -m`. */
  lemma QuotedCommitKeepsMessage(i: Issue, message: Option<string>)
    ensures var req := CommitRequests(Quoted, i, message)[1];
      req.command == "bash"
      && Shell.ShellWords(req.args[1]) == ["cd", WorkspacePath(i.id), "&&", "git", "commit", "-m", CommitMessage(i, message)]
  {
    var ws := WorkspacePath(i.id);
    assert ws[0] == '/';
    assert ["cd", ws, "&&", "git"] + CommitArgs(CommitMessage(i, message))
      == ["cd", ws, "&&", "git", "commit", "-m", CommitMessage(i, message)];
  }

  // --------------------------------------------------- auto_process_workflow

  datatype AutoOutcome = AutoOutcome(process: ProcessOutcome, push: Option<Trace>)

  /** auto_process_workflow: process the issue, then commit and push with the
      default message only if the issue ended completed. */
  function AutoProcessWorkflow(w: Wrapping, issues: seq<Issue>, nodes: seq<Node>, issueId: Id, nodeId: Id,
                               startedAt: Time, finishedAt: Time, exec: CommandRequest -> Reply): (r: AutoOutcome)
    ensures r.process == ProcessIssue(w, issues, nodes, issueId, nodeId, startedAt, finishedAt, exec)
    ensures r.push.Some? <==>
      (r.process.Processed? && FindIssue(r.process.issues, issueId).Some?
       && FindIssue(r.process.issues, issueId).value.status == COMPLETED)
  {
    var p := ProcessIssue(w, issues, nodes, issueId, nodeId, startedAt, finishedAt, exec);
    if p.Processed? && FindIssue(p.issues, issueId).Some? && FindIssue(p.issues, issueId).value.status == COMPLETED
    then AutoOutcome(p, Some(CommitAndPush(w, p.issues, nodes, issueId, None, exec)))
    else AutoOutcome(p, None)
  }

  /** After a successful run the workflow pushes the branch that processing
      created, from the node that processed it, with the default message. */
  lemma AutoPushesProcessedBranch(w: Wrapping, issues: seq<Issue>, nodes: seq<Node>, issueId: Id, nodeId: Id,
                                  startedAt: Time, finishedAt: Time, exec: CommandRequest -> Reply)
    requires FindIssue(issues, issueId).Some? && FindNode(nodes, nodeId).Some?
    requires ProcessIssue(w, issues, nodes, issueId, nodeId, startedAt, finishedAt, exec).trace.error.None?
    ensures
      var i := FindIssue(issues, issueId).value;
      var r := AutoProcessWorkflow(w, issues, nodes, issueId, nodeId, startedAt, finishedAt, exec);
      r.push.Some? && r.push.value.sent <= CommitRequests(w, Settle(Claim(i, nodeId, startedAt),
        r.process.trace, BranchName(i), finishedAt), None)
      && CommitRequests(w, Settle(Claim(i, nodeId, startedAt), r.process.trace, BranchName(i), finishedAt), None)[2]
         == OnNode(w, "git", ["push", "origin", BranchName(i)], Some(WorkspacePath(issueId)))
  {
    var i := FindIssue(issues, issueId).value;
    ProcessedRow(w, issues, nodes, issueId, nodeId, startedAt, finishedAt, exec);
    var p := ProcessIssue(w, issues, nodes, issueId, nodeId, startedAt, finishedAt, exec);
    var f := Settle(Claim(i, nodeId, startedAt), p.trace, BranchName(i), finishedAt);
    FindAfterReplaceIssue(issues, f);
    assert FindIssue(p.issues, issueId) == Some(f);
    SettledPushesBranch(w, i, nodeId, startedAt, p.trace, finishedAt);
    assert CommitAndPush(w, p.issues, nodes, issueId, None, exec) == RunSteps(CommitRequests(w, f, None), exec);
  }

  /** A completed row pushes the branch it records, from its own workspace. */
  lemma SettledPushesBranch(w: Wrapping, i: Issue, nodeId: Id, startedAt: Time, t: Trace, finishedAt: Time)
    requires t.error.None?
    ensures var f := Settle(Claim(i, nodeId, startedAt), t, BranchName(i), finishedAt);
      f.id == i.id && f.assignedNodeId == Some(nodeId) && PushBranch(f) == BranchName(i)
      && CommitRequests(w, f, None)[2] == OnNode(w, "git", ["push", "origin", BranchName(i)], Some(WorkspacePath(i.id)))
  {
  }

  // ---------------------------------------------------- the node's answer

  /** The text of httpx's HTTPStatusError for the node's 500 answer. */
  function StatusErrorMessage(ip: string): string {
    "Server error '500 Internal Server Error' for url 'http://" + ip + ":8007/execute'\n"
      + "For more information check: https://developer.mozilla.org/en-US/docs/Web/HTTP/Status/500"
  }

  /** The first line of pydantic's error for a body without `command`,
      `args` and `duration_ms`. */
  const MISSING_FIELDS := "3 validation errors for CommandResult"

  /** The request the node's /execute receives. */
  function NodeRequest(req: CommandRequest): NodeService.ExecuteRequest {
    NodeService.ExecuteRequest(req.command, Some(req.args))
  }

  /** How execute_command_on_node reads the node's answer, as written: an
      error status raises, and a success body, which holds only exit_code,
      stdout and stderr, fails validation against the backend's
      CommandResult, which also requires command, args and duration_ms. No
      answer is ever accepted. */
  function ReadReply(ip: string, answer: Result<NodeService.CommandResult>): (r: Reply)
    ensures r.Raised?
    ensures answer.Err? ==> r.message == StatusErrorMessage(ip)
    ensures answer.Ok? ==> r.message == MISSING_FIELDS
  {
    if answer.Err? then Raised(StatusErrorMessage(ip)) else Raised(MISSING_FIELDS)
  }

  /** The reading evidently intended: a success body is accepted, with the
      command and arguments that were sent; the node reports no duration, so
      it is 0. An error status still raises. */
  function ReadReplyIntended(ip: string, req: CommandRequest, answer: Result<NodeService.CommandResult>): (r: Reply)
    ensures r.Answered? <==> answer.Ok?
    ensures answer.Ok? ==>
      r.result.command == req.command && r.result.args == req.args
      && r.result.exitCode == answer.value.exitCode
      && r.result.stdout == answer.value.stdout && r.result.stderr == answer.value.stderr
    ensures answer.Err? ==> r == ReadReply(ip, answer)
  {
    match answer
    case Err(_) => ReadReply(ip, answer)
    case Ok(res) => Answered(CommandResult(req.command, req.args, res.exitCode, res.stdout, res.stderr, 0))
  }

  /** The node at `ip` as the workflow reaches it, with the answer read as
      written or as intended; `run` is what its processes do. */
  function ExecOnNode(ip: string, run: NodeService.CommandSpec -> NodeService.ProcessOutcome): CommandRequest -> Reply {
    (req: CommandRequest) => ReadReply(ip, NodeService.Execute(NodeRequest(req), run))
  }

  function ExecOnNodeIntended(ip: string, run: NodeService.CommandSpec -> NodeService.ProcessOutcome)
    : CommandRequest -> Reply
  {
    (req: CommandRequest) => ReadReplyIntended(ip, req, NodeService.Execute(NodeRequest(req), run))
  }

  /** A run in which no request is answered ends with an error, whatever
      path it takes. */
  lemma NothingAnsweredFails(w: Wrapping, i: Issue, nodes: seq<Node>, nodeId: Id, exec: CommandRequest -> Reply)
    requires forall req :: exec(req).Raised?
    ensures ProcessTrace(w, i, nodes, nodeId, exec).error.Some?
  {
    if Truthy(i.repositoryUrl) {
      var init := InitRepository(w, nodes, nodeId, i.id, i.repositoryUrl.value, BranchName(i), exec);
      assert !exec(InitRequests(w, i.id, i.repositoryUrl.value, BranchName(i))[0]).Answered?;
      assert init.error.Some?;
    } else {
      assert !exec([CodingRequest(w, i)][0]).Answered?;
    }
  }

  /** A run in which every request is answered ends without error when the
      node passes init_repository's checks or there is nothing to clone. */
  lemma EverythingAnsweredCompletes(w: Wrapping, i: Issue, nodes: seq<Node>, nodeId: Id, exec: CommandRequest -> Reply)
    requires forall req :: exec(req).Answered?
    requires Truthy(i.repositoryUrl) ==> InitGuard(nodes, nodeId).None?
    ensures ProcessTrace(w, i, nodes, nodeId, exec).error.None?
  {
  }

  /** Read as intended, a node whose commands all exit with status 0 answers
      every request. */
  lemma IntendedAnswersAll(ip: string, run: NodeService.CommandSpec -> NodeService.ProcessOutcome)
    requires forall spec :: run(spec).Exited? && run(spec).code == 0
    ensures forall req :: ExecOnNodeIntended(ip, run)(req).Answered?
  {
    forall req ensures ExecOnNodeIntended(ip, run)(req).Answered? {
      var spec := NodeService.CommandSpec(NodeService.FullCommand(req.command, Some(req.args)), None);
      assert run(spec).Exited? && run(spec).code == 0;
    }
  }

  /** As written, the backend accepts no answer of the node, so processing
      on a node never completes: the issue always ends failed and
      auto_process_workflow never pushes. */
  lemma ProcessOnNodeAlwaysFails(w: Wrapping, issues: seq<Issue>, nodes: seq<Node>, issueId: Id, nodeId: Id,
                                 startedAt: Time, finishedAt: Time,
                                 run: NodeService.CommandSpec -> NodeService.ProcessOutcome)
    requires FindIssue(issues, issueId).Some? && FindNode(nodes, nodeId).Some?
    ensures var exec := ExecOnNode(FindNode(nodes, nodeId).value.ip, run);
      var r := AutoProcessWorkflow(w, issues, nodes, issueId, nodeId, startedAt, finishedAt, exec);
      r.process.Processed? && FindIssue(r.process.issues, issueId).Some?
      && FindIssue(r.process.issues, issueId).value.status == FAILED && r.push.None?
  {
    var exec := ExecOnNode(FindNode(nodes, nodeId).value.ip, run);
    NothingAnsweredFails(w, FindIssue(issues, issueId).value, nodes, nodeId, exec);
    ProcessedRow(w, issues, nodes, issueId, nodeId, startedAt, finishedAt, exec);
  }

  /** With the intended reading, a node on which every command exits with
      status 0 lets the run complete: the issue ends completed and its branch
      is pushed. */
  lemma ProcessOnNodeIntendedCompletes(w: Wrapping, issues: seq<Issue>, nodes: seq<Node>, issueId: Id, nodeId: Id,
                                       startedAt: Time, finishedAt: Time,
                                       run: NodeService.CommandSpec -> NodeService.ProcessOutcome)
    requires FindIssue(issues, issueId).Some? && FindNode(nodes, nodeId).Some?
    requires Truthy(FindIssue(issues, issueId).value.repositoryUrl) ==> InitGuard(nodes, nodeId).None?
    requires forall spec :: run(spec).Exited? && run(spec).code == 0
    ensures var exec := ExecOnNodeIntended(FindNode(nodes, nodeId).value.ip, run);
      var r := AutoProcessWorkflow(w, issues, nodes, issueId, nodeId, startedAt, finishedAt, exec);
      r.process.Processed? && FindIssue(r.process.issues, issueId).Some?
      && FindIssue(r.process.issues, issueId).value.status == COMPLETED && r.push.Some?
  {
    var exec := ExecOnNodeIntended(FindNode(nodes, nodeId).value.ip, run);
    IntendedAnswersAll(FindNode(nodes, nodeId).value.ip, run);
    EverythingAnsweredCompletes(w, FindIssue(issues, issueId).value, nodes, nodeId, exec);
    ProcessedRow(w, issues, nodes, issueId, nodeId, startedAt, finishedAt, exec);
  }
}
